=== FILE: README.md ===
# Verified models of the pure cores of CodeHariK/WebGpu

The repository is a collection of experiments: Godot and C++ voxel
terrain, a Blender voxel-tile library, a Three.js tile builder, 2D map
generators, and a web front-end plus Go server for Apple's `container`
tool. Below the scene, UI and server glue sit small sequential cores. This
project models them in Dafny and proves what their code promises:

- **Delaunator** (`minecraft/src/include/delaunator.hpp`): `fast_mod`,
  `pseudo_angle` and `hash_key`, the seed selection with its degeneracy
  checks, the half-edge bookkeeping of `link` and `add_triangle`, the
  index arithmetic and relinking of the edge flip in `legalize`, and the
  advancing hull's doubly linked list.
- **Indexed min-heaps** (`min_heap.hpp`, `PriorityQueue.hpp`, `queue.ts`):
  one functional core (a node array and an item-to-slot map) and the three
  front ends, which differ in what `updatePriority` does for an absent
  item.
- **QuadTree** (`quadtree/quadtree.h`, `quadtree/quadtree.hpp`): box
  predicates, insertion with subdivision, range queries, nearest-point
  search, size and clear.
- **Wave function collapse**: the 3D solver of `minecraft/src/minecraft/wfc.h`
  (cell indexing, compatibility keys, propagation, entropy scan, the
  IDLE/GENERATING/DONE/FAILED machine) and the 2D one of
  `2dwavefunction/src/main.ts` (weighted pick, neighbour narrowing,
  collapse).
- **Voxel tiles and hashes**: `GalaxyBuilder/src/tile.ts` (voxel mirror and
  rotation, the tile hash strings, face hashes, the tile-set tallies), the
  face hashes of `world_blender/voxel_hash.py` and `Celebi/src/voxel_hash.py`,
  32-bit FNV-1a, and the bit helpers of `GalaxyBuilder/src/function.ts`.
- **Meshes**: the face tables and face loops of `chunk_terrain.cpp` and
  `voxel_terrain.cpp`, the grids of `height_terrain.cpp` and
  `smooth_terrain.cpp`, and the `Chunk` block store of
  `godot-cpp-template/src/minecraft.h`.
- **Map generators**: the recursive-backtracker maze of `Map3.tsx` and the
  road tiles of `Map5.tsx` (edge nodes, the seeded generator, Fisher-Yates,
  pairing).
- **Library serialisers**: `world_blender_parse.hpp` and `celebi_parse.hpp`
  over a small JSON value type.
- **Container UI and server**: the two `container.ts` data layers, the pure
  helpers of `ContainerDetailsPage.tsx`, and the request logic of
  `cider/main.go`.

Floating-point values are modelled as `real`, JavaScript and C++ integers
as `int` with the wrap-around written out where the code relies on it,
strings as `seq<char>`. Randomness, clocks, the `container` tool, `fetch`,
and the file system are parameters of the functions that use them.

Each Dafny module follows one source component, and the files are named
after it. Shared pieces: `Wrappers` (`Option`, `Result`), `Text` (string
primitives of JavaScript and Go), `Int32` (two's-complement 32-bit
reading), `Json` (a JSON value), and `StableSort` (Python's `sorted` with a
two-part key).

Where a described behaviour and the code differ, the model follows the
code:

- `voxel_terrain.cpp` builds its heights with one stride and reads them
  with another, and the model reads them as written.
- The quadtree passes depth 0 into children, so the model's insertion
  carries fuel; a corrected insertion that passes the next depth sits
  beside it (see Findings).
- `logAction` in `cider/main.go` filters on substrings; the model's
  `runCli` goes through that filter, states what it does to `stop`
  commands, and a corrected word-by-word filter sits beside it (see
  Findings).
- `loadFiles` in `ContainerDetailsPage.tsx` rebuilds a file name from
  whitespace-split fields; the model's listing does the same, so runs of
  spaces collapse, and a corrected reading sits beside it (see Findings).
- The tile symmetries of `tile.ts` write each moved voxel without a bounds
  check. On a grid that is not as wide as deep, a quarter turn either
  throws or stores a voxel past the end of its row; the model keeps both
  outcomes, and `update` fails when a symmetry throws.

## Model

| member | source | states |
|---|---|---|
| BitFlags.SetBit | GalaxyBuilder/src/function.ts:19-21 | the result is a signed 32-bit number whose bit pattern is the input's pattern or-ed with the shifted one |
| BitFlags.IsBitSetIsBit | GalaxyBuilder/src/function.ts:15-17 | `isBitSet(n, p)` holds exactly when bit `p mod 32` of the 32-bit pattern of `n` is one |
| BitFlags.SetBitSets | GalaxyBuilder/src/function.ts:15-21 | after `setBit(n, p)` the bit `p` reads as set |
| BitFlags.SetBitKeepsOthers | GalaxyBuilder/src/function.ts:15-21 | `setBit(n, p)` leaves every bit at a position other than `p mod 32` as it was |
| BitFlags.SetBitIdempotent | GalaxyBuilder/src/function.ts:19-21 | setting a bit twice gives the same number as setting it once |
| Int32.ToUint32 | world_blender/voxel_hash.py:53-54 | masking to 32 bits gives a value in `[0, 2^32)` congruent to the input modulo `2^32` |
| Int32.ToInt32 | world_blender/voxel_hash.py:53-57 | the signed reading of the low 32 bits lies in `[-2^31, 2^31)` and is congruent to the input |
| Int32.FromBits | world_blender/voxel_hash.py:55-57 | reading a 32-bit pattern as signed gives back that pattern |
| Int32.ToInt32Canonical | world_blender/voxel_hash.py:53-57 | numbers already in the signed range come back unchanged |
| Int32.CongruentUnique | world_blender/voxel_hash.py:53-57 | two numbers in one window of width `2^32` that agree modulo `2^32` are equal, so the signed reading is unique |
| FaceHash.ToSigned32 | Celebi/src/voxel_hash.py:6-10 | `to_signed32` equals the two's-complement reading, lies in the signed 32-bit range and keeps the value modulo `2^32` |
| FaceHash.RollStep | world_blender/voxel_hash.py:390-392 | one step of the rolling hash stays in `[0, 2^64)` |
| FaceHash.Roll | world_blender/voxel_hash.py:358-392 | the final rolling hash lies in `[0, 2^64)` |
| FaceHash.RollIsPolyMod | world_blender/voxel_hash.py:390-392 | masking after every step equals masking the unmasked polynomial hash once at the end |
| FaceHash.LowXorHigh | world_blender/voxel_hash.py:395-397 | the xor of the low and the high word is a 32-bit value |
| FaceHash.Fold | world_blender/voxel_hash.py:395-397 | the final hash is signed 32-bit and congruent to the xor of the two words |
| FaceHash.FoldEqualWords | world_blender/voxel_hash.py:395-397 | a 64-bit hash whose two words are equal folds to 0 |
| FaceHash.RoundHalfEven | Celebi/src/voxel_hash.py:130-144 | Python's `round` lies within one half of its argument and picks the even neighbour on a tie |
| WorldBlenderHash.InitialTableValid | world_blender/voxel_hash.py:37-38 | the empty table with next id 1 satisfies the table invariant |
| WorldBlenderHash.GetCompactHash | world_blender/voxel_hash.py:41-50 | 0 maps to 0 and leaves the table alone; a known hash gets its id back; a new one gets the next id, which is then recorded; old entries stay; the invariant (positive, distinct ids below `next`) is kept |
| WorldBlenderHash.CompactHashInjective | world_blender/voxel_hash.py:41-50 | two different non-zero hashes looked up in turn get different ids, and looking one up again gives the same id |
| WorldBlenderHash.SortKey | world_blender/voxel_hash.py:60-88 | the key is `(y, z)` for the X axis, `(x, z)` for Y and `(x, y)` for Z |
| WorldBlenderHash.SortKeyIgnoresNormal | world_blender/voxel_hash.py:60-88 | two vertices that differ only along the face normal get the same key |
| WorldBlenderHash.BoundaryVerts | world_blender/voxel_hash.py:335-346 | the comprehension keeps exactly the vertices within `1e-4` of the face plane, each once with its index and its coordinates times `scale` rounded, in increasing index order; it is empty exactly when no vertex is on the plane |
| WorldBlenderHash.BoundaryFromOnPlane | world_blender/voxel_hash.py:337-344 | from index `i` on, every vertex collected has an index at least `i`, lies on the plane and carries its scaled coordinates |
| WorldBlenderHash.BoundaryFromIncreasing | world_blender/voxel_hash.py:337-344 | the vertices are collected in increasing index order |
| WorldBlenderHash.BoundaryFromComplete | world_blender/voxel_hash.py:337-344 | no vertex on the plane from index `i` on is missed |
| WorldBlenderHash.VertToMat | world_blender/voxel_hash.py:301-313 | every vertex of every polygon is mapped, nothing else is, and each mapped vertex goes to the material of the last polygon that holds it |
| WorldBlenderHash.LastOfMore | world_blender/voxel_hash.py:309-312 | if every vertex of the first polygons maps to its last holder's material, adding one more polygon keeps that true of all of them |
| WorldBlenderHash.AddPolygon | world_blender/voxel_hash.py:310-312 | one polygon's vertices map to its material, later polygons overriding earlier ones, and nothing else changes |
| WorldBlenderHash.VertexColor | world_blender/voxel_hash.py:360-379 | a vertex in no polygon, or with no usable material, contributes 0, and one with a material contributes that material's colour |
| WorldBlenderHash.Signatures | world_blender/voxel_hash.py:359-389 | each signature is the xor of the two in-plane coordinates with the vertex colour |
| WorldBlenderHash.PlaneHash | world_blender/voxel_hash.py:316-399 | a face no vertex touches hashes to 0 with the table unchanged, and the compact-id table stays valid |
| WorldBlenderHash.PlaneHashStable | world_blender/voxel_hash.py:316-399 | hashing the same face again against the table the first call left gives the same id and the same table |
| CelebiHash.MirrorLR | Celebi/src/voxel_hash.py:104 | the mirror factor is 1 exactly for direction "LR" and -1 otherwise |
| CelebiHash.SortKeyMirror | Celebi/src/voxel_hash.py:13-19 | flipping the mirror factor negates the primary key and keeps the secondary one |
| CelebiHash.Cmp | Celebi/src/voxel_hash.py:59-70 | the three-way comparison answers -1, 0 or 1 exactly for less, equal and greater |
| CelebiHash.FaceVertexCompare | Celebi/src/voxel_hash.py:22-70 | `face_vertex_compare` only answers -1, 0 or 1 |
| CelebiHash.CompareAntisymmetric | Celebi/src/voxel_hash.py:22-70 | swapping the two vertices negates the answer |
| CelebiHash.CompareZeroIffKeysEqual | Celebi/src/voxel_hash.py:56-70 | the answer is 0 exactly when the primary and the secondary keys are both equal |
| CelebiHash.CompareMirrorReverses | Celebi/src/voxel_hash.py:56-63 | with `mirrorLR = -1` the verdict is reversed whenever the primary keys differ |
| CelebiHash.BoundaryVerts | Celebi/src/voxel_hash.py:97-98 | the comprehension keeps exactly the mesh's vertices within `1e-6` of the face plane, each as often as the mesh lists it |
| CelebiHash.BoundaryOfOne | Celebi/src/voxel_hash.py:98 | one vertex is kept exactly when it lies on the plane |
| CelebiHash.BoundaryAppend | Celebi/src/voxel_hash.py:98 | collecting from two runs of vertices gives the first run's followed by the second's, so the kept vertices keep the mesh order the stable sort sees |
| CelebiHash.FirstMaterial | Celebi/src/voxel_hash.py:148-163 | a material is found exactly when some polygon has a vertex at that position, and it is the material of the first such polygon, where the loop breaks |
| CelebiHash.FirstMaterialExtend | Celebi/src/voxel_hash.py:148-153 | a vertex added at the end of the mesh, which no polygon refers to, does not change the material found for any position |
| CelebiHash.SignaturesExtend | Celebi/src/voxel_hash.py:126-177 | a vertex added at the end of the mesh, which no polygon refers to, does not change the signature of any vertex |
| CelebiHash.VertexColor | Celebi/src/voxel_hash.py:147-170 | a vertex no polygon touches, or whose first polygon's material slot is out of range or empty, contributes white; otherwise it contributes that slot's colour |
| CelebiHash.Signatures | Celebi/src/voxel_hash.py:126-177 | each signature is the xor of the two rounded in-plane coordinates with the vertex colour |
| CelebiHash.PlaneHash | Celebi/src/voxel_hash.py:73-185 | the hash is a signed 32-bit number, and 0 when no vertex lies on the face plane |
| CelebiHash.PlaneHashIgnoresOffPlane | Celebi/src/voxel_hash.py:73-185 | a vertex off the face plane added at the end of the mesh leaves the plane hash as it was |
| StableSort.Insert | world_blender/voxel_hash.py:349-352 | inserting adds exactly that element: the length grows by one and the multiset gains it |
| StableSort.InsertSorted | world_blender/voxel_hash.py:349-352 | inserting into a key-sorted list keeps it sorted |
| StableSort.Sort | world_blender/voxel_hash.py:349-352 | `sorted` returns a permutation of its input ordered by the key |
| Fnv1a.Shl | 2dwavefunction/src/main.ts:43 | JavaScript's `<<` on a number gives a signed 32-bit value congruent to the number times `2^k` |
| Fnv1a.Spec | 2dwavefunction/src/main.ts:38-48 | the textbook FNV-1a hash (xor the byte, multiply by the prime modulo `2^32`) is an unsigned 32-bit value |
| Fnv1a.StepIsSpecStep | 2dwavefunction/src/main.ts:42-43 | one round of the code (xor the byte, then add the five shifts) agrees modulo `2^32` with xor-then-multiply by the FNV prime `16777619` |
| Fnv1a.ShiftsTimesPrime | 2dwavefunction/src/main.ts:43 | `h + (h<<1) + (h<<4) + (h<<7) + (h<<8) + (h<<24)` is `h` times the FNV prime modulo `2^32`, although every shift wraps to 32 bits |
| Fnv1a.StepTracksSpec | 2dwavefunction/src/main.ts:41-44 | if the running hash matches the reference hash of a prefix, one more round matches the reference hash of the prefix with the next byte |
| Fnv1a.Fnv1aHash | 2dwavefunction/src/main.ts:38-48 | the hash is unsigned 32-bit, equals the reference FNV-1a hash of the bytes, and is the offset basis `0x811c9dc5` for no bytes |
| Chunk.NewChunk | godot-cpp-template/src/minecraft.h:52-55 | a new chunk holds `WIDTH*WIDTH*HEIGHT` blocks, all air, at the given position |
| Chunk.SlotDecodes | godot-cpp-template/src/minecraft.h:57-63 | the flat index `x + z*WIDTH + y*WIDTH*WIDTH` of an in-chunk cell is in range and gives back `x`, `z` and `y` by division and remainder |
| Chunk.SlotInjective | godot-cpp-template/src/minecraft.h:57-63 | two in-chunk cells share a flat index exactly when they are the same cell |
| Chunk.SlotOnto | godot-cpp-template/src/minecraft.h:57-63 | every flat index is the index of an in-chunk cell |
| Chunk.GetBlock | godot-cpp-template/src/minecraft.h:57-59 | `get_block` reads the block stored in the array slot whose base-16 digits are `x` and `z` and whose rest is `y`, the only slot that decodes to that cell |
| Chunk.SetBlock | godot-cpp-template/src/minecraft.h:61-63 | `set_block` keeps the chunk's size and position |
| Chunk.GetAfterSet | godot-cpp-template/src/minecraft.h:57-63 | after `set_block`, the written cell reads back the new type and every other cell reads what it read before |
| Chunk.NewChunkIsAir | godot-cpp-template/src/minecraft.h:52-59 | every cell of a new chunk reads as air |
| Chunk.Vector3iEqual | godot-cpp-template/src/minecraft.h:27-31 | the equality functor holds exactly when the two vectors are equal |
| Chunk.WorldToChunkCoords | godot-cpp-template/src/minecraft.h:86-91 | the chunk found for a position contains it: each coordinate lies in `[c*size, (c+1)*size)` |
| Chunk.ChunkCoordsUnique | godot-cpp-template/src/minecraft.h:86-91 | a chunk that contains the position is the one `world_to_chunk_coords` returns |
| Json.At | minecraft/src/include/world_blender_parse.hpp:37-47 | `j.at(key)` succeeds exactly when `j` is an object holding the key, and then gives that field |
| Json.GetUntyped | minecraft/src/include/world_blender_parse.hpp:11-16 | `get_untyped` returns the field when the key is present and null otherwise |
| Json.Cast | minecraft/src/include/world_blender_parse.hpp:40-47 | `get<int16_t>` or `get<int64_t>` of a number gives a value of that width congruent to it |
| Json.CastKeeps | minecraft/src/include/world_blender_parse.hpp:40-47 | a number that fits the width is read unchanged |
| Json.AsString | minecraft/src/include/world_blender_parse.hpp:38 | `get<std::string>` succeeds exactly on strings and gives their text |
| Json.AsInt | minecraft/src/include/world_blender_parse.hpp:40-47 | `get` of an integer type succeeds exactly on numbers and gives a value of the width congruent to them |
| Json.AsStrings | minecraft/src/include/world_blender_parse.hpp:66 | `get<std::vector<std::string>>` succeeds exactly on arrays of strings and gives their texts in order |
| Json.StringsRoundTrip | minecraft/src/include/world_blender_parse.hpp:66-72 | writing a list of strings and reading it back gives the list |
| LibraryJson.ReadInt | minecraft/src/include/world_blender_parse.hpp:40-47 | reading a hash field succeeds exactly when the object holds that key as a number, and gives its cast |
| LibraryJson.ItemFromJson | minecraft/src/include/world_blender_parse.hpp:37-48 | an item parses exactly when `obj` is a string and the six hash keys of the layout are numbers; each field is the cast of the key the layout maps it to |
| LibraryJson.ItemToJsonKeys | minecraft/src/include/world_blender_parse.hpp:50-62 | the written object has exactly the keys `obj` and the six hash keys, each holding its field |
| LibraryJson.ItemRoundTrip | minecraft/src/include/world_blender_parse.hpp:37-62 | for either layout, writing an item whose hashes fit the width and reading it back gives the item |
| LibraryJson.LayoutsDistinct | godot-cpp-template/c_example/celebi_parse.hpp:34-53 | both key layouts use seven different keys, so no field overwrites another |
| LibraryJson.WorldBlenderIsYUp | minecraft/src/include/world_blender_parse.hpp:43-47 | the World Blender reader accepts the same objects as the Celebi reader and swaps the Y and Z faces: `hashNy` reads `hash_NZ`, `hashPy` `hash_PZ`, `hashNz` `hash_PY`, `hashPz` `hash_NY` |
| LibraryJson.LayoutRoundTrips | godot-cpp-template/c_example/celebi_parse.hpp:34-53 | the `int16_t` World Blender layout and the `int64_t` Celebi layout each read back what they write |
| LibraryJson.ItemsFrom | minecraft/src/include/world_blender_parse.hpp:65 | a list of items parses exactly when every element does, and element by element |
| LibraryJson.DataFromJson | minecraft/src/include/world_blender_parse.hpp:64-67 | `Data` parses exactly when `items` is an array of well-formed items and `voxels` an array of strings |
| LibraryJson.DataToJson | minecraft/src/include/world_blender_parse.hpp:69-73 | the written object has exactly the keys `items` and `voxels` |
| LibraryJson.DataRoundTrip | godot-cpp-template/c_example/celebi_parse.hpp:55-64 | writing `Data` and reading it back gives the same items and voxels |
| CiderClient.ContainerFrom | apple_container_ui/cider-ui/src/lib/container.ts:84-93 | the mapped state is never empty; it is "running" exactly when the raw state is "running" or is empty with status "running"; the configuration id and image win over the flat fields; names fall back to the configuration id; the status is empty only when both spellings are |
| CiderClient.CapitalisedStatusReadsStopped | apple_container_ui/cider-ui/src/lib/container.ts:86-87 | a container reporting only `Status: "running"` is shown with status "running" and state "stopped", since the state fallback reads the lower-case field |
| CiderClient.StateFollowsStatus | apple_container_ui/cider-ui/src/lib/container.ts:86-87 | with no state and a lower-case status, the state is "running" exactly when the status is |
| CiderClient.ListContainers | apple_container_ui/cider-ui/src/lib/container.ts:79-98 | a failed request or non-OK answer gives no containers; otherwise one mapped entry per raw entry, in order |
| CiderClient.InspectContainer | apple_container_ui/cider-ui/src/lib/container.ts:100-119 | the result is present exactly when the request succeeded, and is the mapped container |
| CiderClient.CheckSystemStatus | apple_container_ui/cider-ui/src/lib/container.ts:121-128 | the system is up exactly when the status request got an OK answer |
| CiderClient.ImageFrom | apple_container_ui/cider-ui/src/lib/container.ts:136-142 | the tag defaults to "latest" and the size to "0B", the capitalised spelling winning when present |
| CiderClient.ListImages | apple_container_ui/cider-ui/src/lib/container.ts:130-145 | a failed or non-OK request gives no images; otherwise one mapped entry per raw entry |
| CiderClient.ListDnsDomains | apple_container_ui/cider-ui/src/lib/container.ts:304-314 | every domain is non-empty and trimmed, a failed request gives none, and there are at most as many as lines |
| CiderClient.BlankTextHasNoDomains | apple_container_ui/cider-ui/src/lib/container.ts:309 | an answer of blanks only yields no domains |
| CiderClient.ListDnsDomainsIsLineFilter | apple_container_ui/cider-ui/src/lib/container.ts:309-310 | the early return for blank text changes nothing: the domains are exactly the non-empty trimmed lines |
| CiderClient.DomainsRoundTrip | apple_container_ui/cider-ui/src/lib/container.ts:304-314 | a list of non-empty trimmed single-line domains, joined by newlines and read back, gives the list |
| CiderClient.GetContainerStats | apple_container_ui/cider-ui/src/lib/container.ts:147-155 | the stats are the answer's body when the request succeeded and empty otherwise |
| ContainerCli.RunCli | apple_container_ui/ui/src/lib/container.ts:41-66 | success returns the trimmed standard output and failure the error message; a command matching a polling phrase leaves the log alone, and any other adds exactly one entry at the end with that command and the failure flag |
| ContainerCli.ReplayLogsUnpolled | apple_container_ui/ui/src/lib/container.ts:52-63 | after any run of commands the log's commands are the old ones followed by the non-polling commands in the order they ran, whether they succeeded or failed |
| ContainerCli.CommandsAfterRun | apple_container_ui/ui/src/lib/container.ts:52-63 | one call adds its command to the logged commands exactly when it is not a polling command |
| ContainerCli.ClearActionLogs | apple_container_ui/ui/src/lib/container.ts:72-74 | clearing leaves the log empty |
| ContainerCli.StatusProbeNotLogged | apple_container_ui/ui/src/lib/container.ts:79-87 | the status probe `container ls` is a polling command, so it never enters the log |
| ContainerCli.ContainerListingNotLogged | apple_container_ui/ui/src/lib/container.ts:108 | the container listing command is a polling command |
| ContainerCli.ImageListingNotLogged | apple_container_ui/ui/src/lib/container.ts:441 | the image listing command is a polling command |
| ContainerCli.PollingAt | apple_container_ui/ui/src/lib/container.ts:53 | any command with one of the three phrases inside it is a polling command |
| ContainerCli.StateOf | apple_container_ui/ui/src/lib/container.ts:133-137 | the derived state is one of running, exited or unknown |
| ContainerCli.StateByOccurrence | apple_container_ui/ui/src/lib/container.ts:133-137 | the state is running exactly when the lower-cased status contains "up" or "running", and exited exactly when it contains neither but does contain "exited" or "stopped" |
| ContainerCli.StateIgnoresCase | apple_container_ui/ui/src/lib/container.ts:135 | lower-casing the status first does not change the state |
| ContainerCli.Normalize | apple_container_ui/ui/src/lib/container.ts:132-170 | the state is the one derived from the status; the status and id are empty only when all their spellings are; the image loses a leading `docker.io/library/` and is otherwise unchanged |
| ContainerCli.ListContainers | apple_container_ui/ui/src/lib/container.ts:106-178 | a successful listing normalises every container in order; a failure is passed on unless its message says the system is down, in which case the list is empty |
| ContainerCli.SplitReference | apple_container_ui/ui/src/lib/container.ts:456-463 | with a colon after the first character, repository, colon and tag put back together give the reference, with a non-empty repository and a colon-free tag; otherwise the whole reference is the repository and the tag is "latest" |
| ContainerCli.ReferenceRoundTrip | apple_container_ui/ui/src/lib/container.ts:456-463 | splitting `repo:tag` gives back `repo` and `tag` whenever the tag holds no colon, even if the repository does |
| ContainerCli.ImageFrom | apple_container_ui/ui/src/lib/container.ts:455-483 | the name is the full reference; the id is the digest without `sha256:`; tag and repository come from the split, the repository without `docker.io/library/`; the size is never empty |
| ContainerCli.LibraryImageShortName | apple_container_ui/ui/src/lib/container.ts:456-468 | an official image `docker.io/library/name:tag` is listed as repository `name` with tag `tag` |
| ContainerCli.ListImages | apple_container_ui/ui/src/lib/container.ts:439-491 | a successful listing maps every image in order; a failure is passed on unless the message says the system is down |
| ContainerCli.ApiServerDownAsymmetry | apple_container_ui/ui/src/lib/container.ts:485-489 | the message "apiserver is not running" empties the container list but is still raised by the image list, whose check omits that phrase |
| ContainerCli.RunArgs | apple_container_ui/ui/src/lib/container.ts:390-411 | the argument string starts with `-d ` and ends with the image and the optional command |
| ContainerCli.CreateCommand | apple_container_ui/ui/src/lib/container.ts:389-414 | the command run is `container run -d ...`, ending with the image and the optional command |
| ContainerCli.RunArgsCarryEveryFlag | apple_container_ui/ui/src/lib/container.ts:392-405 | every port, environment variable and volume of the configuration, and a non-empty memory limit, appear as their flags in the arguments |
| ContainerDetails.Segments | apple_container_ui/cider-ui/src/pages/ContainerDetailsPage.tsx:186 | splitting a path on `/` and dropping empty pieces gives only non-empty segments without `/` |
| ContainerDetails.NavigateTo | apple_container_ui/cider-ui/src/pages/ContainerDetailsPage.tsx:176-182 | the new path extends the old one and ends with `/` and the directory name, adding at most one separator |
| ContainerDetails.NavigateUp | apple_container_ui/cider-ui/src/pages/ContainerDetailsPage.tsx:184-189 | the root stays the root; otherwise the result is absolute and has the segments of the path without the last one |
| ContainerDetails.SegmentsOfPath | apple_container_ui/cider-ui/src/pages/ContainerDetailsPage.tsx:186-188 | splitting `/` plus segments joined by `/` gives the segments back |
| ContainerDetails.NavigateDown | apple_container_ui/cider-ui/src/pages/ContainerDetailsPage.tsx:176-182 | entering a directory from a normalised path appends it as one more segment, whether or not the path ends with `/` |
| ContainerDetails.NavigateRoundTrip | apple_container_ui/cider-ui/src/pages/ContainerDetailsPage.tsx:176-189 | going into a directory and then up returns to the normalised path |
| ContainerDetails.ParseLsLine | apple_container_ui/cider-ui/src/pages/ContainerDetailsPage.tsx:148-160 | a line with fewer than nine fields gives no entry; an entry takes its permissions and size from fields 0 and 4 and is never `.` or `..` |
| ContainerDetails.ParseWellFormedLine | apple_container_ui/cider-ui/src/pages/ContainerDetailsPage.tsx:148-160 | a listing line whose name consists of words separated by single spaces parses to exactly that name, with the directory flag from the permissions |
| ContainerDetails.SpacedNameCollapses | apple_container_ui/cider-ui/src/pages/ContainerDetailsPage.tsx:149-155 | as written, a name with two spaces in a row comes back with one, so the page shows a different name than the file's |
| ContainerDetails.ParseLsLineExact | apple_container_ui/cider-ui/src/pages/ContainerDetailsPage.tsx:148-160 | the corrected reading takes the name as the rest of the line after the eighth column, with the same guards |
| ContainerDetails.ExactNameRoundTrip | apple_container_ui/cider-ui/src/pages/ContainerDetailsPage.tsx:148-160 | with the corrected reading, any name starting with a non-space character comes back whole |
| ContainerDetails.ParseListing | apple_container_ui/cider-ui/src/pages/ContainerDetailsPage.tsx:146-160 | the listing skips the first (total) line, so it has fewer entries than the output has lines, and none of them is `.` or `..` |
| ContainerDetails.Entries | apple_container_ui/cider-ui/src/pages/ContainerDetailsPage.tsx:148-160 | at most one entry per line, none of them `.` or `..` |
| ContainerDetails.EntriesOfLine | apple_container_ui/cider-ui/src/pages/ContainerDetailsPage.tsx:148-160 | a single line gives exactly its own entry when it parses and nothing otherwise |
| ContainerDetails.EntriesAppend | apple_container_ui/cider-ui/src/pages/ContainerDetailsPage.tsx:146-160 | the entries of two runs of lines are those of the first followed by those of the second, so the listing is the lines' own entries in listing order |
| ContainerDetails.ParseListingExact | apple_container_ui/cider-ui/src/pages/ContainerDetailsPage.tsx:146-160 | the corrected listing skips the total line too, and no entry is `.` or `..` |
| ContainerDetails.SpacedNameListed | apple_container_ui/cider-ui/src/pages/ContainerDetailsPage.tsx:146-160 | as written, the listing shows a file named `a  b` (two spaces) as one entry named `a b` |
| ContainerDetails.BeforeTotal | apple_container_ui/cider-ui/src/pages/ContainerDetailsPage.tsx:163-166 | the sort comparison orders any two entries one way or the other |
| ContainerDetails.BeforeTrans | apple_container_ui/cider-ui/src/pages/ContainerDetailsPage.tsx:163-166 | the sort comparison is transitive |
| ContainerDetails.Insert | apple_container_ui/cider-ui/src/pages/ContainerDetailsPage.tsx:163-166 | inserting into an ordered list keeps it ordered and adds exactly that entry |
| ContainerDetails.SortEntries | apple_container_ui/cider-ui/src/pages/ContainerDetailsPage.tsx:163-166 | the sorted files are a permutation of the parsed ones, ordered directories first and then by name |
| ContainerDetails.DirectoriesFirst | apple_container_ui/cider-ui/src/pages/ContainerDetailsPage.tsx:163-166 | after sorting, everything before a directory is a directory |
| ContainerDetails.AppendLog | apple_container_ui/cider-ui/src/pages/ContainerDetailsPage.tsx:99-109 | the log shown is a suffix of old text plus the new line; it is all of it while that has at most 1000 lines, and exactly 1000 lines otherwise |
| ContainerDetails.KeepLastLines | apple_container_ui/cider-ui/src/pages/ContainerDetailsPage.tsx:103-105 | keeping the last `n` lines gives a suffix of the text with exactly `n` lines |
| ContainerDetails.LogStaysBounded | apple_container_ui/cider-ui/src/pages/ContainerDetailsPage.tsx:99-109 | a log with at most 1000 lines still has at most 1000 after a message |
| ContainerDetails.FetchLogs | apple_container_ui/cider-ui/src/pages/ContainerDetailsPage.tsx:123-134 | the text shown is never empty: non-empty logs or a non-empty error message are shown as they are, otherwise a placeholder |
| ContainerDetails.Without | apple_container_ui/cider-ui/src/pages/ContainerDetailsPage.tsx:202 | filtering keeps only tabs of the original list whose id differs |
| ContainerDetails.CloseTerminalTab | apple_container_ui/cider-ui/src/pages/ContainerDetailsPage.tsx:198-208 | the last tab is never closed; otherwise the tab goes and the active tab stays, or becomes the new last tab when the closed one was active; it fails exactly when that leaves no tab to activate |
| ContainerDetails.WithoutDropsAtMostOne | apple_container_ui/cider-ui/src/pages/ContainerDetailsPage.tsx:202 | with distinct ids, closing removes at most one tab |
| ContainerDetails.WithoutKeepsAll | apple_container_ui/cider-ui/src/pages/ContainerDetailsPage.tsx:202 | closing an id no tab has changes nothing |
| ContainerDetails.WithoutKeepsOthers | apple_container_ui/cider-ui/src/pages/ContainerDetailsPage.tsx:202 | every tab with another id survives the close |
| ContainerDetails.CloseKeepsTabsOk | apple_container_ui/cider-ui/src/pages/ContainerDetailsPage.tsx:198-208 | when tabs have distinct ids and the active one is among them, closing succeeds and keeps that so |
| ContainerDetails.AddTerminalTab | apple_container_ui/cider-ui/src/pages/ContainerDetailsPage.tsx:191-196 | adding keeps the old tabs in place, appends the new one and makes it active |
| ContainerDetails.AddKeepsTabsOk | apple_container_ui/cider-ui/src/pages/ContainerDetailsPage.tsx:191-196 | a tab with a fresh id keeps the ids distinct and the active tab among them |
| CiderServer.Last | apple_container_ui/cider/main.go:73-76 | keeping the last `n` entries gives the suffix of that length, or everything when there are fewer |
| CiderServer.Append | apple_container_ui/cider/main.go:72-76 | appending to a log of at most 100 entries gives the newest 100 of the old entries plus the new one, which is last |
| CiderServer.Record | apple_container_ui/cider/main.go:57-77 | a quiet success leaves the log alone; anything else puts the entry last after a suffix of the old log; a log of at most 100 entries stays so |
| CiderServer.ReplayKeepsNewest | apple_container_ui/cider/main.go:57-77 | after any sequence of actions the log is the newest 100 of the old entries followed by every admitted entry, in order |
| CiderServer.LogActionAsWritten | apple_container_ui/cider/main.go:57-77 | as written: a successful command containing "ls --all", "image list", "top" or "stats" anywhere is not logged, any other ends the log with its entry after the old log, of which at most the oldest entry is dropped |
| CiderServer.StopNeverLogged | apple_container_ui/cider/main.go:59-63 | as written, a successful `container stop <id>` is never logged, because "stop" contains "top" |
| CiderServer.LogAction | apple_container_ui/cider/main.go:57-77 | corrected: only a successful command whose arguments hold the word pair "ls --all" or "image list", or the word "top" or "stats", stays out of the log; anything else is the last entry, after a suffix of the old log, and the log stays within 100 |
| CiderServer.StopLogged | apple_container_ui/cider/main.go:57-77 | corrected: stopping any container whose id is not itself "top" or "stats" is logged, as the last entry |
| CiderServer.PollsStayQuiet | apple_container_ui/cider/main.go:126-190 | the three polling commands (containers, images, stats) are still quiet under the corrected filter |
| CiderServer.PollsNoisy | apple_container_ui/cider/main.go:59 | the same three commands match the as-written filter, so the correction changes nothing for them |
| CiderServer.LoggedOutput | apple_container_ui/cider/main.go:86-90 | a failed run is logged as text starting with "Error: " and ending with the tool's output, and a successful run as its output |
| CiderServer.RunCli | apple_container_ui/cider/main.go:81-93 | as written: a success whose command line `container <args>` contains one of the four polling substrings leaves the log alone; any other run ends the log with an entry for that command line, flagged as an error exactly when the run failed, with "Error: " in front of a failure, placed after the old log minus at most its oldest entry; the log stays within 100 entries |
| CiderServer.RunCliFixed | apple_container_ui/cider/main.go:81-93 | corrected: the same, except that the success left out of the log is the one whose arguments hold a polling word or word pair |
| CiderServer.Error | apple_container_ui/cider/main.go:137 | `http.Error` answers with the code and the message followed by one newline |
| CiderServer.RunReply | apple_container_ui/cider/main.go:215-219 | an action answers 200 with an empty body exactly when the run succeeded, and 500 otherwise |
| CiderServer.HandleListing | apple_container_ui/cider/main.go:126-142 | success answers 200 with the tool's output; a failure answers 200 with "[]" exactly when the output says the daemon is down, and 500 with a "CLI Error: " body otherwise; the log is the one `runCli` leaves |
| CiderServer.ListingsLeaveLog | apple_container_ui/cider/main.go:126-177 | polling either listing successfully leaves the action log unchanged |
| CiderServer.HandleStats | apple_container_ui/cider/main.go:179-190 | the stats endpoint always answers 200, with the output on success, which stays out of the log, and "[]" on failure, which is logged as an error |
| CiderServer.HandleContainerAction | apple_container_ui/cider/main.go:192-220 | a path of fewer than four segments is a 400 "invalid path", an action other than start or stop a 400 "invalid action", both leaving the log alone; otherwise the tool runs `action id` and the answer is 200 exactly when it succeeded |
| CiderServer.ActionPathSegments | apple_container_ui/cider/main.go:194 | `/api/containers/<id>/<action>` splits into `api`, `containers`, the id and the action whenever neither holds a slash |
| CiderServer.ActionRunsCommand | apple_container_ui/cider/main.go:192-213 | posting start or stop for a container id runs exactly `container <action> <id>` |
| CiderServer.StopActionNotLogged | apple_container_ui/cider/main.go:192-219 | as written, a successful stop posted to `/api/containers/<id>/stop` leaves the action log exactly as it was |
| CiderServer.HandleRemoveContainer | apple_container_ui/cider/main.go:222-235 | an empty id after `/api/containers/` is a 400 "missing container id" that leaves the log alone; otherwise the tool runs `rm --force <id>` and the answer is 200 exactly when it succeeded |
| CiderServer.Dispatch | apple_container_ui/cider/main.go:969-978 | a path of exactly four segments goes to the action handler, any other DELETE to removal, and everything else is not found |
| CiderServer.DispatchedPathsAreValid | apple_container_ui/cider/main.go:969-978 | a request the dispatcher sends to the action handler never gets "invalid path" |
| CiderServer.HandleActionLogs | apple_container_ui/cider/main.go:325-338 | GET lists the log unchanged, DELETE empties it, any other verb does nothing |
| CiderServer.ClearThenList | apple_container_ui/cider/main.go:325-338 | listing after clearing gives no entries, and the first logged command after a clear is the only one |
| CiderServer.WalkFinds | apple_container_ui/cider/main.go:882-902 | the walk reports exactly the paths that lead to a file named `Dockerfile`, `Containerfile` or `*.Dockerfile` without entering `node_modules` or a directory whose name starts with a dot |
| CiderServer.BaseDir | apple_container_ui/cider/main.go:864-874 | an absolute base directory is used as given, an empty one becomes the working directory, and the result is absolute whenever the working directory is |
| CiderServer.FindDockerfiles | apple_container_ui/cider/main.go:863-906 | one result per file the walk reports, in walk order, each with the full path and the path relative to the base |
| CiderServer.FindDockerfilesExact | apple_container_ui/cider/main.go:863-906 | every reachable Dockerfile is in the answer and everything in the answer is a reachable Dockerfile |
| CiderServer.SkippedDirHidesAll | apple_container_ui/cider/main.go:886-889 | nothing below a skipped directory is reported |
| Delaunator.FastMod | minecraft/src/include/delaunator.hpp:147-149 | the shortcut (no division when `i < c`) always equals `i mod c` |
| Delaunator.PseudoAngle | minecraft/src/include/delaunator.hpp:292-296 | for any non-zero direction the pseudo-angle lies in `[0, 1)` |
| Delaunator.HashKey | minecraft/src/include/delaunator.hpp:710-716 | the hash bucket of any point other than the centre is a valid bucket index |
| Delaunator.Dist2 | minecraft/src/include/delaunator.hpp:165-173 | the squared distance is never negative and is zero exactly for equal points |
| Delaunator.Circumradius | minecraft/src/include/delaunator.hpp:175-191 | the radius is missing (the code's `max` sentinel) exactly when the third point repeats one of the first two or all three lie on a line |
| Delaunator.Scan | minecraft/src/include/delaunator.hpp:331-377 | the minimum search finds an index whose key is below or equal to every other present key and below the starting best, and finds nothing exactly when no key is present |
| Delaunator.Bounds | minecraft/src/include/delaunator.hpp:310-319 | the bounding box contains every point |
| Delaunator.BoundsAttained | minecraft/src/include/delaunator.hpp:310-319 | each of the four sides of the box passes through some point, so it is the smallest box holding them |
| Delaunator.SeedI0 | minecraft/src/include/delaunator.hpp:330-339 | the first seed is a point nearest to the bounding-box centre |
| Delaunator.SelectSeed | minecraft/src/include/delaunator.hpp:300-388 | seed selection fails with "fewer than three points", "all duplicates" or "all collinear" exactly in those cases, and otherwise returns three points whose orientation is non-zero and which the tolerant `counterclockwise` test (the one that calls a nearly flat triangle not counter-clockwise) does not call counter-clockwise |
| Delaunator.SeedThird | minecraft/src/include/delaunator.hpp:364-388 | the third seed is missing exactly when every point lies on the line through the first two |
| Delaunator.Clockwise | minecraft/src/include/delaunator.hpp:387-388 | the swap keeps the first seed and the other two as a set, and leaves the triangle not counter-clockwise |
| Delaunator.NoI1AllSame | minecraft/src/include/delaunator.hpp:343-360 | when no point is at a positive distance from the first seed, all points are the same |
| Delaunator.NoI2OnALine | minecraft/src/include/delaunator.hpp:364-383 | when no point has a finite circumradius with the first two seeds, all points lie on one line |
| Delaunator.Link | minecraft/src/include/delaunator.hpp:745-768 | `link` keeps the triangles; an `a` beyond the end only marks the mesh invalid; when both indices fit (`a` at most the length, `b` at most the length after `a`'s push) the array grows by exactly the pushes, `a` and `b` point at each other and no other entry changes; an index that does not fit marks the mesh invalid |
| Delaunator.LinkKeepsBounded | minecraft/src/include/delaunator.hpp:745-768 | linking two existing half-edges keeps every entry in range and the mesh's length and validity |
| Delaunator.AddTriangle | minecraft/src/include/delaunator.hpp:718-743 | the triangle's three corners are appended, and the result is the new triangle's first half-edge, or invalid when a link failed |
| Delaunator.AddTriangleShape | minecraft/src/include/delaunator.hpp:718-743 | on a consistent mesh, adding a triangle that links to existing half-edges succeeds and links the three new half-edges to them |
| Delaunator.AddTriangleKeepsLinks | minecraft/src/include/delaunator.hpp:718-743 | adding a triangle whose neighbours are distinct open half-edges keeps the mesh well linked: every half-edge's twin points back, in another triangle |
| Delaunator.NextCorner | minecraft/src/include/delaunator.hpp:649 | `a0 + (a + 1) % 3` is another corner of the same triangle |
| Delaunator.PrevCorner | minecraft/src/include/delaunator.hpp:634-635 | `a0 + (a + 2) % 3` is another corner of the same triangle |
| Delaunator.CornersOfTriangle | minecraft/src/include/delaunator.hpp:634-650 | the next and previous corners differ, three steps forward return to the start, and the two steps undo each other |
| Delaunator.Flip | minecraft/src/include/delaunator.hpp:648-688 | the flip keeps the mesh's sizes and validity, moves only points already in the triangles, keeps every half-edge in range and returns a half-edge of the mesh |
| Delaunator.ReadyToFlip | minecraft/src/include/delaunator.hpp:648-650 | on a well-linked mesh where the two triangles share one side, the twin and the two outer half-edges have the shape the flip needs |
| Delaunator.FlipKeepsLinks | minecraft/src/include/delaunator.hpp:667-688 | flipping an interior edge of a well-linked mesh, whose two triangles share only that side, keeps the mesh well linked |
| Delaunator.Legalize | minecraft/src/include/delaunator.hpp:610-708 | legalisation, when it ends within the fuel, keeps point indices in range, the number of triangles and the validity, and returns a half-edge of the mesh |
| Delaunator.LegalizeStops | minecraft/src/include/delaunator.hpp:634-646 | with an empty stack, legalising a hull edge or a legal edge changes nothing and returns the edge's previous corner |
| Delaunator.LegalizeStep | minecraft/src/include/delaunator.hpp:610-708 | one iteration of the `while (true)` loop either returns, with the previous corner and the mesh unchanged, or hands over to the next iteration with in-range indices |
| Delaunator.LegalizeKeepsLinks | minecraft/src/include/delaunator.hpp:610-708 | on a well-linked mesh, when every flip the run makes is between triangles sharing only the flipped side, the mesh legalisation returns is well linked |
| Delaunator.FlipNeedsOneSharedSide | minecraft/src/include/delaunator.hpp:648-688 | the side condition is needed: two well-linked triangles joined along two sides are no longer well linked after the flip |
| Delaunator.SeedHull | minecraft/src/include/delaunator.hpp:424-432 | the first hull is the three seeds as a doubly linked cycle, with hull triangles 0, 1 and 2 |
| Delaunator.SeedsDistinct | minecraft/src/include/delaunator.hpp:345-388 | the three selected seeds are three different points of the input |
| Delaunator.Splice | minecraft/src/include/delaunator.hpp:571-575 | relinking the hull keeps both link arrays' sizes |
| Delaunator.SpliceKeepsCycle | minecraft/src/include/delaunator.hpp:533-575 | putting a new point after the hull start and dropping the hull points passed over leaves a doubly linked cycle: start, new point, then the rest of the hull |
| Delaunator.SpliceDistinct | minecraft/src/include/delaunator.hpp:533-575 | the new hull holds no point twice |
| IndexedHeap.RootIsMin | minecraft/src/include/min_heap.hpp:83-87 | in a heap-ordered array the root's priority is at most that of every element |
| IndexedHeap.SwapSeq | minecraft/src/include/min_heap.hpp:17-18 | swapping exchanges the two slots, leaves every other slot alone and keeps the multiset of nodes |
| IndexedHeap.Swap | minecraft/src/include/min_heap.hpp:17-21 | after a swap both moved items are indexed at their new slots, and an index consistent with the array stays so |
| IndexedHeap.HeapifyUp | minecraft/src/include/min_heap.hpp:23-31 | sifting up permutes the nodes, restores heap order when only the start slot was out of place upwards, and keeps the index consistent |
| IndexedHeap.Smallest | minecraft/src/include/min_heap.hpp:36-43 | the chosen slot is the node or one of its children and has the least priority among them, and differs from the node only when strictly smaller |
| IndexedHeap.HeapifyDown | minecraft/src/include/min_heap.hpp:33-50 | sifting down permutes the nodes, restores heap order when only the start slot was out of place downwards, and keeps the index consistent |
| IndexedHeap.Insert | minecraft/src/include/min_heap.hpp:56-60 | insertion adds exactly the new node, keeps heap order, and for an item not yet present indexes it at the slot that holds it |
| IndexedHeap.ExtractMin | minecraft/src/include/min_heap.hpp:63-80 | an empty heap yields nothing and is unchanged; otherwise the result is the root item, whose priority is the least, the root node is removed and nothing else, heap order is kept, and the item leaves the index |
| IndexedHeap.Peek | minecraft/src/include/min_heap.hpp:83-87 | peeking yields nothing exactly on an empty heap, and otherwise an item of least priority |
| IndexedHeap.SetPriority | minecraft/src/include/min_heap.hpp:95-110 | updating replaces that one node's priority, keeps heap order and the index consistent, and the item is indexed at its new slot |
| IndexedHeap.SetPriorityFacts | minecraft/src/include/min_heap.hpp:100-108 | lowering a priority leaves only that slot out of place upwards, raising it only downwards, and an unchanged priority leaves the heap ordered |
| MinHeapApi.UpdatePriority | minecraft/src/include/min_heap.hpp:95-110 | the C++ `MinHeap` answers false for an absent item and changes nothing; otherwise it answers true, with the properties of the update |
| PriorityQueueCpp.UpdatePriority | godot-cpp-template/c_example/PriorityQueue.hpp:96-109 | the C++ `PriorityQueue` fails with "Item not found in priority queue" exactly for an absent item; otherwise heap order and the index are kept |
| PriorityQueueTs.UpdatePriority | 2dwavefunction/src/queue.ts:48-62 | the TypeScript queue fails with the same message exactly for an absent item; otherwise heap order and the index are kept |
| QuadTree.ContainsCorners | quadtree/quadtree.h:37-40 | a box of non-negative size contains its four corners: `contains` is inclusive on every side |
| QuadTree.IntersectsSymmetric | quadtree/quadtree.h:45-49 | two boxes intersect one way exactly when they intersect the other way |
| QuadTree.CommonPointIntersects | quadtree/quadtree.h:37-49 | two boxes that contain a common point intersect |
| QuadTree.NewTree | quadtree/quadtree.hpp:5-10 | a new tree is one empty leaf with the given bounds |
| QuadTree.Size | quadtree/quadtree.hpp:242-268 | the size is the number of points stored anywhere in the tree |
| QuadTree.Clear | quadtree/quadtree.hpp:236-240 | clearing keeps the bounds and limits and leaves no point, so the tree is empty with size 0 |
| QuadTree.EmptyIffNoPoints | quadtree/quadtree.hpp:270-274 | the tree is empty exactly when it stores no point |
| QuadTree.Quadrant | quadtree/quadtree.hpp:45-58 | each quadrant has half the width and half the height |
| QuadTree.ChildIndex | quadtree/quadtree.hpp:73-81 | bit 1 of the child index is set exactly when `x` is at or right of the middle, and bit 2 exactly when `y` is at or below it |
| QuadTree.ChildIndexContains | quadtree/quadtree.hpp:45-83 | a point inside a node lies inside the quadrant whose index it is sent to |
| QuadTree.PointsInBounds | quadtree/quadtree.hpp:12-84 | in a well-formed tree every stored point lies inside the bounds of the node holding it |
| QuadTree.InsertRec | quadtree/quadtree.hpp:23-42 | an insertion that finishes keeps the node's bounds, adds exactly the new point, and keeps a well-formed node well formed when the point is inside it |
| QuadTree.InsertIntoChildren | quadtree/quadtree.hpp:70-84 | sending a point to a child keeps the children's bounds and adds exactly that point |
| QuadTree.Subdivide | quadtree/quadtree.hpp:44-68 | subdividing a leaf gives an inner node whose children are the four quadrants, with the same points |
| QuadTree.Insert | quadtree/quadtree.hpp:12-21 | a point outside the bounds is ignored; an insertion that finishes adds exactly the point, grows the size by one and keeps the tree well formed |
| QuadTree.InsertBelowCapacityFinishes | quadtree/quadtree.hpp:26-31 | a leaf root below capacity takes the point directly |
| QuadTree.ZeroCapacityNeverFinishes | quadtree/quadtree.hpp:23-84 | with `maxPoints` 0 and a positive `maxDepth`, insertion never finishes, because children restart at depth 0 |
| QuadTree.SecondCopyNeverFinishes | quadtree/quadtree.hpp:23-84 | with `maxPoints` 1 and a positive `maxDepth`, a leaf holding `p` never finishes taking `p` again, for any fuel |
| QuadTree.SameTwiceNeverFinishes | quadtree/quadtree.hpp:12-84 | on a fresh tree with `maxPoints` 1 and a positive `maxDepth`, inserting a point succeeds and inserting it again never finishes |
| QuadTree.InsertRecFixed | quadtree/quadtree.hpp:23-84 | with children entered one level deeper, insertion always finishes, keeps the bounds, adds exactly the point, keeps a well-formed node well formed, and never splits past the levels left |
| QuadTree.InsertFixed | quadtree/quadtree.hpp:12-84 | with children entered one level deeper, a point outside the bounds is ignored, any other is added exactly once, and the tree stays well formed and at most `maxDepth` split levels deep |
| QuadTree.SameTwiceFixed | quadtree/quadtree.hpp:12-84 | with children entered one level deeper, the same point inserted twice with `maxPoints` 1 gives a well-formed tree holding both copies within `maxDepth` levels |
| QuadTree.QueryNode | quadtree/quadtree.hpp:94-123 | the range query returns the stored points inside the range, no others |
| QuadTree.Filter | quadtree/quadtree.hpp:104-110 | the points kept are exactly the leaf's points inside the range, each stored copy once: as multisets, the result is the in-range part of the leaf |
| QuadTree.QueryRange | quadtree/quadtree.hpp:86-92 | every point returned is stored and inside the range |
| QuadTree.SelectsHead | quadtree/quadtree.hpp:104-110 | scanning one more point keeps it exactly when the range contains it, and the multiset selection still holds |
| QuadTree.SelectsAppend | quadtree/quadtree.hpp:112-121 | the results of two subtrees placed one after the other select from the union of their points |
| QuadTree.QuerySelects | quadtree/quadtree.hpp:94-123 | in a well-formed tree the query returns every stored copy of an in-range point exactly once and nothing else: as multisets, the result is the in-range part of the stored points, duplicates included |
| QuadTree.QueryComplete | quadtree/quadtree.hpp:94-123 | in a well-formed tree every stored point inside the range is returned: skipping non-intersecting nodes loses nothing |
| QuadTree.DistToBounds2 | quadtree/quadtree.hpp:197-203 | the squared distance to a box is never negative |
| QuadTree.FindNearestRec | quadtree/quadtree.hpp:132-187 | when the search reports a find, the new best point is stored in the node; otherwise the best is unchanged |
| QuadTree.FindNearest | quadtree/quadtree.hpp:125-130 | a point found is stored in the tree |
| QuadTree.FindNearestEmptyIff | quadtree/quadtree.hpp:125-187 | the search finds nothing exactly when the tree is empty |
| QuadTree.BoundsBelowPoint | quadtree/quadtree.hpp:189-203 | the distance to a box never exceeds the distance to any point inside it |
| QuadTree.ScanNearest | quadtree/quadtree.hpp:140-150 | the scan over a node's points never raises the best distance and ends no farther than any point scanned |
| QuadTree.ConsistentRec | quadtree/quadtree.hpp:132-187 | the search only ever records a point together with that point's own distance to the query |
| QuadTree.PrunedChild | quadtree/quadtree.hpp:174-181 | a child skipped because its bounds are no closer than the best distance holds no closer point |
| QuadTree.VisitBeatsAll | quadtree/quadtree.hpp:171-184 | the loop over the other children ends no farther than any point in the children it covers, whether it searched or skipped them |
| QuadTree.NearestRecBeatsAll | quadtree/quadtree.hpp:132-187 | on a well-formed node the search never raises the best distance and ends no farther than any point stored below the node |
| QuadTree.FindNearestIsNearest | quadtree/quadtree.hpp:125-187 | on a well-formed tree holding `p`, `findNearest` reports a point at least as close to the query as `p`: the pruning loses no nearer point |
| Wfc3d.IndexInRange | minecraft/src/minecraft/wfc.h:162-177 | the flat index of a position inside the grid lies in `[0, x*y*z)` |
| Wfc3d.PosOfIndex | minecraft/src/minecraft/wfc.h:162-171 | `get_cell_pos` inverts `get_cell_index` on in-bounds positions |
| Wfc3d.IndexOfPos | minecraft/src/minecraft/wfc.h:162-177 | for every index of the grid, `get_cell_pos` gives an in-bounds position whose index is that index again; C++ truncating `/` and `%` are modelled explicitly |
| Wfc3d.Opposite | minecraft/src/minecraft/wfc.h:38-44 | `OPPOSITE_DIR_IDX` maps each direction to a different direction whose vector is its negation |
| Wfc3d.OppositeInvolution | minecraft/src/minecraft/wfc.h:44 | the opposite of the opposite direction is the direction itself |
| Wfc3d.ToInt16 | minecraft/src/minecraft/wfc.h:54 | storing a hash in an `int16_t` slot gives a value in `[-2^15, 2^15)` congruent to it modulo 2^16 |
| Wfc3d.TileOf | minecraft/src/minecraft/wfc.h:425-430 | the six face hashes of a prototype are the library item's hashes wrapped to 16 bits, in the order +X, -X, +Y, -Y, +Z, -Z |
| Wfc3d.KeyRoundTrip | minecraft/src/minecraft/wfc.h:450 | `key >> 3` and `key & 7` recover the hash and the direction a key was built from, also for negative hashes |
| Wfc3d.KeyDecomposes | minecraft/src/minecraft/wfc.h:641-642 | every key is rebuilt from its decoded hash and direction, and the direction is below 8 |
| Wfc3d.HasFaceOfKey | minecraft/src/minecraft/wfc.h:446-456 | a tile shows the key it files under for a face, and that is the only key with that direction it shows |
| Wfc3d.Matches | minecraft/src/minecraft/wfc.h:446-456 | the ids filed under a key are exactly the tiles showing that key, in increasing order |
| Wfc3d.BuildCompat | minecraft/src/minecraft/wfc.h:446-456 | the compatibility map built by the double loop holds, under every key, exactly the tiles showing that key, in id order, and no key no tile shows |
| Wfc3d.Initialize | minecraft/src/minecraft/wfc.h:65-72 | a fresh cell is uncollapsed and may still be any of the `n` tiles, listed in order |
| Wfc3d.AllowedMeansSupported | minecraft/src/minecraft/wfc.h:236-252 | a tile is in the set of valid neighbour ids for a direction exactly when some possibility of the current cell shows, on that face, the hash the tile shows on the opposite face |
| Wfc3d.Keep | minecraft/src/minecraft/wfc.h:254-263 | filtering keeps exactly the possibilities that are allowed, and it reports no change exactly when every possibility was allowed |
| Wfc3d.Neighbours | minecraft/src/minecraft/wfc.h:221-274 | one pass over the six neighbours only removes possibilities, pushes in-grid positions only, pays for each push with a removed possibility, and fails exactly when it empties a cell |
| Wfc3d.Propagate | minecraft/src/minecraft/wfc.h:206-277 | propagation terminates, only removes possibilities, returns false only after emptying some cell, and true only when no cell was emptied |
| Wfc3d.ScanFinds | minecraft/src/minecraft/wfc.h:179-196 | the scan collects some cell exactly when some uncollapsed cell has between 1 and `n + 1` possibilities |
| Wfc3d.FindLowestEntropyCell | minecraft/src/minecraft/wfc.h:179-204 | the result is -1 exactly when no cell can be chosen; otherwise it is an uncollapsed cell with the fewest possibilities, never an empty one |
| Wfc3d.Reset | minecraft/src/minecraft/wfc.h:460-482 | for any grid size without negative components (a zero one included), with tiles the grid gets `x*y*z` fresh cells that may be any tile, the count is zeroed and the state is idle; without tiles nothing changes; the size, tiles and compatibility map stay |
| Wfc3d.Generate | minecraft/src/minecraft/wfc.h:708-724 | generation fails exactly when there are no tiles; otherwise it starts generating from a fresh grid with no cell collapsed |
| Wfc3d.CollapseAt | minecraft/src/minecraft/wfc.h:681-704 | collapsing a chosen cell fixes it to one of its possibilities, counts it, and ends in failed exactly when propagation emptied a cell that still had possibilities, in generating otherwise |
| Wfc3d.CollapseEmptied | minecraft/src/minecraft/wfc.h:700-704 | the contradiction propagation reports is a cell emptied relative to the grid before the collapse, since the collapsed cell itself keeps its tile |
| Wfc3d.Step | minecraft/src/minecraft/wfc.h:661-704 | a step does nothing unless generating; it finishes when every cell is counted, fails when no cell can be chosen, and otherwise collapses exactly one more cell, keeping the count equal to the number of collapsed cells, and fails after that collapse exactly when a cell with possibilities lost all of them |
| Wfc3d.RunStopped | minecraft/src/minecraft/wfc.h:661-664 | once stopped, further steps change nothing |
| Wfc3d.RunTerminates | minecraft/src/minecraft/wfc.h:716-720 | the `while (generation_state == GENERATING)` loop ends, done or failed, within one more step than there are cells left |
| Wfc3d.EmptyGridDone | minecraft/src/minecraft/wfc.h:475-482 | a grid size with a zero component gives no cells: generation starts, and the first step finds every cell counted and finishes |
| Wfc2d.PrefixMonotone | 2dwavefunction/src/main.ts:58-60 | the running sum of occurrences never decreases along the list |
| Wfc2d.Scan | 2dwavefunction/src/main.ts:58-65 | the loop stops at the first tile whose running sum exceeds the target, and finds none exactly when the total does not exceed it |
| Wfc2d.Scale | 2dwavefunction/src/main.ts:56 | `Math.random() * total` lies in `[0, total)`, and is 0 for a total of 0 |
| Wfc2d.MostLikelyNone | 2dwavefunction/src/main.ts:54-66 | the weighted pick returns null exactly when the occurrences add up to 0, in particular for an empty list |
| Wfc2d.ScanBracket | 2dwavefunction/src/main.ts:58-65 | the tile picked has a positive occurrence and its running-sum interval contains the target |
| Wfc2d.MostLikelyBracket | 2dwavefunction/src/main.ts:54-66 | the tile picked is the one whose interval `[sum before, sum after)` contains `u * total`, so each tile is picked with probability proportional to its occurrence |
| Wfc2d.SetCell | 2dwavefunction/src/main.ts:589-591 | writing one cell keeps the board's shape and changes no other cell |
| Wfc2d.Neighbour | 2dwavefunction/src/main.ts:514-578 | the bound checks of the four neighbour blocks only ever select a cell of the board |
| Wfc2d.Narrow | 2dwavefunction/src/main.ts:518-528 | a collapsed neighbour is untouched; an uncollapsed one with no candidates takes the allowed set, otherwise keeps exactly its allowed candidates, and its entropy is recomputed from the new set |
| Wfc2d.NarrowShrinks | 2dwavefunction/src/main.ts:523-525 | narrowing a cell that had candidates never adds a candidate and keeps only allowed ones |
| Wfc2d.Candidates | 2dwavefunction/src/main.ts:504 | the candidate tiles are exactly the sample tiles whose hash is in the cell's set |
| Wfc2d.NarrowAt | 2dwavefunction/src/main.ts:514-578 | narrowing in one direction keeps the board's shape |
| Wfc2d.NarrowAtCell | 2dwavefunction/src/main.ts:514-578 | narrowing in one direction changes only the neighbour in that direction, if there is one |
| Wfc2d.NeighboursDistinct | 2dwavefunction/src/main.ts:514-578 | two directions never select the same neighbour, and no direction selects the cell itself, so the four blocks touch four different cells |
| Wfc2d.CollapseTile | 2dwavefunction/src/main.ts:498-595 | collapsing keeps the board's shape |
| Wfc2d.CollapseEffect | 2dwavefunction/src/main.ts:498-595 | collapse succeeds exactly when the cell had no tile and a tile was picked; on failure the board is unchanged; on success the cell holds the picked tile with entropy -1 and no candidates, each existing neighbour is narrowed by the picked tile's neighbour set for its direction, and every other cell is unchanged |
| Wfc2d.NoCandidates | 2dwavefunction/src/main.ts:505-512 | without the random fallback, a cell with no candidate tile fails and leaves the board unchanged |
| GalaxyTile.MirrorXInvolution | GalaxyBuilder/src/tile.ts:572-576 | mirroring a voxel in x twice gives it back; the mirror keeps `y`, `z` and the colour and maps the grid onto itself |
| GalaxyTile.MirrorZInvolution | GalaxyBuilder/src/tile.ts:578-582 | mirroring a voxel in z twice gives it back; the mirror keeps `x`, `y` and the colour and maps the grid onto itself |
| GalaxyTile.RotateYFourTimes | GalaxyBuilder/src/tile.ts:584-589 | four quarter turns give a voxel back; a turn keeps `y` and the colour, and maps the grid onto itself when it is square in x and z |
| GalaxyTile.MoveUnmove | GalaxyBuilder/src/tile.ts:572-589 | each symmetry's position map has an inverse, and applying a symmetry to a voxel moves it by that map and keeps its colour |
| GalaxyTile.MoveInGrid | GalaxyBuilder/src/tile.ts:340-399 | for a symmetry the grid admits, a position is in the grid exactly when its image is |
| GalaxyTile.Positions | GalaxyBuilder/src/tile.ts:343-345 | the triple loop over `x`, `y`, `z` visits exactly the positions of the grid |
| GalaxyTile.ScatterThrows | GalaxyBuilder/src/tile.ts:343-351 | the loop over a list of slots throws exactly when one of its voxels, transformed, has no layer or row to be stored in |
| GalaxyTile.TransformThrows | GalaxyBuilder/src/tile.ts:340-399 | a transform throws exactly when some voxel's image lies outside the grid in `x` or `y` |
| GalaxyTile.TransformSlot | GalaxyBuilder/src/tile.ts:340-399 | whenever the transform does not throw, the new tile holds a voxel at `q` exactly when the original held one at the preimage of `q`, and that voxel is the original's, moved, even when `q` lies past the end of a row |
| GalaxyTile.TransformAt | GalaxyBuilder/src/tile.ts:340-399 | for a symmetry the grid admits, the transform does not throw, and the new tile holds a voxel at `q` exactly when `q` is in the grid and the original held one at the preimage of `q`; that voxel is the original's, moved |
| GalaxyTile.TransformPlaced | GalaxyBuilder/src/tile.ts:340-399 | for a symmetry the grid admits, the transformed tile again keeps every voxel at its own position inside the grid |
| GalaxyTile.MirrorTwice | GalaxyBuilder/src/tile.ts:340-378 | mirroring a whole tile twice in x, or twice in z, gives the tile back |
| GalaxyTile.RotateFourTimes | GalaxyBuilder/src/tile.ts:382-399 | four quarter turns of a tile with a square x-z footprint give the tile back |
| GalaxyTile.RotateWideGrows | GalaxyBuilder/src/tile.ts:382-399 | on a grid wider than deep, a quarter turn of a voxel near the low `x` side succeeds but stores it past the end of its row, outside the grid |
| GalaxyTile.RotateDeepThrows | GalaxyBuilder/src/tile.ts:382-399 | a quarter turn of a voxel whose `z` is at least the grid's width throws |
| GalaxyHash.CalculateHash | GalaxyBuilder/src/tile.ts:404-419 | the hash is computed exactly when every voxel in the grid has a known colour; otherwise the colour lookup throws |
| GalaxyHash.HashLength | GalaxyBuilder/src/tile.ts:404-419 | with three-character colour keys the hash has `X * (Y * (4Z + 1) + 1)` characters |
| GalaxyHash.HashLayout | GalaxyBuilder/src/tile.ts:404-419 | the four characters at a voxel's offset spell its colour key and a dot, or `___.`; each column ends with `*` and each x slab with `+` |
| GalaxyHash.CellTextIdentifies | GalaxyBuilder/src/tile.ts:411 | with distinct three-character colour keys, one slot's text tells whether the slot is filled and with which colour |
| GalaxyHash.HashIdentifies | GalaxyBuilder/src/tile.ts:404-419 | with distinct three-character colour keys, two placed tiles with the same hash are the same tile, so the hash is a faithful key for `UniqueTiles` |
| GalaxyHash.TransformSingle | GalaxyBuilder/src/tile.ts:340-399 | for a symmetry the grid admits, transforming a tile with one voxel in the grid does not throw and gives the tile holding just that voxel, moved |
| GalaxyHash.FixtureHashOrigin | GalaxyBuilder/src/serialization_test.ts:47 | a 2x2x2 tile with one red voxel at the origin hashes to the stored fixture string |
| GalaxyHash.FixtureHashMirrorX | GalaxyBuilder/src/serialization_test.ts:81 | its x mirror hashes to the stored `mirrorX` string |
| GalaxyHash.FixtureHashMirrorZ | GalaxyBuilder/src/serialization_test.ts:121 | its z mirror, which is also its quarter turn, hashes to the stored `mirrorZ` and `rotateY` string |
| GalaxyHash.FixtureHashRotateYTwice | GalaxyBuilder/src/serialization_test.ts:201 | its half turn hashes to the stored `rotateYrotateY` string |
| GalaxyHash.FixtureMirrorX | GalaxyBuilder/src/serialization_test.ts:52-81 | mirroring the fixture in x moves the voxel to `x = 1` |
| GalaxyHash.FixtureMirrorZ | GalaxyBuilder/src/serialization_test.ts:92-121 | mirroring the fixture in z moves the voxel to `z = 1` |
| GalaxyHash.FixtureRotateY | GalaxyBuilder/src/serialization_test.ts:132-161 | a quarter turn of the fixture moves the voxel to `z = 1` |
| GalaxyHash.FixtureRotateYTwice | GalaxyBuilder/src/serialization_test.ts:172-201 | a half turn moves it to `x = 1, z = 1` |
| GalaxyHash.FaceFrame | GalaxyBuilder/src/tile.ts:421-470 | a face hash reads only its own face: tiles that agree on that face have the same face hash |
| GalaxyHash.MirrorSwapsFaces | GalaxyBuilder/src/tile.ts:340-378 | mirroring in x swaps the left and right face hashes, and mirroring in z swaps the back and front ones |
| GalaxyHash.NoneFilled | GalaxyBuilder/src/tile.ts:326-338 | the scan reports empty exactly when none of the visited slots holds a voxel |
| GalaxyHash.IsEmptyMeans | GalaxyBuilder/src/tile.ts:326-338 | a tile is empty exactly when no index the nested `forEach` loops visit holds a voxel (every index of an existing layer and row, a voxel stored past the end of a row included), and a placed tile is empty exactly when it has no voxel at all |
| GalaxyHash.WideTurnNotEmpty | GalaxyBuilder/src/tile.ts:326-338 | a one-voxel tile turned a quarter on a grid wider than it is deep can leave every grid slot free and still not be empty, because the loops see the voxel stored past its row's end |
| GalaxyTileSet.IndexOf | GalaxyBuilder/src/tile.ts:21 | a key present in the map has a first position, where the entry carries that key |
| GalaxyTileSet.Put | GalaxyBuilder/src/tile.ts:240 | after `set` the key is present and every entry is the new one or an old one |
| GalaxyTileSet.PutSemantics | GalaxyBuilder/src/tile.ts:240 | `Map.set` keeps keys distinct, adds a position only for a new key, stores the new value under the key, leaves the other entries in place, and adds exactly that key |
| GalaxyTileSet.Variants | GalaxyBuilder/src/tile.ts:237-282 | when none of its symmetries throws, `updateOne` contributes six tiles, the first being the tile itself |
| GalaxyTileSet.VariantsSquare | GalaxyBuilder/src/tile.ts:237-282 | on a grid as wide as deep, no symmetry of a placed tile throws and all six variants are placed in the grid |
| GalaxyTileSet.VariantsDeepThrow | GalaxyBuilder/src/tile.ts:242-248 | a tile with a voxel whose `z` is at least the grid's width makes the first quarter turn, and so `updateOne`, throw |
| GalaxyTileSet.AllVariants | GalaxyBuilder/src/tile.ts:292-296 | when no tile's symmetries throw, the update visits six variants per tile |
| GalaxyTileSet.AllVariantsSucceed | GalaxyBuilder/src/tile.ts:292-296 | the visit completes exactly when no tile's symmetries throw |
| GalaxyTileSet.AllVariantsAt | GalaxyBuilder/src/tile.ts:292-296 | the six variants of tile `i` sit at positions `6i` to `6i + 5`, in `updateOne`'s order |
| GalaxyTileSet.PutWellKeyed | GalaxyBuilder/src/tile.ts:239-240 | storing a tile under its own hash keeps every entry under its own tile's hash |
| GalaxyTileSet.InsertSucceeds | GalaxyBuilder/src/tile.ts:237-282 | storing a list of already-built variants completes exactly when every one of them can be hashed |
| GalaxyTileSet.InsertKeeps | GalaxyBuilder/src/tile.ts:237-282 | inserting keeps keys distinct and entries well keyed, and loses no key |
| GalaxyTileSet.InsertKeys | GalaxyBuilder/src/tile.ts:237-282 | after inserting, every inserted variant's hash is a key, and every entry is an old one or one of the variants |
| GalaxyTileSet.BumpAt | GalaxyBuilder/src/tile.ts:299-302 | one block of the tally adds one to exactly the count under its face hash and tile hash, creating it if needed |
| GalaxyTileSet.TallyCounts | GalaxyBuilder/src/tile.ts:298-323 | after the tally, each count is the earlier count plus the number of unique tiles with that face hash and tile hash |
| GalaxyTileSet.OccurrencesOnce | GalaxyBuilder/src/tile.ts:298-323 | in a map with distinct, well-keyed entries each face-hash and tile-hash pair occurs at most once |
| GalaxyTileSet.UpdateUnique | GalaxyBuilder/src/tile.ts:284-296 | after `update`, the unique tiles have distinct hashes, each under its own hash, every variant of every tile is among them, and nothing else is |
| GalaxyTileSet.UpdateCounts | GalaxyBuilder/src/tile.ts:284-323 | after `update`, every count in the four face maps is 1, present exactly for the unique tiles showing that face hash |
| GalaxyTileSet.UpdateSucceeds | GalaxyBuilder/src/tile.ts:284-296 | `update` completes exactly when no symmetry of any tile throws and every variant can be hashed |
| GridMesh.AtBound | minecraft/src/minecraft/height_terrain.cpp:29-32 | every grid position's vertex index lies below `width * depth` |
| GridMesh.RowVertices | minecraft/src/minecraft/height_terrain.cpp:20-23 | one row of the inner loop yields one vertex per column, at the column's `x`, the row's `z` and the column's height |
| GridMesh.Vertices | minecraft/src/minecraft/height_terrain.cpp:19-24 | the vertex loops yield `width * depth` vertices |
| GridMesh.VertexAt | minecraft/src/minecraft/height_terrain.cpp:19-24 | the vertex at index `x + z * width` is the one at grid column `x`, row `z`, lifted to its height |
| GridMesh.RowQuads | minecraft/src/minecraft/height_terrain.cpp:28-41 | one row of quads yields two triangles per quad |
| GridMesh.Triangles | minecraft/src/minecraft/height_terrain.cpp:27-42 | the index loops yield two triangles per quad of every row |
| GridMesh.TrianglesShape | minecraft/src/minecraft/height_terrain.cpp:27-42 | every triangle emitted is one of the two triangles of some quad of the grid |
| GridMesh.QuadTriangleBound | minecraft/src/minecraft/height_terrain.cpp:29-32 | every corner of a quad triangle names an existing vertex |
| GridMesh.Flatten | minecraft/src/minecraft/height_terrain.cpp:34-40 | pushing the triangles yields three indices per triangle |
| GridMesh.FlattenAt | minecraft/src/minecraft/height_terrain.cpp:34-40 | index `3t`, `3t + 1`, `3t + 2` of the buffer are the corners of triangle `t`, in order |
| GridMesh.FlattenFrom | minecraft/src/minecraft/height_terrain.cpp:34-40 | every index in the buffer is a corner of some triangle |
| GridMesh.GridWellFormed | minecraft/src/minecraft/height_terrain.cpp:19-48 | the grid mesh has one up normal per vertex and an index buffer naming only existing vertices |
| GridMesh.GridCounts | minecraft/src/minecraft/height_terrain.cpp:19-42 | the grid mesh has `width * depth` vertices and six indices per quad |
| GridMesh.HeightTerrainShape | minecraft/src/minecraft/height_terrain.cpp:14-48 | `generate_terrain` yields `lenX * lenZ` vertices and a well-formed mesh, with `6 (lenX - 1)(lenZ - 1)` indices, and none when a side is empty |
| GridMesh.SmoothTerrainShape | minecraft/src/minecraft/smooth_terrain.cpp:15-52 | `generate_smooth_part_mesh` yields a `(partSize + 1)` square of vertices and a well-formed mesh with six indices per cell |
| GridMesh.QuadCorners | minecraft/src/minecraft/height_terrain.cpp:29-40 | the first triangle of a quad joins its corners `(x, z)`, `(x + 1, z)`, `(x, z + 1)`, and the second joins `(x + 1, z)`, `(x + 1, z + 1)`, `(x, z + 1)` |
| VoxelMesh.DirectionToFaceIndex | minecraft/src/minecraft/chunk_terrain.cpp:57-71 | the result is a face index or -1 |
| VoxelMesh.FaceIndexInverts | minecraft/src/minecraft/chunk_terrain.cpp:57-71 | a face is found exactly for the six axis directions; the face found has that direction as normal, and every face's normal leads back to it |
| VoxelMesh.FaceTableGeometry | minecraft/src/minecraft/chunk_terrain.cpp:30-55 | every entry of the face table is four distinct unit-cube corners on the side its normal points to, listed round the square, with texture coordinates inside its own atlas cell |
| VoxelMesh.PutFace | minecraft/src/minecraft/chunk_terrain.cpp:78-100 | a found face adds four vertices, normals and texture coordinates, six indices, and four to `index_offset` |
| VoxelMesh.AddFace | minecraft/src/minecraft/chunk_terrain.cpp:74-102 | an unknown direction leaves the mesh unchanged; a known one grows it by one face |
| VoxelMesh.AddFaceAppends | minecraft/src/minecraft/chunk_terrain.cpp:74-102 | adding a face keeps everything already in the mesh and appends the table face moved to the block, the normal `dir` four times, and indices naming only the four new vertices |
| VoxelMesh.AddFaceOnSide | minecraft/src/minecraft/chunk_terrain.cpp:74-102 | the face appended lies on the side of the block that `dir` points to, and goes round the square |
| VoxelMesh.AddFaceKeeps | minecraft/src/minecraft/chunk_terrain.cpp:74-102 | adding a face keeps the mesh well formed: `index_offset` counts the vertices, there is one normal and one texture coordinate per vertex, and every index names a vertex |
| VoxelMesh.AddFacesAppend | minecraft/src/minecraft/chunk_terrain.cpp:74-102 | adding one list of faces and then another gives the mesh of adding their concatenation, so the mesh of a loop is the mesh of its faces in loop order |
| VoxelMesh.AddFacesWellFormed | minecraft/src/minecraft/chunk_terrain.cpp:74-102 | adding any list of faces to a well-formed mesh keeps it well formed |
| VoxelMesh.AddFacesCount | minecraft/src/minecraft/chunk_terrain.cpp:74-102 | faces whose directions are all axis directions add exactly four vertices each |
| VoxelMesh.ClimbOrder | minecraft/src/minecraft/chunk_terrain.cpp:134-137 | the `k`-th face of a climb sits at height `lo + k` in the column with the given direction, so the climb lists the heights `lo .. hi` upwards |
| VoxelMesh.AddClimb | minecraft/src/minecraft/chunk_terrain.cpp:134-137 | the `y` loop adds exactly the climb's faces, in order, and adds nothing when `hi < lo` |
| VoxelMesh.SideStepsExposed | minecraft/src/minecraft/chunk_terrain.cpp:127-139 | every side face of a column is in that column, faces one of the four sides, and sits strictly above that neighbour's height and at most at the column's height |
| VoxelMesh.ColumnCount | minecraft/src/minecraft/chunk_terrain.cpp:113-139 | a column's face list adds four vertices per face the column counts |
| VoxelMesh.RowMesh | minecraft/src/minecraft/chunk_terrain.cpp:112-140 | a row's face list keeps a well-formed mesh well formed and adds four vertices per face the row counts |
| VoxelMesh.AddRows | minecraft/src/minecraft/chunk_terrain.cpp:111-141 | the `x` loop adds exactly the rows' face lists in order, four vertices per face |
| VoxelMesh.CellInside | minecraft/src/minecraft/chunk_terrain.cpp:113 | every column of the square reads inside the height buffer |
| VoxelMesh.AddColumn | minecraft/src/minecraft/chunk_terrain.cpp:113-139 | one column adds exactly the faces `ColumnSteps` lists, in that order: the top face at `(x, h, z)`, then for each of the four sides in table order one face per block from the neighbour's height plus one up to `h` (none when the neighbour is as high); the vertex count grows by four per face and a well-formed mesh stays well formed |
| VoxelMesh.AddRow | minecraft/src/minecraft/chunk_terrain.cpp:112-140 | a row adds exactly the face lists of its columns for `z = 0 .. size-1`, in that order, four vertices per face, keeping the mesh well formed |
| VoxelMesh.BuildColumns | minecraft/src/minecraft/chunk_terrain.cpp:111-141 | the two column loops produce the mesh that adding the rows' face lists for `x = 0 .. size-1`, in order, to the empty mesh gives; it is well formed with four vertices per face |
| VoxelMesh.BuildChunkMesh | minecraft/src/minecraft/chunk_terrain.cpp:104-142 | `build_chunk_mesh` builds exactly the mesh of the face list of the whole square, well formed with four vertices per exposed face |
| VoxelMesh.VoxelPartMesh | minecraft/src/minecraft/voxel_terrain.cpp:103-147 | `generate_voxel_part_mesh` builds exactly the mesh of the square's face list, well formed, read with the row stride `part_size` it indexes with, not the `part_size + 2` of the buffer it requests |
| VoxelMesh.FlatColumn | minecraft/src/minecraft/chunk_terrain.cpp:127-139 | on a flat square of height `c`, a column has its top face and `c` side faces per side that leaves the square |
| VoxelMesh.FlatSquareFaces | minecraft/src/minecraft/chunk_terrain.cpp:111-141 | a flat square of height `c >= 0` and side `size` has `size^2` top faces and `4 * size * c` side faces, all on the border |
| Maze.CellBound | 2d_map/src/maps/Map3.tsx:70-73 | a position inside the grid has an index inside `logicGrid` |
| Maze.PlaceUnique | 2d_map/src/maps/Map3.tsx:72 | two in-grid positions with the same index are the same position |
| Maze.GetBaseCell | 2d_map/src/maps/Map3.tsx:70-73 | a cell is found exactly for positions inside the grid, and its index is in range |
| Maze.TowardPlace | 2d_map/src/maps/Map3.tsx:55-58 | the neighbour behind wall `d` is one step away in that direction, is another cell, and has the cell itself behind its opposite wall |
| Maze.TowardDistinct | 2d_map/src/maps/Map3.tsx:55-58 | different walls of a cell lead to different neighbours |
| Maze.Unvisited | 2d_map/src/maps/Map3.tsx:60-63 | one neighbour test contributes exactly when the neighbour exists and is unvisited |
| Maze.CheckNeighbors | 2d_map/src/maps/Map3.tsx:53-67 | the candidates are unvisited neighbours, and there are none exactly when every wall leads outside or to a visited cell |
| Maze.RemoveWallsShared | 2d_map/src/maps/Map3.tsx:75-82 | for neighbouring cells, `removeWalls` opens exactly the wall of each that faces the other |
| Maze.PickIndex | 2d_map/src/maps/Map3.tsx:65 | the random pick names one of the candidates |
| Maze.BackEarlier | 2d_map/src/maps/Map3.tsx:55-58 | every cell but the first has a neighbour with a smaller index |
| Maze.Reached | 2d_map/src/maps/Map3.tsx:92-109 | when the first cell is visited and no visited cell has an unvisited neighbour, every cell is visited |
| Maze.BacktrackerNeverStuck | 2d_map/src/maps/Map3.tsx:98-109 | under the loop invariant, an iteration with no candidate and an empty stack only happens when every cell is visited, so the loop never spins |
| Maze.CarvedCells | 2d_map/src/maps/Map3.tsx:100-105 | the carving branch marks exactly the chosen neighbour visited, opens exactly the two facing walls, and keeps every position |
| Maze.CarvedBorder | 2d_map/src/maps/Map3.tsx:100-105 | carving keeps the cells in place and never opens a wall on the rim of the grid |
| Maze.CarvedVisits | 2d_map/src/maps/Map3.tsx:100-105 | carving visits exactly one more cell, so `unvisitedCount` stays the number of unvisited cells |
| Maze.OpenShrinks | 2d_map/src/maps/Map3.tsx:60-63 | visiting more cells never creates a new candidate |
| Maze.CarveKeeps | 2d_map/src/maps/Map3.tsx:99-105 | a carving iteration keeps the loop invariant and lowers `unvisitedCount` |
| Maze.PopKeeps | 2d_map/src/maps/Map3.tsx:106-108 | a backtracking iteration keeps the invariant and the count, and shortens the stack |
| Maze.StepProgress | 2d_map/src/maps/Map3.tsx:98-109 | every iteration while cells remain unvisited keeps the invariant and lowers the count or, keeping it, the stack height |
| Maze.InitialGrid | 2d_map/src/maps/Map3.tsx:86-90 | the nested loop fills `logicGrid` row by row with fresh, fully walled, unvisited cells at their own positions |
| Maze.CountAllButFirst | 2d_map/src/maps/Map3.tsx:94-97 | with only the first cell visited, `logicGrid.length - 1` cells are unvisited |
| Maze.GenerateInvisibleMaze | 2d_map/src/maps/Map3.tsx:84-110 | the backtracker terminates with every cell visited, every cell at its position, and the rim walls intact |
| Maze.AllWalls | 2d_map/src/maps/Map3.tsx:114-119 | the tile grid is `2 cols + 1` by `2 rows + 1` |
| Maze.SetTile | 2d_map/src/maps/Map3.tsx:126 | writing one tile keeps the grid's shape and changes no other tile |
| Maze.OpenIf | 2d_map/src/maps/Map3.tsx:129-132 | a conditional carve opens one tile exactly when its condition holds |
| Maze.Carve | 2d_map/src/maps/Map3.tsx:122-133 | one cell opens its centre and, for each open wall, the corridor tile on that side, and nothing else |
| Maze.CarveAllAt | 2d_map/src/maps/Map3.tsx:122-133 | after the loop a tile is a path exactly when some cell opens it, and is otherwise unchanged |
| Maze.ExpandGrid | 2d_map/src/maps/Map3.tsx:112-134 | the expanded grid is `2 cols + 1` by `2 rows + 1` |
| Maze.ExpandAt | 2d_map/src/maps/Map3.tsx:112-134 | a tile of the expanded grid is a path exactly when some cell opens it, and a wall otherwise |
| Maze.ExpandCentres | 2d_map/src/maps/Map3.tsx:123-126 | every cell centre `(2i + 1, 2j + 1)` is a path |
| Maze.ExpandWalls | 2d_map/src/maps/Map3.tsx:112-134 | with the rim walls intact, the border of the tile grid and every tile at even-even coordinates stay wall |
| Maze.MaskBits | 2d_map/src/maps/Map3.tsx:159-164 | the mask lies in `0..15`, and bits 1, 2, 4 and 8 are set exactly when the tile to the north, east, south and west is a wall inside the grid |
| RoadTile.AlongInside | 2d_map/src/maps/Map5.tsx:63-64 | the centre of each of the `n` segments of a side lies strictly inside the side |
| RoadTile.SideNodes | 2d_map/src/maps/Map5.tsx:69-75 | one side's loop pushes `n` points, the `i`-th at the centre of segment `i` on that side |
| RoadTile.EdgeNodesOnEdges | 2d_map/src/maps/Map5.tsx:66-75 | the four loops push `4n` points, in top, bottom, left, right order, each on the edge its side names |
| RoadTile.NextSeed | 2d_map/src/maps/Map5.tsx:80 | the generator's state stays below 2^32 |
| RoadTile.NextSeedExact | 2d_map/src/maps/Map5.tsx:80 | from a state below 2^32 the product and sum stay below 2^53, so the JavaScript arithmetic is exact and the model's integer step is the source's |
| RoadTile.RandomInUnit | 2d_map/src/maps/Map5.tsx:81 | every draw lies in `[0, 1)` |
| RoadTile.SwapIndex | 2d_map/src/maps/Map5.tsx:86 | the swap partner is never past `i` |
| RoadTile.SwapIndexIsFloor | 2d_map/src/maps/Map5.tsx:86 | the swap partner is the floor of `random() * (i + 1)` |
| RoadTile.SwapPermutes | 2d_map/src/maps/Map5.tsx:87 | a swap permutes the list |
| RoadTile.ShuffledPermutes | 2d_map/src/maps/Map5.tsx:85-88 | the Fisher-Yates loop permutes the points |
| RoadTile.ShuffledStep | 2d_map/src/maps/Map5.tsx:85-88 | one iteration swaps position `i` with the drawn partner and continues with the next state at `i - 1` |
| RoadTile.Shuffle | 2d_map/src/maps/Map5.tsx:84-88 | the in-place loop yields a permutation of the points, the one the recursive definition gives |
| RoadTile.ShuffledKeepsTail | 2d_map/src/maps/Map5.tsx:85-88 | positions past the loop's start are left alone |
| RoadTile.ControlPointInward | 2d_map/src/maps/Map5.tsx:90-96 | a control point lies strictly inside the tile, `0.4 * tileSize` in from its node's side, straight across from the node |
| RoadTile.PairsFlatten | 2d_map/src/maps/Map5.tsx:153-155 | pairing consecutive points loses and repeats none of them |
| RoadTile.ShuffledPairs | 2d_map/src/maps/Map5.tsx:85-155 | the roads drawn after the shuffle use every point exactly once |
| RoadTile.RoadsUseEveryNode | 2d_map/src/maps/Map5.tsx:56-155 | a tile has `2n` roads, and together they start or end at every edge point exactly once |

## Left out

- Floating point: every `double`, `float` and JavaScript number that is not an integer is a `real` (except the TypeScript queue's priorities, below), so rounding, overflow to infinity and NaN are not modelled.
- PriorityQueueTs.UpdatePriority: priorities are integers, as in the two C++ heaps that share the model, while the TypeScript queue is given Shannon entropies (2dwavefunction/src/main.ts lines 98-112), which are not integers; the heap only ever compares priorities with `<` and `>=`, so the ordering results carry over to any totally ordered priority, but the model does not state them for non-integer values.
- CelebiHash.Round6 and FaceHash.RoundHalfEven: Python's `round` is read as exact decimal rounding of the real value, not rounding of the binary double.
- Delaunator: the main insertion loop of the constructor, the hull hash search, `circumcenter` (the seed centre is a parameter) and the Kahan `sum` are not modelled; the global Delaunay property is not claimed.
- Delaunator.Legalize: the hull-triangle repair of delaunator.hpp lines 673-684 is left out, and the loop carries fuel, with `None` for a run that has not ended within it.
- Delaunator.Flip: states index bookkeeping and link preservation only; that a flip improves the `in_circle` test is not proved.
- QuadTree.Insert: carries fuel, and `None` means the recursion has not ended within it; on the inputs of the quadtree finding it never ends. A finite but deeper recursion than the fuel looks the same as an endless one.
- Wfc3d.Propagate: states termination, shrinking and the failure condition, not that the result is arc consistent.
- Wfc3d.Reset: a grid size with a negative component is not modelled (`set_grid_size` at wfc.h lines 390-392 accepts one, and `grid.resize` then gets a negative or sign-flipped count); Reset and Generate ask for components of at least zero.
- Wfc3d: the Godot side of wfc.h (loading the tile library and meshes, instancing, debug drawing) is not modelled; the random choices are parameters.
- GalaxyTileSet.Update: when a symmetry or a hash throws, the model gives no tile set at all; the entries `updateOne` already stored in `UniqueTiles` before the throw, and its hashing of the tile before building its turns, are not modelled.
- Wfc2d: `calculateEntropy` and `Math.random()` are parameters; the canvas drawing is out.
- Wfc2d.CollapseTile: its own contract states only the board's shape; what collapse does is stated by Wfc2d.CollapseEffect.
- StableSort.Sort: states a key-ordered permutation; stability (equal keys keep their input order) is not stated.
- ContainerDetails.SortEntries: `localeCompare` is modelled as code-point order on names; stability is not stated.
- IndexedHeap.Insert: inserting an item that is already present adds a second node, and the contract says nothing about which slot the item map then names.
- ContainerCli: the JSON printed by the `container` tool is taken as already-parsed records; the process call is a parameter.
- ContainerCli.CommandLog: the entry's random `id` and `toISOString` timestamp (container.ts lines 42-43) are not modelled, because they come from the clock and `Math.random`; an entry keeps the command, output and error flag.
- ContainerCli.Normalize: the record's other fields spread through `...c`, and the ports, environment, mounts, CPU count and memory size copied out of `configuration` (container.ts lines 149-153, 164-168), are not modelled; they pass through unchanged and no operation of the model reads them.
- Text.Lower: lower-cases ASCII letters only; JavaScript's `toLowerCase` also maps non-ASCII capitals, so the two differ on strings holding such capitals. The words the state test looks for are ASCII.
- CiderServer: HTTP, Server-Sent Events, WebSocket and pty handling, `ServeMux` pattern precedence, `filepath.Clean`/`Join`, and the directory walk's error handling and read order are not modelled.
- CiderServer.LogAction: the entry's id and timestamp come from one clock reading `now`; the Go code reads the clock twice.
- Json and LibraryJson: the nlohmann library is not part of this model; a JSON object is a small value type with string keys.
- Maze: the grid size is a parameter rather than the fixed 15 by 15, and the canvas drawing is out.
- Godot nodes and rendering, Blender operators, Three.js scenes and the React pages other than the pure helpers of `ContainerDetailsPage.tsx` are outside the modelled cores.

## Findings

| source | as written | input that shows it | evidently intended | confidence | as-written member | corrected member |
|---|---|---|---|---|---|---|
| apple_container_ui/cider-ui/src/pages/ContainerDetailsPage.tsx:148-155 | the name is rebuilt by joining the whitespace-split fields from the ninth on with single spaces | an `ls -la` line whose file name is `a  b` (two spaces) lists the file as `a b`, a path that does not exist | the name is the rest of the line after the eighth column, spaces kept | medium; not executed | ContainerDetails.SpacedNameCollapses | ContainerDetails.ParseLsLineExact |
| apple_container_ui/cider/main.go:59-63 | the noise filter tests `strings.Contains(command, "top")` | a successful `container stop web` contains `top` and is never logged | only the `top` command (like `stats`) is treated as polling noise | high; not executed | CiderServer.StopNeverLogged | CiderServer.StopLogged |
| quadtree/quadtree.hpp:83 | `insertIntoChildren` enters the child at depth 0 | `maxPoints` 1, `maxDepth` 1, the same point inserted twice: every split sends both copies into one quadrant at depth 0, which splits again without end | the child is entered at the parent's depth plus one, so no split happens at `maxDepth` | high; not executed | QuadTree.SameTwiceNeverFinishes | QuadTree.InsertFixed |

=== FILE: bit_flags.dfy ===
/** The bit helpers of GalaxyBuilder/src/function.ts. JavaScript's `&`, `|`
    and `<<` first convert their operands with ToInt32 and use only the low
    five bits of a shift count, so the flags live in a 32-bit pattern and a
    position `p` names bit `p mod 32`. */
module BitFlags {
  import Int32

  /** The bit a position addresses: `1 << p` shifts by `p mod 32`. */
  function BitIndex(p: int): (k: bv32)
    ensures k < 32
  {
    (p % 32) as bv32
  }

  function Mask(p: int): bv32 {
    (1 as bv32) << BitIndex(p)
  }

  /** `isBitSet(number, position)`. */
  predicate IsBitSet(n: int, p: int) {
    Int32.Bits(n) & Mask(p) != 0
  }

  /** `setBit(number, position)`; the result is the signed 32-bit number
      JavaScript produces. */
  function SetBit(n: int, p: int): (r: int)
    ensures -Int32.TWO31 <= r < Int32.TWO31
    ensures Int32.Bits(r) == Int32.Bits(n) | Mask(p)
  {
    Int32.FromBits(Int32.Bits(n) | Mask(p))
  }

  /** Reference reading of a bit: shift it down to position 0. */
  predicate Bit(u: bv32, k: bv32)
    requires k < 32
  {
    (u >> k) & 1 == 1
  }

  /** `isBitSet(n, p)` holds exactly when bit `p mod 32` of `n` is one. */
  lemma IsBitSetIsBit(n: int, p: int)
    ensures IsBitSet(n, p) <==> Bit(Int32.Bits(n), BitIndex(p))
  {
    MaskBitAt(Int32.Bits(n), p);
  }

  lemma MaskBitAt(u: bv32, p: int)
    ensures (u & Mask(p) != 0) <==> Bit(u, BitIndex(p))
  {
    var k := BitIndex(p);
    MaskBit(u, k);
  }

  lemma MaskBit(u: bv32, k: bv32)
    requires k < 32
    ensures (u & ((1 as bv32) << k) != 0) <==> Bit(u, k)
  {
  }

  /** After `setBit(n, p)` bit `p` is set. */
  lemma SetBitSets(n: int, p: int)
    ensures IsBitSet(SetBit(n, p), p)
  {
    OrSets(Int32.Bits(n), BitIndex(p));
  }

  lemma OrSets(u: bv32, k: bv32)
    requires k < 32
    ensures (u | ((1 as bv32) << k)) & ((1 as bv32) << k) != 0
  {
  }

  /** `setBit(n, p)` leaves every bit other than `p mod 32` as it was. */
  lemma SetBitKeepsOthers(n: int, p: int, q: int)
    requires BitIndex(q) != BitIndex(p)
    ensures IsBitSet(SetBit(n, p), q) <==> IsBitSet(n, q)
  {
    OrKeeps(Int32.Bits(n), BitIndex(p), BitIndex(q));
  }

  lemma OrKeeps(u: bv32, k: bv32, j: bv32)
    requires k < 32 && j < 32 && k != j
    ensures ((u | ((1 as bv32) << k)) & ((1 as bv32) << j) != 0) <==> (u & ((1 as bv32) << j) != 0)
  {
  }

  /** Setting a bit twice is setting it once. */
  lemma SetBitIdempotent(n: int, p: int)
    ensures SetBit(SetBit(n, p), p) == SetBit(n, p)
  {
    var m := Mask(p);
    var b := Int32.Bits(n) | m;
    SetBitOfPattern(SetBit(n, p), p, b);
    OrTwice(Int32.Bits(n), m);
  }

  lemma SetBitOfPattern(r: int, p: int, b: bv32)
    requires Int32.Bits(r) == b
    ensures SetBit(r, p) == Int32.FromBits(b | Mask(p))
  {
  }

  lemma OrTwice(u: bv32, m: bv32)
    ensures (u | m) | m == u | m
  {
  }
}

=== FILE: celebi_hash.dfy ===
/** The plane hash of Celebi/src/voxel_hash.py. It differs from the
    world_blender hash in its sort key (which depends on the face side and on
    a left/right mirror flag), in taking a vertex's colour from the first
    polygon that touches a vertex at the same position (white when there is
    none), in its tighter boundary tolerance, and in returning the folded
    hash itself rather than a compact id. */
module CelebiHash {
  import opened Wrappers
  import Int32
  import FaceHash
  import StableSort

  datatype Axis = X | Y | Z

  datatype Vec3 = Vec3(x: real, y: real, z: real)

  function Coord(v: Vec3, a: Axis): real {
    match a
    case X => v.x
    case Y => v.y
    case Z => v.z
  }

  /** `round(x, 6)`, read as decimal rounding of the real value. */
  function Round6(x: real): real {
    FaceHash.RoundHalfEven(x * 1000000.0) as real / 1000000.0
  }

  /** `mirrorLR`: 1 for direction "LR", -1 for anything else. */
  function MirrorLR(direction: string): (m: int)
    ensures m == 1 || m == -1
    ensures m == 1 <==> direction == "LR"
  {
    if direction == "LR" then 1 else -1
  }

  /** `face_vertex_sort_key(v, normal_axis, sign, mirrorLR)`. */
  function SortKey(v: Vec3, axis: Axis, sign: int, mirror: int): StableSort.Key2 {
    match axis
    case X => StableSort.Key2((mirror * sign) as real * Round6(v.y), Round6(v.z))
    case Y => StableSort.Key2((mirror * -sign) as real * Round6(v.x), Round6(v.z))
    case Z => StableSort.Key2((mirror * -sign) as real * Round6(v.x), sign as real * Round6(v.y))
  }

  /** Flipping the mirror flag negates the primary key and keeps the
      secondary one: it reverses the left-to-right order of the face. */
  lemma SortKeyMirror(v: Vec3, axis: Axis, sign: int)
    ensures SortKey(v, axis, sign, -1).first == -SortKey(v, axis, sign, 1).first
    ensures SortKey(v, axis, sign, -1).second == SortKey(v, axis, sign, 1).second
  {
  }

  // ---------------------------------------------------------------------
  // face_vertex_compare

  /** The primary and secondary keys `face_vertex_compare` picks for one
      vertex, before the mirror factor. */
  function CompareKeys(v: Vec3, axis: Axis, sign: int): (real, real) {
    if sign > 0 then
      match axis
      case X => (v.y, v.z)
      case Y => (-v.x, v.z)
      case Z => (v.x, v.y)
    else
      match axis
      case X => (-v.y, v.z)
      case Y => (v.x, v.z)
      case Z => (v.x, -v.y)
  }

  /** Three-way comparison of two numbers. */
  function Cmp(a: real, b: real): (c: int)
    ensures c == -1 <==> a < b
    ensures c == 1 <==> a > b
    ensures c == 0 <==> a == b
  {
    if a < b then -1 else if a > b then 1 else 0
  }

  /** `face_vertex_compare(v1, v2, normal_axis, sign, mirrorLR)`. */
  function FaceVertexCompare(v1: Vec3, v2: Vec3, axis: Axis, sign: int, mirror: int): (c: int)
    ensures c == -1 || c == 0 || c == 1
  {
    var (p1, s1) := CompareKeys(v1, axis, sign);
    var (p2, s2) := CompareKeys(v2, axis, sign);
    var c := Cmp(p1 * mirror as real, p2 * mirror as real);
    if c != 0 then c else Cmp(s1, s2)
  }

  /** Swapping the arguments negates the answer. */
  lemma CompareAntisymmetric(v1: Vec3, v2: Vec3, axis: Axis, sign: int, mirror: int)
    ensures FaceVertexCompare(v1, v2, axis, sign, mirror) == -FaceVertexCompare(v2, v1, axis, sign, mirror)
  {
  }

  /** Two vertices compare equal exactly when both their primary and their
      secondary keys agree (for a mirror flag of 1 or -1). */
  lemma CompareZeroIffKeysEqual(v1: Vec3, v2: Vec3, axis: Axis, sign: int, mirror: int)
    requires mirror == 1 || mirror == -1
    ensures FaceVertexCompare(v1, v2, axis, sign, mirror) == 0 <==> CompareKeys(v1, axis, sign) == CompareKeys(v2, axis, sign)
  {
    var (p1, s1) := CompareKeys(v1, axis, sign);
    var (p2, s2) := CompareKeys(v2, axis, sign);
    if mirror == 1 {
      assert p1 * mirror as real == p1 && p2 * mirror as real == p2;
    } else {
      assert p1 * mirror as real == -p1 && p2 * mirror as real == -p2;
    }
  }

  /** A mirror flag of -1 reverses the verdict whenever the primary keys
      differ. */
  lemma CompareMirrorReverses(v1: Vec3, v2: Vec3, axis: Axis, sign: int)
    requires CompareKeys(v1, axis, sign).0 != CompareKeys(v2, axis, sign).0
    ensures FaceVertexCompare(v1, v2, axis, sign, -1) == -FaceVertexCompare(v1, v2, axis, sign, 1)
  {
  }

  // ---------------------------------------------------------------------
  // plane_hash

  /** `abs(v[axis] - sign * (size / 2)) < 1e-6`. */
  predicate OnBoundary(v: Vec3, axis: Axis, sign: int, size: real) {
    var d := Coord(v, axis) - (sign as real) * (size / 2.0);
    -0.000001 < d < 0.000001
  }

  /** The list comprehension collecting boundary vertices: the vertices on
      the plane, in mesh order, a vertex listed twice kept twice. */
  function BoundaryVerts(verts: seq<Vec3>, axis: Axis, sign: int, size: real): (r: seq<Vec3>)
    ensures forall k :: 0 <= k < |r| ==> r[k] in verts && OnBoundary(r[k], axis, sign, size)
    ensures forall k :: 0 <= k < |verts| && OnBoundary(verts[k], axis, sign, size) ==> verts[k] in r
    ensures forall v :: multiset(r)[v] == if OnBoundary(v, axis, sign, size) then multiset(verts)[v] else 0
  {
    if verts == [] then []
    else
      var rest := BoundaryVerts(verts[1..], axis, sign, size);
      assert verts == [verts[0]] + verts[1..];
      assert forall k :: 1 <= k < |verts| ==> verts[k] == verts[1..][k - 1];
      if OnBoundary(verts[0], axis, sign, size) then [verts[0]] + rest else rest
  }

  /** A single vertex is kept exactly when it lies on the plane. */
  lemma BoundaryOfOne(v: Vec3, axis: Axis, sign: int, size: real)
    ensures BoundaryVerts([v], axis, sign, size) == if OnBoundary(v, axis, sign, size) then [v] else []
  {
    assert [v][1..] == [];
  }

  /** Collecting from two runs of vertices gives the first run's followed
      by the second's: with BoundaryOfOne, the collection keeps the mesh
      order, which the stable sort sees. */
  lemma {:induction false} BoundaryAppend(a: seq<Vec3>, b: seq<Vec3>, axis: Axis, sign: int, size: real)
    ensures BoundaryVerts(a + b, axis, sign, size) == BoundaryVerts(a, axis, sign, size) + BoundaryVerts(b, axis, sign, size)
    decreases |a|
  {
    if a == [] {
      assert a + b == b;
    } else {
      var ab := a + b;
      assert ab[0] == a[0] && ab[1..] == a[1..] + b;
      BoundaryAppend(a[1..], b, axis, sign, size);
      var rest := BoundaryVerts(a[1..], axis, sign, size);
      if OnBoundary(a[0], axis, sign, size) {
        Assoc([a[0]], rest, BoundaryVerts(b, axis, sign, size));
      }
    }
  }

  lemma Assoc<T>(x: seq<T>, y: seq<T>, z: seq<T>)
    ensures x + (y + z) == x + y + z
  {
  }

  datatype Polygon = Polygon(vertices: seq<nat>, material: nat)

  /** Every polygon refers to existing vertices, as in any Blender mesh. */
  predicate PolygonsInRange(polys: seq<Polygon>, n: nat) {
    forall p, k :: 0 <= p < |polys| && 0 <= k < |polys[p].vertices| ==> polys[p].vertices[k] < n
  }

  /** The colour `(1, 1, 1)` turned into an integer. */
  const WHITE: int := 0xFF_FFFF

  /** Some vertex of `poly` sits at position `v`. */
  predicate Touches(poly: Polygon, verts: seq<Vec3>, v: Vec3) {
    exists k :: 0 <= k < |poly.vertices| && poly.vertices[k] < |verts| && verts[poly.vertices[k]] == v
  }

  /** Polygon `p` is the first to touch position `v`. */
  predicate FirstToTouch(polys: seq<Polygon>, verts: seq<Vec3>, v: Vec3, p: int) {
    0 <= p < |polys| && Touches(polys[p], verts, v) && forall q :: 0 <= q < p ==> !Touches(polys[q], verts, v)
  }

  /** The material of the first polygon with a vertex at position `v`: the
      loop over the polygons that stops at the first hit. */
  function FirstMaterial(polys: seq<Polygon>, verts: seq<Vec3>, v: Vec3): (r: Option<nat>)
    ensures r.Some? <==> exists p :: 0 <= p < |polys| && Touches(polys[p], verts, v)
    ensures r.Some? ==> exists p :: FirstToTouch(polys, verts, v, p) && r.value == polys[p].material
  {
    if polys == [] then None
    else if Touches(polys[0], verts, v) then
      assert FirstToTouch(polys, verts, v, 0);
      Some(polys[0].material)
    else
      var r := FirstMaterial(polys[1..], verts, v);
      assert forall p :: 0 <= p < |polys[1..]| ==> polys[1..][p] == polys[p + 1];
      if r.Some? then
        var p :| FirstToTouch(polys[1..], verts, v, p) && r.value == polys[1..][p].material;
        assert FirstToTouch(polys, verts, v, p + 1);
        r
      else r
  }

  /** The colour a vertex contributes: its first polygon's material colour;
      white when no polygon touches it, the slot is out of range, or the slot
      has no material. */
  function VertexColor(polys: seq<Polygon>, verts: seq<Vec3>, slots: seq<Option<int>>, v: Vec3): (c: int)
    ensures FirstMaterial(polys, verts, v).None? ==> c == WHITE
    ensures var m := FirstMaterial(polys, verts, v);
      m.Some? && m.value < |slots| && slots[m.value].Some? ==> c == slots[m.value].value
    ensures var m := FirstMaterial(polys, verts, v);
      m.Some? && !(m.value < |slots| && slots[m.value].Some?) ==> c == WHITE
  {
    match FirstMaterial(polys, verts, v)
    case None => WHITE
    case Some(m) => if |slots| > 0 && m < |slots| && slots[m].Some? then slots[m].value else WHITE
  }

  /** The in-plane signature `int(round(a * scale)) ^ int(round(b * scale))`
      xor-ed with the colour, kept to 64 bits. */
  function Signature(v: Vec3, axis: Axis, scale: real, color: int): bv64 {
    var sx := FaceHash.RoundHalfEven(v.x * scale);
    var sy := FaceHash.RoundHalfEven(v.y * scale);
    var sz := FaceHash.RoundHalfEven(v.z * scale);
    match axis
    case X => FaceHash.Low64(sy) ^ FaceHash.Low64(sz) ^ FaceHash.Low64(color)
    case Y => FaceHash.Low64(sx) ^ FaceHash.Low64(sz) ^ FaceHash.Low64(color)
    case Z => FaceHash.Low64(sx) ^ FaceHash.Low64(sy) ^ FaceHash.Low64(color)
  }

  function Signatures(vs: seq<Vec3>, axis: Axis, scale: real, polys: seq<Polygon>, verts: seq<Vec3>, slots: seq<Option<int>>): (r: seq<bv64>)
    ensures |r| == |vs|
    ensures forall k :: 0 <= k < |vs| ==> r[k] == Signature(vs[k], axis, scale, VertexColor(polys, verts, slots, vs[k]))
  {
    if vs == [] then []
    else [Signature(vs[0], axis, scale, VertexColor(polys, verts, slots, vs[0]))] + Signatures(vs[1..], axis, scale, polys, verts, slots)
  }

  /** `plane_hash(obj, normal_axis, sign, size, direction, scale)`. */
  function PlaneHash(verts: seq<Vec3>, polys: seq<Polygon>, slots: seq<Option<int>>,
                     axis: Axis, sign: int, size: real, direction: string, scale: real): (h: int)
    requires PolygonsInRange(polys, |verts|)
    ensures -Int32.TWO31 <= h < Int32.TWO31
    ensures (forall i :: 0 <= i < |verts| ==> !OnBoundary(verts[i], axis, sign, size)) ==> h == 0
  {
    var boundary := BoundaryVerts(verts, axis, sign, size);
    if boundary == [] then 0
    else
      var mirror := MirrorLR(direction);
      var sorted := StableSort.Sort(boundary, (v: Vec3) => SortKey(v, axis, sign, mirror));
      FaceHash.Fold(FaceHash.Roll(Signatures(sorted, axis, scale, polys, verts, slots)))
  }
  /** A vertex at the end of the mesh that no polygon uses changes no
      polygon's positions. */
  lemma {:induction false} FirstMaterialExtend(polys: seq<Polygon>, verts: seq<Vec3>, w: Vec3, v: Vec3)
    requires PolygonsInRange(polys, |verts|)
    ensures FirstMaterial(polys, verts + [w], v) == FirstMaterial(polys, verts, v)
    decreases |polys|
  {
    if polys != [] {
      assert Touches(polys[0], verts + [w], v) == Touches(polys[0], verts, v) by {
        forall k | 0 <= k < |polys[0].vertices|
          ensures (verts + [w])[polys[0].vertices[k]] == verts[polys[0].vertices[k]]
        {
          assert polys[0].vertices[k] < |verts|;
        }
      }
      assert PolygonsInRange(polys[1..], |verts|) by {
        forall p, k | 0 <= p < |polys[1..]| && 0 <= k < |polys[1..][p].vertices|
          ensures polys[1..][p].vertices[k] < |verts|
        {
          assert polys[1..][p] == polys[p + 1];
        }
      }
      FirstMaterialExtend(polys[1..], verts, w, v);
    }
  }

  /** A vertex off the face plane, added at the end of the mesh, leaves the
      plane hash as it was. */
  lemma PlaneHashIgnoresOffPlane(verts: seq<Vec3>, w: Vec3, polys: seq<Polygon>, slots: seq<Option<int>>,
                                 axis: Axis, sign: int, size: real, direction: string, scale: real)
    requires PolygonsInRange(polys, |verts|)
    requires !OnBoundary(w, axis, sign, size)
    ensures PolygonsInRange(polys, |verts + [w]|)
    ensures PlaneHash(verts + [w], polys, slots, axis, sign, size, direction, scale)
         == PlaneHash(verts, polys, slots, axis, sign, size, direction, scale)
  {
    var more := verts + [w];
    BoundaryAppend(verts, [w], axis, sign, size);
    BoundaryOfOne(w, axis, sign, size);
    var boundary := BoundaryVerts(verts, axis, sign, size);
    assert BoundaryVerts(more, axis, sign, size) == boundary;
    if boundary != [] {
      var mirror := MirrorLR(direction);
      var sorted := StableSort.Sort(boundary, (v: Vec3) => SortKey(v, axis, sign, mirror));
      SignaturesExtend(sorted, axis, scale, polys, verts, w, slots);
    }
  }

  /** The signatures do not see a vertex added at the end of the mesh. */
  lemma {:induction false} SignaturesExtend(vs: seq<Vec3>, axis: Axis, scale: real, polys: seq<Polygon>, verts: seq<Vec3>, w: Vec3, slots: seq<Option<int>>)
    requires PolygonsInRange(polys, |verts|)
    ensures Signatures(vs, axis, scale, polys, verts + [w], slots) == Signatures(vs, axis, scale, polys, verts, slots)
    decreases |vs|
  {
    if vs != [] {
      FirstMaterialExtend(polys, verts, w, vs[0]);
      SignaturesExtend(vs[1..], axis, scale, polys, verts, w, slots);
    }
  }
}

=== FILE: chunk.dfy ===
/** The voxel chunk of godot-cpp-template/src/minecraft.h: a flat block
    array of `WIDTH * WIDTH * HEIGHT` bytes addressed by `(x, y, z)`, the
    equality used to key the chunk map, and the mapping from world
    positions to chunk coordinates. */
module Chunk {

  newtype Byte = b: int | 0 <= b < 256

  const Width := 16
  const Height := 4
  const Volume := Width * Width * Height

  /** The block types of `VoxelType`. */
  const Air: Byte := 0
  const Soil: Byte := 1
  const Grass: Byte := 2
  const Stone: Byte := 3
  const Water: Byte := 4

  datatype Vec3i = Vec3i(x: int, y: int, z: int)

  datatype Chunk = Chunk(blocks: seq<Byte>, position: Vec3i)

  /** A chunk whose block array has the size the constructor gives it. */
  predicate Valid(c: Chunk) {
    |c.blocks| == Volume
  }

  /** The constructor: the given position and every block air. */
  function NewChunk(pos: Vec3i): (c: Chunk)
    ensures Valid(c) && c.position == pos
    ensures forall i :: 0 <= i < |c.blocks| ==> c.blocks[i] == Air
  {
    Chunk(seq(Volume, _ => 0), pos)
  }

  /** Block coordinates inside one chunk. */
  predicate InChunk(x: int, y: int, z: int) {
    0 <= x < Width && 0 <= y < Height && 0 <= z < Width
  }

  /** `x + z * WIDTH + y * WIDTH * WIDTH`, the slot of a block. */
  function Slot(x: int, y: int, z: int): int {
    x + z * Width + y * Width * Width
  }

  /** Every block of the chunk has its own slot of the array, and the
      slot gives back the block's coordinates: `x` and `z` are its digits
      in base `WIDTH` and `y` the rest. */
  lemma SlotDecodes(x: int, y: int, z: int)
    requires InChunk(x, y, z)
    ensures 0 <= Slot(x, y, z) < Volume
    ensures Slot(x, y, z) % Width == x
    ensures Slot(x, y, z) / Width % Width == z
    ensures Slot(x, y, z) / (Width * Width) == y
  {
  }

  /** Distinct blocks never share a slot. */
  lemma SlotInjective(x: int, y: int, z: int, x': int, y': int, z': int)
    requires InChunk(x, y, z) && InChunk(x', y', z')
    ensures Slot(x, y, z) == Slot(x', y', z') <==> (x, y, z) == (x', y', z')
  {
    SlotDecodes(x, y, z);
    SlotDecodes(x', y', z');
  }

  /** Every slot of the array belongs to exactly one block. */
  lemma SlotOnto(i: int)
    requires 0 <= i < Volume
    ensures InChunk(i % Width, i / (Width * Width), i / Width % Width)
    ensures Slot(i % Width, i / (Width * Width), i / Width % Width) == i
  {
  }

  /** `get_block`: the block in the one slot of the array that decodes to
      `(x, y, z)`. */
  function GetBlock(c: Chunk, x: int, y: int, z: int): (b: Byte)
    requires Valid(c) && InChunk(x, y, z)
    ensures exists i ::
      0 <= i < |c.blocks| && i % Width == x && i / Width % Width == z && i / (Width * Width) == y && b == c.blocks[i]
  {
    SlotDecodes(x, y, z);
    c.blocks[Slot(x, y, z)]
  }

  /** `set_block`. */
  function SetBlock(c: Chunk, x: int, y: int, z: int, t: Byte): (r: Chunk)
    requires Valid(c) && InChunk(x, y, z)
    ensures Valid(r) && r.position == c.position
  {
    SlotDecodes(x, y, z);
    c.(blocks := c.blocks[Slot(x, y, z) := t])
  }

  /** Reading a block back after setting it gives the type set, and every
      other block of the chunk is unchanged. */
  lemma GetAfterSet(c: Chunk, x: int, y: int, z: int, t: Byte, x': int, y': int, z': int)
    requires Valid(c) && InChunk(x, y, z) && InChunk(x', y', z')
    ensures GetBlock(SetBlock(c, x, y, z, t), x', y', z') ==
      if (x', y', z') == (x, y, z) then t else GetBlock(c, x', y', z')
  {
    SlotInjective(x, y, z, x', y', z');
  }

  /** A new chunk reads air everywhere. */
  lemma NewChunkIsAir(pos: Vec3i, x: int, y: int, z: int)
    requires InChunk(x, y, z)
    ensures GetBlock(NewChunk(pos), x, y, z) == Air
  {
  }

  /** `Vector3iEqual`: componentwise comparison. */
  function Vector3iEqual(a: Vec3i, b: Vec3i): (r: bool)
    ensures r <==> a == b
  {
    a.x == b.x && a.y == b.y && a.z == b.z
  }

  datatype Vec3 = Vec3(x: real, y: real, z: real)

  /** `world_to_chunk_coords`: each coordinate divided by the chunk's
      extent along it and rounded down. */
  function WorldToChunkCoords(p: Vec3): (r: Vec3i)
    ensures (r.x * Width) as real <= p.x < ((r.x + 1) * Width) as real
    ensures (r.y * Height) as real <= p.y < ((r.y + 1) * Height) as real
    ensures (r.z * Width) as real <= p.z < ((r.z + 1) * Width) as real
  {
    Vec3i((p.x / Width as real).Floor, (p.y / Height as real).Floor, (p.z / Width as real).Floor)
  }

  /** The chunk found for a world position is the only one whose extent
      holds it. */
  lemma ChunkCoordsUnique(p: Vec3, c: Vec3i)
    requires (c.x * Width) as real <= p.x < ((c.x + 1) * Width) as real
    requires (c.y * Height) as real <= p.y < ((c.y + 1) * Height) as real
    requires (c.z * Width) as real <= p.z < ((c.z + 1) * Width) as real
    ensures WorldToChunkCoords(p) == c
  {
    var r := WorldToChunkCoords(p);
    Below(r.x, c.x, Width, p.x);
    Below(c.x, r.x, Width, p.x);
    Below(r.y, c.y, Height, p.y);
    Below(c.y, r.y, Height, p.y);
    Below(r.z, c.z, Width, p.z);
    Below(c.z, r.z, Width, p.z);
  }

  /** Two cells of extent `w` that both hold `v` start at the same
      multiple of `w`. */
  lemma Below(a: int, b: int, w: int, v: real)
    requires w > 0
    requires (a * w) as real <= v < ((a + 1) * w) as real
    requires (b * w) as real <= v < ((b + 1) * w) as real
    ensures a <= b
  {
    assert a * w < (b + 1) * w;
  }
}

=== FILE: cider_client.dfy ===
/** The data layer of apple_container_ui/cider-ui/src/lib/container.ts: the
    browser client of the cider server. Each listing turns the server's
    records into the shapes the pages show, filling absent fields with
    defaults, and answers an empty list (or nothing) instead of throwing
    when the request fails.

    A request's outcome is a parameter: the network failed, or the server
    answered with a status that is or is not OK and a body that did or
    did not parse. */
module CiderClient {
  import opened Wrappers
  import opened Text

  /** JavaScript's `a || b` on two strings. */
  function Or(a: string, b: string): string {
    if a != "" then a else b
  }

  /** The outcome of `fetch` followed by reading the body; `body` is `None`
      when the body did not parse. */
  datatype Response<T> = NetworkError | Http(ok: bool, body: Option<T>)

  /** A response that delivered a parsed body with an OK status. */
  predicate Delivered<T>(resp: Response<T>) {
    resp.Http? && resp.ok && resp.body.Some?
  }

  // ---------------------------------------------------------------------
  // Containers

  /** The fields of one server record the client reads; an absent field is
      the empty string. `configId` and `configImage` are the nested
      `configuration.id` and `configuration.image.reference`. */
  datatype RawContainer = RawContainer(
    configId: string, idCap: string, id: string,
    configImage: string, imageCap: string, image: string,
    status: string, statusCap: string, state: string,
    namesCap: string, names: string,
    createdAtCap: string, createdAt: string)

  datatype ContainerInfo = ContainerInfo(
    id: string, image: string, status: string, state: string, names: string, createdAt: string)

  /** The mapping of one record: the configuration's identifier and image
      reference first, the explicit state when there is one and otherwise
      a state read off the lower-case status, and the identifier standing
      in for a missing name. */
  function ContainerFrom(c: RawContainer): (r: ContainerInfo)
    ensures r.state != ""
    ensures r.state == "running" <==> c.state == "running" || (c.state == "" && c.status == "running")
    ensures c.state == "" ==> r.state == "running" || r.state == "stopped"
    ensures c.configId != "" ==> r.id == c.configId
    ensures c.configImage != "" ==> r.image == c.configImage
    ensures c.namesCap == "" && c.names == "" ==> r.names == c.configId
    ensures r.status == "" <==> c.status == "" && c.statusCap == ""
  {
    ContainerInfo(
      Or(c.configId, Or(c.idCap, c.id)),
      Or(c.configImage, Or(c.imageCap, c.image)),
      Or(c.status, c.statusCap),
      Or(c.state, if c.status == "running" then "running" else "stopped"),
      Or(c.namesCap, Or(c.names, c.configId)),
      Or(c.createdAtCap, c.createdAt))
  }

  /** A record whose status arrives only under the capitalised key shows
      that status, yet its state is read from the lower-case key alone and
      comes out stopped. */
  lemma CapitalisedStatusReadsStopped(c: RawContainer)
    requires c.state == "" && c.status == "" && c.statusCap == "running"
    ensures ContainerFrom(c).status == "running" && ContainerFrom(c).state == "stopped"
  {
  }

  /** Without an explicit state, a running container's state and its shown
      status agree. */
  lemma StateFollowsStatus(c: RawContainer)
    requires c.state == "" && c.status != ""
    ensures ContainerFrom(c).state == "running" <==> ContainerFrom(c).status == "running"
  {
  }

  /** `listContainers`: every record mapped, in order, when the server
      answers; an empty list on any failure. */
  function ListContainers(resp: Response<seq<RawContainer>>): (r: seq<ContainerInfo>)
    ensures !Delivered(resp) ==> r == []
    ensures Delivered(resp) ==> (|r| == |resp.body.value|
      && forall k :: 0 <= k < |r| ==> r[k] == ContainerFrom(resp.body.value[k]))
  {
    if Delivered(resp) then
      var cs := resp.body.value;
      seq(|cs|, k requires 0 <= k < |cs| => ContainerFrom(cs[k]))
    else []
  }

  /** `inspectContainer`: the mapped record, or nothing on any failure. */
  function InspectContainer(resp: Response<RawContainer>): (r: Option<ContainerInfo>)
    ensures r.Some? <==> Delivered(resp)
    ensures r.Some? ==> r.value == ContainerFrom(resp.body.value)
  {
    if Delivered(resp) then Some(ContainerFrom(resp.body.value)) else None
  }

  /** `checkSystemStatus`: whether the status request came back OK. */
  function CheckSystemStatus(resp: Response<()>): (r: bool)
    ensures r <==> resp.Http? && resp.ok
  {
    match resp
    case NetworkError => false
    case Http(ok, _) => ok
  }

  // ---------------------------------------------------------------------
  // Images

  datatype RawImage = RawImage(
    idCap: string, id: string, repositoryCap: string, repository: string,
    tagCap: string, tag: string, sizeCap: string, size: string,
    createdAtCap: string, createdAt: string)

  datatype ImageInfo = ImageInfo(id: string, repository: string, tag: string, size: string, createdAt: string)

  /** The mapping of one image: an image without a tag shows "latest" and
      one without a size "0B". */
  function ImageFrom(img: RawImage): (r: ImageInfo)
    ensures r.tag != "" && r.size != ""
    ensures img.tagCap == "" && img.tag == "" ==> r.tag == "latest"
    ensures img.sizeCap == "" && img.size == "" ==> r.size == "0B"
    ensures img.tagCap != "" ==> r.tag == img.tagCap
    ensures img.sizeCap != "" ==> r.size == img.sizeCap
  {
    ImageInfo(
      Or(img.idCap, img.id),
      Or(img.repositoryCap, img.repository),
      Or(img.tagCap, Or(img.tag, "latest")),
      Or(img.sizeCap, Or(img.size, "0B")),
      Or(img.createdAtCap, img.createdAt))
  }

  /** `listImages`. */
  function ListImages(resp: Response<seq<RawImage>>): (r: seq<ImageInfo>)
    ensures !Delivered(resp) ==> r == []
    ensures Delivered(resp) ==> (|r| == |resp.body.value|
      && forall k :: 0 <= k < |r| ==> r[k] == ImageFrom(resp.body.value[k]))
  {
    if Delivered(resp) then
      var imgs := resp.body.value;
      seq(|imgs|, k requires 0 <= k < |imgs| => ImageFrom(imgs[k]))
    else []
  }

  // ---------------------------------------------------------------------
  // DNS domains

  function TrimEach(ls: seq<string>): (r: seq<string>)
    ensures |r| == |ls| && forall k :: 0 <= k < |r| ==> r[k] == Trim(ls[k])
  {
    seq(|ls|, k requires 0 <= k < |ls| => Trim(ls[k]))
  }

  /** The domains in the text of a listing: each line trimmed, the blank
      ones dropped. */
  function DomainLines(text: string): seq<string> {
    NonEmpty(TrimEach(Split(text, '\n')))
  }

  /** `listDnsDomains`. */
  function ListDnsDomains(resp: Response<string>): (r: seq<string>)
    ensures !Delivered(resp) ==> r == []
    ensures forall k :: 0 <= k < |r| ==> r[k] != "" && Trimmed(r[k])
    ensures Delivered(resp) ==> |r| <= |Split(resp.body.value, '\n')|
  {
    if !Delivered(resp) then []
    else if Trim(resp.body.value) == "" then []
    else DomainLines(resp.body.value)
  }

  /** The early answer for a blank text is the answer the line filter gives
      anyway. */
  lemma BlankTextHasNoDomains(text: string)
    requires AllSpace(text)
    ensures DomainLines(text) == []
  {
    var lines := Split(text, '\n');
    BlankPieces(text, '\n');
    NonEmptyOfBlanks(TrimEach(lines));
  }

  /** The pieces of a blank string are blank. */
  lemma {:induction false} BlankPieces(s: string, d: char)
    requires AllSpace(s)
    ensures forall k :: 0 <= k < |Split(s, d)| ==> AllSpace(Split(s, d)[k])
    decreases |s|
  {
    var i := IndexOf(s, d);
    if i >= 0 {
      var rest := s[i + 1..];
      assert AllSpace(rest);
      BlankPieces(rest, d);
      assert Split(s, d) == [s[..i]] + Split(rest, d);
    }
  }

  /** Every listing answer is what the line filter alone would give. */
  lemma ListDnsDomainsIsLineFilter(text: string)
    ensures ListDnsDomains(Http(true, Some(text))) == DomainLines(text)
  {
    if Trim(text) == "" {
      BlankTextHasNoDomains(text);
    }
  }

  /** A string already trimmed trims to itself. */
  lemma TrimKeepsTrimmed(s: string)
    requires Trimmed(s)
    ensures Trim(s) == s
  {
  }

  /** Domains written one per line come back from the listing unchanged. */
  lemma {:induction false} DomainsRoundTrip(ds: seq<string>)
    requires forall k :: 0 <= k < |ds| ==> ds[k] != "" && Trimmed(ds[k]) && '\n' !in ds[k]
    ensures ListDnsDomains(Http(true, Some(Join(ds, "\n")))) == ds
  {
    ListDnsDomainsIsLineFilter(Join(ds, "\n"));
    if ds != [] {
      SplitJoin(ds, '\n');
      forall k | 0 <= k < |ds| ensures Trim(ds[k]) == ds[k] {
        TrimKeepsTrimmed(ds[k]);
      }
      assert TrimEach(ds) == ds;
      NonEmptyKeeps(ds);
    }
  }

  /** `getContainerStats`: the server's list, or an empty one on failure. */
  function GetContainerStats<T>(resp: Response<seq<T>>): (r: seq<T>)
    ensures Delivered(resp) ==> r == resp.body.value
    ensures !Delivered(resp) ==> r == []
  {
    if Delivered(resp) then resp.body.value else []
  }
}

=== FILE: cider_server.dfy ===
/** The request handling of apple_container_ui/cider/main.go, the Go server
    behind the cider UI: the bounded action log `runCli` feeds, the routing
    of `/api/containers/{id}/{action}`, the listings that read a stopped
    daemon as an empty list, the action-log endpoint, and the search for
    Dockerfiles below a directory.

    The `container` tool, the clock and the file system are parameters: a
    run is its combined output and, when it failed, the error text; a clock
    reading is a number of nanoseconds; a directory tree is a value. */
module CiderServer {
  import opened Wrappers
  import opened Text

  // ---------------------------------------------------------------------
  // The action log

  /** The most entries the log keeps. */
  const MaxLogs: nat := 100

  datatype CommandLog = CommandLog(id: string, timestamp: nat, command: string, output: string, isError: bool)

  predicate Bounded(logs: seq<CommandLog>) {
    |logs| <= MaxLogs
  }

  /** The last `n` elements of `s`, all of them when there are fewer. */
  function Last<T>(s: seq<T>, n: nat): (r: seq<T>)
    ensures |r| == if |s| <= n then |s| else n
    ensures r == s[|s| - |r|..]
  {
    if |s| <= n then s else s[|s| - n..]
  }

  /** Appending an entry and dropping the oldest one when the log then
      holds more than `MaxLogs`. */
  function Append(logs: seq<CommandLog>, e: CommandLog): (r: seq<CommandLog>)
    ensures Bounded(logs) ==> r == Last(logs + [e], MaxLogs)
    ensures |r| >= 1 && r[|r| - 1] == e
  {
    var a := logs + [e];
    if |a| > MaxLogs then a[1..] else a
  }

  /** One entry offered to the log: a successful run of a quiet command is
      not recorded, anything else is appended. */
  function Record(logs: seq<CommandLog>, e: CommandLog, quiet: bool): (r: seq<CommandLog>)
    ensures quiet && !e.isError ==> r == logs
    ensures !(quiet && !e.isError) ==>
      |r| >= 1 && r[|r| - 1] == e && |r| <= |logs| + 1 && r[..|r| - 1] == logs[|logs| + 1 - |r|..]
    ensures Bounded(logs) ==> Bounded(r)
  {
    if quiet && !e.isError then logs else Append(logs, e)
  }

  /** A series of entries offered to the log in order, each with whether
      its command is quiet. */
  function Replay(logs: seq<CommandLog>, es: seq<(CommandLog, bool)>): seq<CommandLog>
    decreases |es|
  {
    if es == [] then logs
    else Replay(Record(logs, es[0].0, es[0].1), es[1..])
  }

  /** The entries of a series that the filter lets through. */
  function Kept(es: seq<(CommandLog, bool)>): seq<CommandLog>
    decreases |es|
  {
    if es == [] then []
    else Admitted(es[0].0, es[0].1) + Kept(es[1..])
  }

  /** The entry itself when the filter lets it through, nothing otherwise. */
  function Admitted(e: CommandLog, quiet: bool): seq<CommandLog> {
    if quiet && !e.isError then [] else [e]
  }

  /** On a bounded log, offering an entry keeps the newest `MaxLogs` of the
      log and what the filter admits. */
  lemma RecordIsLast(logs: seq<CommandLog>, e: CommandLog, quiet: bool)
    requires Bounded(logs)
    ensures Record(logs, e, quiet) == Last(logs + Admitted(e, quiet), MaxLogs)
  {
    if quiet && !e.isError {
      assert logs + Admitted(e, quiet) == logs;
    }
  }

  /** However many entries arrive, the log holds the newest `MaxLogs` of
      those it kept, oldest first: the cap drops from the front only. */
  lemma {:induction false} ReplayKeepsNewest(logs: seq<CommandLog>, es: seq<(CommandLog, bool)>)
    requires Bounded(logs)
    ensures Replay(logs, es) == Last(logs + Kept(es), MaxLogs)
    decreases |es|
  {
    if es != [] {
      var head := Admitted(es[0].0, es[0].1);
      var next := Record(logs, es[0].0, es[0].1);
      RecordIsLast(logs, es[0].0, es[0].1);
      ReplayKeepsNewest(next, es[1..]);
      LastOfLast(logs + head, Kept(es[1..]), MaxLogs);
      AppendAssoc(logs, head, Kept(es[1..]));
    }
  }

  lemma AppendAssoc<T>(a: seq<T>, b: seq<T>, c: seq<T>)
    ensures a + b + c == a + (b + c)
  {
  }

  /** Cutting to the last `n` before appending more does not change the
      last `n` afterwards. */
  lemma LastOfLast<T>(s: seq<T>, t: seq<T>, n: nat)
    ensures Last(Last(s, n) + t, n) == Last(s + t, n)
  {
    var u := Last(s, n) + t;
    var v := s + t;
    if |s| <= n {
      assert u == v;
    } else {
      assert u == v[|v| - |u|..];
      assert |u| >= n;
      assert u[|u| - n..] == v[|v| - n..];
    }
  }

  /** The entry one clock reading gives: the reading in decimal is its
      identifier and the reading is its time. */
  function Entry(command: string, output: string, isError: bool, now: nat): CommandLog {
    CommandLog(Decimal(now), now, command, output, isError)
  }

  /** The noise filter of `logAction` as written: a substring test for
      each polling phrase. */
  predicate Noisy(command: string) {
    Contains(command, "ls --all") || Contains(command, "image list") || Contains(command, "top") || Contains(command, "stats")
  }

  /** `logAction` as written. */
  function LogActionAsWritten(logs: seq<CommandLog>, command: string, output: string, isError: bool, now: nat): (r: seq<CommandLog>)
    ensures Noisy(command) && !isError ==> r == logs
    ensures !Noisy(command) || isError ==>
      |r| >= 1 && r[|r| - 1] == Entry(command, output, isError, now)
      && |r| <= |logs| + 1 && r[..|r| - 1] == logs[|logs| + 1 - |r|..]
    ensures Bounded(logs) ==> Bounded(r)
  {
    Record(logs, Entry(command, output, isError, now), Noisy(command))
  }

  /** A command holding a polling phrase is noisy. */
  lemma NoisyAt(pre: string, phrase: string, post: string)
    requires phrase in {"ls --all", "image list", "top", "stats"}
    ensures Noisy(pre + phrase + post)
  {
    assert OccursAt(phrase, phrase, 0) by { assert phrase[0..|phrase|] == phrase; }
    OccursShift(pre, phrase, post, phrase, 0);
    ContainsWitness(pre + phrase + post, phrase, |pre|);
  }

  /** "stop" holds "top": a successful `container stop` never reaches the
      log written this way, whatever container it stops. */
  lemma StopNeverLogged(logs: seq<CommandLog>, id: string, output: string, now: nat)
    ensures LogActionAsWritten(logs, Command(["stop", id]), output, false, now) == logs
  {
    StopCommand(id);
    NoisyAt("container s", "top", " " + id);
  }

  lemma StopCommand(id: string)
    ensures Command(["stop", id]) == "container s" + "top" + (" " + id)
  {
    assert Join(["stop", id], " ") == "stop" + " " + id;
    assert "container " + "stop" == "container s" + "top";
  }

  /** The words of `ws` include `w`. */
  predicate HasWord(ws: seq<string>, w: string) {
    exists i :: 0 <= i < |ws| && ws[i] == w
  }

  /** The words of `ws` include `a` directly followed by `b`. */
  predicate HasPair(ws: seq<string>, a: string, b: string) {
    exists i :: 0 <= i && i + 1 < |ws| && ws[i] == a && ws[i + 1] == b
  }

  /** The polling filter on the arguments of a run, word by word: the
      container and image listings and the `top` and `stats` commands. */
  predicate Quiet(args: seq<string>) {
    HasPair(args, "ls", "--all") || HasPair(args, "image", "list") || HasWord(args, "top") || HasWord(args, "stats")
  }

  /** The command line `runCli` reports. */
  function Command(args: seq<string>): string {
    "container " + Join(args, " ")
  }

  /** `logAction` with the polling filter applied to the words of the
      command. */
  function LogAction(logs: seq<CommandLog>, args: seq<string>, output: string, isError: bool, now: nat): (r: seq<CommandLog>)
    ensures Quiet(args) && !isError ==> r == logs
    ensures !Quiet(args) || isError ==>
      |r| >= 1 && r[|r| - 1] == Entry(Command(args), output, isError, now)
      && |r| <= |logs| + 1 && r[..|r| - 1] == logs[|logs| + 1 - |r|..]
    ensures Bounded(logs) ==> Bounded(r)
  {
    Record(logs, Entry(Command(args), output, isError, now), Quiet(args))
  }

  /** Word by word, a successful stop is recorded, as its last entry,
      unless the container's own name is a polling word. */
  lemma StopLogged(logs: seq<CommandLog>, id: string, output: string, now: nat)
    requires id != "top" && id != "stats"
    ensures !Quiet(["stop", id])
    ensures var r := LogAction(logs, ["stop", id], output, false, now);
      |r| >= 1 && r[|r| - 1] == Entry(Command(["stop", id]), output, false, now)
  {
    var args := ["stop", id];
    assert !HasWord(args, "top") by {
      assert "stop" != "top";
    }
    assert !HasWord(args, "stats") by {
      assert "stop" != "stats";
    }
    assert !HasPair(args, "ls", "--all") by {
      assert "stop" != "ls";
    }
    assert !HasPair(args, "image", "list") by {
      assert "stop" != "image";
    }
  }

  /** The listings the UI polls stay out of the log when they succeed,
      under either filter. */
  lemma PollsStayQuiet()
    ensures Quiet(["ls", "--all", "--format", "json"])
    ensures Quiet(["image", "list", "--format", "json"])
    ensures Quiet(["stats", "--no-stream", "--format", "json"])
  {
    var ls := ["ls", "--all", "--format", "json"];
    var images := ["image", "list", "--format", "json"];
    var stats := ["stats", "--no-stream", "--format", "json"];
    assert HasPair(ls, "ls", "--all") by { assert ls[0] == "ls" && ls[1] == "--all"; }
    assert HasPair(images, "image", "list") by { assert images[0] == "image" && images[1] == "list"; }
    assert HasWord(stats, "stats") by { assert stats[0] == "stats"; }
  }

  /** The command line of a four-argument run, grouped around its first
      argument and around its first two. */
  lemma CommandOfFour(a: string, b: string, c: string, d: string)
    ensures Command([a, b, c, d]) == "container " + a + (" " + b + " " + c + " " + d)
    ensures Command([a, b, c, d]) == "container " + (a + " " + b) + (" " + c + " " + d)
  {
    var ws := [a, b, c, d];
    assert Join(ws[3..], " ") == d;
    assert Join(ws[2..], " ") == c + " " + d;
    assert Join(ws[1..], " ") == b + " " + (c + " " + d);
  }

  /** The filter as written also keeps the polled listings out. */
  lemma PollsNoisy()
    ensures Noisy(Command(["ls", "--all", "--format", "json"]))
    ensures Noisy(Command(["image", "list", "--format", "json"]))
    ensures Noisy(Command(["stats", "--no-stream", "--format", "json"]))
  {
    ListingNoisy();
    ImagesNoisy();
    StatsNoisy();
  }

  lemma ListingNoisy()
    ensures Noisy(Command(["ls", "--all", "--format", "json"]))
  {
    CommandOfFour("ls", "--all", "--format", "json");
    assert "ls" + " " + "--all" == "ls --all";
    NoisyAt("container ", "ls --all", " " + "--format" + " " + "json");
  }

  lemma ImagesNoisy()
    ensures Noisy(Command(["image", "list", "--format", "json"]))
  {
    CommandOfFour("image", "list", "--format", "json");
    assert "image" + " " + "list" == "image list";
    NoisyAt("container ", "image list", " " + "--format" + " " + "json");
  }

  lemma StatsNoisy()
    ensures Noisy(Command(["stats", "--no-stream", "--format", "json"]))
  {
    CommandOfFour("stats", "--no-stream", "--format", "json");
    NoisyAt("container ", "stats", " " + "--no-stream" + " " + "--format" + " " + "json");
  }

  // ---------------------------------------------------------------------
  // runCli

  /** One run of the `container` tool: its combined output and, when it
      exited with an error, the error's text. */
  datatype Run = Run(output: string, err: Option<string>)

  /** The output a run leaves in the log. */
  function LoggedOutput(run: Run): (r: string)
    ensures run.err.Some? ==> StartsWith(r, "Error: ") && EndsWith(r, run.output)
    ensures run.err.None? ==> r == run.output
  {
    match run.err
    case None => run.output
    case Some(m) =>
      var r := "Error: " + m + "\nOutput: " + run.output;
      assert r[..7] == "Error: ";
      assert r[|r| - |run.output|..] == run.output;
      r
  }

  /** `runCli`: the log after the run, through the substring filter of
      `logAction`. What the caller sees is the run itself. */
  function RunCli(logs: seq<CommandLog>, args: seq<string>, run: Run, now: nat): (r: seq<CommandLog>)
    ensures Noisy(Command(args)) && run.err.None? ==> r == logs
    ensures !Noisy(Command(args)) || run.err.Some? ==>
      |r| >= 1 && r[|r| - 1].command == Command(args) && r[|r| - 1].isError == run.err.Some?
      && (run.err.Some? ==> StartsWith(r[|r| - 1].output, "Error: "))
      && |r| <= |logs| + 1 && r[..|r| - 1] == logs[|logs| + 1 - |r|..]
    ensures Bounded(logs) ==> Bounded(r)
  {
    LogActionAsWritten(logs, Command(args), LoggedOutput(run), run.err.Some?, now)
  }

  /** `runCli` with the corrected, word-by-word filter. */
  function RunCliFixed(logs: seq<CommandLog>, args: seq<string>, run: Run, now: nat): (r: seq<CommandLog>)
    ensures Quiet(args) && run.err.None? ==> r == logs
    ensures !Quiet(args) || run.err.Some? ==>
      |r| >= 1 && r[|r| - 1].command == Command(args) && r[|r| - 1].isError == run.err.Some?
      && (run.err.Some? ==> StartsWith(r[|r| - 1].output, "Error: "))
      && |r| <= |logs| + 1 && r[..|r| - 1] == logs[|logs| + 1 - |r|..]
    ensures Bounded(logs) ==> Bounded(r)
  {
    LogAction(logs, args, LoggedOutput(run), run.err.Some?, now)
  }

  // ---------------------------------------------------------------------
  // Replies

  datatype Reply = Reply(code: nat, body: string)

  /** `http.Error`: the status and the message on a line of its own. */
  function Error(code: nat, message: string): (r: Reply)
    ensures r.code == code && StartsWith(r.body, message) && |r.body| == |message| + 1
  {
    var r := Reply(code, message + "\n");
    assert r.body[..|message|] == message;
    r
  }

  /** The message of a failed run. */
  function CliError(m: string, output: string): string {
    "CLI Error: " + m + "\nOutput: " + output
  }

  /** The answer to a run: 500 with the error when it failed, 200 with no
      body otherwise. */
  function RunReply(run: Run): (r: Reply)
    ensures r.code == 200 <==> run.err.None?
    ensures r.code == 200 || r.code == 500
    ensures run.err.None? ==> r.body == ""
  {
    match run.err
    case None => Reply(200, "")
    case Some(m) => Error(500, CliError(m, run.output))
  }

  // ---------------------------------------------------------------------
  // Listings

  /** The outputs that mean the daemon is not running. */
  predicate DaemonDown(output: string) {
    Contains(output, "container system start") || Contains(output, "XPC connection error") || Contains(output, "Connection invalid")
  }

  /** `handleListContainers` and `handleListImages`: the tool's output on
      success, an empty list when the daemon is down, and 500 otherwise. */
  function HandleListing(logs: seq<CommandLog>, args: seq<string>, run: Run, now: nat): (r: (Reply, seq<CommandLog>))
    ensures run.err.None? ==> r.0 == Reply(200, run.output)
    ensures run.err.Some? ==> (r.0.code == 200 <==> DaemonDown(run.output))
    ensures run.err.Some? && DaemonDown(run.output) ==> r.0.body == "[]"
    ensures run.err.Some? && !DaemonDown(run.output) ==> r.0.code == 500 && StartsWith(r.0.body, "CLI Error: ")
    ensures r.1 == RunCli(logs, args, run, now)
  {
    var logs' := RunCli(logs, args, run, now);
    match run.err
    case None => (Reply(200, run.output), logs')
    case Some(m) =>
      if DaemonDown(run.output) then (Reply(200, "[]"), logs')
      else
        var msg := CliError(m, run.output);
        assert StartsWith(msg, "CLI Error: ") by { assert msg[..11] == "CLI Error: "; }
        assert StartsWith(Error(500, msg).body, "CLI Error: ") by {
          var b := Error(500, msg).body;
          assert b[..11] == b[..|msg|][..11];
        }
        (Error(500, msg), logs')
  }

  /** Polling either listing while it succeeds leaves the log as it was. */
  lemma ListingsLeaveLog(logs: seq<CommandLog>, run: Run, now: nat)
    requires run.err.None?
    ensures HandleListing(logs, ["ls", "--all", "--format", "json"], run, now).1 == logs
    ensures HandleListing(logs, ["image", "list", "--format", "json"], run, now).1 == logs
  {
    ListingNoisy();
    ImagesNoisy();
  }

  /** `handleGetStats`: always 200, with an empty list when the tool
      fails. A successful poll stays out of the log; a failed one is
      logged as an error. */
  function HandleStats(logs: seq<CommandLog>, run: Run, now: nat): (r: (Reply, seq<CommandLog>))
    ensures r.0.code == 200
    ensures run.err.None? ==> r.0.body == run.output && r.1 == logs
    ensures run.err.Some? ==> r.0.body == "[]" && |r.1| >= 1 && r.1[|r.1| - 1].isError
  {
    StatsNoisy();
    var logs' := RunCli(logs, ["stats", "--no-stream", "--format", "json"], run, now);
    match run.err
    case None => (Reply(200, run.output), logs')
    case Some(_) => (Reply(200, "[]"), logs')
  }

  // ---------------------------------------------------------------------
  // Container actions

  /** The segments of a request path between its slashes, leading and
      trailing slashes removed first. */
  function Segments(path: string): (r: seq<string>)
    ensures |r| >= 1
  {
    Split(TrimChar(path, '/'), '/')
  }

  /** `handleContainerAction`: the third segment names the container and
      the fourth the action, which must be `start` or `stop`. */
  function HandleContainerAction(path: string, logs: seq<CommandLog>, run: Run, now: nat): (r: (Reply, seq<CommandLog>))
    ensures |Segments(path)| < 4 ==> r.0 == Error(400, "invalid path") && r.1 == logs
    ensures |Segments(path)| >= 4 && Segments(path)[3] != "start" && Segments(path)[3] != "stop" ==>
      r.0 == Error(400, "invalid action") && r.1 == logs
    ensures |Segments(path)| >= 4 && (Segments(path)[3] == "start" || Segments(path)[3] == "stop") ==>
      r.1 == RunCli(logs, [Segments(path)[3], Segments(path)[2]], run, now)
      && (r.0.code == 200 <==> run.err.None?) && (r.0.code == 500 <==> run.err.Some?)
  {
    var parts := Segments(path);
    if |parts| < 4 then (Error(400, "invalid path"), logs)
    else
      var id := parts[2];
      var action := parts[3];
      if action != "start" && action != "stop" then (Error(400, "invalid action"), logs)
      else (RunReply(run), RunCli(logs, [action, id], run, now))
  }

  /** The path the UI requests for an action splits back into the
      container and the action. */
  lemma ActionPathSegments(id: string, action: string)
    requires id != "" && action != "" && '/' !in id && '/' !in action
    ensures Segments("/api/containers/" + id + "/" + action) == ["api", "containers", id, action]
  {
    var ps := ["api", "containers", id, action];
    var inner := Join(ps, "/");
    JoinOfFour(ps);
    assert "/api/containers/" + id + "/" + action == "/" + inner;
    InnerTrimmed(inner, action);
    RouteWordsFree();
    FreeOfFour("api", "containers", id, action, '/');
    SplitJoin(ps, '/');
  }

  lemma RouteWordsFree()
    ensures '/' !in "api" && '/' !in "containers"
  {
    var c := "containers";
    assert |c| == 10;
    assert c[0] == 'c' && c[1] == 'o' && c[2] == 'n' && c[3] == 't' && c[4] == 'a';
    assert c[5] == 'i' && c[6] == 'n' && c[7] == 'e' && c[8] == 'r' && c[9] == 's';
  }

  lemma FreeOfFour(a: string, b: string, c: string, d: string, x: char)
    requires x !in a && x !in b && x !in c && x !in d
    ensures forall k :: 0 <= k < |[a, b, c, d]| ==> x !in [a, b, c, d][k]
  {
  }

  lemma JoinOfFour(ps: seq<string>)
    requires |ps| == 4
    ensures Join(ps, "/") == ps[0] + "/" + ps[1] + "/" + ps[2] + "/" + ps[3]
  {
    assert Join(ps[3..], "/") == ps[3];
    assert Join(ps[2..], "/") == ps[2] + "/" + ps[3];
    assert Join(ps[1..], "/") == ps[1] + "/" + (ps[2] + "/" + ps[3]);
  }

  /** One leading slash before text that neither starts nor ends with one
      is all `strings.Trim` removes. */
  lemma InnerTrimmed(inner: string, action: string)
    requires inner != [] && inner[0] != '/' && action != [] && '/' !in action && EndsWith(inner, action)
    ensures TrimChar("/" + inner, '/') == inner
  {
    var path := "/" + inner;
    assert path[1..] == inner;
    assert TrimCharStart(path, '/') == inner;
    assert inner[|inner| - 1] == action[|action| - 1];
    assert TrimCharEnd(inner, '/') == inner;
  }

  /** Starting or stopping a container by its path runs that command on
      that container. */
  lemma ActionRunsCommand(id: string, action: string, logs: seq<CommandLog>, run: Run, now: nat)
    requires id != "" && '/' !in id && (action == "start" || action == "stop")
    ensures HandleContainerAction("/api/containers/" + id + "/" + action, logs, run, now).1
      == RunCli(logs, [action, id], run, now)
  {
    assert '/' !in action;
    ActionPathSegments(id, action);
    ActionOfSegments("/api/containers/" + id + "/" + action, "api", "containers", id, action, logs, run, now);
  }

  /** A path of four segments whose last is an action runs it on the
      third. */
  lemma ActionOfSegments(path: string, a: string, b: string, id: string, action: string, logs: seq<CommandLog>, run: Run, now: nat)
    requires Segments(path) == [a, b, id, action] && (action == "start" || action == "stop")
    ensures HandleContainerAction(path, logs, run, now).1 == RunCli(logs, [action, id], run, now)
  {
  }

  /** Stopping a container through the action endpoint succeeds without
      a trace in the log, since the command holds "top". */
  lemma StopActionNotLogged(id: string, logs: seq<CommandLog>, output: string, now: nat)
    requires id != "" && '/' !in id
    ensures HandleContainerAction("/api/containers/" + id + "/" + "stop", logs, Run(output, None), now).1 == logs
  {
    var run := Run(output, None);
    var path := "/api/containers/" + id + "/" + "stop";
    assert HandleContainerAction(path, logs, run, now).1 == RunCli(logs, ["stop", id], run, now) by {
      ActionRunsCommand(id, "stop", logs, run, now);
    }
    assert RunCli(logs, ["stop", id], run, now) == logs by {
      StopNeverLogged(logs, id, LoggedOutput(run), now);
    }
  }

  /** `handleRemoveContainer`: everything after `/api/containers/` names the
      container, which is removed by force. */
  function HandleRemoveContainer(path: string, logs: seq<CommandLog>, run: Run, now: nat): (r: (Reply, seq<CommandLog>))
    ensures StripPrefix(path, "/api/containers/") == "" ==> r.0 == Error(400, "missing container id") && r.1 == logs
    ensures StripPrefix(path, "/api/containers/") != "" ==>
      r.1 == RunCli(logs, ["rm", "--force", StripPrefix(path, "/api/containers/")], run, now)
      && (r.0.code == 200 <==> run.err.None?)
  {
    var id := StripPrefix(path, "/api/containers/");
    if id == "" then (Error(400, "missing container id"), logs)
    else (RunReply(run), RunCli(logs, ["rm", "--force", id], run, now))
  }

  datatype Route = ContainerAction | RemoveContainer | NotFound

  /** The handler for paths under `/api/containers/`: four segments are an
      action, a `DELETE` otherwise a removal. */
  function Dispatch(verb: string, path: string): (r: Route)
    ensures r == ContainerAction <==> |Segments(path)| == 4
    ensures r == RemoveContainer <==> |Segments(path)| != 4 && verb == "DELETE"
  {
    if |Segments(path)| == 4 then ContainerAction
    else if verb == "DELETE" then RemoveContainer
    else NotFound
  }

  /** A request the dispatcher hands to the action handler never gets the
      "invalid path" answer. */
  lemma DispatchedPathsAreValid(verb: string, path: string, logs: seq<CommandLog>, run: Run, now: nat)
    requires Dispatch(verb, path) == ContainerAction
    ensures HandleContainerAction(path, logs, run, now).0 != Error(400, "invalid path")
  {
    assert |Error(400, "invalid action").body| != |Error(400, "invalid path").body|;
  }

  // ---------------------------------------------------------------------
  // The action-log endpoint

  datatype LogsReply = Listing(entries: seq<CommandLog>) | Cleared | NoReply

  /** `handleActionLogs`: `GET` lists the log, never null, `DELETE` empties
      it, and any other method is ignored. */
  function HandleActionLogs(verb: string, logs: seq<CommandLog>): (r: (LogsReply, seq<CommandLog>))
    ensures verb == "GET" ==> r.0 == Listing(logs) && r.1 == logs
    ensures verb == "DELETE" ==> r.0 == Cleared && r.1 == []
    ensures verb != "GET" && verb != "DELETE" ==> r.0 == NoReply && r.1 == logs
  {
    if verb == "GET" then (Listing(logs), logs)
    else if verb == "DELETE" then (Cleared, [])
    else (NoReply, logs)
  }

  /** After a `DELETE`, a `GET` lists nothing, and the next recorded run is
      the only entry. */
  lemma ClearThenList(logs: seq<CommandLog>, args: seq<string>, run: Run, now: nat)
    ensures HandleActionLogs("GET", HandleActionLogs("DELETE", logs).1).0 == Listing([])
    ensures !Noisy(Command(args)) || run.err.Some? ==> |RunCli(HandleActionLogs("DELETE", logs).1, args, run, now)| == 1
  {
    var cleared := HandleActionLogs("DELETE", logs).1;
    assert cleared == [];
  }

  // ---------------------------------------------------------------------
  // Finding Dockerfiles

  /** A file-system tree below the search's base directory. */
  datatype Node = File(name: string) | Dir(name: string, children: seq<Node>)

  /** The names the search reports. */
  predicate IsDockerfile(name: string) {
    name == "Dockerfile" || name == "Containerfile" || EndsWith(name, ".Dockerfile")
  }

  /** The directories the search does not enter. */
  predicate Skipped(name: string) {
    name == "node_modules" || StartsWith(name, ".")
  }

  /** The names below `n` along `comps` lead, through directories the search
      enters, to a Dockerfile. The empty path is `n` itself. */
  predicate Holds(n: Node, comps: seq<string>)
    decreases n
  {
    match n
    case File(name) => comps == [] && IsDockerfile(name)
    case Dir(name, cs) =>
      !Skipped(name) && comps != []
      && exists i :: 0 <= i < |cs| && cs[i].name == comps[0] && Holds(cs[i], comps[1..])
  }

  /** Each path of `ps`, under one more name. */
  function Under(name: string, ps: seq<seq<string>>): (r: seq<seq<string>>)
    ensures |r| == |ps| && forall k :: 0 <= k < |r| ==> r[k] == [name] + ps[k]
  {
    seq(|ps|, k requires 0 <= k < |ps| => [name] + ps[k])
  }

  /** The walk `filepath.Walk` makes with the search's visit function: the
      paths, relative to `n`, of the Dockerfiles it reports, in the order it
      reaches them. */
  function Walk(n: Node): seq<seq<string>>
    decreases n, 1
  {
    match n
    case File(name) => if IsDockerfile(name) then [[]] else []
    case Dir(name, cs) => if Skipped(name) then [] else WalkAll(n, cs, |cs|)
  }

  /** The walk of the first `m` children of directory `d`. */
  function WalkAll(d: Node, cs: seq<Node>, m: nat): seq<seq<string>>
    requires d.Dir? && cs == d.children && m <= |cs|
    decreases d, 0, m
  {
    if m == 0 then []
    else WalkAll(d, cs, m - 1) + Under(cs[m - 1].name, Walk(cs[m - 1]))
  }

  /** A path is among a directory's first `m` children's results exactly
      when it goes through one of them. */
  lemma {:induction false} WalkAllHas(d: Node, cs: seq<Node>, m: nat, p: seq<string>)
    requires d.Dir? && cs == d.children && m <= |cs|
    ensures p in WalkAll(d, cs, m) <==>
      p != [] && exists i :: 0 <= i < m && cs[i].name == p[0] && p[1..] in Walk(cs[i])
    decreases m
  {
    if m > 0 {
      WalkAllHas(d, cs, m - 1, p);
      var c := cs[m - 1];
      var tail := Under(c.name, Walk(c));
      assert p in tail <==> p != [] && c.name == p[0] && p[1..] in Walk(c) by {
        if p in tail {
          var k :| 0 <= k < |tail| && tail[k] == p;
          assert p[1..] == Walk(c)[k];
        }
        if p != [] && c.name == p[0] && p[1..] in Walk(c) {
          var k :| 0 <= k < |Walk(c)| && Walk(c)[k] == p[1..];
          assert tail[k] == p;
        }
      }
    }
  }

  /** The walk reports exactly the paths that lead to Dockerfiles through
      directories it enters. */
  lemma {:induction false} WalkFinds(n: Node, p: seq<string>)
    ensures p in Walk(n) <==> Holds(n, p)
    decreases n
  {
    match n
    case File(name) =>
    case Dir(name, cs) =>
      if !Skipped(name) {
        WalkAllHas(n, cs, |cs|, p);
        if p in Walk(n) {
          var i :| 0 <= i < |cs| && cs[i].name == p[0] && p[1..] in Walk(cs[i]);
          WalkFinds(cs[i], p[1..]);
        }
        if Holds(n, p) {
          var i :| 0 <= i < |cs| && cs[i].name == p[0] && Holds(cs[i], p[1..]);
          WalkFinds(cs[i], p[1..]);
        }
      }
  }

  datatype DockerfileInfo = DockerfileInfo(path: string, name: string)

  /** The directory searched: the given one, the working directory when
      none is given, and a relative one taken below the working
      directory. */
  function BaseDir(baseDir: string, cwd: string): (r: string)
    ensures StartsWith(baseDir, "/") ==> r == baseDir
    ensures baseDir == "" && StartsWith(cwd, "/") ==> r == cwd
    ensures StartsWith(cwd, "/") ==> StartsWith(r, "/")
  {
    var b := if baseDir == "" then cwd else baseDir;
    if StartsWith(b, "/") then b
    else
      var r := cwd + "/" + b;
      assert StartsWith(cwd, "/") ==> r[..1] == cwd[..1];
      r
  }

  /** The full path and the base-relative name of a found file. */
  function InfoOf(base: string, p: seq<string>): DockerfileInfo {
    if p == [] then DockerfileInfo(base, ".")
    else DockerfileInfo(base + "/" + Join(p, "/"), Join(p, "/"))
  }

  /** `handleFindDockerfiles`, with `tree` the file system at the searched
      directory. */
  function FindDockerfiles(baseDir: string, cwd: string, tree: Node): (r: seq<DockerfileInfo>)
    ensures |r| == |Walk(tree)|
    ensures forall k :: 0 <= k < |r| ==> r[k] == InfoOf(BaseDir(baseDir, cwd), Walk(tree)[k])
  {
    var base := BaseDir(baseDir, cwd);
    var ps := Walk(tree);
    seq(|ps|, k requires 0 <= k < |ps| => InfoOf(base, ps[k]))
  }

  /** Every Dockerfile reachable without entering a skipped directory is
      reported, and everything reported is one. */
  lemma FindDockerfilesExact(baseDir: string, cwd: string, tree: Node, p: seq<string>)
    ensures Holds(tree, p) ==> InfoOf(BaseDir(baseDir, cwd), p) in FindDockerfiles(baseDir, cwd, tree)
    ensures forall k :: 0 <= k < |Walk(tree)| ==> Holds(tree, Walk(tree)[k])
  {
    WalkFinds(tree, p);
    if Holds(tree, p) {
      var ps := Walk(tree);
      var k :| 0 <= k < |ps| && ps[k] == p;
      assert FindDockerfiles(baseDir, cwd, tree)[k] == InfoOf(BaseDir(baseDir, cwd), p);
    }
    forall k | 0 <= k < |Walk(tree)| ensures Holds(tree, Walk(tree)[k]) {
      WalkFinds(tree, Walk(tree)[k]);
    }
  }

  /** Nothing below a skipped directory is reported. */
  lemma SkippedDirHidesAll(name: string, cs: seq<Node>, p: seq<string>)
    requires Skipped(name)
    ensures !Holds(Dir(name, cs), p)
    ensures Walk(Dir(name, cs)) == []
  {
  }
}

=== FILE: container_cli.dfy ===
/** The server actions of apple_container_ui/ui/src/lib/container.ts that
    shell out to the `container` command-line tool: the action log kept by
    `runCli`, the normalisation of `container ls` and `container image list`
    output, and the argument string `createContainer` builds.

    The tool itself is a parameter: a run either completes with its
    standard output and error, or fails with a message. JSON parsing of the
    tool's output is left out; the listings take the parsed records. */
module ContainerCli {
  import opened Wrappers
  import opened Text

  /** JavaScript's `a || b` on two strings: an absent field and the empty
      string are both falsy. */
  function Or(a: string, b: string): string {
    if a != "" then a else b
  }

  // ---------------------------------------------------------------------
  // runCli and the action log

  datatype Exec = Done(stdout: string, stderr: string) | Failed(message: string)

  datatype CommandLog = CommandLog(command: string, output: string, isError: bool)

  /** The polling commands the log leaves out, whether they succeed or
      fail. */
  predicate Polling(command: string) {
    Contains(command, "ls --all") || Contains(command, "image list") || Contains(command, "container ls")
  }

  /** The output recorded for a completed run: the trimmed standard output,
      followed by the trimmed standard error unless it is empty or holds a
      warning. */
  function RecordedOutput(stdout: string, stderr: string): string {
    var out := Trim(stdout);
    if stderr != "" && !Contains(stderr, "WARN") then
      out + (if out != "" then "\n" else "") + "[stderr]: " + Trim(stderr)
    else out
  }

  /** `runCli`: the new action log and what the caller sees, the trimmed
      standard output or the failure message. */
  function RunCli(logs: seq<CommandLog>, command: string, e: Exec): (r: (seq<CommandLog>, Result<string, string>))
    ensures e.Done? ==> r.1 == Ok(Trim(e.stdout)) && Trimmed(r.1.value)
    ensures e.Failed? ==> r.1 == Err(e.message)
    ensures Polling(command) ==> r.0 == logs
    ensures !Polling(command) ==>
      |r.0| == |logs| + 1 && r.0[..|logs|] == logs
      && r.0[|logs|].command == command && r.0[|logs|].isError == e.Failed?
  {
    var entry :=
      if e.Done? then CommandLog(command, RecordedOutput(e.stdout, e.stderr), false)
      else CommandLog(command, e.message, true);
    var logs' := if Polling(command) then logs else logs + [entry];
    assert logs'[..|logs|] == logs;
    (logs', if e.Done? then Ok(Trim(e.stdout)) else Err(e.message))
  }

  /** The commands of a log, oldest first. */
  function Commands(logs: seq<CommandLog>): seq<string> {
    seq(|logs|, k requires 0 <= k < |logs| => logs[k].command)
  }

  /** A series of runs applied to the log in order. */
  function Replay(logs: seq<CommandLog>, runs: seq<(string, Exec)>): seq<CommandLog>
    decreases |runs|
  {
    if runs == [] then logs
    else Replay(RunCli(logs, runs[0].0, runs[0].1).0, runs[1..])
  }

  /** The commands of a series of runs that are not polling commands. */
  function Unpolled(runs: seq<(string, Exec)>): seq<string> {
    if runs == [] then []
    else (if Polling(runs[0].0) then [] else [runs[0].0]) + Unpolled(runs[1..])
  }

  /** After any series of runs the log holds exactly the non-polling
      commands, in the order they ran, after what it held before. */
  lemma {:induction false} ReplayLogsUnpolled(logs: seq<CommandLog>, runs: seq<(string, Exec)>)
    ensures Commands(Replay(logs, runs)) == Commands(logs) + Unpolled(runs)
    decreases |runs|
  {
    if runs != [] {
      var c := runs[0].0;
      var head: seq<string> := if Polling(c) then [] else [c];
      var next := RunCli(logs, c, runs[0].1).0;
      assert Commands(next) == Commands(logs) + head by {
        CommandsAfterRun(logs, c, runs[0].1);
      }
      assert Commands(Replay(logs, runs)) == Commands(next) + Unpolled(runs[1..]) by {
        ReplayLogsUnpolled(next, runs[1..]);
      }
      assert Unpolled(runs) == head + Unpolled(runs[1..]);
      AppendAssoc(Commands(logs), head, Unpolled(runs[1..]));
    }
  }

  lemma AppendAssoc<T>(a: seq<T>, b: seq<T>, c: seq<T>)
    ensures a + b + c == a + (b + c)
  {
  }

  /** One run adds its command to the log's commands unless it polls. */
  lemma CommandsAfterRun(logs: seq<CommandLog>, c: string, e: Exec)
    ensures Commands(RunCli(logs, c, e).0) == Commands(logs) + (if Polling(c) then [] else [c])
  {
    var next := RunCli(logs, c, e).0;
    if !Polling(c) {
      assert Commands(next)[..|logs|] == Commands(logs) by {
        assert next[..|logs|] == logs;
      }
    }
  }

  /** `clearActionLogs`. */
  function ClearActionLogs(logs: seq<CommandLog>): (r: seq<CommandLog>)
    ensures |r| == 0
  {
    []
  }

  /** The status probe `checkSystemStatus` runs never reaches the log. */
  lemma StatusProbeNotLogged()
    ensures Polling("container ls")
  {
    PollingAt("", "container ls", "");
    assert "" + "container ls" + "" == "container ls";
  }

  /** The container listing the UI polls never reaches the log. */
  lemma ContainerListingNotLogged()
    ensures Polling("container ls --all --format json")
  {
    PollingAt("", "container ls", " --all --format json");
    assert "" + "container ls" + " --all --format json" == "container ls --all --format json";
  }

  /** The image listing the UI polls never reaches the log. */
  lemma ImageListingNotLogged()
    ensures Polling("container image list --format json")
  {
    PollingAt("container ", "image list", " --format json");
    assert "container " + "image list" + " --format json" == "container image list --format json";
  }

  /** A command holding one of the polling phrases is a polling command. */
  lemma PollingAt(pre: string, phrase: string, post: string)
    requires phrase in {"ls --all", "image list", "container ls"}
    ensures Polling(pre + phrase + post)
  {
    assert OccursAt(phrase, phrase, 0) by { assert phrase[0..|phrase|] == phrase; }
    OccursShift(pre, phrase, post, phrase, 0);
    ContainsWitness(pre + phrase + post, phrase, |pre|);
  }

  // ---------------------------------------------------------------------
  // listContainers

  datatype State = Running | Stopped | Paused | Exited | Dead | Unknown

  /** The state read off a status string, ignoring case. */
  function StateOf(status: string): (r: State)
    ensures r == Running || r == Exited || r == Unknown
  {
    var lower := Lower(status);
    if Contains(lower, "up") || Contains(lower, "running") then Running
    else if Contains(lower, "exited") || Contains(lower, "stopped") then Exited
    else Unknown
  }

  /** The state in terms of where the keywords occur in the lower-cased
      status: running when "up" or "running" occurs anywhere, exited when
      neither does but "exited" or "stopped" does, unknown otherwise. */
  lemma StateByOccurrence(status: string)
    ensures var l := Lower(status);
      StateOf(status) == Running <==>
        (exists i :: OccursAt(l, "up", i)) || (exists i :: OccursAt(l, "running", i))
    ensures var l := Lower(status);
      StateOf(status) == Exited <==>
        !(exists i :: OccursAt(l, "up", i)) && !(exists i :: OccursAt(l, "running", i))
        && ((exists i :: OccursAt(l, "exited", i)) || (exists i :: OccursAt(l, "stopped", i)))
  {
    var l := Lower(status);
    ContainsAt(l, "up");
    ContainsAt(l, "running");
    ContainsAt(l, "exited");
    ContainsAt(l, "stopped");
  }

  /** The state does not depend on the status's letter case. */
  lemma StateIgnoresCase(status: string)
    ensures StateOf(Lower(status)) == StateOf(status)
  {
    LowerIdempotent(status);
  }

  const LibraryPrefix := "docker.io/library/"

  /** The fields of one container record the normalisation reads; an
      absent field is the empty string. */
  datatype RawContainer = RawContainer(
    status: string, statusCap: string,
    idCap: string, id: string, configId: string,
    image: string, configImage: string,
    names: string, name: string)

  datatype ContainerInfo = ContainerInfo(id: string, image: string, names: string, status: string, state: State)

  /** The normalisation of one record: the first present identifier, image
      and name, the Docker Hub library prefix dropped from the image, and
      the state read off the status. */
  function Normalize(c: RawContainer): (r: ContainerInfo)
    ensures r.state == StateOf(r.status)
    ensures r.status == "" <==> c.status == "" && c.statusCap == ""
    ensures r.id == "" <==> c.idCap == "" && c.id == "" && c.configId == ""
    ensures var raw := Or(c.image, c.configImage);
      if StartsWith(raw, LibraryPrefix) then LibraryPrefix + r.image == raw else r.image == raw
  {
    var status := Or(c.status, c.statusCap);
    ContainerInfo(
      Or(c.idCap, Or(c.id, c.configId)),
      StripPrefix(Or(c.image, c.configImage), LibraryPrefix),
      Or(c.names, c.name),
      status,
      StateOf(status))
  }

  /** A failure message that means the container system is not running. */
  predicate SystemDown(message: string) {
    Contains(message, "connection refused") || Contains(message, "daemon is not running")
    || Contains(message, "apiserver is not running")
  }

  /** `listContainers`: every record normalised, in order; a failure that
      means the system is down gives an empty list and any other failure is
      passed on. */
  function ListContainers(out: Result<seq<RawContainer>, string>): (r: Result<seq<ContainerInfo>, string>)
    ensures r.Err? <==> out.Err? && !SystemDown(out.error)
    ensures r.Err? ==> r.error == out.error
    ensures out.Ok? ==> (r.Ok? && |r.value| == |out.value|
      && forall k :: 0 <= k < |r.value| ==> r.value[k] == Normalize(out.value[k]))
    ensures out.Err? && r.Ok? ==> r.value == []
  {
    match out
    case Ok(cs) => Ok(seq(|cs|, k requires 0 <= k < |cs| => Normalize(cs[k])))
    case Err(m) => if SystemDown(m) then Ok([]) else Err(m)
  }

  // ---------------------------------------------------------------------
  // listImages

  /** Splitting an image reference into repository and tag: at its last
      colon when that is not the first character, otherwise the whole
      reference with the tag "latest". */
  function SplitReference(reference: string): (r: (string, string))
    ensures |reference| > 0 && ':' in reference[1..] ==>
      r.0 + ":" + r.1 == reference && r.0 != "" && ':' !in r.1
    ensures !(|reference| > 0 && ':' in reference[1..]) ==> r == (reference, "latest")
  {
    var i := LastIndexOf(reference, ':');
    if i > 0 then
      assert reference == reference[..i] + ":" + reference[i + 1..];
      (reference[..i], reference[i + 1..])
    else
      assert |reference| > 0 ==> reference == [reference[0]] + reference[1..];
      (reference, "latest")
  }

  /** A repository and a colon-free tag joined by a colon split back into
      the same two. */
  lemma ReferenceRoundTrip(repo: string, tag: string)
    requires repo != "" && ':' !in tag
    ensures SplitReference(repo + ":" + tag) == (repo, tag)
  {
    var s := repo + ":" + tag;
    LastIndexOfBefore(repo, ':', tag);
    assert s[..|repo|] == repo;
    assert s[|repo| + 1..] == tag;
  }

  const DigestPrefix := "sha256:"

  datatype RawImage = RawImage(reference: string, digest: string, fullSize: string, descriptorSize: string)

  datatype ImageInfo = ImageInfo(id: string, name: string, repository: string, tag: string, size: string, createdAt: string)

  /** One image of the listing: the reference kept whole as the name used
      for deletion, split into repository and tag, the library prefix
      dropped from the repository and the digest prefix from the
      identifier. */
  function ImageFrom(img: RawImage): (r: ImageInfo)
    ensures r.name == img.reference
    ensures StartsWith(img.digest, DigestPrefix) ==> DigestPrefix + r.id == img.digest
    ensures !StartsWith(img.digest, DigestPrefix) ==> r.id == img.digest
    ensures r.tag == SplitReference(img.reference).1
    ensures var repo := SplitReference(img.reference).0;
      if StartsWith(repo, LibraryPrefix) then LibraryPrefix + r.repository == repo else r.repository == repo
    ensures r.size != ""
  {
    var (repo, tag) := SplitReference(img.reference);
    ImageInfo(
      StripPrefix(img.digest, DigestPrefix),
      img.reference,
      StripPrefix(repo, LibraryPrefix),
      tag,
      Or(img.fullSize, Or(img.descriptorSize, "-")),
      "-")
  }

  /** An official Docker Hub image lists under its short name and its tag. */
  lemma LibraryImageShortName(short: string, tag: string, digest: string, size: string)
    requires ':' !in tag
    ensures var r := ImageFrom(RawImage(LibraryPrefix + short + ":" + tag, digest, size, ""));
      r.repository == short && r.tag == tag
  {
    ReferenceRoundTrip(LibraryPrefix + short, tag);
    assert (LibraryPrefix + short)[..|LibraryPrefix|] == LibraryPrefix;
    assert LibraryPrefix + short + ":" + tag == (LibraryPrefix + short) + ":" + tag;
  }

  /** A failure message the image listing treats as the system being down;
      unlike the container listing it does not include the stopped API
      server. */
  predicate ImagesSystemDown(message: string) {
    Contains(message, "connection refused") || Contains(message, "daemon is not running")
  }

  /** `listImages`. */
  function ListImages(out: Result<seq<RawImage>, string>): (r: Result<seq<ImageInfo>, string>)
    ensures r.Err? <==> out.Err? && !ImagesSystemDown(out.error)
    ensures r.Err? ==> r.error == out.error
    ensures out.Ok? ==> (r.Ok? && |r.value| == |out.value|
      && forall k :: 0 <= k < |r.value| ==> r.value[k] == ImageFrom(out.value[k]))
    ensures out.Err? && r.Ok? ==> r.value == []
  {
    match out
    case Ok(imgs) => Ok(seq(|imgs|, k requires 0 <= k < |imgs| => ImageFrom(imgs[k])))
    case Err(m) => if ImagesSystemDown(m) then Ok([]) else Err(m)
  }

  /** With only the API server reported down, the container listing comes
      back empty while the image listing fails. */
  lemma ApiServerDownAsymmetry(m: string)
    requires Contains(m, "apiserver is not running") && !ImagesSystemDown(m)
    ensures ListContainers(Err(m)) == Ok([])
    ensures ListImages(Err(m)) == Err(m)
  {
  }

  // ---------------------------------------------------------------------
  // createContainer

  datatype Mapping = Mapping(host: string, container: string)

  datatype EnvVar = EnvVar(key: string, value: string)

  /** The form's configuration; `cpus` 0 and the empty memory and command
      strings stand for fields left unset. */
  datatype Config = Config(
    image: string, command: string,
    ports: seq<Mapping>, env: seq<EnvVar>, volumes: seq<Mapping>,
    cpus: nat, memory: string)

  /** One group of flags followed by a space, or nothing when empty. */
  function Section(flags: seq<string>): string {
    if |flags| > 0 then Join(flags, " ") + " " else ""
  }

  function PortFlags(ps: seq<Mapping>): seq<string> {
    seq(|ps|, k requires 0 <= k < |ps| => "-p " + ps[k].host + ":" + ps[k].container)
  }

  function EnvFlags(es: seq<EnvVar>): seq<string> {
    seq(|es|, k requires 0 <= k < |es| => "-e " + es[k].key + "=" + es[k].value)
  }

  function VolumeFlags(vs: seq<Mapping>): seq<string> {
    seq(|vs|, k requires 0 <= k < |vs| => "-v " + vs[k].host + ":" + vs[k].container)
  }

  /** The options placed before the image. */
  function Options(c: Config): string {
    "-d " + CpuOption(c) + MemoryOption(c)
    + Section(PortFlags(c.ports)) + Section(EnvFlags(c.env)) + Section(VolumeFlags(c.volumes))
  }

  /** The image and the command that follows it, if any. */
  function Tail(c: Config): string {
    c.image + (if c.command != "" then " " + c.command else "")
  }

  /** The arguments of `container run`: detached first, then the options,
      and the image followed by the command last. */
  function RunArgs(c: Config): (r: string)
    ensures StartsWith(r, "-d ")
    ensures EndsWith(r, Tail(c))
  {
    var r := Options(c) + Tail(c);
    assert r[..3] == "-d ";
    assert r[|r| - |Tail(c)|..] == Tail(c);
    r
  }

  /** `createContainer`'s command line. */
  function CreateCommand(c: Config): (r: string)
    ensures StartsWith(r, "container run -d ")
    ensures EndsWith(r, Tail(c))
  {
    StartsWithFront("container run ", RunArgs(c), "-d ");
    EndsWithFront("container run ", RunArgs(c), Tail(c));
    assert "container run " + "-d " == "container run -d ";
    "container run " + RunArgs(c)
  }

  /** The arguments carry every requested port, variable and volume as its
      own flag, and the memory limit when one is given. */
  lemma RunArgsCarryEveryFlag(c: Config)
    ensures forall k :: 0 <= k < |c.ports| ==>
      Contains(RunArgs(c), "-p " + c.ports[k].host + ":" + c.ports[k].container)
    ensures forall k :: 0 <= k < |c.env| ==>
      Contains(RunArgs(c), "-e " + c.env[k].key + "=" + c.env[k].value)
    ensures forall k :: 0 <= k < |c.volumes| ==>
      Contains(RunArgs(c), "-v " + c.volumes[k].host + ":" + c.volumes[k].container)
    ensures c.memory != "" ==> Contains(RunArgs(c), "--memory " + c.memory)
  {
    forall k | 0 <= k < |c.ports|
      ensures Contains(RunArgs(c), "-p " + c.ports[k].host + ":" + c.ports[k].container)
    {
      PortCarried(c, k);
    }
    forall k | 0 <= k < |c.env|
      ensures Contains(RunArgs(c), "-e " + c.env[k].key + "=" + c.env[k].value)
    {
      EnvCarried(c, k);
    }
    forall k | 0 <= k < |c.volumes|
      ensures Contains(RunArgs(c), "-v " + c.volumes[k].host + ":" + c.volumes[k].container)
    {
      VolumeCarried(c, k);
    }
    if c.memory != "" {
      MemoryCarried(c);
    }
  }

  function CpuOption(c: Config): string {
    if c.cpus > 0 then "--cpus " + Decimal(c.cpus) + " " else ""
  }

  function MemoryOption(c: Config): string {
    if c.memory != "" then "--memory " + c.memory + " " else ""
  }

  lemma PortCarried(c: Config, k: int)
    requires 0 <= k < |c.ports|
    ensures Contains(RunArgs(c), PortFlags(c.ports)[k])
  {
    var pre := "-d " + CpuOption(c) + MemoryOption(c);
    var post := Section(EnvFlags(c.env)) + Section(VolumeFlags(c.volumes)) + Tail(c);
    assert RunArgs(c) == pre + Section(PortFlags(c.ports)) + post;
    SectionIn(pre, PortFlags(c.ports), post, k);
  }

  lemma EnvCarried(c: Config, k: int)
    requires 0 <= k < |c.env|
    ensures Contains(RunArgs(c), EnvFlags(c.env)[k])
  {
    var pre := "-d " + CpuOption(c) + MemoryOption(c) + Section(PortFlags(c.ports));
    var post := Section(VolumeFlags(c.volumes)) + Tail(c);
    assert RunArgs(c) == pre + Section(EnvFlags(c.env)) + post;
    SectionIn(pre, EnvFlags(c.env), post, k);
  }

  lemma VolumeCarried(c: Config, k: int)
    requires 0 <= k < |c.volumes|
    ensures Contains(RunArgs(c), VolumeFlags(c.volumes)[k])
  {
    var pre := "-d " + CpuOption(c) + MemoryOption(c) + Section(PortFlags(c.ports)) + Section(EnvFlags(c.env));
    assert RunArgs(c) == pre + Section(VolumeFlags(c.volumes)) + Tail(c);
    SectionIn(pre, VolumeFlags(c.volumes), Tail(c), k);
  }

  lemma MemoryCarried(c: Config)
    requires c.memory != ""
    ensures Contains(RunArgs(c), "--memory " + c.memory)
  {
    var m := "--memory " + c.memory;
    var pre := "-d " + CpuOption(c);
    var post := Section(PortFlags(c.ports)) + Section(EnvFlags(c.env)) + Section(VolumeFlags(c.volumes)) + Tail(c);
    assert RunArgs(c) == pre + (m + " ") + post by {
      Regroup("-d ", CpuOption(c), m + " ", Section(PortFlags(c.ports)), Section(EnvFlags(c.env)), Section(VolumeFlags(c.volumes)), Tail(c));
    }
    assert OccursAt(m + " ", m, 0) by { assert (m + " ")[0..|m|] == m; }
    OccursShift(pre, m + " ", post, m, 0);
    ContainsWitness(RunArgs(c), m, |pre|);
  }

  /** Seven pieces of text, the first two and the last four taken
      together. */
  lemma Regroup(a: string, b: string, c: string, d: string, e: string, f: string, g: string)
    ensures a + b + c + d + e + f + g == (a + b) + c + (d + e + f + g)
  {
  }

  /** A flag of a group occurs wherever the group's section is placed. */
  lemma SectionIn(pre: string, flags: seq<string>, post: string, k: int)
    requires 0 <= k < |flags|
    ensures Contains(pre + Section(flags) + post, flags[k])
  {
    var i := JoinOccurs(flags, " ", k);
    assert OccursAt(Section(flags), flags[k], i) by {
      OccursShift([], Join(flags, " "), " ", flags[k], i);
      assert [] + Join(flags, " ") + " " == Section(flags);
    }
    assert OccursAt(pre + Section(flags) + post, flags[k], |pre| + i) by {
      OccursShift(pre, Section(flags), post, flags[k], i);
    }
    ContainsWitness(pre + Section(flags) + post, flags[k], |pre| + i);
  }
}

=== FILE: container_details.dfy ===
/** The pure helpers of the container details page,
    apple_container_ui/cider-ui/src/pages/ContainerDetailsPage.tsx: moving
    through the container's file system, reading the listing `ls -la`
    prints, ordering it, bounding the streamed log, and closing terminal
    tabs. The page's React state is modelled as the values these helpers
    take and return. */
module ContainerDetails {
  import opened Wrappers
  import opened Text

  // ---------------------------------------------------------------------
  // Paths

  /** A path component: non-empty and free of slashes. */
  predicate Segment(s: string) {
    s != "" && '/' !in s
  }

  predicate AllSegments(ss: seq<string>) {
    forall k :: 0 <= k < |ss| ==> Segment(ss[k])
  }

  /** The components of a path: its non-empty pieces between slashes. */
  function Segments(path: string): (r: seq<string>)
    ensures AllSegments(r)
  {
    var ps := Split(path, '/');
    var r := NonEmpty(ps);
    assert forall k :: 0 <= k < |r| ==> '/' !in r[k] by {
      forall k | 0 <= k < |r| ensures '/' !in r[k] {
        var j :| 0 <= j < |ps| && ps[j] == r[k];
      }
    }
    r
  }

  /** The absolute path naming the given components. */
  function PathOf(ss: seq<string>): string {
    "/" + Join(ss, "/")
  }

  /** `navigateTo`: the current path extended by a directory name, with
      one slash between them. */
  function NavigateTo(path: string, dir: string): (r: string)
    ensures StartsWith(r, path) && EndsWith(r, "/" + dir)
    ensures |r| <= |path| + 1 + |dir|
  {
    if EndsWith(path, "/") then
      var r := path + dir;
      assert r[|r| - |dir| - 1..] == path[|path| - 1..] + dir;
      assert r[..|path|] == path;
      r
    else
      var r := path + "/" + dir;
      assert r[..|path|] == path;
      assert r[|r| - |dir| - 1..] == "/" + dir;
      r
  }

  function DropLast(ss: seq<string>): seq<string> {
    if ss == [] then [] else ss[..|ss| - 1]
  }

  /** `navigateUp`: the root stays put; any other path loses its last
      component and is written absolute. */
  function NavigateUp(path: string): (r: string)
    ensures path == "/" ==> r == "/"
    ensures StartsWith(r, "/")
    ensures Segments(r) == DropLast(Segments(path))
  {
    if path == "/" then
      SegmentsOfPath([]);
      "/"
    else
      var ss := DropLast(Segments(path));
      SegmentsOfPath(ss);
      PathOf(ss)
  }

  /** A path written from components splits back into them. */
  lemma SegmentsOfPath(ss: seq<string>)
    requires AllSegments(ss)
    ensures Segments(PathOf(ss)) == ss
  {
    var ps := [""] + ss;
    if ss == [] {
      assert PathOf(ss) == Join(["", ""], "/");
      SplitJoin(["", ""], '/');
    } else {
      assert PathOf(ss) == Join(ps, "/");
      SplitJoin(ps, '/');
      NonEmptyKeeps(ss);
      assert NonEmpty(ps) == NonEmpty(ss);
    }
  }

  /** Joining one more component onto a join. */
  lemma {:induction false} JoinAppend(ss: seq<string>, s: string, sep: string)
    requires ss != []
    ensures Join(ss + [s], sep) == Join(ss, sep) + sep + s
  {
    if |ss| > 1 {
      JoinAppend(ss[1..], s, sep);
      assert (ss + [s])[1..] == ss[1..] + [s];
    }
  }

  /** A join of components ends with its last component's last character. */
  lemma {:induction false} JoinEndsWithLast(ss: seq<string>)
    requires ss != [] && AllSegments(ss)
    ensures var j := Join(ss, "/"); j != "" && j[|j| - 1] == ss[|ss| - 1][|ss[|ss| - 1]| - 1]
  {
    if |ss| > 1 {
      JoinEndsWithLast(ss[1..]);
    }
  }

  /** Going into a directory writes the path of one more component. */
  lemma NavigateDown(ss: seq<string>, dir: string)
    requires AllSegments(ss) && Segment(dir)
    ensures NavigateTo(PathOf(ss), dir) == PathOf(ss + [dir])
  {
    if ss == [] {
      assert PathOf(ss) == "/";
      assert ss + [dir] == [dir];
    } else {
      assert !EndsWith(PathOf(ss), "/") by {
        NotSlashEnd(ss);
      }
      assert PathOf(ss + [dir]) == PathOf(ss) + "/" + dir by {
        JoinAppend(ss, dir, "/");
        Assoc3("/", Join(ss, "/"), "/" + dir);
      }
    }
  }

  /** A path of at least one component does not end in a slash. */
  lemma NotSlashEnd(ss: seq<string>)
    requires ss != [] && AllSegments(ss)
    ensures !EndsWith(PathOf(ss), "/")
  {
    var p := PathOf(ss);
    var last := ss[|ss| - 1];
    JoinEndsWithLast(ss);
    assert last[|last| - 1] in last;
    assert p[|p| - 1] == last[|last| - 1];
    assert p[|p| - 1..] == [p[|p| - 1]];
  }

  lemma Assoc3(a: string, b: string, c: string)
    ensures a + (b + c) == a + b + c
  {
  }

  /** Going into a directory and back up returns to where one started. */
  lemma NavigateRoundTrip(ss: seq<string>, dir: string)
    requires AllSegments(ss) && Segment(dir)
    ensures NavigateUp(NavigateTo(PathOf(ss), dir)) == PathOf(ss)
  {
    NavigateDown(ss, dir);
    var down := PathOf(ss + [dir]);
    assert AllSegments(ss + [dir]);
    SegmentsOfPath(ss + [dir]);
    assert |down| > 1;
    assert DropLast(ss + [dir]) == ss;
  }

  // ---------------------------------------------------------------------
  // The `ls -la` listing

  datatype FileEntry = FileEntry(name: string, isDir: bool, size: string, permissions: string)

  /** The entry read from one listing line, as the page reads it: the
      fields between runs of white space, the name being fields 8 onward
      joined by single spaces; short lines and the `.` and `..` entries
      are dropped. */
  function ParseLsLine(line: string): (r: Option<FileEntry>)
    ensures r.Some? ==> |Fields(line)| >= 9
    ensures r.Some? ==> r.value.name != "." && r.value.name != ".."
    ensures r.Some? ==> r.value.permissions == Fields(line)[0] && r.value.size == Fields(line)[4]
    ensures |Fields(line)| < 9 ==> r == None
  {
    var parts := Fields(line);
    if |parts| < 9 then None
    else
      var name := Join(parts[8..], " ");
      if name == "." || name == ".." then None
      else Some(FileEntry(name, StartsWith(parts[0], "d"), parts[4], parts[0]))
  }

  /** The columns of a listing line before the name. */
  predicate Columns(cs: seq<string>) {
    |cs| == 8 && Words(cs)
  }

  /** A listing line: the eight columns, then the name, separated by
      single spaces. */
  function LsLine(cs: seq<string>, name: string): string {
    Join(cs, " ") + " " + name
  }

  /** Words joined by single spaces and followed by a space and more text
      that starts with a non-space split into the words and then the
      fields of that text. */
  lemma {:induction false} FieldsAfterWords(ws: seq<string>, rest: string)
    requires |ws| >= 1 && Words(ws)
    requires rest != [] && !IsSpace(rest[0])
    ensures Fields(Join(ws, " ") + " " + rest) == ws + Fields(rest)
  {
    if |ws| == 1 {
      assert Fields(ws[0] + " " + rest) == [ws[0]] + Fields(rest) by {
        FieldsCons(ws[0] + " " + rest, ws[0], " ", rest);
      }
      assert ws == [ws[0]];
    } else {
      FieldsAfterWords(ws[1..], rest);
      FieldsAfterFirstWord(ws, rest);
    }
  }

  /** The step of `FieldsAfterWords` past the first word. */
  lemma FieldsAfterFirstWord(ws: seq<string>, rest: string)
    requires |ws| >= 2 && Words(ws)
    requires rest != [] && !IsSpace(rest[0])
    requires Fields(Join(ws[1..], " ") + " " + rest) == ws[1..] + Fields(rest)
    ensures Fields(Join(ws, " ") + " " + rest) == ws + Fields(rest)
  {
    var s := Join(ws, " ") + " " + rest;
    var tail := Join(ws[1..], " ") + " " + rest;
    assert Fields(s) == [ws[0]] + Fields(tail) by {
      WordsHead(ws, rest);
      TextAfterWords(ws[1..], rest);
      FieldsCons(s, ws[0], " ", tail);
    }
    ConsAppend(ws, Fields(rest));
  }

  lemma ConsAppend<T>(a: seq<T>, b: seq<T>)
    requires |a| >= 1
    ensures a + b == [a[0]] + (a[1..] + b)
  {
    assert a == [a[0]] + a[1..];
  }

  /** Skipping as many fields as there are words in front of the text
      leaves the text. */
  lemma {:induction false} SkipAfterWords(ws: seq<string>, rest: string)
    requires |ws| >= 1 && Words(ws)
    requires rest != [] && !IsSpace(rest[0])
    ensures SkipFields(Join(ws, " ") + " " + rest, |ws|) == rest
  {
    var s := Join(ws, " ") + " " + rest;
    if |ws| == 1 {
      assert s == ws[0] + " " + rest;
      SkipCons(s, ws[0], " ", rest, 0);
    } else {
      var tail := Join(ws[1..], " ") + " " + rest;
      SkipAfterWords(ws[1..], rest);
      assert SkipFields(s, |ws|) == SkipFields(tail, |ws| - 1) by {
        WordsHead(ws, rest);
        TextAfterWords(ws[1..], rest);
        SkipCons(s, ws[0], " ", tail, |ws| - 1);
      }
    }
  }

  /** Words followed by text start with the first word's first character. */
  lemma TextAfterWords(ws: seq<string>, rest: string)
    requires |ws| >= 1 && Words(ws)
    ensures Join(ws, " ") + " " + rest != [] && !IsSpace((Join(ws, " ") + " " + rest)[0])
  {
    FieldsJoinHead(ws);
    assert ws[0] != [] && NoSpace(ws[0]);
  }

  /** Words and text after them are the first word, a space, and the
      rest of the words and the text. */
  lemma WordsHead(ws: seq<string>, rest: string)
    requires |ws| >= 2
    ensures Join(ws, " ") + " " + rest == ws[0] + " " + (Join(ws[1..], " ") + " " + rest)
  {
    assert Join(ws, " ") == ws[0] + " " + Join(ws[1..], " ");
    Regroup(ws[0], Join(ws[1..], " "), rest);
  }

  lemma Regroup(a: string, b: string, c: string)
    ensures a + " " + b + " " + c == a + " " + (b + " " + c)
  {
  }

  /** A well-formed line whose name is a run of words parses to an entry
      whose name is exactly those words. */
  lemma ParseWellFormedLine(cs: seq<string>, words: seq<string>)
    requires Columns(cs)
    requires |words| >= 1 && Words(words)
    requires Join(words, " ") != "." && Join(words, " ") != ".."
    ensures ParseLsLine(LsLine(cs, Join(words, " "))) ==
      Some(FileEntry(Join(words, " "), StartsWith(cs[0], "d"), cs[4], cs[0]))
  {
    var name := Join(words, " ");
    FieldsJoinHead(words);
    FieldsAfterWords(cs, name);
    FieldsJoin(words);
    assert Fields(LsLine(cs, name)) == cs + words;
    assert (cs + words)[8..] == words;
  }

  /** The entry read from one listing line with the name taken as the rest
      of the line after the eighth column, so that the white space inside
      a name survives. */
  function ParseLsLineExact(line: string): (r: Option<FileEntry>)
    ensures r.Some? ==> |Fields(line)| >= 9
    ensures r.Some? ==> r.value.name != "." && r.value.name != ".."
    ensures r.Some? ==> r.value.permissions == Fields(line)[0] && r.value.size == Fields(line)[4]
    ensures |Fields(line)| < 9 ==> r == None
  {
    var parts := Fields(line);
    if |parts| < 9 then None
    else
      var name := SkipFields(line, 8);
      if name == "." || name == ".." then None
      else Some(FileEntry(name, StartsWith(parts[0], "d"), parts[4], parts[0]))
  }

  /** Any name that starts with a non-space character comes back whole. */
  lemma ExactNameRoundTrip(cs: seq<string>, name: string)
    requires Columns(cs)
    requires name != [] && !IsSpace(name[0]) && name != "." && name != ".."
    ensures ParseLsLineExact(LsLine(cs, name)) == Some(FileEntry(name, StartsWith(cs[0], "d"), cs[4], cs[0]))
  {
    FieldsAfterWords(cs, name);
    SkipAfterWords(cs, name);
    assert (cs + Fields(name))[..8] == cs;
  }

  /** As written, a name holding two spaces in a row comes back with one. */
  lemma SpacedNameCollapses(cs: seq<string>, a: string, b: string)
    requires Columns(cs)
    requires a != [] && NoSpace(a) && b != [] && NoSpace(b)
    ensures var name := a + "  " + b;
      ParseLsLine(LsLine(cs, name)).Some?
      && ParseLsLine(LsLine(cs, name)).value.name == a + " " + b
      && ParseLsLine(LsLine(cs, name)).value.name != name
  {
    var name := a + "  " + b;
    var line := LsLine(cs, name);
    assert Fields(line) == cs + [a, b] by {
      assert Fields(name) == [a, b] by {
        FieldsCons(name, a, "  ", b);
        assert Fields(b) == [b];
      }
      assert name[0] == a[0];
      FieldsAfterWords(cs, name);
    }
    assert Fields(line)[8..] == [a, b];
    assert Join([a, b], " ") == a + " " + b;
    assert |a + " " + b| != |name|;
  }

  /** How a listing line's name is read: as the page does, or with its
      white space kept. */
  datatype Reading = AsWritten | Exact

  /** One line read the chosen way. */
  function ReadLine(line: string, how: Reading): (r: Option<FileEntry>)
    ensures r.Some? ==> r.value.name != "." && r.value.name != ".."
  {
    if how == AsWritten then ParseLsLine(line) else ParseLsLineExact(line)
  }

  /** The entries of an `ls -la` output, in listing order: the first line
      (the total) skipped and each other line read as the page reads it. */
  function ParseListing(stdout: string): (r: seq<FileEntry>)
    ensures forall k :: 0 <= k < |r| ==> r[k].name != "." && r[k].name != ".."
    ensures |r| < |Split(stdout, '\n')|
  {
    Entries(Split(stdout, '\n')[1..], AsWritten)
  }

  /** The corrected listing: the same lines, each name kept whole. */
  function ParseListingExact(stdout: string): (r: seq<FileEntry>)
    ensures forall k :: 0 <= k < |r| ==> r[k].name != "." && r[k].name != ".."
    ensures |r| < |Split(stdout, '\n')|
  {
    Entries(Split(stdout, '\n')[1..], Exact)
  }

  /** The lines that parse, in order, each read the chosen way. */
  function Entries(lines: seq<string>, how: Reading): (r: seq<FileEntry>)
    ensures |r| <= |lines|
    ensures forall k :: 0 <= k < |r| ==> r[k].name != "." && r[k].name != ".."
  {
    if lines == [] then []
    else
      var rest := Entries(lines[1..], how);
      var e := ReadLine(lines[0], how);
      if e.None? then rest
      else
        var r := [e.value] + rest;
        assert forall k :: 0 < k < |r| ==> r[k] == rest[k - 1];
        r
  }

  /** One line gives its entry, or nothing when it does not parse. */
  lemma EntriesOfLine(line: string, how: Reading)
    ensures Entries([line], how) == if ReadLine(line, how).Some? then [ReadLine(line, how).value] else []
  {
    assert [line][1..] == [];
  }

  /** Reading two runs of lines one after the other gives the entries of
      the first followed by those of the second: with EntriesOfLine, each
      line contributes exactly its own entry, in listing order. */
  lemma {:induction false} EntriesAppend(a: seq<string>, b: seq<string>, how: Reading)
    ensures Entries(a + b, how) == Entries(a, how) + Entries(b, how)
    decreases |a|
  {
    if a == [] {
      assert a + b == b;
    } else {
      var head, tail := Entries([a[0]], how), a[1..];
      ConsAppend(a, b);
      EntriesCons(a[0], tail + b, how);
      EntriesAppend(tail, b, how);
      ConsAppend(a, []);
      EntriesCons(a[0], tail, how);
      Assoc(head, Entries(tail, how), Entries(b, how));
    }
  }

  lemma Assoc<T>(x: seq<T>, y: seq<T>, z: seq<T>)
    ensures x + (y + z) == x + y + z
  {
  }

  /** A line in front adds its own entry in front. */
  lemma EntriesCons(line: string, rest: seq<string>, how: Reading)
    ensures Entries([line] + rest, how) == Entries([line], how) + Entries(rest, how)
  {
    var ls := [line] + rest;
    assert ls[0] == line && ls[1..] == rest;
    assert [line][1..] == [];
  }

  /** As the page reads it, a listed file named with two spaces in a row
      is listed under a name with one. */
  lemma SpacedNameListed(cs: seq<string>, a: string, b: string)
    requires Columns(cs)
    requires a != [] && NoSpace(a) && b != [] && NoSpace(b)
    ensures |Entries([LsLine(cs, a + "  " + b)], AsWritten)| == 1
    ensures Entries([LsLine(cs, a + "  " + b)], AsWritten)[0].name == a + " " + b
  {
    SpacedNameCollapses(cs, a, b);
    EntriesOfLine(LsLine(cs, a + "  " + b), AsWritten);
  }

  // ---------------------------------------------------------------------
  // Ordering the listing

  /** The order of names: character codes compared left to right, a prefix
      first. */
  predicate NameLe(a: string, b: string) {
    a == [] || (b != [] && (a[0] < b[0] || (a[0] == b[0] && NameLe(a[1..], b[1..]))))
  }

  lemma {:induction false} NameLeTotal(a: string, b: string)
    ensures NameLe(a, b) || NameLe(b, a)
  {
    if a != [] && b != [] && a[0] == b[0] {
      NameLeTotal(a[1..], b[1..]);
    }
  }

  lemma {:induction false} NameLeTrans(a: string, b: string, c: string)
    requires NameLe(a, b) && NameLe(b, c)
    ensures NameLe(a, c)
  {
    if a != [] && b != [] && c != [] && a[0] == b[0] && b[0] == c[0] {
      NameLeTrans(a[1..], b[1..], c[1..]);
    }
  }

  /** The comparator: directories before files, names in order within
      each group. */
  predicate Before(a: FileEntry, b: FileEntry) {
    (a.isDir && !b.isDir) || (a.isDir == b.isDir && NameLe(a.name, b.name))
  }

  lemma BeforeTotal(a: FileEntry, b: FileEntry)
    ensures Before(a, b) || Before(b, a)
  {
    NameLeTotal(a.name, b.name);
  }

  lemma BeforeTrans(a: FileEntry, b: FileEntry, c: FileEntry)
    requires Before(a, b) && Before(b, c)
    ensures Before(a, c)
  {
    if a.isDir == b.isDir && b.isDir == c.isDir {
      NameLeTrans(a.name, b.name, c.name);
    }
  }

  predicate Ordered(s: seq<FileEntry>) {
    forall i, j :: 0 <= i < j < |s| ==> Before(s[i], s[j])
  }

  /** An entry before every element of a list and before `e` is before
      every element of any rearrangement of the list with `e` added. */
  lemma BeforeAllOf(x: FileEntry, e: FileEntry, s: seq<FileEntry>, rest: seq<FileEntry>)
    requires forall j :: 0 <= j < |s| ==> Before(x, s[j])
    requires Before(x, e)
    requires multiset(rest) == multiset(s) + multiset{e}
    ensures forall j :: 0 <= j < |rest| ==> Before(x, rest[j])
  {
    forall j | 0 <= j < |rest| ensures Before(x, rest[j]) {
      assert rest[j] in multiset(rest);
      if rest[j] != e {
        assert rest[j] in multiset(s);
        var m :| 0 <= m < |s| && s[m] == rest[j];
      }
    }
  }

  function Insert(e: FileEntry, s: seq<FileEntry>): (r: seq<FileEntry>)
    requires Ordered(s)
    ensures Ordered(r)
    ensures multiset(r) == multiset(s) + multiset{e}
  {
    if s == [] then [e]
    else if Before(e, s[0]) then
      assert Ordered([e] + s) by {
        BeforeFirstBeforeAll(e, s);
        ConsOrdered(e, s);
      }
      [e] + s
    else
      assert Ordered(s[1..]) by {
        OrderedTail(s);
      }
      var rest := Insert(e, s[1..]);
      assert Ordered([s[0]] + rest) by {
        BeforeTotal(e, s[0]);
        OrderedTail(s);
        BeforeAllOf(s[0], e, s[1..], rest);
        ConsOrdered(s[0], rest);
      }
      assert multiset([s[0]] + rest) == multiset(s) + multiset{e} by {
        assert s == [s[0]] + s[1..];
      }
      [s[0]] + rest
  }

  /** Whatever comes before the head of an ordered list comes before all
      of it. */
  lemma BeforeFirstBeforeAll(e: FileEntry, s: seq<FileEntry>)
    requires Ordered(s) && s != [] && Before(e, s[0])
    ensures forall j :: 0 <= j < |s| ==> Before(e, s[j])
  {
    forall j | 0 <= j < |s| ensures Before(e, s[j]) {
      if j > 0 { BeforeTrans(e, s[0], s[j]); }
    }
  }

  lemma OrderedTail(s: seq<FileEntry>)
    requires Ordered(s) && s != []
    ensures Ordered(s[1..]) && forall j :: 0 <= j < |s[1..]| ==> Before(s[0], s[1..][j])
  {
    forall j | 0 <= j < |s[1..]| ensures Before(s[0], s[1..][j]) {
      assert s[1..][j] == s[j + 1];
    }
  }

  lemma ConsOrdered(x: FileEntry, s: seq<FileEntry>)
    requires Ordered(s) && forall j :: 0 <= j < |s| ==> Before(x, s[j])
    ensures Ordered([x] + s)
  {
    forall i, j | 0 <= i < j < |[x] + s| ensures Before(([x] + s)[i], ([x] + s)[j]) {
      if i > 0 {
        assert ([x] + s)[i] == s[i - 1];
      }
      assert ([x] + s)[j] == s[j - 1];
    }
  }

  /** The page's sort of the listing: a reordering of the entries with
      every directory before every file and names in order within each
      group. */
  function SortEntries(s: seq<FileEntry>): (r: seq<FileEntry>)
    ensures Ordered(r)
    ensures multiset(r) == multiset(s)
  {
    if s == [] then []
    else
      assert s == [s[0]] + s[1..];
      Insert(s[0], SortEntries(s[1..]))
  }

  /** In the sorted listing no file precedes a directory. */
  lemma DirectoriesFirst(s: seq<FileEntry>, i: int, j: int)
    requires 0 <= i < j < |SortEntries(s)|
    requires SortEntries(s)[j].isDir
    ensures SortEntries(s)[i].isDir
  {
  }

  // ---------------------------------------------------------------------
  // The streamed log

  const MaxLogLines := 1000

  /** One message appended to the log buffer: the message and a newline
      added, and when the buffer then splits into more than 1000 pieces at
      newlines, only the last 1000 pieces kept. */
  function AppendLog(prev: string, data: string): (r: string)
    ensures EndsWith(prev + data + "\n", r)
    ensures |Split(prev + data + "\n", '\n')| <= MaxLogLines ==> r == prev + data + "\n"
    ensures |Split(prev + data + "\n", '\n')| > MaxLogLines ==> |Split(r, '\n')| == MaxLogLines
  {
    var newLogs := prev + data + "\n";
    if |Split(newLogs, '\n')| > MaxLogLines then KeepLastLines(newLogs, MaxLogLines)
    else
      assert newLogs[|newLogs| - |newLogs|..] == newLogs;
      newLogs
  }

  /** The last `n` newline-separated pieces of `s`. */
  function KeepLastLines(s: string, n: nat): (r: string)
    requires 1 <= n <= |Split(s, '\n')|
    ensures EndsWith(s, r)
    ensures |Split(r, '\n')| == n
  {
    var lines := Split(s, '\n');
    var kept := lines[|lines| - n..];
    JoinSplit(s, '\n');
    JoinSuffix(lines, |lines| - n, "\n");
    SplitJoin(kept, '\n');
    Join(kept, "\n")
  }

  /** A join of the last pieces is a suffix of the join of all of them. */
  lemma {:induction false} JoinSuffix(ps: seq<string>, k: int, sep: string)
    requires 0 <= k < |ps|
    ensures EndsWith(Join(ps, sep), Join(ps[k..], sep))
  {
    if k > 0 {
      JoinSuffix(ps[1..], k - 1, sep);
      assert ps[1..][k - 1..] == ps[k..];
      var j := Join(ps[1..], sep);
      var w := Join(ps, sep);
      assert w == ps[0] + sep + j;
      assert w[|w| - |j|..] == j;
    } else {
      var w := Join(ps, sep);
      assert w[|w| - |w|..] == w;
    }
  }

  /** The log buffer never holds more than 1000 pieces once it holds at most
      that many. */
  lemma LogStaysBounded(prev: string, data: string)
    requires |Split(prev, '\n')| <= MaxLogLines
    ensures |Split(AppendLog(prev, data), '\n')| <= MaxLogLines
  {
    var newLogs := prev + data + "\n";
    if |Split(newLogs, '\n')| <= MaxLogLines {
    }
  }

  /** `fetchLogs`: the fetched text, or a placeholder when it is empty; the
      error's message, or a fallback, when fetching fails. */
  function FetchLogs(out: Result<string, string>): (r: string)
    ensures r != ""
    ensures out.Ok? && out.value != "" ==> r == out.value
    ensures out.Err? && out.error != "" ==> r == out.error
  {
    match out
    case Ok(text) => if text != "" then text else "No logs available."
    case Err(message) => if message != "" then message else "Error fetching logs"
  }

  // ---------------------------------------------------------------------
  // Terminal tabs

  datatype Tab = Tab(id: string, title: string)

  datatype Terminals = Terminals(tabs: seq<Tab>, active: string)

  function Ids(tabs: seq<Tab>): seq<string> {
    seq(|tabs|, k requires 0 <= k < |tabs| => tabs[k].id)
  }

  /** The tabs other than those with the given id, in order. */
  function Without(tabs: seq<Tab>, id: string): (r: seq<Tab>)
    ensures forall k :: 0 <= k < |r| ==> r[k].id != id && r[k] in tabs
    ensures |r| <= |tabs|
  {
    if tabs == [] then []
    else (if tabs[0].id != id then [tabs[0]] else []) + Without(tabs[1..], id)
  }

  /** `closeTerminalTab`: the last tab is never closed; otherwise the tab
      goes, and when it was the active one the last remaining tab becomes
      active. Closing the active tab when no tab would remain fails, as
      reading the id of a missing element does. */
  function CloseTerminalTab(t: Terminals, tabId: string): (r: Result<Terminals, string>)
    ensures |t.tabs| == 1 ==> r == Ok(t)
    ensures r.Err? <==> |t.tabs| != 1 && t.active == tabId && Without(t.tabs, tabId) == []
    ensures r.Ok? && |t.tabs| != 1 ==> r.value.tabs == Without(t.tabs, tabId)
    ensures r.Ok? && t.active != tabId ==> r.value.active == t.active
    ensures r.Ok? && |t.tabs| != 1 && t.active == tabId ==>
      r.value.active == r.value.tabs[|r.value.tabs| - 1].id
  {
    if |t.tabs| == 1 then Ok(t)
    else
      var rest := Without(t.tabs, tabId);
      if t.active != tabId then Ok(Terminals(rest, t.active))
      else if rest == [] then Err("no tab left to activate")
      else Ok(Terminals(rest, rest[|rest| - 1].id))
  }

  predicate DistinctIds(tabs: seq<Tab>) {
    forall i, j :: 0 <= i < j < |tabs| ==> tabs[i].id != tabs[j].id
  }

  /** The page's standing arrangement: at least one tab, no two with the
      same id, and the active id one of theirs. */
  predicate TabsOk(t: Terminals) {
    |t.tabs| >= 1
    && DistinctIds(t.tabs)
    && exists k :: 0 <= k < |t.tabs| && t.tabs[k].id == t.active
  }

  /** Closing a tab with ids distinct removes at most one of them. */
  lemma {:induction false} WithoutDropsAtMostOne(tabs: seq<Tab>, id: string)
    requires DistinctIds(tabs)
    ensures |Without(tabs, id)| >= |tabs| - 1
  {
    if tabs != [] {
      var rest := tabs[1..];
      if tabs[0].id == id {
        assert forall k :: 0 <= k < |rest| ==> rest[k].id != id by {
          forall k | 0 <= k < |rest| ensures rest[k].id != id {
            assert rest[k] == tabs[k + 1];
          }
        }
        WithoutKeepsAll(rest, id);
      } else {
        assert DistinctIds(rest);
        WithoutDropsAtMostOne(rest, id);
      }
    }
  }

  /** Removing an id no tab has changes nothing. */
  lemma {:induction false} WithoutKeepsAll(tabs: seq<Tab>, id: string)
    requires forall k :: 0 <= k < |tabs| ==> tabs[k].id != id
    ensures Without(tabs, id) == tabs
  {
    if tabs != [] {
      WithoutKeepsAll(tabs[1..], id);
    }
  }

  /** Removing tabs keeps the rest in order, so their ids stay distinct. */
  lemma {:induction false} WithoutDistinct(tabs: seq<Tab>, id: string)
    requires DistinctIds(tabs)
    ensures DistinctIds(Without(tabs, id))
  {
    if tabs != [] {
      WithoutDistinct(tabs[1..], id);
      var rest := Without(tabs[1..], id);
      forall j | 0 <= j < |rest| ensures rest[j].id != tabs[0].id {
        var m :| 0 <= m < |tabs[1..]| && tabs[1..][m] == rest[j];
        assert tabs[m + 1] == rest[j];
      }
      if tabs[0].id != id {
        var r := [tabs[0]] + rest;
        assert Without(tabs, id) == r;
        forall i, j | 0 <= i < j < |r| ensures r[i].id != r[j].id {
          assert r[j] == rest[j - 1];
          if i > 0 {
            assert r[i] == rest[i - 1];
          }
        }
      }
    }
  }

  /** A tab other than the removed one survives the removal. */
  lemma {:induction false} WithoutKeepsOthers(tabs: seq<Tab>, id: string, k: int)
    requires 0 <= k < |tabs| && tabs[k].id != id
    ensures exists m :: 0 <= m < |Without(tabs, id)| && Without(tabs, id)[m] == tabs[k]
  {
    if k == 0 {
      assert Without(tabs, id)[0] == tabs[0];
    } else {
      WithoutKeepsOthers(tabs[1..], id, k - 1);
      var m :| 0 <= m < |Without(tabs[1..], id)| && Without(tabs[1..], id)[m] == tabs[1..][k - 1];
      if tabs[0].id != id {
        assert Without(tabs, id)[m + 1] == tabs[k];
      } else {
        assert Without(tabs, id)[m] == tabs[k];
      }
    }
  }

  /** Closing any tab keeps the arrangement, and never fails. */
  lemma CloseKeepsTabsOk(t: Terminals, tabId: string)
    requires TabsOk(t)
    ensures CloseTerminalTab(t, tabId).Ok?
    ensures TabsOk(CloseTerminalTab(t, tabId).value)
  {
    if |t.tabs| != 1 {
      WithoutDropsAtMostOne(t.tabs, tabId);
      WithoutDistinct(t.tabs, tabId);
      var rest := Without(t.tabs, tabId);
      if t.active != tabId {
        var k :| 0 <= k < |t.tabs| && t.tabs[k].id == t.active;
        WithoutKeepsOthers(t.tabs, tabId, k);
      } else {
        assert rest[|rest| - 1].id == CloseTerminalTab(t, tabId).value.active;
      }
    }
  }

  /** `addTerminalTab`: a new tab titled by its number, made active. */
  function AddTerminalTab(t: Terminals, newId: string): (r: Terminals)
    ensures |r.tabs| == |t.tabs| + 1 && r.tabs[..|t.tabs|] == t.tabs
    ensures r.active == newId && r.tabs[|t.tabs|].id == newId
  {
    var r := Terminals(t.tabs + [Tab(newId, "Terminal " + Decimal(|t.tabs| + 1))], newId);
    assert r.tabs[..|t.tabs|] == t.tabs;
    r
  }

  /** Adding a tab with a fresh id keeps the arrangement. */
  lemma AddKeepsTabsOk(t: Terminals, newId: string)
    requires TabsOk(t)
    requires forall k :: 0 <= k < |t.tabs| ==> t.tabs[k].id != newId
    ensures TabsOk(AddTerminalTab(t, newId))
  {
    var r := AddTerminalTab(t, newId);
    assert r.tabs[|t.tabs|].id == r.active;
    forall i, j | 0 <= i < j < |r.tabs| ensures r.tabs[i].id != r.tabs[j].id {
      if j < |t.tabs| {
        assert r.tabs[i] == t.tabs[i] && r.tabs[j] == t.tabs[j];
      } else {
        assert r.tabs[i] == t.tabs[i];
      }
    }
  }
}

=== FILE: delaunator.dfy ===
/** The index bookkeeping of the incremental Delaunay triangulation in
    minecraft/src/include/delaunator.hpp. Coordinates are `float` there and
    `real` here, so the geometric predicates are the exact versions of the
    source's formulas. `INVALID_INDEX` (the largest `size_t`) is written -1:
    the half-edge array holds either a half-edge index or -1. */
module Delaunator {
  import opened Wrappers

  const INVALID: int := -1

  // ---------------------------------------------------------------------
  // Hash bucket arithmetic

  /** `fast_mod`: skips the division when `i` is already below `c`. */
  function FastMod(i: nat, c: nat): (r: nat)
    requires c > 0
    ensures r == i % c && r < c
  {
    if i >= c then i % c else i
  }

  /** `pseudo_angle`: a value that grows with the angle of `(dx, dy)`
      without trigonometry. */
  function PseudoAngle(dx: real, dy: real): (a: real)
    requires dx != 0.0 || dy != 0.0
    ensures 0.0 <= a < 1.0
  {
    var ax := if dx < 0.0 then -dx else dx;
    var ay := if dy < 0.0 then -dy else dy;
    var p := dx / (ax + ay);
    assert -1.0 <= p <= 1.0 by { DivBounded(dx, ax, ay); }
    assert dy > 0.0 ==> -1.0 < p < 1.0 by {
      if dy > 0.0 { DivStrictlyBounded(dx, ax, ay); }
    }
    (if dy > 0.0 then 3.0 - p else 1.0 + p) / 4.0
  }

  lemma DivBounded(dx: real, ax: real, ay: real)
    requires ax == (if dx < 0.0 then -dx else dx) && ay >= 0.0 && ax + ay > 0.0
    ensures -1.0 <= dx / (ax + ay) <= 1.0
  {
  }

  lemma DivStrictlyBounded(dx: real, ax: real, ay: real)
    requires ax == (if dx < 0.0 then -dx else dx) && ay > 0.0
    ensures -1.0 < dx / (ax + ay) < 1.0
  {
  }

  /** `hash_key`: the hull-hash bucket of a point, from its pseudo-angle
      around the seed circumcentre `(cx, cy)`. */
  function HashKey(x: real, y: real, cx: real, cy: real, hashSize: nat): (k: nat)
    requires hashSize > 0
    requires x != cx || y != cy
    ensures k < hashSize
  {
    var a := PseudoAngle(x - cx, y - cy);
    var f := (a * hashSize as real).Floor;
    assert 0 <= f by { assert a * hashSize as real >= 0.0; }
    FastMod(f, hashSize)
  }

  // ---------------------------------------------------------------------
  // Geometry over the reals

  datatype Pt = Pt(x: real, y: real)

  /** Real multiplication behind a name, so that a square `Mul(v, v)` is
      reasoned about through `MulSign` rather than by the solver's
      non-linear arithmetic. */
  function Mul(a: real, b: real): real {
    a * b
  }

  lemma MulSign(a: real, b: real)
    ensures a > 0.0 && b > 0.0 ==> Mul(a, b) > 0.0
    ensures a < 0.0 && b < 0.0 ==> Mul(a, b) > 0.0
    ensures a == 0.0 || b == 0.0 ==> Mul(a, b) == 0.0
  {
  }

  lemma SquareSign(v: real)
    ensures Mul(v, v) >= 0.0
    ensures v != 0.0 <==> Mul(v, v) > 0.0
  {
    MulSign(v, v);
  }

  /** `Point::dist2`: the squared Euclidean distance. */
  function Dist2(p: Pt, q: Pt): (d: real)
    ensures d >= 0.0
    ensures d == 0.0 <==> p == q
  {
    SquareSign(q.x - p.x);
    SquareSign(q.y - p.y);
    Mul(q.x - p.x, q.x - p.x) + Mul(q.y - p.y, q.y - p.y)
  }

  /** `Point::determinant` of the vectors `p0 -> p1` and `p0 -> p2`: twice
      the signed area of the triangle. */
  function Orient(p0: Pt, p1: Pt, p2: Pt): real {
    (p1.x - p0.x) * (p2.y - p0.y) - (p1.y - p0.y) * (p2.x - p0.x)
  }

  /** `counterclockwise`, including its guard against nearly flat
      triangles. */
  predicate CounterClockwise(p0: Pt, p1: Pt, p2: Pt) {
    var det := Orient(p0, p1, p2);
    var dist := Dist2(p0, p1) + Dist2(p0, p2);
    var rel := if det == 0.0 then 0.0 else dist / det;
    det != 0.0 && !((if rel < 0.0 then -rel else rel) > 1.0e14) && det > 0.0
  }

  /** `circumradius`; `None` stands for the `numeric_limits<float>::max()`
      the source returns for a degenerate triangle. */
  function Circumradius(p1: Pt, p2: Pt, p3: Pt): (r: Option<real>)
    ensures r.None? <==> p1 == p2 || p1 == p3 || Orient(p1, p2, p3) == 0.0
  {
    var dx := p2.x - p1.x;
    var dy := p2.y - p1.y;
    var ex := p3.x - p1.x;
    var ey := p3.y - p1.y;
    var bl := Dist2(p1, p2);
    var cl := Dist2(p1, p3);
    var det := dx * ey - dy * ex;
    if bl != 0.0 && cl != 0.0 && det != 0.0 then
      var rx := (ey * bl - dy * cl) * 0.5 / det;
      var ry := (dx * cl - ex * bl) * 0.5 / det;
      Some(rx * rx + ry * ry)
    else
      assert p1 == p2 ==> det == 0.0;
      assert p1 == p3 ==> det == 0.0;
      None
  }

  // ---------------------------------------------------------------------
  // Seed triangle

  /** The source's selection loops: the first index with the strictly
      smallest key, skipping indices whose key is `None`. */
  function Scan(key: nat -> Option<real>, k: nat, n: nat, best: Option<(nat, real)>): (r: Option<(nat, real)>)
    decreases n - k
    ensures r.None? <==> best.None? && forall j :: k <= j < n ==> key(j).None?
    ensures r.Some? ==> r == best || (k <= r.value.0 < n && key(r.value.0) == Some(r.value.1))
    ensures r.Some? ==> forall j :: k <= j < n && key(j).Some? ==> r.value.1 <= key(j).value
    ensures r.Some? && best.Some? ==> r.value.1 <= best.value.1
  {
    if k >= n then best
    else
      var best' := if key(k).Some? && (best.None? || key(k).value < best.value.1) then Some((k, key(k).value)) else best;
      Scan(key, k + 1, n, best')
  }

  /** The centre of the points' bounding box. */
  function Center(pts: seq<Pt>): Pt
    requires |pts| > 0
  {
    var (lo, hi) := Bounds(pts);
    Pt((lo.x + hi.x) / 2.0, (lo.y + hi.y) / 2.0)
  }

  /** The bounding box of the points: every point lies inside it. */
  function Bounds(pts: seq<Pt>): (r: (Pt, Pt))
    requires |pts| > 0
    ensures forall k :: 0 <= k < |pts| ==> r.0.x <= pts[k].x <= r.1.x && r.0.y <= pts[k].y <= r.1.y
  {
    if |pts| == 1 then (pts[0], pts[0])
    else
      var (lo, hi) := Bounds(pts[..|pts| - 1]);
      var p := pts[|pts| - 1];
      (Pt(if p.x < lo.x then p.x else lo.x, if p.y < lo.y then p.y else lo.y),
       Pt(if p.x > hi.x then p.x else hi.x, if p.y > hi.y then p.y else hi.y))
  }

  /** Each side of the bounding box passes through some point, so the box
      is the smallest one holding them all. */
  lemma {:induction false} BoundsAttained(pts: seq<Pt>)
    requires |pts| > 0
    ensures var (lo, hi) := Bounds(pts);
      && (exists k :: 0 <= k < |pts| && pts[k].x == lo.x) && (exists k :: 0 <= k < |pts| && pts[k].y == lo.y)
      && (exists k :: 0 <= k < |pts| && pts[k].x == hi.x) && (exists k :: 0 <= k < |pts| && pts[k].y == hi.y)
  {
    if |pts| > 1 {
      var n := |pts| - 1;
      var init := pts[..n];
      BoundsAttained(init);
      var (lo0, hi0) := Bounds(init);
      var (lo, hi) := Bounds(pts);
      var p := pts[n];
      var a :| 0 <= a < n && init[a].x == lo0.x;
      var b :| 0 <= b < n && init[b].y == lo0.y;
      var c :| 0 <= c < n && init[c].x == hi0.x;
      var d :| 0 <= d < n && init[d].y == hi0.y;
      assert pts[if p.x < lo0.x then n else a].x == lo.x;
      assert pts[if p.y < lo0.y then n else b].y == lo.y;
      assert pts[if p.x > hi0.x then n else c].x == hi.x;
      assert pts[if p.y > hi0.y then n else d].y == hi.y;
    } else {
      assert Bounds(pts) == (pts[0], pts[0]);
    }
  }

  datatype Degenerate = TooFewPoints | AllDuplicates | AllCollinear
  datatype Seed = Seed(i0: nat, i1: nat, i2: nat)

  /** `i0`: the point nearest the bounding-box centre. */
  function SeedI0(pts: seq<Pt>): (i0: nat)
    requires |pts| > 0
    ensures i0 < |pts|
    ensures forall j :: 0 <= j < |pts| ==> Dist2(Center(pts), pts[i0]) <= Dist2(Center(pts), pts[j])
  {
    var c := Center(pts);
    var key := (j: nat) => if j < |pts| then Some(Dist2(c, pts[j])) else None;
    assert forall j :: 0 <= j < |pts| ==> key(j) == Some(Dist2(c, pts[j]));
    Scan(key, 0, |pts|, None).value.0
  }

  function I1Key(pts: seq<Pt>, i0: nat): nat -> Option<real>
    requires i0 < |pts|
  {
    (j: nat) => if j < |pts| && j != i0 && Dist2(pts[i0], pts[j]) > 0.0 then Some(Dist2(pts[i0], pts[j])) else None
  }

  function I2Key(pts: seq<Pt>, i0: nat, i1: nat): nat -> Option<real>
    requires i0 < |pts| && i1 < |pts|
  {
    (j: nat) => if j < |pts| && j != i0 && j != i1 then Circumradius(pts[i0], pts[i1], pts[j]) else None
  }

  /** Every point equals the first one. */
  predicate AllSame(pts: seq<Pt>) {
    forall j :: 0 <= j < |pts| ==> pts[j] == pts[0]
  }

  /** Every three points are collinear. */
  predicate AllOnALine(pts: seq<Pt>) {
    forall j, k, l :: 0 <= j < |pts| && 0 <= k < |pts| && 0 <= l < |pts| ==> Orient(pts[j], pts[k], pts[l]) == 0.0
  }

  /** The constructor's seed selection (lines 300-420): the rejections for
      fewer than three points, all points coincident and all points on one
      line, and otherwise three distinct indices whose triangle is not
      counterclockwise (the source swaps `i1` and `i2` to make it so). */
  function SelectSeed(pts: seq<Pt>): (r: Result<Seed, Degenerate>)
    ensures r == Err(TooFewPoints) <==> |pts| < 3
    ensures r == Err(AllDuplicates) <==> |pts| >= 3 && AllSame(pts)
    ensures r == Err(AllCollinear) <==> |pts| >= 3 && !AllSame(pts) && AllOnALine(pts)
    ensures r.Ok? ==> GoodSeed(pts, r.value)
  {
    if |pts| < 3 then Err(TooFewPoints)
    else
      var i0 := SeedI0(pts);
      var s1 := Scan(I1Key(pts, i0), 0, |pts|, None);
      if s1.None? then
        assert AllSame(pts) by { NoI1AllSame(pts, i0); }
        Err(AllDuplicates)
      else
        var i1 := s1.value.0;
        assert !AllSame(pts) by { assert pts[i1] != pts[0] || pts[i0] != pts[0]; }
        SeedThird(pts, i0, i1)
  }

  /** Three indices of distinct points whose triangle is neither flat nor
      counter-clockwise. */
  predicate GoodSeed(pts: seq<Pt>, s: Seed) {
    && s.i0 < |pts| && s.i1 < |pts| && s.i2 < |pts|
    && pts[s.i0] != pts[s.i1] && pts[s.i0] != pts[s.i2]
    && Orient(pts[s.i0], pts[s.i1], pts[s.i2]) != 0.0
    && !CounterClockwise(pts[s.i0], pts[s.i1], pts[s.i2])
  }

  /** The third seed index, the one of smallest circumradius with `i0` and
      `i1`; the collinear rejection when there is none. */
  function SeedThird(pts: seq<Pt>, i0: nat, i1: nat): (r: Result<Seed, Degenerate>)
    requires i0 < |pts| && i1 < |pts| && pts[i0] != pts[i1]
    ensures r.Err? ==> r == Err(AllCollinear)
    ensures r.Err? <==> AllOnALine(pts)
    ensures r.Ok? ==> GoodSeed(pts, r.value)
  {
    var s2 := Scan(I2Key(pts, i0, i1), 0, |pts|, None);
    if s2.None? then
      assert AllOnALine(pts) by { NoI2OnALine(pts, i0, i1); }
      Err(AllCollinear)
    else
      var i2 := s2.value.0;
      assert !AllOnALine(pts) by {
        assert I2Key(pts, i0, i1)(i2).Some?;
      }
      Ok(Clockwise(pts, i0, i1, i2))
  }

  /** The seed triangle in clockwise order: `i1` and `i2` swap when the
      three points turn counter-clockwise. */
  function Clockwise(pts: seq<Pt>, i0: nat, i1: nat, i2: nat): (s: Seed)
    requires i0 < |pts| && i1 < |pts| && i2 < |pts|
    requires Orient(pts[i0], pts[i1], pts[i2]) != 0.0
    ensures s.i0 == i0 && ((s.i1 == i1 && s.i2 == i2) || (s.i1 == i2 && s.i2 == i1))
    ensures Orient(pts[s.i0], pts[s.i1], pts[s.i2]) != 0.0
    ensures !CounterClockwise(pts[s.i0], pts[s.i1], pts[s.i2])
  {
    OrientSwap(pts[i0], pts[i1], pts[i2]);
    if CounterClockwise(pts[i0], pts[i1], pts[i2]) then Seed(i0, i2, i1) else Seed(i0, i1, i2)
  }

  lemma OrientSwap(p0: Pt, p1: Pt, p2: Pt)
    ensures Orient(p0, p2, p1) == -Orient(p0, p1, p2)
  {
  }

  lemma OrientRepeated(p: Pt, q: Pt)
    ensures Orient(p, q, q) == 0.0
  {
  }

  lemma NoI1AllSame(pts: seq<Pt>, i0: nat)
    requires i0 < |pts|
    requires forall j :: 0 <= j < |pts| ==> I1Key(pts, i0)(j).None?
    ensures AllSame(pts)
  {
    forall j | 0 <= j < |pts|
      ensures pts[j] == pts[i0]
    {
      assert I1Key(pts, i0)(j).None?;
    }
  }

  lemma NoI2OnALine(pts: seq<Pt>, i0: nat, i1: nat)
    requires i0 < |pts| && i1 < |pts| && pts[i0] != pts[i1]
    requires forall j :: 0 <= j < |pts| ==> I2Key(pts, i0, i1)(j).None?
    ensures AllOnALine(pts)
  {
    var p0, p1 := pts[i0], pts[i1];
    forall j | 0 <= j < |pts|
      ensures Orient(p0, p1, pts[j]) == 0.0
    {
      assert I2Key(pts, i0, i1)(j).None?;
    }
    forall j, k, l | 0 <= j < |pts| && 0 <= k < |pts| && 0 <= l < |pts|
      ensures Orient(pts[j], pts[k], pts[l]) == 0.0
    {
      OnLineTransfer(p0, p1, pts[j], pts[k], pts[l]);
    }
  }

  /** Points on the line through two distinct points are collinear with one
      another. */
  lemma OnLineTransfer(p0: Pt, p1: Pt, a: Pt, b: Pt, c: Pt)
    requires p0 != p1
    requires Orient(p0, p1, a) == 0.0 && Orient(p0, p1, b) == 0.0 && Orient(p0, p1, c) == 0.0
    ensures Orient(a, b, c) == 0.0
  {
    var vx, vy := p1.x - p0.x, p1.y - p0.y;
    // Cross products with the line's direction vanish, and so do those of
    // differences of such vectors.
    var ux, uy := b.x - a.x, b.y - a.y;
    var wx, wy := c.x - a.x, c.y - a.y;
    assert vx * uy - vy * ux == Orient(p0, p1, b) - Orient(p0, p1, a);
    assert vx * wy - vy * wx == Orient(p0, p1, c) - Orient(p0, p1, a);
    var cr := ux * wy - uy * wx;
    assert vx * cr == ux * (vx * wy - vy * wx) - wx * (vx * uy - vy * ux);
    assert vy * cr == uy * (vx * wy - vy * wx) - wy * (vx * uy - vy * ux);
    assert vx * cr == 0.0 && vy * cr == 0.0;
    assert vx != 0.0 || vy != 0.0;
    assert Orient(a, b, c) == cr;
  }

  // ---------------------------------------------------------------------
  // Half-edge bookkeeping

  datatype Mesh = Mesh(triangles: seq<nat>, halfedges: seq<int>, valid: bool)

  /** The half-edge invariant: every half-edge either has no twin or a twin
      in another triangle that points back to it. */
  ghost predicate Mutual(he: seq<int>) {
    && Bounded(he)
    && forall e {:trigger he[he[e]]} :: 0 <= e < |he| && he[e] != INVALID ==> he[e] / 3 != e / 3 && he[he[e]] == e
  }

  /** A mesh as the constructor keeps it between steps: one half-edge entry
      per corner, whole triangles, mutual twins. */
  ghost predicate WellLinked(m: Mesh) {
    && m.valid
    && |m.halfedges| == |m.triangles|
    && |m.triangles| % 3 == 0
    && Mutual(m.halfedges)
  }

  /** Every half-edge entry is -1 or an index into the array. */
  ghost predicate Bounded(he: seq<int>) {
    forall e :: 0 <= e < |he| ==> he[e] == INVALID || 0 <= he[e] < |he|
  }

  lemma MutualBounded(he: seq<int>)
    requires Mutual(he)
    ensures Bounded(he)
  {
  }

  /** The indices `link(a, b)` accepts on an array of `s` half-edges: `a`
      at most one past the end, and `b` at most one past the end of the
      array after `a` was placed. */
  predicate LinkFits(s: nat, a: nat, b: int) {
    a <= s && (b == INVALID || b <= (if a == s then s + 1 else s))
  }

  /** The length of the half-edge array after an accepted `link(a, b)`. */
  function LinkedLength(s: nat, a: nat, b: int): nat {
    if b != INVALID && b >= s && b >= a then b + 1
    else if a == s then s + 1
    else s
  }

  /** What `link(a, b)` leaves behind when both indices fit: `a` and `b`
      point at each other and nothing else moved. */
  ghost predicate LinkedAs(m: Mesh, r: Mesh, a: nat, b: int) {
    && r.valid == m.valid
    && |r.halfedges| == LinkedLength(|m.halfedges|, a, b)
    && a < |r.halfedges| && r.halfedges[a] == b
    && (b != INVALID ==> 0 <= b < |r.halfedges| && r.halfedges[b] == a)
    && forall k :: 0 <= k < |m.halfedges| && k != a && k != b ==> r.halfedges[k] == m.halfedges[k]
  }

  /** `link(a, b)`: make `a` and `b` twins, appending when an index is one
      past the end and failing when it is further out. */
  function Link(m: Mesh, a: nat, b: int): (r: Mesh)
    requires b == INVALID || b >= 0
    ensures r.triangles == m.triangles
    ensures a > |m.halfedges| ==> r == m.(valid := false)
    ensures LinkFits(|m.halfedges|, a, b) ==> LinkedAs(m, r, a, b)
    ensures !LinkFits(|m.halfedges|, a, b) ==> !r.valid
  {
    var he := m.halfedges;
    var s := |he|;
    if a > s then m.(valid := false)
    else
      var he1 := if a == s then he + [b] else he[a := b];
      if b == INVALID then m.(halfedges := he1)
      else
        var s2 := |he1|;
        if b == s2 then m.(halfedges := he1 + [a])
        else if b < s2 then m.(halfedges := he1[b := a])
        else m.(halfedges := he1, valid := false)
  }

  /** `link` inside the array relinks as `LinkedAs` says. */
  lemma LinkInside(m: Mesh, a: nat, b: int)
    requires a < |m.halfedges| && (b == INVALID || 0 <= b < |m.halfedges|)
    ensures LinkedAs(m, Link(m, a, b), a, b)
    ensures |Link(m, a, b).halfedges| == |m.halfedges|
  {
  }

  /** Relinking inside the array keeps every entry an index or -1. */
  lemma LinkKeepsBounded(m: Mesh, a: nat, b: int)
    requires Bounded(m.halfedges) && a < |m.halfedges|
    requires b == INVALID || 0 <= b < |m.halfedges|
    ensures var r := Link(m, a, b);
      Bounded(r.halfedges) && |r.halfedges| == |m.halfedges| && r.valid == m.valid
  {
    var r := Link(m, a, b);
    assert LinkedAs(m, r, a, b);
  }

  /** `add_triangle`: append the three corners and link the three sides to
      `a`, `b`, `c`; the new triangle's first corner, or -1 on failure. */
  function AddTriangle(m: Mesh, i0: nat, i1: nat, i2: nat, a: int, b: int, c: int): (r: (int, Mesh))
    requires a == INVALID || a >= 0
    requires b == INVALID || b >= 0
    requires c == INVALID || c >= 0
    ensures r.1.triangles == m.triangles + [i0, i1, i2]
    ensures r.1.valid ==> r.0 == |m.triangles|
    ensures !r.1.valid ==> r.0 == INVALID
  {
    var t := |m.triangles|;
    var m0 := m.(triangles := m.triangles + [i0, i1, i2]);
    var m1 := Link(m0, t, a);
    if !m1.valid then (INVALID, m1)
    else
      var m2 := Link(m1, t + 1, b);
      if !m2.valid then (INVALID, m2)
      else
        var m3 := Link(m2, t + 2, c);
        if !m3.valid then (INVALID, m3)
        else (t, m3)
  }

  /** A side that may be linked to a new triangle: none, or an existing
      half-edge that has no twin yet. */
  ghost predicate OpenSide(m: Mesh, x: int) {
    x == INVALID || (0 <= x < |m.halfedges| && m.halfedges[x] == INVALID)
  }

  /** The half-edges `he3` after adding triangle `t` against existing
      sides `a`, `b`, `c` to `he`: three new entries `a`, `b`, `c`, each
      existing side pointing back at its new twin (the last link wins when
      two sides coincide), every other entry as before. */
  ghost predicate AddedAs(he: seq<int>, he3: seq<int>, t: nat, a: int, b: int, c: int) {
    && |he| == t && |he3| == t + 3
    && he3[t] == a && he3[t + 1] == b && he3[t + 2] == c
    && (c != INVALID ==> 0 <= c < t && he3[c] == t + 2)
    && (b != INVALID && b != c ==> 0 <= b < t && he3[b] == t + 1)
    && (a != INVALID && a != b && a != c ==> 0 <= a < t && he3[a] == t)
    && forall e :: 0 <= e < t && e != a && e != b && e != c ==> he3[e] == he[e]
  }

  /** `add_triangle` against existing sides succeeds, returns the previous
      triangle count and leaves the half-edges as `AddedAs` describes. */
  lemma AddTriangleShape(m: Mesh, i0: nat, i1: nat, i2: nat, a: int, b: int, c: int)
    requires m.valid && |m.halfedges| == |m.triangles|
    requires a == INVALID || 0 <= a < |m.halfedges|
    requires b == INVALID || 0 <= b < |m.halfedges|
    requires c == INVALID || 0 <= c < |m.halfedges|
    ensures AddTriangle(m, i0, i1, i2, a, b, c).0 == |m.triangles|
    ensures AddTriangle(m, i0, i1, i2, a, b, c).1.valid
    ensures AddedAs(m.halfedges, AddTriangle(m, i0, i1, i2, a, b, c).1.halfedges, |m.triangles|, a, b, c)
  {
    var t := |m.triangles|;
    var m0 := m.(triangles := m.triangles + [i0, i1, i2]);
    var m1 := Link(m0, t, a);
    assert LinkedAs(m0, m1, t, a);
    var m2 := Link(m1, t + 1, b);
    assert LinkedAs(m1, m2, t + 1, b);
    var m3 := Link(m2, t + 2, c);
    assert LinkedAs(m2, m3, t + 2, c);
    assert AddTriangle(m, i0, i1, i2, a, b, c) == (t, m3);
  }

  /** On a well-linked mesh, adding a triangle against distinct open sides
      succeeds, returns the previous triangle count, links the three new
      sides and keeps the mesh well linked. */
  lemma AddTriangleKeepsLinks(m: Mesh, i0: nat, i1: nat, i2: nat, a: int, b: int, c: int)
    requires WellLinked(m)
    requires OpenSide(m, a) && OpenSide(m, b) && OpenSide(m, c)
    requires a != INVALID ==> a != b && a != c
    requires b != INVALID ==> b != c
    ensures AddTriangle(m, i0, i1, i2, a, b, c).0 == |m.triangles|
    ensures WellLinked(AddTriangle(m, i0, i1, i2, a, b, c).1)
    ensures AddedAs(m.halfedges, AddTriangle(m, i0, i1, i2, a, b, c).1.halfedges, |m.triangles|, a, b, c)
  {
    var t := |m.triangles|;
    var r := AddTriangle(m, i0, i1, i2, a, b, c).1;
    AddTriangleShape(m, i0, i1, i2, a, b, c);
    assert Mutual(r.halfedges) by {
      MutualAfterAdd(m.halfedges, r.halfedges, t, a, b, c);
    }
  }

  lemma MutualAfterAdd(he: seq<int>, he3: seq<int>, t: nat, a: int, b: int, c: int)
    requires Mutual(he) && |he| == t && t % 3 == 0
    requires a == INVALID || (0 <= a < t && he[a] == INVALID)
    requires b == INVALID || (0 <= b < t && he[b] == INVALID)
    requires c == INVALID || (0 <= c < t && he[c] == INVALID)
    requires a != INVALID ==> a != b && a != c
    requires b != INVALID ==> b != c
    requires AddedAs(he, he3, t, a, b, c)
    ensures Mutual(he3)
  {
    forall e | 0 <= e < |he3|
      ensures he3[e] == INVALID || 0 <= he3[e] < |he3|
    {
    }
    forall e | 0 <= e < |he3| && he3[e] != INVALID
      ensures he3[e] / 3 != e / 3 && he3[he3[e]] == e
    {
      if e < t && e != a && e != b && e != c {
        assert he[he[e]] == e;
      }
    }
  }

  /** The corner arithmetic of `legalize`: the corner after and before `a`
      in its triangle. */
  function NextCorner(e: nat): (r: nat)
    ensures r / 3 == e / 3 && r != e
  {
    3 * (e / 3) + (e + 1) % 3
  }

  function PrevCorner(e: nat): (r: nat)
    ensures r / 3 == e / 3 && r != e
  {
    3 * (e / 3) + (e + 2) % 3
  }

  /** The corner after `e` steps forward, wrapping from the last corner of
      a triangle to its first. */
  lemma NextForm(e: nat)
    ensures NextCorner(e) == if e % 3 == 2 then e - 2 else e + 1
  {
    assert e == 3 * (e / 3) + e % 3;
  }

  lemma PrevForm(e: nat)
    ensures PrevCorner(e) == if e % 3 == 0 then e + 2 else e - 1
  {
    assert e == 3 * (e / 3) + e % 3;
  }

  /** `ar` and `al` are the other two corners of `a`'s triangle. */
  lemma CornersOfTriangle(a: nat)
    ensures PrevCorner(a) != NextCorner(a)
    ensures NextCorner(NextCorner(NextCorner(a))) == a
    ensures PrevCorner(NextCorner(a)) == a && NextCorner(PrevCorner(a)) == a
  {
    var n1 := NextCorner(a);
    var n2 := NextCorner(n1);
    var p := PrevCorner(a);
    NextForm(a);
    NextForm(n1);
    NextForm(n2);
    PrevForm(a);
    PrevForm(n1);
    NextForm(p);
  }

  lemma CornerBound(e: nat, n: nat)
    requires e < n && n % 3 == 0
    ensures PrevCorner(e) < n && NextCorner(e) < n
  {
  }

  /** `a` and its twin `b` bound two triangles that share only that side:
      the twins of `ar` and `bl` lie outside both. */
  ghost predicate SharesOneSide(m: Mesh, a: nat)
    requires WellLinked(m) && a < |m.halfedges| && m.halfedges[a] != INVALID
  {
    var he := m.halfedges;
    assert 0 <= he[a] by { assert Mutual(he); }
    var b: nat := he[a];
    var x := he[PrevCorner(a)];
    var y := he[PrevCorner(b)];
    (x == INVALID || x / 3 != b / 3) && (y == INVALID || y / 3 != a / 3)
  }

  /** One edge flip of `legalize` (lines 667-695): rewrite the two corners
      and relink through `link`; returns the mesh and the corner `br` to
      revisit. */
  function Flip(m: Mesh, a: nat): (r: (Mesh, nat))
    requires |m.halfedges| == |m.triangles| && |m.triangles| % 3 == 0
    requires a < |m.halfedges| && Bounded(m.halfedges)
    requires m.halfedges[a] != INVALID
    ensures |r.0.triangles| == |m.triangles| && |r.0.halfedges| == |m.halfedges|
    ensures r.0.valid == m.valid
    ensures r.1 < |m.halfedges|
    ensures Bounded(r.0.halfedges)
    ensures forall k :: 0 <= k < |m.triangles| ==> r.0.triangles[k] in m.triangles
  {
    var he := m.halfedges;
    var n := |he|;
    var b: nat := he[a];
    var ar := PrevCorner(a);
    var bl := PrevCorner(b);
    var br := NextCorner(b);
    CornerBound(a, n);
    CornerBound(b, n);
    var p0 := m.triangles[ar];
    var p1 := m.triangles[bl];
    var m0 := m.(triangles := m.triangles[a := p1][b := p0]);
    (Relink(m0, a, b, ar, bl), br)
  }

  /** The three `link` calls of a flip: `link(a, halfedges[bl])`,
      `link(b, halfedges[ar])`, `link(ar, bl)`. */
  function Relink(m0: Mesh, a: nat, b: nat, ar: nat, bl: nat): (r: Mesh)
    requires a < |m0.halfedges| && b < |m0.halfedges| && ar < |m0.halfedges| && bl < |m0.halfedges|
    requires Bounded(m0.halfedges)
    ensures r.triangles == m0.triangles && r.valid == m0.valid
    ensures |r.halfedges| == |m0.halfedges| && Bounded(r.halfedges)
  {
    var m1 := Link(m0, a, m0.halfedges[bl]);
    LinkKeepsBounded(m0, a, m0.halfedges[bl]);
    var m2 := Link(m1, b, m1.halfedges[ar]);
    LinkKeepsBounded(m1, b, m1.halfedges[ar]);
    LinkKeepsBounded(m2, ar, bl);
    Link(m2, ar, bl)
  }

  /** The half-edges `h` after a flip of `he` across twins `a`, `b`: `a`
      and `b` trade partners with `bl` and `ar`, which become twins, the
      old twins of `bl` and `ar` point back at `a` and `b`, and nothing
      else moves. */
  ghost predicate FlippedAs(he: seq<int>, h: seq<int>, a: nat, b: nat, ar: nat, bl: nat) {
    && |h| == |he| && a < |he| && b < |he| && ar < |he| && bl < |he|
    && h[a] == he[bl] && h[b] == he[ar] && h[ar] == bl && h[bl] == ar
    && (he[bl] != INVALID ==> 0 <= he[bl] < |h| && h[he[bl]] == a)
    && (he[ar] != INVALID ==> 0 <= he[ar] < |h| && h[he[ar]] == b)
    && forall e :: 0 <= e < |he| && e != a && e != b && e != ar && e != bl && e != he[ar] && e != he[bl] ==> h[e] == he[e]
  }

  /** The corners a flip across `a` touches, as the index facts the three
      `link` calls rely on: `a`, its twin `b`, `ar` and `bl` are four
      distinct corners, and the old twins of `ar` and `bl` are none of them
      and not one another. */
  ghost predicate FlipReady(he: seq<int>, a: nat, b: nat, ar: nat, bl: nat) {
    && |he| % 3 == 0 && Bounded(he)
    && a < |he| && b < |he| && ar < |he| && bl < |he|
    && he[a] == b && ar == PrevCorner(a) && bl == PrevCorner(b)
    && a != b && a != ar && a != bl && b != ar && b != bl && ar != bl
    && he[ar] != a && he[ar] != b && he[ar] != ar && he[ar] != bl
    && he[bl] != a && he[bl] != b && he[bl] != ar && he[bl] != bl
    && (he[ar] == INVALID || he[ar] != he[bl])
  }

  /** Twins in a well-linked mesh whose triangles share only that side are
      ready to flip. */
  lemma ReadyToFlip(m: Mesh, a: nat)
    requires WellLinked(m) && a < |m.halfedges| && m.halfedges[a] != INVALID
    requires SharesOneSide(m, a)
    ensures m.halfedges[a] >= 0
    ensures FlipReady(m.halfedges, a, m.halfedges[a], PrevCorner(a), PrevCorner(m.halfedges[a]))
  {
    var he := m.halfedges;
    var n := |he|;
    MutualBounded(he);
    var b: nat := he[a];
    var ar := PrevCorner(a);
    var bl := PrevCorner(b);
    CornerBound(a, n);
    CornerBound(b, n);
    assert a / 3 != b / 3 && he[b] == a;
    assert he[ar] != INVALID ==> he[he[ar]] == ar && he[ar] / 3 != ar / 3;
    assert he[bl] != INVALID ==> he[he[bl]] == bl && he[bl] / 3 != bl / 3;
  }

  /** What `Flip` does to the half-edges when the flipped corners are
      ready. */
  lemma FlipShape(m: Mesh, a: nat, b: nat, ar: nat, bl: nat)
    requires |m.halfedges| == |m.triangles| && FlipReady(m.halfedges, a, b, ar, bl)
    ensures FlippedAs(m.halfedges, Flip(m, a).0.halfedges, a, b, ar, bl)
  {
    var m0 := m.(triangles := m.triangles[a := m.triangles[bl]][b := m.triangles[ar]]);
    assert Flip(m, a).0 == Relink(m0, a, b, ar, bl);
    RelinkShape(m0, a, b, ar, bl);
  }

  lemma RelinkShape(m0: Mesh, a: nat, b: nat, ar: nat, bl: nat)
    requires FlipReady(m0.halfedges, a, b, ar, bl)
    ensures FlippedAs(m0.halfedges, Relink(m0, a, b, ar, bl).halfedges, a, b, ar, bl)
  {
    var he := m0.halfedges;
    var x := he[ar];
    var y := he[bl];
    var m1 := Link(m0, a, y);
    var m2 := Link(m1, b, m1.halfedges[ar]);
    var m3 := Link(m2, ar, bl);
    LinkInside(m0, a, y);
    assert m1.halfedges[ar] == x;
    LinkInside(m1, b, x);
    LinkInside(m2, ar, bl);
    ThreeLinks(m0, m1, m2, m3, a, b, ar, bl);
  }

  /** The three `link` calls of a flip. */
  lemma ThreeLinks(m0: Mesh, m1: Mesh, m2: Mesh, m3: Mesh, a: nat, b: nat, ar: nat, bl: nat)
    requires FlipReady(m0.halfedges, a, b, ar, bl)
    requires LinkedAs(m0, m1, a, m0.halfedges[bl])
    requires LinkedAs(m1, m2, b, m0.halfedges[ar])
    requires LinkedAs(m2, m3, ar, bl)
    ensures FlippedAs(m0.halfedges, m3.halfedges, a, b, ar, bl)
  {
  }

  /** A flip between two triangles that share only the flipped side keeps
      every twin pair mutual: `a` takes `bl`'s old twin, `b` takes `ar`'s,
      and `ar`, `bl` become twins. */
  lemma FlipKeepsLinks(m: Mesh, a: nat)
    requires WellLinked(m) && a < |m.halfedges| && m.halfedges[a] != INVALID
    requires SharesOneSide(m, a)
    ensures Bounded(m.halfedges)
    ensures WellLinked(Flip(m, a).0)
  {
    var he := m.halfedges;
    var n := |he|;
    MutualBounded(he);
    var b: nat := he[a];
    assert a / 3 != b / 3 && he[b] == a;
    var ar := PrevCorner(a);
    var bl := PrevCorner(b);
    CornerBound(a, n);
    CornerBound(b, n);
    ReadyToFlip(m, a);
    FlipShape(m, a, b, ar, bl);
    MutualAfterFlip(he, Flip(m, a).0.halfedges, a, b, ar, bl);
  }

  lemma MutualAfterFlip(he: seq<int>, h: seq<int>, a: nat, b: nat, ar: nat, bl: nat)
    requires Mutual(he) && FlippedAs(he, h, a, b, ar, bl)
    requires he[a] == b && he[b] == a && a / 3 != b / 3
    requires ar / 3 == a / 3 && ar != a && bl / 3 == b / 3 && bl != b
    requires he[ar] == INVALID || he[ar] / 3 != b / 3
    requires he[bl] == INVALID || he[bl] / 3 != a / 3
    ensures Mutual(h)
  {
    forall e | 0 <= e < |h|
      ensures h[e] == INVALID || 0 <= h[e] < |h|
    {
    }
    forall e | 0 <= e < |h| && h[e] != INVALID
      ensures h[e] / 3 != e / 3 && h[h[e]] == e
    {
      if e != a && e != b && e != ar && e != bl && e != he[ar] && e != he[bl] {
        assert he[he[e]] == e;
      }
    }
  }

  /** The shape `legalize` needs of a mesh: one half-edge entry per corner,
      whole triangles, every twin -1 or an index, every corner naming one
      of the `npts` points. */
  ghost predicate InRange(m: Mesh, npts: nat) {
    && |m.halfedges| == |m.triangles| && |m.triangles| % 3 == 0
    && Bounded(m.halfedges)
    && (forall k :: 0 <= k < |m.triangles| ==> m.triangles[k] < npts)
  }

  /** `in_circle`: `p` lies strictly inside the circle through `a`, `b`,
      `c` (for a clockwise triangle, with the source's sign). */
  predicate InCircle(a: Pt, b: Pt, c: Pt, p: Pt) {
    var dx := a.x - p.x;
    var dy := a.y - p.y;
    var ex := b.x - p.x;
    var ey := b.y - p.y;
    var fx := c.x - p.x;
    var fy := c.y - p.y;
    var ap := dx * dx + dy * dy;
    var bp := ex * ex + ey * ey;
    var cp := fx * fx + fy * fy;
    dx * (ey * cp - bp * fy) - dy * (ex * cp - bp * fx) + ap * (ex * fy - ey * fx) < 0.0
  }

  /** `legalize(a)`: flip while the opposite vertex is inside the
      circumcircle, revisiting the pushed corners; returns `ar` of the last
      corner looked at. The source's loop ends by the geometry of Delaunay
      flips; here each iteration costs one unit of fuel and `None` means the
      fuel ran out. The hull-triangle repair of lines 673-684 is left out. */
  function Legalize(m: Mesh, pts: seq<Pt>, a: nat, stack: seq<nat>, fuel: nat): (r: Option<(nat, Mesh)>)
    requires InRange(m, |pts|)
    requires a < |m.halfedges|
    requires forall k :: 0 <= k < |stack| ==> stack[k] < |m.halfedges|
    ensures r.Some? ==> r.value.0 < |m.halfedges|
    ensures r.Some? ==> InRange(r.value.1, |pts|) && |r.value.1.triangles| == |m.triangles|
    ensures r.Some? ==> r.value.1.valid == m.valid
    decreases fuel, 1
  {
    if fuel == 0 then None
    else
      var he := m.halfedges;
      var b := he[a];
      var ar := PrevCorner(a);
      CornerBound(a, |he|);
      if b == INVALID then
        if |stack| > 0 then Legalize(m, pts, stack[|stack| - 1], stack[..|stack| - 1], fuel - 1)
        else Some((ar, m))
      else if Illegal(m, pts, a) then LegalizeAfterFlip(m, pts, a, stack, fuel - 1)
      else if |stack| > 0 then Legalize(m, pts, stack[|stack| - 1], stack[..|stack| - 1], fuel - 1)
      else Some((ar, m))
  }

  /** The flip branch of `legalize`: flip across `a`, push `br` and go on
      with the `fuel` left. */
  function LegalizeAfterFlip(m: Mesh, pts: seq<Pt>, a: nat, stack: seq<nat>, fuel: nat): (r: Option<(nat, Mesh)>)
    requires InRange(m, |pts|)
    requires a < |m.halfedges| && m.halfedges[a] != INVALID
    requires forall k :: 0 <= k < |stack| ==> stack[k] < |m.halfedges|
    ensures r.Some? ==> r.value.0 < |m.halfedges|
    ensures r.Some? ==> InRange(r.value.1, |pts|) && |r.value.1.triangles| == |m.triangles|
    ensures r.Some? ==> r.value.1.valid == m.valid
    decreases fuel, 2
  {
    var f := Flip(m, a);
    FlipInRange(m, pts, a);
    Legalize(f.0, pts, a, stack + [f.1], fuel)
  }

  /** The test `legalize` flips on: the far corner `bl` of the twin
      triangle lies inside the circumcircle of `a`'s triangle. */
  predicate Illegal(m: Mesh, pts: seq<Pt>, a: nat)
    requires InRange(m, |pts|) && a < |m.halfedges| && m.halfedges[a] != INVALID
  {
    var he := m.halfedges;
    var b: nat := he[a];
    var ar := PrevCorner(a);
    var al := NextCorner(a);
    var bl := PrevCorner(b);
    CornerBound(a, |he|);
    CornerBound(b, |he|);
    InCircle(pts[m.triangles[ar]], pts[m.triangles[a]], pts[m.triangles[al]], pts[m.triangles[bl]])
  }

  /** A flip keeps the mesh in range and the revisited corner inside it. */
  lemma FlipInRange(m: Mesh, pts: seq<Pt>, a: nat)
    requires InRange(m, |pts|) && a < |m.halfedges| && m.halfedges[a] != INVALID
    ensures InRange(Flip(m, a).0, |pts|) && |Flip(m, a).0.halfedges| == |m.halfedges|
  {
    var m' := Flip(m, a).0;
    assert forall k :: 0 <= k < |m'.triangles| ==> m'.triangles[k] < |pts|;
  }

  /** Every flip `legalize` makes from this state, with this fuel, is
      between two triangles that share only the flipped side, as they do in
      a triangulation of distinct points. The walk is `Legalize`'s own. */
  ghost predicate CleanFlips(m: Mesh, pts: seq<Pt>, a: nat, stack: seq<nat>, fuel: nat)
    requires InRange(m, |pts|)
    requires a < |m.halfedges|
    requires forall k :: 0 <= k < |stack| ==> stack[k] < |m.halfedges|
    decreases fuel, 1
  {
    if fuel == 0 then true
    else
      if m.halfedges[a] != INVALID && Illegal(m, pts, a) then CleanAfterFlip(m, pts, a, stack, fuel - 1)
      else
        |stack| > 0 ==> CleanFlips(m, pts, stack[|stack| - 1], stack[..|stack| - 1], fuel - 1)
  }

  /** The flip branch of `CleanFlips`: this flip is clean and so are the
      ones after it. */
  ghost predicate CleanAfterFlip(m: Mesh, pts: seq<Pt>, a: nat, stack: seq<nat>, fuel: nat)
    requires InRange(m, |pts|)
    requires a < |m.halfedges| && m.halfedges[a] != INVALID
    requires forall k :: 0 <= k < |stack| ==> stack[k] < |m.halfedges|
    decreases fuel, 2
  {
    var f := Flip(m, a);
    FlipInRange(m, pts, a);
    (WellLinked(m) ==> SharesOneSide(m, a)) && CleanFlips(f.0, pts, a, stack + [f.1], fuel)
  }

  /** Legalising a well-linked mesh leaves it well linked, as long as each
      flip it makes is between triangles that share only that side. */
  lemma {:induction false} LegalizeKeepsLinks(m: Mesh, pts: seq<Pt>, a: nat, stack: seq<nat>, fuel: nat)
    requires InRange(m, |pts|)
    requires a < |m.halfedges|
    requires forall k :: 0 <= k < |stack| ==> stack[k] < |m.halfedges|
    requires WellLinked(m) && CleanFlips(m, pts, a, stack, fuel)
    ensures var r := Legalize(m, pts, a, stack, fuel); r.Some? ==> WellLinked(r.value.1)
    decreases fuel
  {
    if fuel > 0 {
      var m', a', stack', stop := LegalizeStep(m, pts, a, stack, fuel);
      if !stop {
        LegalizeKeepsLinks(m', pts, a', stack', fuel - 1);
      }
    }
  }

  /** One step of `legalize`: it either stops on `m` or goes on from
      `m'`, `a'`, `stack'` with one unit of fuel less; the walk and its
      clean flips carry over, and a clean flip keeps the mesh well linked. */
  lemma LegalizeStep(m: Mesh, pts: seq<Pt>, a: nat, stack: seq<nat>, fuel: nat)
      returns (m': Mesh, a': nat, stack': seq<nat>, stop: bool)
    requires InRange(m, |pts|)
    requires a < |m.halfedges|
    requires forall k :: 0 <= k < |stack| ==> stack[k] < |m.halfedges|
    requires fuel > 0
    ensures InRange(m', |pts|) && a' < |m'.halfedges|
    ensures forall k :: 0 <= k < |stack'| ==> stack'[k] < |m'.halfedges|
    ensures stop ==> Legalize(m, pts, a, stack, fuel) == Some((PrevCorner(a), m))
    ensures !stop ==> Legalize(m, pts, a, stack, fuel) == Legalize(m', pts, a', stack', fuel - 1)
    ensures !stop && CleanFlips(m, pts, a, stack, fuel) ==> CleanFlips(m', pts, a', stack', fuel - 1)
    ensures WellLinked(m) && CleanFlips(m, pts, a, stack, fuel) ==> WellLinked(m')
  {
    if m.halfedges[a] != INVALID && Illegal(m, pts, a) {
      var br;
      m', br := LegalizeFlipStep(m, pts, a, stack, fuel);
      a', stack', stop := a, stack + [br], false;
    } else if |stack| > 0 {
      LegalizePopStep(m, pts, a, stack, fuel);
      m', a', stack', stop := m, stack[|stack| - 1], stack[..|stack| - 1], false;
    } else {
      LegalizeStops(m, pts, a, fuel);
      m', a', stack', stop := m, a, stack, true;
    }
  }

  /** A flip step of `legalize`: it continues from the flipped mesh `m'`
      with `br` pushed, `m'` is well linked when the flip was clean, and
      the flips after it are clean when all are. */
  lemma LegalizeFlipStep(m: Mesh, pts: seq<Pt>, a: nat, stack: seq<nat>, fuel: nat) returns (m': Mesh, br: nat)
    requires InRange(m, |pts|)
    requires a < |m.halfedges|
    requires forall k :: 0 <= k < |stack| ==> stack[k] < |m.halfedges|
    requires fuel > 0 && m.halfedges[a] != INVALID && Illegal(m, pts, a)
    ensures InRange(m', |pts|) && |m'.halfedges| == |m.halfedges|
    ensures forall k :: 0 <= k < |stack + [br]| ==> (stack + [br])[k] < |m'.halfedges|
    ensures Legalize(m, pts, a, stack, fuel) == Legalize(m', pts, a, stack + [br], fuel - 1)
    ensures CleanFlips(m, pts, a, stack, fuel) ==> CleanFlips(m', pts, a, stack + [br], fuel - 1)
    ensures WellLinked(m) && CleanFlips(m, pts, a, stack, fuel) ==> WellLinked(m')
  {
    var f := Flip(m, a);
    m', br := f.0, f.1;
    FlipInRange(m, pts, a);
    assert Legalize(m, pts, a, stack, fuel) == LegalizeAfterFlip(m, pts, a, stack, fuel - 1);
    if CleanFlips(m, pts, a, stack, fuel) {
      assert CleanAfterFlip(m, pts, a, stack, fuel - 1);
      if WellLinked(m) {
        assert SharesOneSide(m, a);
        FlipKeepsLinks(m, a);
      }
    }
  }

  /** A step that does not flip pops the stack. */
  lemma LegalizePopStep(m: Mesh, pts: seq<Pt>, a: nat, stack: seq<nat>, fuel: nat)
    requires InRange(m, |pts|)
    requires a < |m.halfedges|
    requires forall k :: 0 <= k < |stack| ==> stack[k] < |m.halfedges|
    requires fuel > 0 && !(m.halfedges[a] != INVALID && Illegal(m, pts, a)) && |stack| > 0
    ensures Legalize(m, pts, a, stack, fuel) == Legalize(m, pts, stack[|stack| - 1], stack[..|stack| - 1], fuel - 1)
    ensures CleanFlips(m, pts, a, stack, fuel) ==> CleanFlips(m, pts, stack[|stack| - 1], stack[..|stack| - 1], fuel - 1)
  {
  }

  /** With nothing to flip and nothing pending, `legalize` stops on the
      mesh it was given. */
  lemma LegalizeStops(m: Mesh, pts: seq<Pt>, a: nat, fuel: nat)
    requires InRange(m, |pts|)
    requires a < |m.halfedges|
    requires fuel > 0 && !(m.halfedges[a] != INVALID && Illegal(m, pts, a))
    ensures Legalize(m, pts, a, [], fuel) == Some((PrevCorner(a), m))
  {
  }

  /** Well-linkedness alone does not protect a flip: two triangles joined
      along two sides (corners 0-3 and 2-4) are well linked, and flipping
      side 0 makes corners 3 and 4 of one triangle twins. */
  lemma FlipNeedsOneSharedSide()
    ensures var m := Mesh([0, 1, 2, 2, 1, 0], [3, INVALID, 4, 0, 2, INVALID], true);
      WellLinked(m) && !WellLinked(Flip(m, 0).0)
  {
    var m := Mesh([0, 1, 2, 2, 1, 0], [3, INVALID, 4, 0, 2, INVALID], true);
    assert Mutual(m.halfedges);
    var h := Flip(m, 0).0.halfedges;
    assert h[3] == 4;
  }

  // ---------------------------------------------------------------------
  // The advancing hull

  /** The vertex after position `k` of the cyclic hull `h`. */
  function Succ(h: seq<nat>, k: nat): nat
    requires k < |h|
  {
    h[(k + 1) % |h|]
  }

  /** `next` and `prev` trace the hull `h` as a cycle: consecutive entries
      are linked both ways. */
  ghost predicate IsCycle(next: seq<nat>, prev: seq<nat>, h: seq<nat>) {
    && |next| == |prev|
    && |h| >= 1
    && (forall k :: 0 <= k < |h| ==> h[k] < |next|)
    && (forall j, k :: 0 <= j < k < |h| ==> h[j] != h[k])
    && (forall k {:trigger Succ(h, k)} :: 0 <= k < |h| ==> next[h[k]] == Succ(h, k) && prev[Succ(h, k)] == h[k])
  }

  lemma Cycle3(next: seq<nat>, prev: seq<nat>, a: nat, b: nat, c: nat)
    requires |next| == |prev| && a < |next| && b < |next| && c < |next|
    requires a != b && a != c && b != c
    requires next[a] == b && next[b] == c && next[c] == a
    requires prev[b] == a && prev[c] == b && prev[a] == c
    ensures IsCycle(next, prev, [a, b, c])
  {
    var h := [a, b, c];
    assert Succ(h, 0) == b && Succ(h, 1) == c && Succ(h, 2) == a;
  }

  /** The seed hull (lines 424-432): `hull_next`, `hull_prev` and `hull_tri`
      resized to `n` (zero-filled), then the three seeds linked into a
      cycle, each pointing at the seed triangle's corner on its side. */
  function SeedHull(n: nat, s: Seed): (r: (seq<nat>, seq<nat>, seq<nat>))
    requires s.i0 < n && s.i1 < n && s.i2 < n
    requires s.i0 != s.i1 && s.i0 != s.i2 && s.i1 != s.i2
    ensures |r.0| == n && |r.1| == n && |r.2| == n
    ensures IsCycle(r.0, r.1, [s.i0, s.i1, s.i2])
    ensures r.2[s.i0] == 0 && r.2[s.i1] == 1 && r.2[s.i2] == 2
  {
    var zeros: seq<nat> := seq(n, _ => 0);
    var next := zeros[s.i0 := s.i1][s.i1 := s.i2][s.i2 := s.i0];
    var prev := zeros[s.i2 := s.i1][s.i0 := s.i2][s.i1 := s.i0];
    var tri := zeros[s.i0 := 0][s.i1 := 1][s.i2 := 2];
    Cycle3(next, prev, s.i0, s.i1, s.i2);
    (next, prev, tri)
  }

  /** The seeds are distinct: `SelectSeed` picks `i1` and `i2` away from
      `i0` and each other. */
  lemma SeedsDistinct(pts: seq<Pt>)
    requires SelectSeed(pts).Ok?
    ensures var s := SelectSeed(pts).value; s.i0 != s.i1 && s.i0 != s.i2 && s.i1 != s.i2
  {
    var s := SelectSeed(pts).value;
    OrientRepeated(pts[s.i0], pts[s.i1]);
  }

  /** The hull update after inserting `i` (lines 570-575): `i` goes between
      `e` and `nxt`. */
  function Splice(next: seq<nat>, prev: seq<nat>, e: nat, i: nat, nxt: nat): (r: (seq<nat>, seq<nat>))
    requires |next| == |prev| && e < |next| && i < |next| && nxt < |next|
    ensures |r.0| == |next| && |r.1| == |prev|
  {
    var prev' := prev[i := e][nxt := i];
    var next' := next[e := i][i := nxt];
    (next', prev')
  }

  lemma SuccValue(h: seq<nat>, k: nat)
    requires k < |h|
    ensures Succ(h, k) == if k + 1 < |h| then h[k + 1] else h[0]
  {
  }

  /** Splicing a new point `i` between hull vertex `e` (rotated to the
      front) and `h[m]` drops the vertices the walks passed over and keeps
      the hull a cycle: `[e, i] + h[m..]`. */
  lemma SpliceKeepsCycle(next: seq<nat>, prev: seq<nat>, h: seq<nat>, i: nat, m: nat)
    requires IsCycle(next, prev, h)
    requires 1 <= m < |h| && i < |next| && i !in h
    ensures var (next', prev') := Splice(next, prev, h[0], i, h[m]);
      IsCycle(next', prev', [h[0], i] + h[m..])
  {
    var h' := [h[0], i] + h[m..];
    assert |h'| == |h| - m + 2;
    assert h'[0] == h[0] && h'[1] == i;
    assert forall k :: 2 <= k < |h'| ==> h'[k] == h[m + k - 2];
    SpliceCycle(next, prev, h, h', i, m);
  }

  lemma SpliceCycle(next: seq<nat>, prev: seq<nat>, h: seq<nat>, h': seq<nat>, i: nat, m: nat)
    requires IsCycle(next, prev, h)
    requires 1 <= m < |h| && i < |next| && i !in h
    requires |h'| == |h| - m + 2 && h'[0] == h[0] && h'[1] == i
    requires forall k :: 2 <= k < |h'| ==> h'[k] == h[m + k - 2]
    ensures var (next', prev') := Splice(next, prev, h[0], i, h[m]);
      IsCycle(next', prev', h')
  {
    var (next', prev') := Splice(next, prev, h[0], i, h[m]);
    SpliceDistinct(h, h', i, m);
    assert h'[2] == h[m];
    forall k | 0 <= k < |h'|
      ensures next'[h'[k]] == Succ(h', k) && prev'[Succ(h', k)] == h'[k]
    {
      SuccValue(h', k);
      if k >= 2 {
        SpliceTail(next, prev, h, h', i, m, k);
      }
    }
  }

  lemma SpliceDistinct(h: seq<nat>, h': seq<nat>, i: nat, m: nat)
    requires forall j, k :: 0 <= j < k < |h| ==> h[j] != h[k]
    requires 1 <= m < |h| && i !in h
    requires |h'| == |h| - m + 2 && h'[0] == h[0] && h'[1] == i
    requires forall k :: 2 <= k < |h'| ==> h'[k] == h[m + k - 2]
    ensures forall j, k :: 0 <= j < k < |h'| ==> h'[j] != h'[k]
  {
    forall j, k | 0 <= j < k < |h'|
      ensures h'[j] != h'[k]
    {
      if j >= 2 {
        assert h'[j] == h[m + j - 2] && h'[k] == h[m + k - 2];
      } else if j == 0 && k >= 2 {
        assert h'[k] == h[m + k - 2];
      } else if k >= 2 {
        assert h'[k] == h[m + k - 2];
      }
    }
  }

  lemma SpliceTail(next: seq<nat>, prev: seq<nat>, h: seq<nat>, h': seq<nat>, i: nat, m: nat, k: nat)
    requires IsCycle(next, prev, h)
    requires 1 <= m < |h| && i < |next| && i !in h
    requires |h'| == |h| - m + 2 && h'[0] == h[0] && h'[1] == i
    requires forall k :: 2 <= k < |h'| ==> h'[k] == h[m + k - 2]
    requires 2 <= k < |h'|
    ensures var (next', prev') := Splice(next, prev, h[0], i, h[m]);
      next'[h'[k]] == (if k + 1 < |h'| then h'[k + 1] else h'[0])
      && prev'[if k + 1 < |h'| then h'[k + 1] else h'[0]] == h'[k]
  {
    var j := m + k - 2;
    assert h'[k] == h[j];
    assert h[j] != h[0] && h[j] != i;
    assert next[h[j]] == Succ(h, j) && prev[Succ(h, j)] == h[j];
    SuccValue(h, j);
    if k + 1 < |h'| {
      assert h'[k + 1] == h[j + 1];
      assert h[j + 1] != h[m];
    }
  }
}

=== FILE: face_hash.dfy ===
/** The arithmetic shared by the two Blender face hashes
    (world_blender/voxel_hash.py and Celebi/src/voxel_hash.py): Python's
    `to_signed32`, the rolling hash `h * 31 + sig` masked to 64 bits, and the
    fold of the 64-bit hash into a signed 32-bit value. */
module FaceHash {
  import Int32

  const TWO64: int := 0x1_0000_0000_0000_0000

  /** `to_signed32(x)`: mask to 32 bits, and when the sign bit is set return
      minus the two's complement of the masked value. The sign-bit test
      `x & 0x80000000` is written as `u >= 2^31`, and `~u & 0xFFFFFFFF` as
      `0xFFFFFFFF - u`, which is what they mean on `0 <= u < 2^32`. */
  function ToSigned32(x: int): (r: int)
    ensures r == Int32.ToInt32(x)
    ensures -Int32.TWO31 <= r < Int32.TWO31
    ensures Int32.Congruent(r, x)
  {
    var u := x % Int32.TWO32;
    if u >= Int32.TWO31 then -((0xFFFF_FFFF - u) + 1) else u
  }

  /** The low 64 bits of a Python integer. Python's `&`, `^` on negative
      integers act on an infinite two's complement, so only these bits reach
      the 64-bit masked hash. */
  function Low64(x: int): bv64 {
    (x % TWO64) as bv64
  }

  /** One step of the rolling hash, `(h * 31 + sig) & 0xFFFFFFFFFFFFFFFF`. */
  function RollStep(h: int, sig: bv64): (r: int)
    ensures 0 <= r < TWO64
  {
    (h * 31 + sig as int) % TWO64
  }

  /** The rolling hash over a sequence of signatures, starting from 0. */
  function Roll(sigs: seq<bv64>): (r: int)
    ensures 0 <= r < TWO64
  {
    if sigs == [] then 0 else RollStep(Roll(sigs[..|sigs| - 1]), sigs[|sigs| - 1])
  }

  /** The same polynomial hash computed without any masking. */
  function Poly(sigs: seq<bv64>): int {
    if sigs == [] then 0 else Poly(sigs[..|sigs| - 1]) * 31 + sigs[|sigs| - 1] as int
  }

  /** Masking after every step is the same as masking once at the end: the
      rolling hash is the unbounded polynomial hash reduced modulo 2^64. */
  lemma {:induction false} RollIsPolyMod(sigs: seq<bv64>)
    ensures Roll(sigs) == Poly(sigs) % TWO64
  {
    if sigs != [] {
      var init := sigs[..|sigs| - 1];
      var c := sigs[|sigs| - 1] as int;
      RollIsPolyMod(init);
      MulAddMod(Poly(init), c);
    }
  }

  lemma MulAddMod(a: int, c: int)
    ensures ((a % TWO64) * 31 + c) % TWO64 == (a * 31 + c) % TWO64
  {
    var q := a / TWO64;
    assert a == q * TWO64 + a % TWO64;
    assert a * 31 + c == ((a % TWO64) * 31 + c) + (q * 31) * TWO64;
    ModShift((a % TWO64) * 31 + c, q * 31);
  }

  lemma ModShift(x: int, k: int)
    ensures (x + k * TWO64) % TWO64 == x % TWO64
  {
  }

  /** `(h & 0xFFFFFFFF) ^ ((h >> 32) & 0xFFFFFFFF)` for `0 <= h < 2^64`. */
  function LowXorHigh(h: int): (r: int)
    requires 0 <= h < TWO64
    ensures 0 <= r < Int32.TWO32
  {
    var lo := h % Int32.TWO32;
    var hi := (h / Int32.TWO32) % Int32.TWO32;
    ((lo as bv32) ^ (hi as bv32)) as int
  }

  /** The final 32-bit signed face hash. */
  function Fold(h: int): (r: int)
    requires 0 <= h < TWO64
    ensures -Int32.TWO31 <= r < Int32.TWO31
    ensures Int32.Congruent(r, LowXorHigh(h))
  {
    ToSigned32(LowXorHigh(h))
  }

  /** Identical high and low words cancel: the fold is 0. */
  lemma FoldEqualWords(h: int)
    requires 0 <= h < TWO64
    requires h % Int32.TWO32 == (h / Int32.TWO32) % Int32.TWO32
    ensures Fold(h) == 0
  {
    var lo := h % Int32.TWO32;
    XorSelf(lo as bv32);
  }

  lemma XorSelf(b: bv32)
    ensures b ^ b == 0
  {
  }

  /** Python's `round` on a float: to the nearest integer, ties to even. */
  function RoundHalfEven(x: real): (r: int)
    ensures (r as real) - x <= 0.5 && x - (r as real) <= 0.5
    ensures ((r as real) - x == 0.5 || x - (r as real) == 0.5) ==> r % 2 == 0
  {
    var f := x.Floor;
    var d := x - f as real;
    if d < 0.5 then f
    else if d > 0.5 then f + 1
    else if f % 2 == 0 then f else f + 1
  }
}

=== FILE: fnv1a.dfy ===
/** `Tile.fnv1aHash` of 2dwavefunction/src/main.ts: the 32-bit FNV-1a hash
    of a tile's pixel bytes, with the multiplication by the FNV prime spelled
    as a sum of JavaScript shifts. Each `<<` and `^` works on ToInt32 of its
    operand, the `+=` sum is exact, and the final `>>> 0` is ToUint32. */
module Fnv1a {
  import Int32

  type Byte = b: int | 0 <= b < 256

  const OFFSET_BASIS: int := 0x811c9dc5
  /** 16777619 = 2^24 + 2^8 + 2^7 + 2^4 + 2^1 + 1. */
  const PRIME: int := 16777619

  /** JavaScript `x << k` for a shift count below 32. */
  function Shl(x: int, k: nat): (r: int)
    requires k < 32
    ensures -Int32.TWO31 <= r < Int32.TWO31
    ensures Int32.Congruent(r, x * Pow2(k))
  {
    var y := Int32.ToInt32(x);
    Int32.CongruentScale(y, x, Pow2(k));
    Int32.CongruentTrans(Int32.ToInt32(y * Pow2(k)), y * Pow2(k), x * Pow2(k));
    Int32.ToInt32(y * Pow2(k))
  }

  function Pow2(k: nat): (r: nat)
    ensures r > 0
  {
    if k == 0 then 1 else 2 * Pow2(k - 1)
  }

  /** JavaScript `hash ^ b`: a signed 32-bit number. */
  function XorByte(h: int, b: Byte): int {
    Int32.FromBits(Int32.Bits(h) ^ (b as bv32))
  }

  /** One iteration of the loop body: `hash ^= b; hash += (hash << 1) + ...`. */
  function Step(h: int, b: Byte): int {
    var x := XorByte(h, b);
    x + ((((Shl(x, 1) + Shl(x, 4)) + Shl(x, 7)) + Shl(x, 8)) + Shl(x, 24))
  }

  /** Reference FNV-1a over unsigned 32-bit words: xor in the byte, multiply
      by the prime, keep 32 bits. */
  function SpecStep(h: int, b: Byte): (r: int)
    ensures 0 <= r < Int32.TWO32
  {
    MulPrime(Int32.Bits(h) ^ (b as bv32))
  }

  function MulPrime(u: bv32): (r: int)
    ensures 0 <= r < Int32.TWO32
    ensures Int32.Congruent(r, u as int * PRIME)
  {
    var p := u as int * PRIME;
    Int32.CongruentMod(p);
    p % Int32.TWO32
  }

  function Spec(bytes: seq<Byte>): (r: int)
    ensures 0 <= r < Int32.TWO32
  {
    if bytes == [] then OFFSET_BASIS
    else SpecStep(Spec(bytes[..|bytes| - 1]), bytes[|bytes| - 1])
  }

  /** The shift sum multiplies by the FNV prime modulo 2^32. */
  lemma StepIsSpecStep(h: int, b: Byte)
    ensures Int32.Congruent(Step(h, b), SpecStep(h, b))
  {
    var xb := Int32.Bits(h) ^ (b as bv32);
    var x := XorByte(h, b);
    assert Int32.Congruent(x, xb as int);
    StepTimesPrime(h, b);
    var p := xb as int * PRIME;
    Int32.CongruentScale(x, xb as int, PRIME);
    Int32.CongruentTrans(Step(h, b), x * PRIME, p);
    Int32.CongruentSymm(MulPrime(xb), p);
    Int32.CongruentTrans(Step(h, b), p, MulPrime(xb));
  }

  /** One step multiplies the xored hash by the prime, modulo 2^32. */
  lemma StepTimesPrime(h: int, b: Byte)
    ensures Int32.Congruent(Step(h, b), XorByte(h, b) * PRIME)
  {
    ShiftsTimesPrime(XorByte(h, b));
  }

  lemma ShiftsTimesPrime(x: int)
    ensures Int32.Congruent(x + ((((Shl(x, 1) + Shl(x, 4)) + Shl(x, 7)) + Shl(x, 8)) + Shl(x, 24)), x * PRIME)
  {
    Pow2Table();
    ShiftSum(x, Shl(x, 1), Shl(x, 4), Shl(x, 7), Shl(x, 8), Shl(x, 24));
  }

  lemma ShiftSum(x: int, s1: int, s4: int, s7: int, s8: int, s24: int)
    requires Int32.Congruent(s1, x * 2) && Int32.Congruent(s4, x * 16)
    requires Int32.Congruent(s7, x * 128) && Int32.Congruent(s8, x * 256)
    requires Int32.Congruent(s24, x * 16777216)
    ensures Int32.Congruent(x + ((((s1 + s4) + s7) + s8) + s24), x * PRIME)
  {
    Int32.CongruentAdd(s1, x * 2, s4, x * 16);
    Int32.CongruentAdd(s1 + s4, x * 2 + x * 16, s7, x * 128);
    Int32.CongruentAdd(s1 + s4 + s7, x * 2 + x * 16 + x * 128, s8, x * 256);
    Int32.CongruentAdd(s1 + s4 + s7 + s8, x * 2 + x * 16 + x * 128 + x * 256, s24, x * 16777216);
    Int32.CongruentAdd(x, x, s1 + s4 + s7 + s8 + s24, x * 2 + x * 16 + x * 128 + x * 256 + x * 16777216);
    assert x + (x * 2 + x * 16 + x * 128 + x * 256 + x * 16777216) == x * PRIME;
  }

  lemma Pow2Table()
    ensures Pow2(1) == 2 && Pow2(4) == 16 && Pow2(7) == 128 && Pow2(8) == 256
    ensures Pow2(24) == 16777216
  {
    assert Pow2(2) == 4 && Pow2(3) == 8 && Pow2(4) == 16;
    assert Pow2(5) == 32 && Pow2(6) == 64 && Pow2(7) == 128 && Pow2(8) == 256;
    assert Pow2(9) == 512 && Pow2(10) == 1024 && Pow2(11) == 2048 && Pow2(12) == 4096;
    assert Pow2(13) == 8192 && Pow2(14) == 16384 && Pow2(15) == 32768 && Pow2(16) == 65536;
    assert Pow2(17) == 131072 && Pow2(18) == 262144 && Pow2(19) == 524288 && Pow2(20) == 1048576;
    assert Pow2(21) == 2097152 && Pow2(22) == 4194304 && Pow2(23) == 8388608;
  }

  lemma StepTracksSpec(h: int, prefix: seq<Byte>, b: Byte)
    requires Int32.Congruent(h, Spec(prefix))
    ensures Int32.Congruent(Step(h, b), Spec(prefix + [b]))
  {
    var s := Spec(prefix);
    StepIsSpecStep(h, b);
    Int32.BitsCongruent(h, s);
    SpecStepOnBits(h, s, b);
    DropLast(prefix, b);
    assert Spec(prefix + [b]) == SpecStep(s, b);
  }

  /** A reference step reads only the low 32 bits of the hash. */
  lemma SpecStepOnBits(h: int, s: int, b: Byte)
    requires Int32.Bits(h) == Int32.Bits(s)
    ensures SpecStep(h, b) == SpecStep(s, b)
  {
  }

  lemma DropLast<T>(p: seq<T>, b: T)
    ensures (p + [b])[..|p|] == p && (p + [b])[|p|] == b
  {
  }

  lemma TakeOneMore<T>(s: seq<T>, i: nat)
    requires i < |s|
    ensures s[..i + 1] == s[..i] + [s[i]]
  {
  }

  /** `fnv1aHash(bytes)`. */
  method Fnv1aHash(bytes: seq<Byte>) returns (r: int)
    ensures 0 <= r < Int32.TWO32
    ensures r == Spec(bytes)
    ensures bytes == [] ==> r == OFFSET_BASIS
  {
    var hash := OFFSET_BASIS;
    var i := 0;
    while i < |bytes|
      invariant 0 <= i <= |bytes|
      invariant Int32.Congruent(hash, Spec(bytes[..i]))
    {
      StepTracksSpec(hash, bytes[..i], bytes[i]);
      TakeOneMore(bytes, i);
      hash := Step(hash, bytes[i]);
      i := i + 1;
    }
    assert bytes[..i] == bytes;
    r := Int32.ToUint32(hash);
    Int32.CongruentTrans(r, hash, Spec(bytes));
    Int32.CongruentUnique(r, Spec(bytes), 0);
  }
}

=== FILE: galaxy_hash.dfy ===
/** The strings GalaxyBuilder/src/tile.ts derives from a tile: the whole-tile
    hash `CalculateHash`, the four face hashes, `isEmpty`, and the bucket
    counts `Tile.update` builds over the unique tiles. */
module GalaxyHash {
  import opened Wrappers
  import opened GalaxyTile

  // ---------------------------------------------------------------------
  // CalculateHash

  /** `ALL_COLORS`, reduced to what the hash reads: the colour key of a voxel
      mapped to the `hash` string of its `TileColor`. */
  type Colors = map<string, string>

  /** The colour of the voxel at `p` (if any) can be looked up. */
  predicate Known(colors: Colors, t: Tile, p: P3) {
    p in t ==> t[p].colorHash in colors
  }

  /** The text one slot contributes: the colour's hash and a dot, or
      `___.` for an empty slot. A voxel of unknown colour never gets this
      far (see `CalculateHash`); it reads as empty here. */
  function CellText(colors: Colors, t: Tile, p: P3): string {
    if p in t && t[p].colorHash in colors then colors[t[p].colorHash] + "." else "___."
  }

  predicate AllKnown(g: Grid, colors: Colors, t: Tile) {
    forall p :: p in t && InGrid(g, p) ==> t[p].colorHash in colors
  }

  /** The slots `(x, y, 0) .. (x, y, n-1)`. */
  function ColumnText(g: Grid, colors: Colors, t: Tile, x: nat, y: nat, n: nat): string {
    if n == 0 then "" else ColumnText(g, colors, t, x, y, n - 1) + CellText(colors, t, P3(x, y, n - 1))
  }

  /** The rows `y < n` of slab `x`, each closed by `*`. */
  function RowsText(g: Grid, colors: Colors, t: Tile, x: nat, n: nat): string {
    if n == 0 then "" else RowsText(g, colors, t, x, n - 1) + (ColumnText(g, colors, t, x, n - 1, g.z) + "*")
  }

  /** The slabs `x < n`, each closed by `+`. */
  function SlabsText(g: Grid, colors: Colors, t: Tile, n: nat): string {
    if n == 0 then "" else SlabsText(g, colors, t, n - 1) + (RowsText(g, colors, t, n - 1, g.y) + "+")
  }

  /** `Tile.CalculateHash`. A voxel whose colour is not in `ALL_COLORS`
      makes the source dereference `undefined` and throw: `None`. */
  function CalculateHash(g: Grid, colors: Colors, t: Tile): (r: Option<string>)
    ensures r.Some? <==> forall p :: InGrid(g, p) && p in t ==> t[p].colorHash in colors
  {
    if AllKnown(g, colors, t) then Some(SlabsText(g, colors, t, g.x)) else None
  }

  /** Every colour's hash is three characters long, as the colour keys are. */
  predicate Width3(colors: Colors) {
    forall c :: c in colors ==> |colors[c]| == 3
  }

  /** Characters per row (`4` per slot plus `*`) and per slab (rows plus `+`). */
  function RowWidth(g: Grid): nat {
    4 * g.z + 1
  }

  function SlabWidth(g: Grid): nat {
    Times(g.y, RowWidth(g)) + 1
  }

  /** `a * w`, as `a` blocks of `w` characters laid end to end. */
  function Times(a: nat, w: nat): nat {
    if a == 0 then 0 else Times(a - 1, w) + w
  }

  lemma {:induction false} TimesIsProduct(a: nat, w: nat)
    ensures Times(a, w) == a * w
  {
    if a > 0 {
      TimesIsProduct(a - 1, w);
    }
  }

  /** Block `a` ends no later than block `b` starts. */
  lemma {:induction false} TimesMono(a: nat, b: nat, w: nat)
    requires a < b
    ensures Times(a, w) + w <= Times(b, w)
    decreases b - a
  {
    if a + 1 < b {
      TimesMono(a + 1, b, w);
    }
  }

  /** Where the text of slot `p` starts in the hash. */
  function Offset(g: Grid, p: P3): nat
    requires InGrid(g, p)
  {
    Times(p.x, SlabWidth(g)) + Times(p.y, RowWidth(g)) + 4 * p.z
  }

  /** The widths and the offset are the products the nested loops give. */
  lemma OffsetIsProduct(g: Grid, p: P3)
    requires InGrid(g, p)
    ensures SlabWidth(g) == g.y * (4 * g.z + 1) + 1
    ensures Offset(g, p) == p.x * SlabWidth(g) + p.y * RowWidth(g) + 4 * p.z
  {
    TimesIsProduct(g.y, RowWidth(g));
    TimesIsProduct(p.x, SlabWidth(g));
    TimesIsProduct(p.y, RowWidth(g));
  }

  lemma CellWidth(colors: Colors, t: Tile, p: P3)
    requires Width3(colors)
    ensures |CellText(colors, t, p)| == 4
  {
  }

  lemma {:induction false} ColumnLength(g: Grid, colors: Colors, t: Tile, x: nat, y: nat, n: nat)
    requires Width3(colors)
    ensures |ColumnText(g, colors, t, x, y, n)| == 4 * n
  {
    if n > 0 {
      ColumnLength(g, colors, t, x, y, n - 1);
      CellWidth(colors, t, P3(x, y, n - 1));
    }
  }

  lemma {:induction false} RowsLength(g: Grid, colors: Colors, t: Tile, x: nat, n: nat)
    requires Width3(colors)
    ensures |RowsText(g, colors, t, x, n)| == Times(n, RowWidth(g))
  {
    if n > 0 {
      RowsLength(g, colors, t, x, n - 1);
      ColumnLength(g, colors, t, x, n - 1, g.z);
    }
  }

  lemma {:induction false} SlabsLength(g: Grid, colors: Colors, t: Tile, n: nat)
    requires Width3(colors)
    ensures |SlabsText(g, colors, t, n)| == Times(n, SlabWidth(g))
  {
    if n > 0 {
      SlabsLength(g, colors, t, n - 1);
      RowsLength(g, colors, t, n - 1, g.y);
    }
  }

  /** With three-character colour hashes the hash has
      `X * (Y * (4Z + 1) + 1)` characters. */
  lemma HashLength(g: Grid, colors: Colors, t: Tile)
    requires Width3(colors) && CalculateHash(g, colors, t).Some?
    ensures |CalculateHash(g, colors, t).value| == g.x * (g.y * (4 * g.z + 1) + 1)
  {
    SlabsLength(g, colors, t, g.x);
    TimesIsProduct(g.x, SlabWidth(g));
    TimesIsProduct(g.y, RowWidth(g));
  }

  /** A prefix stays a prefix when text is appended. */
  lemma PrefixAppend(a: string, b: string, c: string)
    requires a <= b
    ensures a <= b + c
  {
    assert (b + c)[..|b|] == b;
  }

  /** The first `k` slots, rows or slabs start the text of more of them. */
  lemma {:induction false} ColumnPrefix(g: Grid, colors: Colors, t: Tile, x: nat, y: nat, k: nat, n: nat)
    requires k <= n
    ensures ColumnText(g, colors, t, x, y, k) <= ColumnText(g, colors, t, x, y, n)
  {
    if k < n {
      var m: nat := n - 1;
      ColumnPrefix(g, colors, t, x, y, k, m);
      PrefixAppend(ColumnText(g, colors, t, x, y, k), ColumnText(g, colors, t, x, y, m), CellText(colors, t, P3(x, y, m)));
    }
  }

  lemma {:induction false} RowsPrefix(g: Grid, colors: Colors, t: Tile, x: nat, k: nat, n: nat)
    requires k <= n
    ensures RowsText(g, colors, t, x, k) <= RowsText(g, colors, t, x, n)
  {
    if k < n {
      var m: nat := n - 1;
      RowsPrefix(g, colors, t, x, k, m);
      PrefixAppend(RowsText(g, colors, t, x, k), RowsText(g, colors, t, x, m), ColumnText(g, colors, t, x, m, g.z) + "*");
    }
  }

  lemma {:induction false} SlabsPrefix(g: Grid, colors: Colors, t: Tile, k: nat, n: nat)
    requires k <= n
    ensures SlabsText(g, colors, t, k) <= SlabsText(g, colors, t, n)
  {
    if k < n {
      var m: nat := n - 1;
      SlabsPrefix(g, colors, t, k, m);
      PrefixAppend(SlabsText(g, colors, t, k), SlabsText(g, colors, t, m), RowsText(g, colors, t, m, g.y) + "+");
    }
  }

  /** What a prefix says about the characters of the longer text. */
  lemma PrefixAt(p: string, q: string, i: nat)
    requires p <= q && i < |p|
    ensures i < |q| && q[i] == p[i]
  {
    assert q[..|p|] == p;
  }

  /** A cell inside a column inside a row inside a slab inside the hash:
      `a` is the slabs before it, `b` the rows before it and `c` the slots
      before it, and `i`, `j`, `k` their lengths. */
  lemma NestCell(h: string, a: string, rows: string, b: string, col: string, c: string, cell: string, i: nat, j: nat, k: nat)
    requires a + (rows + "+") <= h && b + (col + "*") <= rows && c + cell <= col
    requires |a| == i && |b| == j && |c| == k && |cell| == 4
    ensures i + j + k + 4 <= |h| && h[i + j + k..i + j + k + 4] == cell
  {
    forall n | 0 <= n < 4
      ensures h[i + j + k + n] == cell[n]
    {
      PrefixAt(c + cell, col, k + n);
      PrefixAt(b + (col + "*"), rows, j + k + n);
      PrefixAt(a + (rows + "+"), h, i + j + k + n);
    }
  }

  lemma NestStar(h: string, a: string, rows: string, b: string, col: string, i: nat, j: nat, w: nat)
    requires a + (rows + "+") <= h && b + (col + "*") <= rows
    requires |a| == i && |b| == j && |col| == w
    ensures i + j + w < |h| && h[i + j + w] == '*'
  {
    PrefixAt(b + (col + "*"), rows, j + w);
    PrefixAt(a + (rows + "+"), h, i + j + w);
  }

  lemma NestPlus(h: string, a: string, rows: string, i: nat, w: nat)
    requires a + (rows + "+") <= h && |a| == i && |rows| == w
    ensures i + w < |h| && h[i + w] == '+'
  {
    PrefixAt(a + (rows + "+"), h, i + w);
  }

  /** Slab `x` follows the slabs before it in the hash. */
  lemma SlabInHash(g: Grid, colors: Colors, t: Tile, x: nat)
    requires x < g.x
    ensures SlabsText(g, colors, t, x) + (RowsText(g, colors, t, x, g.y) + "+") <= SlabsText(g, colors, t, g.x)
  {
    SlabsPrefix(g, colors, t, x + 1, g.x);
  }

  lemma RowInSlab(g: Grid, colors: Colors, t: Tile, x: nat, y: nat)
    requires y < g.y
    ensures RowsText(g, colors, t, x, y) + (ColumnText(g, colors, t, x, y, g.z) + "*") <= RowsText(g, colors, t, x, g.y)
  {
    RowsPrefix(g, colors, t, x, y + 1, g.y);
  }

  lemma CellInRow(g: Grid, colors: Colors, t: Tile, x: nat, y: nat, z: nat)
    requires z < g.z
    ensures ColumnText(g, colors, t, x, y, z) + CellText(colors, t, P3(x, y, z)) <= ColumnText(g, colors, t, x, y, g.z)
  {
    ColumnPrefix(g, colors, t, x, y, z + 1, g.z);
  }

  /** Slot `(x, y, z)`'s four characters in the hash. */
  lemma SlotAt(g: Grid, colors: Colors, t: Tile, x: nat, y: nat, z: nat)
    requires Width3(colors) && x < g.x && y < g.y && z < g.z
    ensures var h := SlabsText(g, colors, t, g.x);
      Times(x, SlabWidth(g)) + Times(y, RowWidth(g)) + 4 * z + 4 <= |h| &&
      h[Times(x, SlabWidth(g)) + Times(y, RowWidth(g)) + 4 * z..Times(x, SlabWidth(g)) + Times(y, RowWidth(g)) + 4 * z + 4]
        == CellText(colors, t, P3(x, y, z))
  {
    SlabInHash(g, colors, t, x);
    RowInSlab(g, colors, t, x, y);
    CellInRow(g, colors, t, x, y, z);
    SlabsLength(g, colors, t, x);
    RowsLength(g, colors, t, x, y);
    ColumnLength(g, colors, t, x, y, z);
    CellWidth(colors, t, P3(x, y, z));
    NestCell(SlabsText(g, colors, t, g.x), SlabsText(g, colors, t, x), RowsText(g, colors, t, x, g.y),
      RowsText(g, colors, t, x, y), ColumnText(g, colors, t, x, y, g.z),
      ColumnText(g, colors, t, x, y, z), CellText(colors, t, P3(x, y, z)),
      Times(x, SlabWidth(g)), Times(y, RowWidth(g)), 4 * z);
  }

  /** Row `y` of slab `x` ends in `*`. */
  lemma RowEndAt(g: Grid, colors: Colors, t: Tile, x: nat, y: nat)
    requires Width3(colors) && x < g.x && y < g.y
    ensures var h := SlabsText(g, colors, t, g.x);
      Times(x, SlabWidth(g)) + Times(y, RowWidth(g)) + 4 * g.z < |h| &&
      h[Times(x, SlabWidth(g)) + Times(y, RowWidth(g)) + 4 * g.z] == '*'
  {
    SlabInHash(g, colors, t, x);
    RowInSlab(g, colors, t, x, y);
    SlabsLength(g, colors, t, x);
    RowsLength(g, colors, t, x, y);
    ColumnLength(g, colors, t, x, y, g.z);
    NestStar(SlabsText(g, colors, t, g.x), SlabsText(g, colors, t, x), RowsText(g, colors, t, x, g.y),
      RowsText(g, colors, t, x, y), ColumnText(g, colors, t, x, y, g.z),
      Times(x, SlabWidth(g)), Times(y, RowWidth(g)), 4 * g.z);
  }

  /** Slab `x` ends in `+`. */
  lemma SlabEndAt(g: Grid, colors: Colors, t: Tile, x: nat)
    requires Width3(colors) && x < g.x
    ensures var h := SlabsText(g, colors, t, g.x);
      Times(x, SlabWidth(g)) + Times(g.y, RowWidth(g)) < |h| &&
      h[Times(x, SlabWidth(g)) + Times(g.y, RowWidth(g))] == '+'
  {
    SlabInHash(g, colors, t, x);
    SlabsLength(g, colors, t, x);
    RowsLength(g, colors, t, x, g.y);
    NestPlus(SlabsText(g, colors, t, g.x), SlabsText(g, colors, t, x), RowsText(g, colors, t, x, g.y),
      Times(x, SlabWidth(g)), Times(g.y, RowWidth(g)));
  }

  /** The hash lays the grid out x-major: slot `p`'s four characters start
      at `Offset(p)`, each row of a slab ends in `*` and each slab in `+`. */
  lemma HashLayout(g: Grid, colors: Colors, t: Tile, p: P3)
    requires Width3(colors) && CalculateHash(g, colors, t).Some? && InGrid(g, p)
    ensures var h := CalculateHash(g, colors, t).value;
      Offset(g, p) + 4 <= |h| &&
      h[Offset(g, p)..Offset(g, p) + 4] == CellText(colors, t, p) &&
      Times(p.x, SlabWidth(g)) + Times(p.y, RowWidth(g)) + 4 * g.z < |h| &&
      h[Times(p.x, SlabWidth(g)) + Times(p.y, RowWidth(g)) + 4 * g.z] == '*' &&
      Times(p.x, SlabWidth(g)) + Times(g.y, RowWidth(g)) < |h| &&
      h[Times(p.x, SlabWidth(g)) + Times(g.y, RowWidth(g))] == '+'
  {
    SlotAt(g, colors, t, p.x, p.y, p.z);
    RowEndAt(g, colors, t, p.x, p.y);
    SlabEndAt(g, colors, t, p.x);
  }

  /** Colour hashes that tell colours apart and are never `___`. */
  predicate Distinctive(colors: Colors) {
    Width3(colors) &&
    (forall c :: c in colors ==> colors[c] != "___") &&
    (forall c, d :: c in colors && d in colors && colors[c] == colors[d] ==> c == d)
  }

  /** Under distinctive colours a slot's text tells whether the slot is
      filled and with which colour. */
  lemma CellTextIdentifies(colors: Colors, t1: Tile, t2: Tile, p: P3)
    requires Distinctive(colors) && Known(colors, t1, p) && Known(colors, t2, p)
    requires CellText(colors, t1, p) == CellText(colors, t2, p)
    ensures p in t1 <==> p in t2
    ensures p in t1 ==> t1[p].colorHash == t2[p].colorHash
  {
    var c1, c2 := CellText(colors, t1, p), CellText(colors, t2, p);
    if p in t1 {
      assert c1[..3] == colors[t1[p].colorHash];
    } else {
      assert c1[..3] == "___";
    }
    if p in t2 {
      assert c2[..3] == colors[t2[p].colorHash];
    }
  }

  /** The hash identifies the tile: two tiles placed in the grid with the
      same hash hold the same colours at the same slots, which is what
      keying `UniqueTiles` by hash relies on. */
  lemma HashIdentifies(g: Grid, colors: Colors, t1: Tile, t2: Tile)
    requires Distinctive(colors) && Placed(g, t1) && Placed(g, t2)
    requires CalculateHash(g, colors, t1).Some? && CalculateHash(g, colors, t1) == CalculateHash(g, colors, t2)
    ensures t1 == t2
  {
    forall p
      ensures p in t1 <==> p in t2
      ensures p in t1 ==> t1[p] == t2[p]
    {
      if InGrid(g, p) {
        HashLayout(g, colors, t1, p);
        HashLayout(g, colors, t2, p);
        CellTextIdentifies(colors, t1, t2, p);
      }
    }
  }

  /** A symmetry moves a lone voxel to its transformed slot. */
  lemma TransformSingle(g: Grid, s: Sym, u: UnitTile)
    requires InGrid(g, u.At()) && Fits(g, s)
    ensures Transform(g, s, map[u.At() := u]) == Some(map[Apply(g, s, u).At() := Apply(g, s, u)])
  {
    var t := map[u.At() := u];
    var v := Apply(g, s, u);
    MoveUnmove(g, s, u.At(), u);
    MoveInGrid(g, s, u.At());
    TransformAt(g, s, t, v.At());
    var r := Transform(g, s, t).value;
    forall q
      ensures q in r <==> q == v.At()
      ensures q in r ==> r[q] == v
    {
      TransformAt(g, s, t, q);
      MoveUnmove(g, s, q, u);
    }
    assert r == map[v.At() := v];
  }

  /** The two-by-two-by-two tile holding one voxel of colour `8aI` at the
      origin, as stored in GalaxyBuilder/src/serialization_test.ts. */
  const FixtureGrid := Grid(2, 2, 2)
  const FixtureColors: Colors := map["8aI" := "8aI"]

  function Lone(x: int, y: int, z: int): Tile {
    map[P3(x, y, z) := UnitTile(x, y, z, "8aI")]
  }

  /** A two-slot column, a two-row slab and a two-slab hash, piece by
      piece. */
  lemma ColumnTwo(g: Grid, colors: Colors, t: Tile, x: nat, y: nat)
    ensures ColumnText(g, colors, t, x, y, 2) == CellText(colors, t, P3(x, y, 0)) + CellText(colors, t, P3(x, y, 1))
  {
    assert ColumnText(g, colors, t, x, y, 1) == CellText(colors, t, P3(x, y, 0)) by {
      assert ColumnText(g, colors, t, x, y, 0) == "";
    }
  }

  lemma RowsTwo(g: Grid, colors: Colors, t: Tile, x: nat)
    ensures RowsText(g, colors, t, x, 2)
         == ColumnText(g, colors, t, x, 0, g.z) + "*" + ColumnText(g, colors, t, x, 1, g.z) + "*"
  {
    assert RowsText(g, colors, t, x, 1) == ColumnText(g, colors, t, x, 0, g.z) + "*" by {
      assert RowsText(g, colors, t, x, 0) == "";
    }
  }

  lemma SlabsTwo(g: Grid, colors: Colors, t: Tile)
    ensures SlabsText(g, colors, t, 2) == RowsText(g, colors, t, 0, g.y) + "+" + RowsText(g, colors, t, 1, g.y) + "+"
  {
    assert SlabsText(g, colors, t, 1) == RowsText(g, colors, t, 0, g.y) + "+" by {
      assert SlabsText(g, colors, t, 0) == "";
    }
  }

  /** Unfolds the fixture's hash down to its eight slots. */
  lemma FixtureSlots(t: Tile)
    requires AllKnown(FixtureGrid, FixtureColors, t)
    ensures CalculateHash(FixtureGrid, FixtureColors, t) == Some(
        ((CellText(FixtureColors, t, P3(0, 0, 0)) + CellText(FixtureColors, t, P3(0, 0, 1))) + "*" + (CellText(FixtureColors, t, P3(0, 1, 0)) + CellText(FixtureColors, t, P3(0, 1, 1))) + "*") + "+" +
        ((CellText(FixtureColors, t, P3(1, 0, 0)) + CellText(FixtureColors, t, P3(1, 0, 1))) + "*" + (CellText(FixtureColors, t, P3(1, 1, 0)) + CellText(FixtureColors, t, P3(1, 1, 1))) + "*") + "+")
  {
    var g, k := FixtureGrid, FixtureColors;
    SlabsTwo(g, k, t);
    RowsTwo(g, k, t, 0);
    RowsTwo(g, k, t, 1);
    ColumnTwo(g, k, t, 0, 0);
    ColumnTwo(g, k, t, 0, 1);
    ColumnTwo(g, k, t, 1, 0);
    ColumnTwo(g, k, t, 1, 1);
  }

  lemma LoneCell(x: int, y: int, z: int, p: P3)
    ensures Known(FixtureColors, Lone(x, y, z), p)
    ensures CellText(FixtureColors, Lone(x, y, z), p) == if p == P3(x, y, z) then "8aI." else "___."
  {
  }

  function LoneText(v: P3, p: P3): string {
    if p == v then "8aI." else "___."
  }

  /** The hash of a lone voxel on the fixture grid, from the slot texts. */
  lemma LoneHash(x: int, y: int, z: int)
    ensures CalculateHash(FixtureGrid, FixtureColors, Lone(x, y, z)) == Some(
        ((LoneText(P3(x, y, z), P3(0, 0, 0)) + LoneText(P3(x, y, z), P3(0, 0, 1))) + "*" + (LoneText(P3(x, y, z), P3(0, 1, 0)) + LoneText(P3(x, y, z), P3(0, 1, 1))) + "*") + "+" +
        ((LoneText(P3(x, y, z), P3(1, 0, 0)) + LoneText(P3(x, y, z), P3(1, 0, 1))) + "*" + (LoneText(P3(x, y, z), P3(1, 1, 0)) + LoneText(P3(x, y, z), P3(1, 1, 1))) + "*") + "+")
  {
    var t := Lone(x, y, z);
    forall p ensures Known(FixtureColors, t, p) {
      LoneCell(x, y, z, p);
    }
    FixtureSlots(t);
    LoneCell(x, y, z, P3(0, 0, 0));
    LoneCell(x, y, z, P3(0, 0, 1));
    LoneCell(x, y, z, P3(0, 1, 0));
    LoneCell(x, y, z, P3(0, 1, 1));
    LoneCell(x, y, z, P3(1, 0, 0));
    LoneCell(x, y, z, P3(1, 0, 1));
    LoneCell(x, y, z, P3(1, 1, 0));
    LoneCell(x, y, z, P3(1, 1, 1));
  }

  /** The hashes the fixture stores for the tile and its variants. */
  lemma FixtureHashOrigin()
    ensures CalculateHash(FixtureGrid, FixtureColors, Lone(0, 0, 0)) == Some("8aI.___.*___.___.*+___.___.*___.___.*+")
  {
    assert "8aI." + "___." == "8aI.___.";
    assert "___." + "___." == "___.___.";
    assert "8aI.___." + "*" + "___.___." + "*" == "8aI.___.*___.___.*";
    assert "___.___." + "*" + "___.___." + "*" == "___.___.*___.___.*";
    assert "8aI.___.*___.___.*" + "+" + "___.___.*___.___.*" + "+" == "8aI.___.*___.___.*+___.___.*___.___.*+";
    LoneHash(0, 0, 0);
  }

  lemma FixtureHashMirrorX()
    ensures CalculateHash(FixtureGrid, FixtureColors, Lone(1, 0, 0)) == Some("___.___.*___.___.*+8aI.___.*___.___.*+")
  {
    assert "8aI." + "___." == "8aI.___.";
    assert "___." + "___." == "___.___.";
    assert "8aI.___." + "*" + "___.___." + "*" == "8aI.___.*___.___.*";
    assert "___.___." + "*" + "___.___." + "*" == "___.___.*___.___.*";
    assert "___.___.*___.___.*" + "+" + "8aI.___.*___.___.*" + "+" == "___.___.*___.___.*+8aI.___.*___.___.*+";
    LoneHash(1, 0, 0);
  }

  lemma FixtureHashMirrorZ()
    ensures CalculateHash(FixtureGrid, FixtureColors, Lone(0, 0, 1)) == Some("___.8aI.*___.___.*+___.___.*___.___.*+")
  {
    assert "___." + "8aI." == "___.8aI.";
    assert "___." + "___." == "___.___.";
    assert "___.8aI." + "*" + "___.___." + "*" == "___.8aI.*___.___.*";
    assert "___.___." + "*" + "___.___." + "*" == "___.___.*___.___.*";
    assert "___.8aI.*___.___.*" + "+" + "___.___.*___.___.*" + "+" == "___.8aI.*___.___.*+___.___.*___.___.*+";
    LoneHash(0, 0, 1);
  }

  lemma FixtureHashRotateYTwice()
    ensures CalculateHash(FixtureGrid, FixtureColors, Lone(1, 0, 1)) == Some("___.___.*___.___.*+___.8aI.*___.___.*+")
  {
    assert "___." + "8aI." == "___.8aI.";
    assert "___." + "___." == "___.___.";
    assert "___.8aI." + "*" + "___.___." + "*" == "___.8aI.*___.___.*";
    assert "___.___." + "*" + "___.___." + "*" == "___.___.*___.___.*";
    assert "___.___.*___.___.*" + "+" + "___.8aI.*___.___.*" + "+" == "___.___.*___.___.*+___.8aI.*___.___.*+";
    LoneHash(1, 0, 1);
  }

  /** The fixture's variants: mirrored in x the voxel moves to `(1,0,0)`,
      mirrored in z or turned once to `(0,0,1)`, turned twice to `(1,0,1)`;
      with `FixtureHashes` these are the fixture's stored hashes. */
  lemma FixtureMirrorX()
    ensures Transform(FixtureGrid, MirrorX, Lone(0, 0, 0)) == Some(Lone(1, 0, 0))
  {
    TransformSingle(FixtureGrid, MirrorX, UnitTile(0, 0, 0, "8aI"));
  }

  lemma FixtureMirrorZ()
    ensures Transform(FixtureGrid, MirrorZ, Lone(0, 0, 0)) == Some(Lone(0, 0, 1))
  {
    TransformSingle(FixtureGrid, MirrorZ, UnitTile(0, 0, 0, "8aI"));
  }

  lemma FixtureRotateY()
    ensures Transform(FixtureGrid, RotateY, Lone(0, 0, 0)) == Some(Lone(0, 0, 1))
  {
    TransformSingle(FixtureGrid, RotateY, UnitTile(0, 0, 0, "8aI"));
  }

  lemma FixtureRotateYTwice()
    ensures Transform(FixtureGrid, RotateY, Lone(0, 0, 0)).Some?
    ensures Transform(FixtureGrid, RotateY, Transform(FixtureGrid, RotateY, Lone(0, 0, 0)).value) == Some(Lone(1, 0, 1))
  {
    FixtureRotateY();
    TransformSingle(FixtureGrid, RotateY, UnitTile(0, 0, 1, "8aI"));
  }

  // ---------------------------------------------------------------------
  // Face hashes

  /** `TileHashLeft_X` (face `x = 0`), `TileHashRight_X` (`x = X-1`),
      `TileHashBack_Z` (`z = 0`) and `TileHashFront_Z` (`z = Z-1`). */
  datatype Side = Left | Right | Back | Front

  /** How many outer steps a face has: the left and right faces run over z,
      the back and front faces over x. */
  function Across(g: Grid, side: Side): nat {
    if side == Left || side == Right then g.z else g.x
  }

  /** The slot of face `side` at outer step `o` and height `y`. */
  function FaceSlot(g: Grid, side: Side, o: int, y: int): P3 {
    match side
    case Left => P3(0, y, o)
    case Right => P3(g.x - 1, y, o)
    case Back => P3(o, y, 0)
    case Front => P3(o, y, g.z - 1)
  }

  /** A face slot contributes the voxel's colour key itself, or `___`. */
  function FaceText(t: Tile, p: P3): string {
    (if p in t then t[p].colorHash else "___") + "."
  }

  function FaceColumn(g: Grid, t: Tile, side: Side, o: int, n: nat): string {
    if n == 0 then "" else FaceColumn(g, t, side, o, n - 1) + FaceText(t, FaceSlot(g, side, o, n - 1))
  }

  function FaceRows(g: Grid, t: Tile, side: Side, n: nat): string {
    if n == 0 then "" else FaceRows(g, t, side, n - 1) + FaceColumn(g, t, side, n - 1, g.y)
  }

  /** The face hash of `side`: outer steps in order, `y` upward inside each. */
  function FaceHash(g: Grid, t: Tile, side: Side): string {
    FaceRows(g, t, side, Across(g, side))
  }

  /** Face `a` of `t1` shows, slot by slot, what face `b` of `t2` shows. */
  predicate SameFace(g: Grid, t1: Tile, a: Side, t2: Tile, b: Side) {
    Across(g, a) == Across(g, b) &&
    forall o, y :: 0 <= o < Across(g, a) && 0 <= y < g.y ==>
      FaceText(t1, FaceSlot(g, a, o, y)) == FaceText(t2, FaceSlot(g, b, o, y))
  }

  lemma {:induction false} FaceColumnFrame(g: Grid, t1: Tile, a: Side, t2: Tile, b: Side, o: nat, n: nat)
    requires SameFace(g, t1, a, t2, b) && o < Across(g, a) && n <= g.y
    ensures FaceColumn(g, t1, a, o, n) == FaceColumn(g, t2, b, o, n)
  {
    if n > 0 {
      FaceColumnFrame(g, t1, a, t2, b, o, n - 1);
    }
  }

  lemma {:induction false} FaceRowsFrame(g: Grid, t1: Tile, a: Side, t2: Tile, b: Side, n: nat)
    requires SameFace(g, t1, a, t2, b) && n <= Across(g, a)
    ensures FaceRows(g, t1, a, n) == FaceRows(g, t2, b, n)
  {
    if n > 0 {
      FaceRowsFrame(g, t1, a, t2, b, n - 1);
      FaceColumnFrame(g, t1, a, t2, b, n - 1, g.y);
    }
  }

  /** A face hash reads only its own face: tiles that agree there have the
      same face hash, whatever the rest of the grid holds. */
  lemma FaceFrame(g: Grid, t1: Tile, t2: Tile, side: Side)
    requires SameFace(g, t1, side, t2, side)
    ensures FaceHash(g, t1, side) == FaceHash(g, t2, side)
  {
    FaceRowsFrame(g, t1, side, t2, side, Across(g, side));
  }

  /** The face that symmetry `s` brings to `side`. */
  function Mirrored(s: Sym, side: Side): Side {
    match (s, side)
    case (MirrorX, Left) => Right
    case (MirrorX, Right) => Left
    case (MirrorZ, Back) => Front
    case (MirrorZ, Front) => Back
    case _ => side
  }

  /** Mirroring in x swaps the left and right face hashes; mirroring in z
      swaps the back and front ones. */
  lemma MirrorSwapsFaces(g: Grid, s: Sym, t: Tile, side: Side)
    requires Placed(g, t) && s != RotateY
    requires s == MirrorX ==> side == Left || side == Right
    requires s == MirrorZ ==> side == Back || side == Front
    ensures Transform(g, s, t).Some? && FaceHash(g, Transform(g, s, t).value, side) == FaceHash(g, t, Mirrored(s, side))
  {
    TransformPlaced(g, s, t);
    var m := Transform(g, s, t).value;
    var side' := Mirrored(s, side);
    forall o, y | 0 <= o < Across(g, side) && 0 <= y < g.y
      ensures FaceText(m, FaceSlot(g, side, o, y)) == FaceText(t, FaceSlot(g, side', o, y))
    {
      var q := FaceSlot(g, side, o, y);
      TransformAt(g, s, t, q);
      MoveInGrid(g, s, q);
      assert Unmove(g, s, q) == FaceSlot(g, side', o, y);
      if Unmove(g, s, q) in t {
        MoveUnmove(g, s, q, t[Unmove(g, s, q)]);
      }
    }
    FaceRowsFrame(g, m, side, t, side', Across(g, side));
  }

  // ---------------------------------------------------------------------
  // isEmpty

  /** `Tile.isEmpty` over the slots `ps`: no slot holds a voxel. */
  function NoneFilled(t: Tile, ps: seq<P3>): (r: bool)
    ensures r <==> forall i :: 0 <= i < |ps| ==> ps[i] !in t
  {
    if ps == [] then true else ps[0] !in t && NoneFilled(t, ps[1..])
  }

  /** The indices the nested `forEach` of `isEmpty` visits: every index of
      an existing layer and row, including one past the end of a row, which
      only a quarter turn on a grid wider than it is deep stores. */
  predicate Visited(g: Grid, p: P3) {
    Writable(g, p) && 0 <= p.z
  }

  /** The voxels stored in an existing row past its end. */
  function PastRowEnd(g: Grid, t: Tile): set<P3> {
    set p | p in t && Visited(g, p) && p.z >= g.z
  }

  /** `Tile.isEmpty`: the slots of the grid, then whatever a row holds
      past its end. */
  function IsEmpty(g: Grid, t: Tile): bool {
    NoneFilled(t, Positions(g)) && PastRowEnd(g, t) == {}
  }

  /** A tile is empty exactly when no index the loops visit holds a voxel;
      for a tile placed in the grid, when it holds none at all. */
  lemma IsEmptyMeans(g: Grid, t: Tile)
    ensures IsEmpty(g, t) <==> forall p :: p in t ==> !Visited(g, p)
    ensures Placed(g, t) ==> (IsEmpty(g, t) <==> t == map[])
  {
    var ps := Positions(g);
    assert forall p :: p in t && Visited(g, p) && p.z >= g.z ==> p in PastRowEnd(g, t);
    if IsEmpty(g, t) {
      forall p | InGrid(g, p) ensures p !in t {
        assert p in ps;
        var i :| 0 <= i < |ps| && ps[i] == p;
      }
    }
  }

  /** A one-voxel tile turned on a grid wider than it is deep can leave
      every slot of the grid free while `isEmpty` still sees the voxel
      stored past the end of its row. */
  lemma WideTurnNotEmpty(g: Grid, t: Tile, p: P3)
    requires Placed(g, t) && g.z < g.x
    requires t.Keys == {p} && p.x < g.x - g.z
    ensures Transform(g, RotateY, t).Some?
    ensures var r := Transform(g, RotateY, t).value;
      (forall q :: InGrid(g, q) ==> q !in r) && !IsEmpty(g, r)
  {
    RotateWideGrows(g, t, p);
    var r := Transform(g, RotateY, t).value;
    forall q | InGrid(g, q) ensures q !in r {
      TransformSlot(g, RotateY, t, q);
      if q in r {
        MoveUnmove(g, RotateY, q, r[q]);
      }
    }
    IsEmptyMeans(g, r);
  }
}

=== FILE: galaxy_tile.dfy ===
/** The voxel tiles of GalaxyBuilder/src/tile.ts: the symmetries of a unit
    tile and of a whole tile, the tile and face hash strings, `isEmpty`,
    and the bucket counts `Tile.update` builds. A tile's nested
    `unittiles[x][y][z]` array is a map from grid positions to unit tiles;
    a missing key is a `null` slot. Rendering and naming are left out. */
module GalaxyTile {
  import opened Wrappers

  datatype P3 = P3(x: int, y: int, z: int)

  /** `GRID_DIMENSION_X`, `_Y`, `_Z`. */
  datatype Grid = Grid(x: nat, y: nat, z: nat)

  predicate InGrid(g: Grid, p: P3) {
    0 <= p.x < g.x && 0 <= p.y < g.y && 0 <= p.z < g.z
  }

  // ---------------------------------------------------------------------
  // Unit tiles

  /** `UnitTile`: a coloured voxel that records its own position. */
  datatype UnitTile = UnitTile(x: int, y: int, z: int, colorHash: string) {
    function At(): P3 {
      P3(x, y, z)
    }

    /** `UnitTile.mirrorX`. */
    function MirrorX(g: Grid): UnitTile {
      this.(x := g.x - 1 - x)
    }

    /** `UnitTile.mirrorZ`. */
    function MirrorZ(g: Grid): UnitTile {
      this.(z := g.z - 1 - z)
    }

    /** `UnitTile.rotateY`: a quarter turn about the vertical axis. */
    function RotateY(g: Grid): UnitTile {
      this.(x := z, z := g.x - 1 - x)
    }
  }

  lemma MirrorXInvolution(g: Grid, u: UnitTile)
    ensures u.MirrorX(g).MirrorX(g) == u
    ensures u.MirrorX(g).y == u.y && u.MirrorX(g).z == u.z && u.MirrorX(g).colorHash == u.colorHash
    ensures InGrid(g, u.At()) <==> InGrid(g, u.MirrorX(g).At())
  {
  }

  lemma MirrorZInvolution(g: Grid, u: UnitTile)
    ensures u.MirrorZ(g).MirrorZ(g) == u
    ensures u.MirrorZ(g).x == u.x && u.MirrorZ(g).y == u.y && u.MirrorZ(g).colorHash == u.colorHash
    ensures InGrid(g, u.At()) <==> InGrid(g, u.MirrorZ(g).At())
  {
  }

  lemma RotateYFourTimes(g: Grid, u: UnitTile)
    ensures u.RotateY(g).RotateY(g).RotateY(g).RotateY(g) == u
    ensures u.RotateY(g).y == u.y && u.RotateY(g).colorHash == u.colorHash
    ensures g.x == g.z ==> (InGrid(g, u.At()) <==> InGrid(g, u.RotateY(g).At()))
  {
  }

  // ---------------------------------------------------------------------
  // The three whole-tile symmetries

  datatype Sym = MirrorX | MirrorZ | RotateY

  function Apply(g: Grid, s: Sym, u: UnitTile): UnitTile {
    match s
    case MirrorX => u.MirrorX(g)
    case MirrorZ => u.MirrorZ(g)
    case RotateY => u.RotateY(g)
  }

  /** The position a symmetry sends a voxel at `p` to. */
  function Move(g: Grid, s: Sym, p: P3): P3 {
    match s
    case MirrorX => P3(g.x - 1 - p.x, p.y, p.z)
    case MirrorZ => P3(p.x, p.y, g.z - 1 - p.z)
    case RotateY => P3(p.z, p.y, g.x - 1 - p.x)
  }

  /** The position a symmetry brings to `q`. */
  function Unmove(g: Grid, s: Sym, q: P3): P3 {
    match s
    case MirrorX => P3(g.x - 1 - q.x, q.y, q.z)
    case MirrorZ => P3(q.x, q.y, g.z - 1 - q.z)
    case RotateY => P3(g.x - 1 - q.z, q.y, q.x)
  }

  /** `Move` and `Unmove` are inverse bijections, and `Apply` moves a voxel
      by `Move` without recolouring it. */
  lemma MoveUnmove(g: Grid, s: Sym, p: P3, u: UnitTile)
    ensures Move(g, s, Unmove(g, s, p)) == p && Unmove(g, s, Move(g, s, p)) == p
    ensures Apply(g, s, u).At() == Move(g, s, u.At()) && Apply(g, s, u).colorHash == u.colorHash
  {
  }

  /** The symmetries keep the grid in place; the rotation only on a grid
      as wide as it is deep. */
  predicate Fits(g: Grid, s: Sym) {
    s != RotateY || g.x == g.z
  }

  lemma MoveInGrid(g: Grid, s: Sym, p: P3)
    requires Fits(g, s)
    ensures InGrid(g, Move(g, s, p)) <==> InGrid(g, p)
    ensures InGrid(g, Unmove(g, s, p)) <==> InGrid(g, p)
  {
  }

  /** A tile: `unittiles` as a map from position to voxel. */
  type Tile = map<P3, UnitTile>

  /** Every voxel lies in the grid, at the slot its own coordinates name,
      which is how `UnitTile.generateTile` places them. */
  predicate Placed(g: Grid, t: Tile) {
    forall p :: p in t ==> InGrid(g, p) && t[p].At() == p
  }

  /** The slots `for x { for y { for z` visits, in order. */
  function Positions(g: Grid): (ps: seq<P3>)
    ensures forall p :: p in ps <==> InGrid(g, p)
  {
    Slabs(g, g.x)
  }

  function Slabs(g: Grid, n: nat): (ps: seq<P3>)
    ensures forall p :: p in ps <==> 0 <= p.x < n && 0 <= p.y < g.y && 0 <= p.z < g.z
  {
    if n == 0 then [] else Slabs(g, n - 1) + Rows(g, n - 1, g.y)
  }

  function Rows(g: Grid, x: int, n: nat): (ps: seq<P3>)
    ensures forall p :: p in ps <==> p.x == x && 0 <= p.y < n && 0 <= p.z < g.z
  {
    if n == 0 then [] else Rows(g, x, n - 1) + Column(x, n - 1, g.z)
  }

  function Column(x: int, y: int, n: nat): (ps: seq<P3>)
    ensures forall p :: p in ps <==> p.x == x && p.y == y && 0 <= p.z < n
  {
    if n == 0 then [] else Column(x, y, n - 1) + [P3(x, y, n - 1)]
  }

  /** `newTile.unittiles[t.x][t.y][t.z] = t` needs the layer `t.x` and the
      row `t.y` to exist; a `t.z` past the row's end only lengthens the
      row, so the voxel is stored outside the grid. */
  predicate Writable(g: Grid, p: P3) {
    0 <= p.x < g.x && 0 <= p.y < g.y
  }

  /** The voxel at slot `p`, transformed, has no layer or row to go to:
      the assignment throws a `TypeError`. */
  predicate Stuck(g: Grid, s: Sym, t: Tile, p: P3) {
    p in t && !Writable(g, Apply(g, s, t[p]).At())
  }

  /** One iteration of the static `Tile.MirrorX`/`MirrorZ`/`RotateY`
      loop at slot `p`, when it does not throw: the voxel there,
      transformed, is stored at the slot its new coordinates name. */
  function Place(g: Grid, s: Sym, t: Tile, p: P3, acc: Tile): Tile {
    if p in t then acc[Apply(g, s, t[p]).At() := Apply(g, s, t[p])] else acc
  }

  /** The loop over the slots `ps`; `None` is the throw. */
  function Scatter(g: Grid, s: Sym, t: Tile, ps: seq<P3>, acc: Tile): Option<Tile>
    decreases |ps|
  {
    if ps == [] then Some(acc)
    else if Stuck(g, s, t, ps[0]) then None
    else Scatter(g, s, t, ps[1..], Place(g, s, t, ps[0], acc))
  }

  /** `Tile.MirrorX`, `Tile.MirrorZ` or `Tile.RotateY` of a tile. */
  function Transform(g: Grid, s: Sym, t: Tile): Option<Tile> {
    Scatter(g, s, t, Positions(g), map[])
  }

  /** Some slot of `ps` holds the voxel that belongs at `q`. */
  predicate Hit(g: Grid, s: Sym, t: Tile, ps: seq<P3>, q: P3) {
    Unmove(g, s, q) in ps && Unmove(g, s, q) in t
  }

  lemma PlaceSlot(g: Grid, s: Sym, t: Tile, p: P3, acc: Tile, q: P3)
    requires forall r :: r in t ==> t[r].At() == r
    ensures var a := Place(g, s, t, p, acc);
      var hit := Unmove(g, s, q) == p && p in t;
      (q in a <==> q in acc || hit) && (q in a ==> a[q] == if hit then Apply(g, s, t[p]) else acc[q])
  {
    if p in t {
      MoveUnmove(g, s, p, t[p]);
      MoveUnmove(g, s, q, t[p]);
    }
  }

  /** The loop throws exactly when one of its slots is stuck. */
  lemma {:induction false} ScatterThrows(g: Grid, s: Sym, t: Tile, ps: seq<P3>, acc: Tile)
    ensures Scatter(g, s, t, ps, acc).None? <==> exists i :: 0 <= i < |ps| && Stuck(g, s, t, ps[i])
    decreases |ps|
  {
    if ps != [] {
      ScatterThrows(g, s, t, ps[1..], Place(g, s, t, ps[0], acc));
      if exists i :: 0 <= i < |ps| && Stuck(g, s, t, ps[i]) {
        var i :| 0 <= i < |ps| && Stuck(g, s, t, ps[i]);
        if i > 0 {
          assert ps[1..][i - 1] == ps[i];
        }
      }
      if exists i :: 0 <= i < |ps[1..]| && Stuck(g, s, t, ps[1..][i]) {
        var i :| 0 <= i < |ps[1..]| && Stuck(g, s, t, ps[1..][i]);
        assert ps[i + 1] == ps[1..][i];
      }
    }
  }

  /** Slot `q` of a loop that did not throw, for a tile whose voxels sit at
      their own coordinates. */
  lemma {:induction false} ScatterSlot(g: Grid, s: Sym, t: Tile, ps: seq<P3>, acc: Tile, q: P3)
    requires forall p :: p in t ==> t[p].At() == p
    requires Scatter(g, s, t, ps, acc).Some?
    ensures var r := Scatter(g, s, t, ps, acc).value;
      (q in r <==> q in acc || Hit(g, s, t, ps, q)) &&
      (q in r ==> r[q] == if Hit(g, s, t, ps, q) then Apply(g, s, t[Unmove(g, s, q)]) else acc[q])
    decreases |ps|
  {
    if ps != [] {
      var p := ps[0];
      var acc' := Place(g, s, t, p, acc);
      ScatterSlot(g, s, t, ps[1..], acc', q);
      PlaceSlot(g, s, t, p, acc, q);
      assert Unmove(g, s, q) in ps <==> Unmove(g, s, q) == p || Unmove(g, s, q) in ps[1..] by {
        assert ps == [p] + ps[1..];
      }
    }
  }

  /** For a tile placed in the grid, a symmetry throws exactly when it
      sends one of the voxels out of the layers or rows. */
  lemma TransformThrows(g: Grid, s: Sym, t: Tile)
    requires Placed(g, t)
    ensures Transform(g, s, t).None? <==> exists p :: p in t && !Writable(g, Move(g, s, p))
  {
    var ps := Positions(g);
    ScatterThrows(g, s, t, ps, map[]);
    if exists p :: p in t && !Writable(g, Move(g, s, p)) {
      var p :| p in t && !Writable(g, Move(g, s, p));
      MoveUnmove(g, s, p, t[p]);
      assert p in ps;
      var i :| 0 <= i < |ps| && ps[i] == p;
      assert Stuck(g, s, t, ps[i]);
    }
    if exists i :: 0 <= i < |ps| && Stuck(g, s, t, ps[i]) {
      var i :| 0 <= i < |ps| && Stuck(g, s, t, ps[i]);
      MoveUnmove(g, s, ps[i], t[ps[i]]);
    }
  }

  /** Slot `q` of a transformed tile that did not throw: the symmetry moves
      the voxel at `Unmove(q)` to `q`, inside the grid or past a row's
      end. */
  lemma TransformSlot(g: Grid, s: Sym, t: Tile, q: P3)
    requires Placed(g, t) && Transform(g, s, t).Some?
    ensures var r := Transform(g, s, t).value;
      (q in r <==> Unmove(g, s, q) in t) &&
      (q in r ==> r[q] == Apply(g, s, t[Unmove(g, s, q)]) && r[q].At() == q)
  {
    ScatterSlot(g, s, t, Positions(g), map[], q);
    if Unmove(g, s, q) in t {
      MoveUnmove(g, s, q, t[Unmove(g, s, q)]);
    }
  }

  /** Slot `q` of a transformed tile when the symmetry fits the grid: it
      does not throw, and keeps the voxels inside the grid. */
  lemma TransformAt(g: Grid, s: Sym, t: Tile, q: P3)
    requires Placed(g, t) && Fits(g, s)
    ensures Transform(g, s, t).Some?
    ensures var r := Transform(g, s, t).value;
      (q in r <==> InGrid(g, q) && Unmove(g, s, q) in t) &&
      (q in r ==> r[q] == Apply(g, s, t[Unmove(g, s, q)]) && r[q].At() == q)
  {
    TransformThrows(g, s, t);
    forall p | p in t ensures Writable(g, Move(g, s, p)) {
      MoveInGrid(g, s, p);
    }
    TransformSlot(g, s, t, q);
    MoveInGrid(g, s, q);
  }

  /** A symmetry that fits the grid keeps every voxel in the grid at the
      slot its own coordinates name. */
  lemma TransformPlaced(g: Grid, s: Sym, t: Tile)
    requires Placed(g, t) && Fits(g, s)
    ensures Transform(g, s, t).Some? && Placed(g, Transform(g, s, t).value)
  {
    TransformAt(g, s, t, P3(0, 0, 0));
    forall q | q in Transform(g, s, t).value
      ensures InGrid(g, q) && Transform(g, s, t).value[q].At() == q
    {
      TransformAt(g, s, t, q);
    }
  }

  /** On a grid wider than it is deep the quarter turn does not throw, but
      a voxel with `x < X - Z` lands past the end of its row, outside the
      grid. */
  lemma RotateWideGrows(g: Grid, t: Tile, p: P3)
    requires Placed(g, t) && g.z < g.x
    requires p in t && p.x < g.x - g.z
    ensures Transform(g, RotateY, t).Some?
    ensures Move(g, RotateY, p) in Transform(g, RotateY, t).value && !InGrid(g, Move(g, RotateY, p))
  {
    TransformThrows(g, RotateY, t);
    forall p' | p' in t ensures Writable(g, Move(g, RotateY, p')) {
    }
    TransformSlot(g, RotateY, t, Move(g, RotateY, p));
    MoveUnmove(g, RotateY, p, t[p]);
  }

  /** On a grid deeper than it is wide the quarter turn throws as soon as a
      voxel sits at `z >= X`. */
  lemma RotateDeepThrows(g: Grid, t: Tile, p: P3)
    requires Placed(g, t) && p in t && p.z >= g.x
    ensures Transform(g, RotateY, t).None?
  {
    TransformThrows(g, RotateY, t);
    assert !Writable(g, Move(g, RotateY, p));
  }

  /** Mirroring a tile twice in x, or twice in z, gives it back. */
  lemma MirrorTwice(g: Grid, s: Sym, t: Tile)
    requires Placed(g, t) && s != RotateY
    ensures Transform(g, s, t).Some? && Transform(g, s, Transform(g, s, t).value) == Some(t)
  {
    TransformPlaced(g, s, t);
    var m := Transform(g, s, t).value;
    TransformPlaced(g, s, m);
    var mm := Transform(g, s, m).value;
    forall q
      ensures q in mm <==> q in t
      ensures q in mm ==> mm[q] == t[q]
    {
      TransformAt(g, s, m, q);
      TransformAt(g, s, t, Unmove(g, s, q));
      MoveInGrid(g, s, q);
      assert Unmove(g, s, Unmove(g, s, q)) == q;
    }
    assert mm == t;
  }

  /** Four quarter turns give a tile on a square grid back. */
  lemma RotateFourTimes(g: Grid, t: Tile)
    requires Placed(g, t) && g.x == g.z
    ensures Transform(g, RotateY, t).Some?
    ensures Transform(g, RotateY, Transform(g, RotateY, t).value).Some?
    ensures Transform(g, RotateY, Transform(g, RotateY, Transform(g, RotateY, t).value).value).Some?
    ensures Transform(g, RotateY, Transform(g, RotateY, Transform(g, RotateY, Transform(g, RotateY, t).value).value).value) == Some(t)
  {
    TransformPlaced(g, RotateY, t);
    var t1 := Transform(g, RotateY, t).value;
    TransformPlaced(g, RotateY, t1);
    var t2 := Transform(g, RotateY, t1).value;
    TransformPlaced(g, RotateY, t2);
    var t3 := Transform(g, RotateY, t2).value;
    TransformPlaced(g, RotateY, t3);
    var t4 := Transform(g, RotateY, t3).value;
    forall q
      ensures q in t4 <==> q in t
      ensures q in t4 ==> t4[q] == t[q]
    {
      var q1 := Unmove(g, RotateY, q);
      var q2 := Unmove(g, RotateY, q1);
      var q3 := Unmove(g, RotateY, q2);
      assert Unmove(g, RotateY, q3) == q;
      TransformAt(g, RotateY, t3, q);
      TransformAt(g, RotateY, t2, q1);
      TransformAt(g, RotateY, t1, q2);
      TransformAt(g, RotateY, t, q3);
      MoveInGrid(g, RotateY, q);
      MoveInGrid(g, RotateY, q1);
      MoveInGrid(g, RotateY, q2);
      MoveInGrid(g, RotateY, q3);
      if q in t {
        RotateYFourTimes(g, t[q]);
      }
    }
    assert t4 == t;
  }
}

=== FILE: galaxy_tileset.dfy ===
/** `Tile.update` and `Tile.updateOne` of GalaxyBuilder/src/tile.ts: every
    tile of the tile set and the tile being edited contribute themselves and
    five variants to `UniqueTiles`, keyed by hash, and every unique tile is
    then counted under its left, right, front and back face hashes. */
module GalaxyTileSet {
  import opened Wrappers
  import opened GalaxyTile
  import opened GalaxyHash

  /** The strings `CalculateTileHash` stores on a tile. */
  datatype Hashes = Hashes(hash: string, left: string, right: string, back: string, front: string)

  /** `CalculateTileHash`: fails where `CalculateHash` throws. */
  function TileHashes(g: Grid, colors: Colors, t: Tile): Option<Hashes> {
    match CalculateHash(g, colors, t)
    case None => None
    case Some(h) => Some(Hashes(h, FaceHash(g, t, Left), FaceHash(g, t, Right), FaceHash(g, t, Back), FaceHash(g, t, Front)))
  }

  function Face(hs: Hashes, side: Side): string {
    match side
    case Left => hs.left
    case Right => hs.right
    case Back => hs.back
    case Front => hs.front
  }

  /** A tile object as `UniqueTiles` holds it, with its computed hashes. */
  datatype Entry = Entry(tile: Tile, hashes: Hashes)

  /** `UniqueTiles`: a JavaScript `Map`, i.e. its entries in insertion order. */
  type Unique = seq<(string, Entry)>

  predicate HasKey(u: Unique, k: string) {
    exists i :: 0 <= i < |u| && u[i].0 == k
  }

  predicate Distinct(u: Unique) {
    forall i, j :: 0 <= i < j < |u| ==> u[i].0 != u[j].0
  }

  /** Every entry sits under its own tile's hash, and its hashes are the
      ones `CalculateTileHash` gives for its tile. */
  predicate WellKeyed(g: Grid, colors: Colors, u: Unique) {
    forall i :: 0 <= i < |u| ==> u[i].0 == u[i].1.hashes.hash && TileHashes(g, colors, u[i].1.tile) == Some(u[i].1.hashes)
  }

  /** The position of key `k`. */
  function IndexOf(u: Unique, k: string): (i: nat)
    requires HasKey(u, k)
    ensures i < |u| && u[i].0 == k
    ensures forall j :: 0 <= j < i ==> u[j].0 != k
  {
    if u[0].0 == k then 0
    else
      assert HasKey(u[1..], k) by {
        var i :| 0 <= i < |u| && u[i].0 == k;
        assert u[1..][i - 1].0 == k;
      }
      1 + IndexOf(u[1..], k)
  }

  /** `Map.set`: an existing key keeps its place and takes the new value; a
      new key is appended. */
  function Put(u: Unique, k: string, e: Entry): (r: Unique)
    ensures forall i :: 0 <= i < |r| ==> r[i] == (k, e) || r[i] in u
    ensures HasKey(r, k)
  {
    if HasKey(u, k) then
      var r := u[IndexOf(u, k) := (k, e)];
      assert r[IndexOf(u, k)].0 == k;
      r
    else
      var r := u + [(k, e)];
      assert r[|u|].0 == k;
      r
  }

  /** `set` on a map: the key ends up holding the new entry, exactly once;
      every other key keeps its entry and its position; the map grows only
      for a new key. */
  lemma PutSemantics(u: Unique, k: string, e: Entry)
    requires Distinct(u)
    ensures var r := Put(u, k, e);
      Distinct(r) &&
      |r| == (if HasKey(u, k) then |u| else |u| + 1) &&
      r[IndexOf(r, k)] == (k, e) &&
      (forall i :: 0 <= i < |u| && u[i].0 != k ==> r[i] == u[i]) &&
      (forall k' :: HasKey(r, k') <==> HasKey(u, k') || k' == k)
  {
    var r := Put(u, k, e);
    if HasKey(u, k) {
      var n := IndexOf(u, k);
      forall k' | HasKey(u, k') ensures HasKey(r, k') {
        var i :| 0 <= i < |u| && u[i].0 == k';
        assert r[i].0 == k';
      }
      forall k' | HasKey(r, k') ensures HasKey(u, k') {
        var i :| 0 <= i < |r| && r[i].0 == k';
        assert u[i].0 == k';
      }
    } else {
      forall k' | HasKey(u, k') ensures HasKey(r, k') {
        var i :| 0 <= i < |u| && u[i].0 == k';
        assert r[i].0 == k';
      }
      forall k' | HasKey(r, k') && k' != k ensures HasKey(u, k') {
        var i :| 0 <= i < |r| && r[i].0 == k';
        assert u[i].0 == k';
      }
      forall i, j | 0 <= i < j < |r| ensures r[i].0 != r[j].0 {
        if j == |u| {
          assert u[i].0 != k;
        }
      }
    }
  }

  /** The variants `updateOne` adds, in its order: the tile, one, two and
      three quarter turns, the x mirror and the z mirror; `None` when one
      of the symmetries throws. */
  function Variants(g: Grid, t: Tile): (r: Option<seq<Tile>>)
    ensures r.Some? ==> |r.value| == 6 && r.value[0] == t
  {
    match Transform(g, RotateY, t)
    case None => None
    case Some(r1) =>
      match Transform(g, RotateY, r1)
      case None => None
      case Some(r2) =>
        match Transform(g, RotateY, r2)
        case None => None
        case Some(r3) =>
          match Transform(g, MirrorX, t)
          case None => None
          case Some(mx) =>
            match Transform(g, MirrorZ, t)
            case None => None
            case Some(mz) => Some([t, r1, r2, r3, mx, mz])
  }

  /** On a square grid the symmetries of a placed tile do not throw, and
      every variant is placed in the grid again. */
  lemma VariantsSquare(g: Grid, t: Tile)
    requires Placed(g, t) && g.x == g.z
    ensures Variants(g, t).Some?
    ensures forall k :: 0 <= k < 6 ==> Placed(g, Variants(g, t).value[k])
  {
    TransformPlaced(g, RotateY, t);
    var r1 := Transform(g, RotateY, t).value;
    TransformPlaced(g, RotateY, r1);
    var r2 := Transform(g, RotateY, r1).value;
    TransformPlaced(g, RotateY, r2);
    TransformPlaced(g, MirrorX, t);
    TransformPlaced(g, MirrorZ, t);
  }

  /** On a grid deeper than it is wide, a voxel at `z >= X` makes the first
      quarter turn throw, and `updateOne` with it. */
  lemma VariantsDeepThrow(g: Grid, t: Tile, p: P3)
    requires Placed(g, t) && p in t && p.z >= g.x
    ensures Variants(g, t).None?
  {
    RotateDeepThrows(g, t, p);
  }

  /** The variants of every tile in `tiles`, tile after tile; `None` when
      the symmetries of one of them throw. */
  function AllVariants(g: Grid, tiles: seq<Tile>): (r: Option<seq<Tile>>)
    ensures r.Some? ==> |r.value| == 6 * |tiles|
  {
    if tiles == [] then Some([])
    else match Variants(g, tiles[0])
      case None => None
      case Some(vs) =>
        match AllVariants(g, tiles[1..])
        case None => None
        case Some(rest) => Some(vs + rest)
  }

  /** The variants are found exactly when no tile's symmetries throw. */
  lemma {:induction false} AllVariantsSucceed(g: Grid, tiles: seq<Tile>)
    ensures AllVariants(g, tiles).Some? <==> forall i :: 0 <= i < |tiles| ==> Variants(g, tiles[i]).Some?
  {
    if tiles != [] {
      AllVariantsSucceed(g, tiles[1..]);
      assert forall i :: 1 <= i < |tiles| ==> tiles[i] == tiles[1..][i - 1];
    }
  }

  /** The six variants of tile `i` sit at positions `6 * i` to `6 * i + 5`. */
  lemma {:induction false} AllVariantsAt(g: Grid, tiles: seq<Tile>, i: nat, k: nat)
    requires AllVariants(g, tiles).Some? && i < |tiles| && k < 6
    ensures Variants(g, tiles[i]).Some?
    ensures AllVariants(g, tiles).value[6 * i + k] == Variants(g, tiles[i]).value[k]
  {
    var vs := Variants(g, tiles[0]).value;
    var rest := AllVariants(g, tiles[1..]).value;
    assert AllVariants(g, tiles).value == vs + rest;
    if i > 0 {
      AllVariantsAt(g, tiles[1..], i - 1, k);
      assert tiles[1..][i - 1] == tiles[i];
      assert (vs + rest)[6 * i + k] == rest[6 * (i - 1) + k];
    }
  }

  /** Hash each tile of `vs` and `set` it into the map; the first tile
      whose hash throws stops the update. */
  function Insert(g: Grid, colors: Colors, vs: seq<Tile>, u: Unique): Option<Unique>
    decreases |vs|
  {
    if vs == [] then Some(u)
    else match TileHashes(g, colors, vs[0])
      case None => None
      case Some(h) => Insert(g, colors, vs[1..], Put(u, h.hash, Entry(vs[0], h)))
  }

  lemma PutWellKeyed(g: Grid, colors: Colors, u: Unique, t: Tile, h: Hashes)
    requires WellKeyed(g, colors, u) && TileHashes(g, colors, t) == Some(h)
    ensures WellKeyed(g, colors, Put(u, h.hash, Entry(t, h)))
  {
    var u' := Put(u, h.hash, Entry(t, h));
    forall i | 0 <= i < |u'|
      ensures u'[i].0 == u'[i].1.hashes.hash && TileHashes(g, colors, u'[i].1.tile) == Some(u'[i].1.hashes)
    {
      if u'[i] != (h.hash, Entry(t, h)) {
        var j :| 0 <= j < |u| && u[j] == u'[i];
      }
    }
  }

  /** Inserting succeeds exactly when every tile can be hashed. */
  lemma {:induction false} InsertSucceeds(g: Grid, colors: Colors, vs: seq<Tile>, u: Unique)
    ensures Insert(g, colors, vs, u).Some? <==> forall j :: 0 <= j < |vs| ==> TileHashes(g, colors, vs[j]).Some?
    decreases |vs|
  {
    if vs != [] {
      assert forall j :: 1 <= j < |vs| ==> vs[j] == vs[1..][j - 1];
      match TileHashes(g, colors, vs[0])
      case None =>
      case Some(h) =>
        InsertSucceeds(g, colors, vs[1..], Put(u, h.hash, Entry(vs[0], h)));
    }
  }

  /** Inserting keeps the map duplicate-free and well keyed, and keeps the
      keys it had. */
  lemma {:induction false} InsertKeeps(g: Grid, colors: Colors, vs: seq<Tile>, u: Unique)
    requires Distinct(u) && WellKeyed(g, colors, u) && Insert(g, colors, vs, u).Some?
    ensures Distinct(Insert(g, colors, vs, u).value) && WellKeyed(g, colors, Insert(g, colors, vs, u).value)
    ensures forall k :: HasKey(u, k) ==> HasKey(Insert(g, colors, vs, u).value, k)
    decreases |vs|
  {
    if vs != [] {
      var h := TileHashes(g, colors, vs[0]).value;
      PutWellKeyed(g, colors, u, vs[0], h);
      PutSemantics(u, h.hash, Entry(vs[0], h));
      InsertKeeps(g, colors, vs[1..], Put(u, h.hash, Entry(vs[0], h)));
    }
  }

  /** After inserting, every inserted tile's hash is a key, and every entry
      was in the map before or comes from one of the inserted tiles. */
  lemma {:induction false} InsertKeys(g: Grid, colors: Colors, vs: seq<Tile>, u: Unique)
    requires Distinct(u) && WellKeyed(g, colors, u) && Insert(g, colors, vs, u).Some?
    ensures var r := Insert(g, colors, vs, u).value;
      (forall j :: 0 <= j < |vs| ==> TileHashes(g, colors, vs[j]).Some? && HasKey(r, TileHashes(g, colors, vs[j]).value.hash)) &&
      (forall i :: 0 <= i < |r| ==> r[i] in u || r[i].1.tile in vs)
    decreases |vs|
  {
    if vs != [] {
      var h := TileHashes(g, colors, vs[0]).value;
      var u' := Put(u, h.hash, Entry(vs[0], h));
      PutWellKeyed(g, colors, u, vs[0], h);
      PutSemantics(u, h.hash, Entry(vs[0], h));
      InsertKeys(g, colors, vs[1..], u');
      InsertKeeps(g, colors, vs[1..], u');
      var r := Insert(g, colors, vs, u).value;
      assert HasKey(u', h.hash);
      forall j | 0 <= j < |vs|
        ensures TileHashes(g, colors, vs[j]).Some? && HasKey(r, TileHashes(g, colors, vs[j]).value.hash)
      {
        if j > 0 {
          assert vs[j] == vs[1..][j - 1];
        }
      }
      forall i | 0 <= i < |r| ensures r[i] in u || r[i].1.tile in vs {
        if r[i] !in u' {
          assert r[i].1.tile in vs[1..];
        } else if r[i] !in u {
          assert r[i] == (h.hash, Entry(vs[0], h));
        }
      }
    }
  }

  // ---------------------------------------------------------------------
  // Bucket counts

  /** `HashLeft` and its siblings: face hash -> tile hash -> count. */
  type Buckets = map<string, map<string, int>>

  /** The count under `f` and `h`, zero when absent (`?? 0`). */
  function Lookup(b: Buckets, f: string, h: string): int {
    if f in b && h in b[f] then b[f][h] else 0
  }

  /** One block of the `UniqueTiles.forEach` body: fetch or create the inner
      map, add one to the tile's count and store the inner map back. */
  function Bump(b: Buckets, f: string, h: string): Buckets {
    var l := if f in b then b[f] else map[];
    b[f := l[h := (if h in l then l[h] else 0) + 1]]
  }

  /** The `forEach` over the unique tiles, for one face. */
  function Tally(es: Unique, side: Side, b: Buckets): Buckets
    decreases |es|
  {
    if es == [] then b
    else Tally(es[1..], side, Bump(b, Face(es[0].1.hashes, side), es[0].1.hashes.hash))
  }

  /** How many entries have face hash `f` on `side` and tile hash `h`. */
  function Occurrences(es: Unique, side: Side, f: string, h: string): nat
    decreases |es|
  {
    if es == [] then 0
    else (if Face(es[0].1.hashes, side) == f && es[0].1.hashes.hash == h then 1 else 0) + Occurrences(es[1..], side, f, h)
  }

  lemma BumpAt(b: Buckets, f: string, h: string, f': string, h': string)
    ensures Lookup(Bump(b, f, h), f', h') == Lookup(b, f', h') + (if f == f' && h == h' then 1 else 0)
    ensures (f' in Bump(b, f, h) && h' in Bump(b, f, h)[f']) <==> (f' in b && h' in b[f']) || (f == f' && h == h')
  {
  }

  /** Tallying adds, under every face and tile hash, the number of entries
      that carry them, and creates exactly the slots it counts in. */
  lemma {:induction false} TallyCounts(es: Unique, side: Side, b: Buckets, f: string, h: string)
    ensures Lookup(Tally(es, side, b), f, h) == Lookup(b, f, h) + Occurrences(es, side, f, h)
    ensures (f in Tally(es, side, b) && h in Tally(es, side, b)[f]) <==>
      (f in b && h in b[f]) || Occurrences(es, side, f, h) > 0
    decreases |es|
  {
    if es != [] {
      var b' := Bump(b, Face(es[0].1.hashes, side), es[0].1.hashes.hash);
      BumpAt(b, Face(es[0].1.hashes, side), es[0].1.hashes.hash, f, h);
      TallyCounts(es[1..], side, b', f, h);
    }
  }

  /** The entry of `es` under tile hash `h` shows face `f` on `side`. */
  predicate Shows(es: Unique, side: Side, f: string, h: string) {
    exists i :: 0 <= i < |es| && es[i].0 == h && Face(es[i].1.hashes, side) == f
  }

  /** With distinct keys, each tile hash is counted at most once, and once
      exactly when its entry shows that face. */
  lemma {:induction false} OccurrencesOnce(g: Grid, colors: Colors, es: Unique, side: Side, f: string, h: string)
    requires Distinct(es) && WellKeyed(g, colors, es)
    ensures Occurrences(es, side, f, h) == if Shows(es, side, f, h) then 1 else 0
    decreases |es|
  {
    if es != [] {
      TailKeyed(g, colors, es);
      OccurrencesOnce(g, colors, es[1..], side, f, h);
      ShowsCons(es, side, f, h);
      assert es[0].0 == es[0].1.hashes.hash;
    }
  }

  /** The entries after the first keep distinct, well-keyed hashes. */
  lemma TailKeyed(g: Grid, colors: Colors, es: Unique)
    requires es != [] && Distinct(es) && WellKeyed(g, colors, es)
    ensures Distinct(es[1..]) && WellKeyed(g, colors, es[1..])
  {
    var rest := es[1..];
    forall i | 0 <= i < |rest|
      ensures rest[i].0 == rest[i].1.hashes.hash && TileHashes(g, colors, rest[i].1.tile) == Some(rest[i].1.hashes)
    {
      assert rest[i] == es[i + 1];
    }
  }

  /** A face shows in a list when it shows in the head or in the tail, and
      with distinct keys a head holding the hash leaves the tail without
      it. */
  lemma ShowsCons(es: Unique, side: Side, f: string, h: string)
    requires es != [] && Distinct(es)
    ensures Shows(es, side, f, h) <==> (es[0].0 == h && Face(es[0].1.hashes, side) == f) || Shows(es[1..], side, f, h)
    ensures es[0].0 == h ==> !Shows(es[1..], side, f, h)
  {
    var rest := es[1..];
    if Shows(es, side, f, h) {
      var i :| 0 <= i < |es| && es[i].0 == h && Face(es[i].1.hashes, side) == f;
      if i > 0 {
        assert rest[i - 1] == es[i];
      }
    }
    if Shows(rest, side, f, h) {
      var j :| 0 <= j < |rest| && rest[j].0 == h && Face(rest[j].1.hashes, side) == f;
      assert es[j + 1] == rest[j];
    }
  }

  // ---------------------------------------------------------------------
  // Tile.update

  datatype TileSet = TileSet(unique: Unique, left: Buckets, right: Buckets, front: Buckets, back: Buckets) {
    function BucketsOf(side: Side): Buckets {
      match side
      case Left => left
      case Right => right
      case Back => back
      case Front => front
    }
  }

  /** `Tile.update`: the tiles of the tile set, then the tile being edited,
      each with its variants, then the four tallies. `None` when a
      symmetry or a hash throws. */
  function Update(g: Grid, colors: Colors, tiles: seq<Tile>, current: Tile): Option<TileSet> {
    match AllVariants(g, tiles + [current])
    case None => None
    case Some(vs) =>
      match Insert(g, colors, vs, [])
      case None => None
      case Some(u) => Some(TileSet(u, Tally(u, Left, map[]), Tally(u, Right, map[]), Tally(u, Front, map[]), Tally(u, Back, map[])))
  }

  /** `update` completes exactly when no symmetry throws and every variant
      can be hashed. */
  lemma UpdateSucceeds(g: Grid, colors: Colors, tiles: seq<Tile>, current: Tile)
    ensures AllVariants(g, tiles + [current]).Some? <==>
      forall i :: 0 <= i < |tiles + [current]| ==> Variants(g, (tiles + [current])[i]).Some?
    ensures Update(g, colors, tiles, current).Some? <==>
      && AllVariants(g, tiles + [current]).Some?
      && (forall j :: 0 <= j < |AllVariants(g, tiles + [current]).value| ==>
            TileHashes(g, colors, AllVariants(g, tiles + [current]).value[j]).Some?)
  {
    AllVariantsSucceed(g, tiles + [current]);
    if AllVariants(g, tiles + [current]).Some? {
      InsertSucceeds(g, colors, AllVariants(g, tiles + [current]).value, []);
    }
  }

  /** After `update` the unique tiles have distinct hashes, each entry's
      hashes are its tile's, and the tiles and every variant of them are
      among the unique tiles. */
  lemma UpdateUnique(g: Grid, colors: Colors, tiles: seq<Tile>, current: Tile)
    requires Update(g, colors, tiles, current).Some?
    ensures AllVariants(g, tiles + [current]).Some?
    ensures var u := Update(g, colors, tiles, current).value.unique;
      var vs := AllVariants(g, tiles + [current]).value;
      Distinct(u) && WellKeyed(g, colors, u) &&
      (forall j :: 0 <= j < |vs| ==> TileHashes(g, colors, vs[j]).Some? && HasKey(u, TileHashes(g, colors, vs[j]).value.hash)) &&
      (forall i :: 0 <= i < |u| ==> u[i].1.tile in vs)
  {
    var vs := AllVariants(g, tiles + [current]).value;
    InsertKeeps(g, colors, vs, []);
    InsertKeys(g, colors, vs, []);
  }

  /** After `update` every unique tile is counted once under each of its
      four face hashes, and nothing else is counted. */
  lemma UpdateCounts(g: Grid, colors: Colors, tiles: seq<Tile>, current: Tile, side: Side, f: string, h: string)
    requires Update(g, colors, tiles, current).Some?
    ensures var ts := Update(g, colors, tiles, current).value;
      Lookup(ts.BucketsOf(side), f, h) == (if Shows(ts.unique, side, f, h) then 1 else 0) &&
      (f in ts.BucketsOf(side) && h in ts.BucketsOf(side)[f] <==> Shows(ts.unique, side, f, h))
  {
    var ts := Update(g, colors, tiles, current).value;
    UpdateUnique(g, colors, tiles, current);
    TallyCounts(ts.unique, side, map[], f, h);
    OccurrencesOnce(g, colors, ts.unique, side, f, h);
  }
}

=== FILE: grid_mesh.dfy ===
/** The height-field meshes of minecraft/src/minecraft/height_terrain.cpp
    (`generate_terrain`) and minecraft/src/minecraft/smooth_terrain.cpp
    (`generate_smooth_part_mesh`). Both lay out a `width` by `depth` grid of
    vertices row by row (`z` outer, `x` inner), emit two triangles per grid
    quad, and give every vertex the normal `(0, 1, 0)`. The heights come
    from `get_height` or `generate_terrain_heights`, which are not part of
    this model: they arrive as a row-major table. */
module GridMesh {

  datatype Vec3 = Vec3(x: real, y: real, z: real)

  const Up := Vec3(0.0, 1.0, 0.0)

  /** The index of the vertex at grid column `x` of row `z`. */
  function At(width: nat, x: nat, z: nat): nat {
    x + z * width
  }

  lemma MulMono(a: nat, b: nat, c: nat)
    requires a <= b
    ensures a * c <= b * c
  {
  }

  /** A vertex index inside the grid is below `width * depth`. */
  lemma AtBound(width: nat, depth: nat, x: nat, z: nat)
    requires x < width && z < depth
    ensures At(width, x, z) < width * depth
  {
    MulMono(z + 1, depth, width);
    assert (z + 1) * width == z * width + width;
  }

  // ---------------------------------------------------------------------
  // Vertices

  /** One pass of the inner vertex loop: row `z`, columns `0..n`. */
  function RowVertices(width: nat, origin: Vec3, heights: seq<int>, z: nat, n: nat): (r: seq<Vec3>)
    requires n <= width && (z + 1) * width <= |heights|
    ensures |r| == n
    ensures forall x :: 0 <= x < n ==> r[x] == Vec3(origin.x + x as real, origin.y + heights[At(width, x, z)] as real, origin.z + z as real)
  {
    if n == 0 then []
    else
      assert At(width, n - 1, z) < (z + 1) * width;
      RowVertices(width, origin, heights, z, n - 1) +
        [Vec3(origin.x + (n - 1) as real, origin.y + heights[At(width, n - 1, z)] as real, origin.z + z as real)]
  }

  /** The vertex loops for rows `0..rows`: `vertices.push_back(Vector3(pos.x
      + x, pos.y + y, pos.z + z))`, with `y` the height of column `x` of row
      `z`. */
  function Vertices(width: nat, origin: Vec3, heights: seq<int>, rows: nat): (r: seq<Vec3>)
    requires rows * width <= |heights|
    ensures |r| == rows * width
  {
    if rows == 0 then []
    else
      MulMono(rows - 1, rows, width);
      Vertices(width, origin, heights, rows - 1) + RowVertices(width, origin, heights, rows - 1, width)
  }

  /** The vertex at index `x + z * width` sits at grid position `(x, z)`
      with that column's height. */
  lemma {:induction false} VertexAt(width: nat, origin: Vec3, heights: seq<int>, rows: nat, x: nat, z: nat)
    requires rows * width <= |heights| && x < width && z < rows
    ensures At(width, x, z) < |Vertices(width, origin, heights, rows)|
    ensures Vertices(width, origin, heights, rows)[At(width, x, z)] ==
      Vec3(origin.x + x as real, origin.y + heights[At(width, x, z)] as real, origin.z + z as real)
    decreases rows
  {
    AtBound(width, rows, x, z);
    MulMono(rows - 1, rows, width);
    var front := Vertices(width, origin, heights, rows - 1);
    if z < rows - 1 {
      VertexAt(width, origin, heights, rows - 1, x, z);
    } else {
      assert |front| == z * width;
    }
  }

  // ---------------------------------------------------------------------
  // Triangles

  datatype Tri = Tri(a: int, b: int, c: int)

  /** The two triangles of the quad whose corner is `(x, z)`:
      `(i0, i1, i2)` and `(i1, i3, i2)`. */
  function Quad(width: nat, x: nat, z: nat): seq<Tri> {
    var i0 := At(width, x, z);
    var i1 := At(width, x + 1, z);
    var i2 := At(width, x, z + 1);
    var i3 := At(width, x + 1, z + 1);
    [Tri(i0, i1, i2), Tri(i1, i3, i2)]
  }

  /** The inner index loop: quads `0..n` of quad row `z`. */
  function RowQuads(width: nat, z: nat, n: nat): (r: seq<Tri>)
    ensures |r| == 2 * n
  {
    if n == 0 then [] else RowQuads(width, z, n - 1) + Quad(width, n - 1, z)
  }

  /** The outer index loop: quad rows `0..rows`, `quads` quads each. */
  function Triangles(width: nat, quads: nat, rows: nat): (r: seq<Tri>)
    ensures |r| == 2 * quads * rows
  {
    if rows == 0 then []
    else
      assert 2 * quads * rows == 2 * quads * (rows - 1) + 2 * quads;
      Triangles(width, quads, rows - 1) + RowQuads(width, rows - 1, quads)
  }

  /** `t` is one of the two triangles of a quad with corner `(x, z)`,
      `x < quads` and `z < rows`. */
  predicate QuadTriangle(width: nat, quads: nat, rows: nat, t: Tri) {
    exists x: nat, z: nat :: x < quads && z < rows && t in Quad(width, x, z)
  }

  lemma {:induction false} RowQuadsShape(width: nat, quads: nat, rows: nat, z: nat, n: nat)
    requires n <= quads && z < rows
    ensures forall t :: t in RowQuads(width, z, n) ==> QuadTriangle(width, quads, rows, t)
  {
    if n > 0 {
      RowQuadsShape(width, quads, rows, z, n - 1);
      forall t | t in Quad(width, n - 1, z)
        ensures QuadTriangle(width, quads, rows, t)
      {
      }
    }
  }

  /** Every emitted triangle belongs to a quad of the grid. */
  lemma {:induction false} TrianglesShape(width: nat, quads: nat, rows: nat, r: nat)
    requires r <= rows
    ensures forall t :: t in Triangles(width, quads, r) ==> QuadTriangle(width, quads, rows, t)
  {
    if r > 0 {
      TrianglesShape(width, quads, rows, r - 1);
      RowQuadsShape(width, quads, rows, r - 1, quads);
    }
  }

  /** A quad triangle of a grid with one more column and row of vertices
      than quads only refers to vertices of the grid. */
  lemma QuadTriangleBound(width: nat, depth: nat, quads: nat, rows: nat, t: Tri)
    requires quads + 1 <= width && rows + 1 <= depth && QuadTriangle(width, quads, rows, t)
    ensures 0 <= t.a < width * depth && 0 <= t.b < width * depth && 0 <= t.c < width * depth
  {
    var x: nat, z: nat :| x < quads && z < rows && t in Quad(width, x, z);
    AtBound(width, depth, x, z);
    AtBound(width, depth, x + 1, z);
    AtBound(width, depth, x, z + 1);
    AtBound(width, depth, x + 1, z + 1);
  }

  /** The index buffer: the triangles' corners, three at a time. */
  function Flatten(ts: seq<Tri>): (r: seq<int>)
    ensures |r| == 3 * |ts|
  {
    if ts == [] then [] else Flatten(ts[..|ts| - 1]) + [ts[|ts| - 1].a, ts[|ts| - 1].b, ts[|ts| - 1].c]
  }

  lemma {:induction false} FlattenAt(ts: seq<Tri>, t: nat)
    requires t < |ts|
    ensures Flatten(ts)[3 * t] == ts[t].a && Flatten(ts)[3 * t + 1] == ts[t].b && Flatten(ts)[3 * t + 2] == ts[t].c
    decreases |ts|
  {
    if t < |ts| - 1 {
      FlattenAt(ts[..|ts| - 1], t);
      assert ts[..|ts| - 1][t] == ts[t];
    }
  }

  /** Every entry of the index buffer is a corner of some triangle. */
  lemma {:induction false} FlattenFrom(ts: seq<Tri>, k: nat)
    requires k < |Flatten(ts)|
    ensures exists t :: t in ts && Flatten(ts)[k] in {t.a, t.b, t.c}
    decreases |ts|
  {
    var front := ts[..|ts| - 1];
    if k < |Flatten(front)| {
      FlattenFrom(front, k);
      var t :| t in front && Flatten(front)[k] in {t.a, t.b, t.c};
      assert t in ts;
    } else {
      assert ts[|ts| - 1] in ts;
    }
  }

  // ---------------------------------------------------------------------
  // The two meshes

  datatype Mesh = Mesh(vertices: seq<Vec3>, normals: seq<Vec3>, indices: seq<int>)

  /** The mesh both generators build: a `width` by `depth` grid of
      vertices at `origin`, one upward normal per vertex, and the triangles
      of `rows` quad rows of `quads` quads each. */
  function Grid(width: nat, depth: nat, quads: nat, rows: nat, origin: Vec3, heights: seq<int>): Mesh
    requires depth * width <= |heights|
  {
    var vertices := Vertices(width, origin, heights, depth);
    Mesh(vertices, seq(|vertices|, _ => Up), Flatten(Triangles(width, quads, rows)))
  }

  /** `generate_terrain`: a `lenX` by `lenZ` grid placed at `pos`, heights
      `get_height(x, z)` stored at `x + z * lenX`. */
  function HeightTerrain(lenX: nat, lenZ: nat, pos: Vec3, heights: seq<int>): Mesh
    requires lenZ * lenX <= |heights|
  {
    Grid(lenX, lenZ, if lenX > 0 then lenX - 1 else 0, if lenZ > 0 then lenZ - 1 else 0, pos, heights)
  }

  /** `generate_smooth_part_mesh`: a `(partSize + 1)` square grid at the
      origin, heights read at `x + z * vert_dim`. */
  function SmoothTerrain(partSize: nat, heights: seq<int>): Mesh
    requires (partSize + 1) * (partSize + 1) <= |heights|
  {
    Grid(partSize + 1, partSize + 1, partSize, partSize, Vec3(0.0, 0.0, 0.0), heights)
  }

  /** A mesh whose index buffer only names existing vertices, with one
      upward normal per vertex. */
  predicate WellFormed(m: Mesh) {
    |m.normals| == |m.vertices| && (forall i :: 0 <= i < |m.normals| ==> m.normals[i] == Up) &&
    |m.indices| % 3 == 0 && forall k :: 0 <= k < |m.indices| ==> 0 <= m.indices[k] < |m.vertices|
  }

  lemma GridWellFormed(width: nat, depth: nat, quads: nat, rows: nat, origin: Vec3, heights: seq<int>)
    requires depth * width <= |heights| && quads + 1 <= width && rows + 1 <= depth
    ensures WellFormed(Grid(width, depth, quads, rows, origin, heights))
  {
    var vertices := Vertices(width, origin, heights, depth);
    var tris := Triangles(width, quads, rows);
    var indices := Flatten(tris);
    assert |vertices| == width * depth;
    TrianglesShape(width, quads, rows, rows);
    forall k | 0 <= k < |indices|
      ensures 0 <= indices[k] < |vertices|
    {
      FlattenFrom(tris, k);
      var t :| t in tris && indices[k] in {t.a, t.b, t.c};
      QuadTriangleBound(width, depth, quads, rows, t);
    }
  }

  /** The grid holds `width * depth` vertices and six indices per quad. */
  lemma GridCounts(width: nat, depth: nat, quads: nat, rows: nat, origin: Vec3, heights: seq<int>)
    requires depth * width <= |heights|
    ensures |Grid(width, depth, quads, rows, origin, heights).vertices| == width * depth
    ensures |Grid(width, depth, quads, rows, origin, heights).indices| == 6 * quads * rows
  {
  }

  /** `generate_terrain` yields `lenX * lenZ` vertices at grid positions,
      `6 (lenX - 1)(lenZ - 1)` indices, all naming existing vertices, and
      one upward normal per vertex. */
  lemma HeightTerrainShape(lenX: nat, lenZ: nat, pos: Vec3, heights: seq<int>)
    requires lenZ * lenX <= |heights|
    ensures var m := HeightTerrain(lenX, lenZ, pos, heights);
      |m.vertices| == lenX * lenZ && WellFormed(m) &&
      (lenX > 0 && lenZ > 0 ==> |m.indices| == 6 * (lenX - 1) * (lenZ - 1)) &&
      (lenX == 0 || lenZ == 0 ==> |m.indices| == 0)
  {
    var quads, rows := if lenX > 0 then lenX - 1 else 0, if lenZ > 0 then lenZ - 1 else 0;
    GridCounts(lenX, lenZ, quads, rows, pos, heights);
    if lenX > 0 && lenZ > 0 {
      GridWellFormed(lenX, lenZ, quads, rows, pos, heights);
    } else {
      assert lenZ * lenX == 0;
    }
  }

  /** `generate_smooth_part_mesh` yields `(partSize + 1)^2` vertices and
      `6 partSize^2` indices, all naming existing vertices, and one upward
      normal per vertex. */
  lemma SmoothTerrainShape(partSize: nat, heights: seq<int>)
    requires (partSize + 1) * (partSize + 1) <= |heights|
    ensures var m := SmoothTerrain(partSize, heights);
      |m.vertices| == (partSize + 1) * (partSize + 1) && WellFormed(m) &&
      |m.indices| == 6 * partSize * partSize
  {
    GridWellFormed(partSize + 1, partSize + 1, partSize, partSize, Vec3(0.0, 0.0, 0.0), heights);
    GridCounts(partSize + 1, partSize + 1, partSize, partSize, Vec3(0.0, 0.0, 0.0), heights);
  }

  /** The triangles of quad `(x, z)` join the grid neighbours `(x, z)`,
      `(x+1, z)`, `(x, z+1)` and `(x+1, z)`, `(x+1, z+1)`, `(x, z+1)`. */
  lemma QuadCorners(width: nat, depth: nat, origin: Vec3, heights: seq<int>, x: nat, z: nat)
    requires depth * width <= |heights| && x + 1 < width && z + 1 < depth
    ensures var vs := Vertices(width, origin, heights, depth);
      var q := Quad(width, x, z);
      q[0].a < |vs| && q[0].b < |vs| && q[0].c < |vs| && q[1].b < |vs| &&
      vs[q[0].a].x == origin.x + x as real && vs[q[0].a].z == origin.z + z as real &&
      vs[q[0].b].x == origin.x + (x + 1) as real && vs[q[0].b].z == origin.z + z as real &&
      vs[q[0].c].x == origin.x + x as real && vs[q[0].c].z == origin.z + (z + 1) as real &&
      q[1].a == q[0].b && q[1].c == q[0].c &&
      vs[q[1].b].x == origin.x + (x + 1) as real && vs[q[1].b].z == origin.z + (z + 1) as real
  {
    VertexAt(width, origin, heights, depth, x, z);
    VertexAt(width, origin, heights, depth, x + 1, z);
    VertexAt(width, origin, heights, depth, x, z + 1);
    VertexAt(width, origin, heights, depth, x + 1, z + 1);
  }
}

=== FILE: heap_front_ends.dfy ===
/** `MinHeap::updatePriority` of minecraft/src/include/min_heap.hpp: an
    absent item is reported by returning false. */
module MinHeapApi {
  import opened IndexedHeap

  method UpdatePriority<T>(h: Heap<T>, item: T, priority: int) returns (found: bool, r: Heap<T>)
    requires item in h.index ==> h.index[item] < |h.elements|
    ensures found <==> item in h.index
    ensures !found ==> r == h
    ensures found && HeapOrder(h.elements) ==> HeapOrder(r.elements)
    ensures found && IndexConsistent(h) ==>
              IndexConsistent(r) && item in r.index && r.elements[r.index[item]] == Node(item, priority)
              && |r.elements| == |h.elements|
  {
    if item !in h.index {
      return false, h;
    }
    r := SetPriority(h, item, priority);
    found := true;
  }
}

/** `PriorityQueue::updatePriority` of
    godot-cpp-template/c_example/PriorityQueue.hpp: an absent item throws
    `std::runtime_error`, modelled as an error result; the queue is left as
    it was. */
module PriorityQueueCpp {
  import opened Wrappers
  import opened IndexedHeap

  const NOT_FOUND: string := "Item not found in priority queue"

  method UpdatePriority<T>(h: Heap<T>, item: T, priority: int) returns (r: Result<Heap<T>, string>)
    requires item in h.index ==> h.index[item] < |h.elements|
    ensures r.Err? <==> item !in h.index
    ensures r.Err? ==> r.error == NOT_FOUND
    ensures r.Ok? && HeapOrder(h.elements) ==> HeapOrder(r.value.elements)
    ensures r.Ok? && IndexConsistent(h) ==>
              IndexConsistent(r.value) && item in r.value.index && r.value.elements[r.value.index[item]] == Node(item, priority)
  {
    if item !in h.index {
      return Err(NOT_FOUND);
    }
    var updated := SetPriority(h, item, priority);
    r := Ok(updated);
  }
}

/** `PriorityQueue.updatePriority` of 2dwavefunction/src/queue.ts: an
    absent item throws an `Error`, modelled as an error result. Priorities,
    JavaScript numbers there, are integers here. */
module PriorityQueueTs {
  import opened Wrappers
  import opened IndexedHeap

  const NOT_FOUND: string := "Item not found in priority queue"

  method UpdatePriority<T>(h: Heap<T>, item: T, priority: int) returns (r: Result<Heap<T>, string>)
    requires item in h.index ==> h.index[item] < |h.elements|
    ensures r.Err? <==> item !in h.index
    ensures r.Err? ==> r.error == NOT_FOUND
    ensures r.Ok? && HeapOrder(h.elements) ==> HeapOrder(r.value.elements)
    ensures r.Ok? && IndexConsistent(h) ==>
              IndexConsistent(r.value) && item in r.value.index && r.value.elements[r.value.index[item]] == Node(item, priority)
  {
    if item !in h.index {
      return Err(NOT_FOUND);
    }
    var updated := SetPriority(h, item, priority);
    r := Ok(updated);
  }
}

=== FILE: indexed_heap.dfy ===
/** The indexed binary min-heap shared by minecraft/src/include/min_heap.hpp
    (`MinHeap`), godot-cpp-template/c_example/PriorityQueue.hpp and
    2dwavefunction/src/queue.ts (both `PriorityQueue`): an array of
    (item, priority) nodes in heap order plus a map from each item to its
    position in the array. The three sources run the same algorithms; they
    differ only in what `updatePriority` does with an absent item, which the
    front-end modules model. Heaps are values here: every operation returns
    the new heap. */
module IndexedHeap {
  import opened Wrappers

  datatype Node<T> = Node(item: T, priority: int)

  /** `elements` and `itemToIndexMap` / `positions`. */
  datatype Heap<T> = Heap(elements: seq<Node<T>>, index: map<T, nat>)

  const Empty: Heap<int> := Heap([], map[])

  function Parent(k: nat): nat
    requires k > 0
  {
    (k - 1) / 2
  }

  /** Every node's priority is at least its parent's. */
  ghost predicate HeapOrder<T>(e: seq<Node<T>>) {
    forall k :: 0 < k < |e| ==> e[Parent(k)].priority <= e[k].priority
  }

  /** The map sends every stored item to its slot and nothing else. */
  ghost predicate IndexConsistent<T>(h: Heap<T>) {
    && (forall k :: 0 <= k < |h.elements| ==> h.elements[k].item in h.index && h.index[h.elements[k].item] == k)
    && (forall x :: x in h.index ==> h.index[x] < |h.elements| && h.elements[h.index[x]].item == x)
  }

  ghost predicate Valid<T>(h: Heap<T>) {
    HeapOrder(h.elements) && IndexConsistent(h)
  }

  /** Heap order everywhere except possibly between `i` and its parent, and
      `i`'s parent is no larger than `i`'s children: the state `heapifyUp`
      repairs. */
  ghost predicate AlmostUp<T>(e: seq<Node<T>>, i: nat) {
    && i < |e|
    && (forall k :: 0 < k < |e| && k != i ==> e[Parent(k)].priority <= e[k].priority)
    && (i > 0 ==> forall k :: 0 < k < |e| && Parent(k) == i ==> e[Parent(i)].priority <= e[k].priority)
  }

  /** Heap order everywhere except possibly between `i` and its children,
      and `i`'s parent is no larger than `i`'s children: the state
      `heapifyDown` repairs. */
  ghost predicate AlmostDown<T>(e: seq<Node<T>>, i: nat) {
    && i < |e|
    && (forall k :: 0 < k < |e| && Parent(k) != i ==> e[Parent(k)].priority <= e[k].priority)
    && (i > 0 ==> forall k :: 0 < k < |e| && Parent(k) == i ==> e[Parent(i)].priority <= e[k].priority)
  }

  /** The root of a heap-ordered array has the least priority. */
  lemma {:induction false} RootIsMin<T>(e: seq<Node<T>>, k: nat)
    requires HeapOrder(e)
    requires k < |e|
    ensures e[0].priority <= e[k].priority
    decreases k
  {
    if k > 0 {
      RootIsMin(e, Parent(k));
    }
  }

  // ---------------------------------------------------------------------
  // swap

  function SwapSeq<T>(e: seq<Node<T>>, i: nat, j: nat): (r: seq<Node<T>>)
    requires i < |e| && j < |e|
    ensures |r| == |e|
    ensures r[i] == e[j] && r[j] == e[i]
    ensures forall k :: 0 <= k < |e| && k != i && k != j ==> r[k] == e[k]
    ensures multiset(r) == multiset(e)
  {
    e[i := e[j]][j := e[i]]
  }

  /** `swap(i, j)`: exchange two nodes and record both new positions. */
  function Swap<T>(h: Heap<T>, i: nat, j: nat): (r: Heap<T>)
    requires i < |h.elements| && j < |h.elements|
    ensures r.elements == SwapSeq(h.elements, i, j)
    ensures r.elements[j].item in r.index && r.index[r.elements[j].item] == j
    ensures r.elements[i].item in r.index
    ensures r.elements[i].item != r.elements[j].item ==> r.index[r.elements[i].item] == i
    ensures IndexConsistent(h) ==> IndexConsistent(r)
  {
    var e := SwapSeq(h.elements, i, j);
    var r := Heap(e, h.index[e[i].item := i][e[j].item := j]);
    assert IndexConsistent(h) ==> IndexConsistent(r) by {
      if IndexConsistent(h) {
        SwapKeepsIndex(h, i, j, r);
      }
    }
    r
  }

  lemma SwapKeepsIndex<T>(h: Heap<T>, i: nat, j: nat, r: Heap<T>)
    requires i < |h.elements| && j < |h.elements|
    requires IndexConsistent(h)
    requires r.elements == SwapSeq(h.elements, i, j)
    requires r.index == h.index[r.elements[i].item := i][r.elements[j].item := j]
    ensures IndexConsistent(r)
  {
    var e := h.elements;
    forall k | 0 <= k < |e|
      ensures r.elements[k].item in r.index && r.index[r.elements[k].item] == k
    {
      if k != i && k != j {
        assert r.elements[k] == e[k];
        assert h.index[e[i].item] == i && h.index[e[j].item] == j && h.index[e[k].item] == k;
      } else if k == i && i != j {
        assert h.index[e[i].item] == i && h.index[e[j].item] == j;
      }
    }
    forall x | x in r.index
      ensures r.index[x] < |r.elements| && r.elements[r.index[x]].item == x
    {
      if x != r.elements[i].item && x != r.elements[j].item {
        var k := h.index[x];
        assert k != i && k != j;
        assert r.elements[k] == e[k];
      }
    }
  }

  // ---------------------------------------------------------------------
  // heapifyUp / heapifyDown

  /** `heapifyUp(index)`: move a node up while it is smaller than its
      parent. */
  method HeapifyUp<T>(h: Heap<T>, start: nat) returns (r: Heap<T>)
    requires start < |h.elements|
    ensures |r.elements| == |h.elements|
    ensures multiset(r.elements) == multiset(h.elements)
    ensures AlmostUp(h.elements, start) ==> HeapOrder(r.elements)
    ensures IndexConsistent(h) ==> IndexConsistent(r)
  {
    ghost var repairing := AlmostUp(h.elements, start);
    r := h;
    var i: nat := start;
    while i > 0 && r.elements[i].priority < r.elements[Parent(i)].priority
      invariant i < |r.elements| == |h.elements|
      invariant multiset(r.elements) == multiset(h.elements)
      invariant repairing ==> AlmostUp(r.elements, i)
      invariant IndexConsistent(h) ==> IndexConsistent(r)
      decreases i
    {
      var p := Parent(i);
      if repairing {
        SiftUpStep(r.elements, i);
      }
      r := Swap(r, i, p);
      i := p;
    }
  }

  lemma SiftUpStep<T>(e: seq<Node<T>>, i: nat)
    requires AlmostUp(e, i)
    requires i > 0 && e[i].priority < e[Parent(i)].priority
    ensures AlmostUp(SwapSeq(e, i, Parent(i)), Parent(i))
  {
    var p := Parent(i);
    var s := SwapSeq(e, i, p);
    forall k | 0 < k < |s| && k != p
      ensures s[Parent(k)].priority <= s[k].priority
    {
      if k == i {
      } else if Parent(k) == i {
        assert s[i] == e[p];
      } else if Parent(k) == p {
        assert s[p] == e[i];
        assert e[p].priority <= e[k].priority;
      }
    }
    if p > 0 {
      forall k | 0 < k < |s| && Parent(k) == p
        ensures s[Parent(p)].priority <= s[k].priority
      {
        assert s[Parent(p)] == e[Parent(p)];
        if k != i {
          assert e[Parent(p)].priority <= e[p].priority;
        }
      }
    }
  }

  /** The index of the smallest of a node and its existing children, the
      left child winning a tie with the right one and the node winning any
      tie. */
  function Smallest<T>(e: seq<Node<T>>, i: nat): (s: nat)
    requires i < |e|
    ensures s < |e|
    ensures s == i || s == 2 * i + 1 || s == 2 * i + 2
    ensures e[s].priority <= e[i].priority
    ensures 2 * i + 1 < |e| ==> e[s].priority <= e[2 * i + 1].priority
    ensures 2 * i + 2 < |e| ==> e[s].priority <= e[2 * i + 2].priority
    ensures s != i ==> e[s].priority < e[i].priority
  {
    var left, right := 2 * i + 1, 2 * i + 2;
    var s1 := if left < |e| && e[left].priority < e[i].priority then left else i;
    if right < |e| && e[right].priority < e[s1].priority then right else s1
  }

  /** `heapifyDown(index)`: move a node down while a child is smaller. */
  method HeapifyDown<T>(h: Heap<T>, start: nat) returns (r: Heap<T>)
    requires start < |h.elements|
    ensures |r.elements| == |h.elements|
    ensures multiset(r.elements) == multiset(h.elements)
    ensures AlmostDown(h.elements, start) ==> HeapOrder(r.elements)
    ensures IndexConsistent(h) ==> IndexConsistent(r)
  {
    ghost var repairing := AlmostDown(h.elements, start);
    r := h;
    var i: nat := start;
    while true
      invariant i < |r.elements| == |h.elements|
      invariant multiset(r.elements) == multiset(h.elements)
      invariant repairing ==> AlmostDown(r.elements, i)
      invariant IndexConsistent(h) ==> IndexConsistent(r)
      decreases |r.elements| - i
    {
      var smallest := Smallest(r.elements, i);
      if smallest == i {
        if repairing {
          SiftDownDone(r.elements, i);
        }
        break;
      }
      if repairing {
        SiftDownStep(r.elements, i, smallest);
      }
      r := Swap(r, i, smallest);
      i := smallest;
    }
  }

  lemma SiftDownDone<T>(e: seq<Node<T>>, i: nat)
    requires AlmostDown(e, i)
    requires Smallest(e, i) == i
    ensures HeapOrder(e)
  {
    forall k | 0 < k < |e|
      ensures e[Parent(k)].priority <= e[k].priority
    {
      if Parent(k) == i {
        assert k == 2 * i + 1 || k == 2 * i + 2;
      }
    }
  }

  lemma SiftDownStep<T>(e: seq<Node<T>>, i: nat, c: nat)
    requires AlmostDown(e, i)
    requires c == Smallest(e, i) && c != i
    ensures AlmostDown(SwapSeq(e, i, c), c)
  {
    var s := SwapSeq(e, i, c);
    assert Parent(c) == i;
    forall k | 0 < k < |s| && Parent(k) != c
      ensures s[Parent(k)].priority <= s[k].priority
    {
      if k == c {
      } else if Parent(k) == i {
        assert k == 2 * i + 1 || k == 2 * i + 2;
      } else if k == i {
        assert s[Parent(i)] == e[Parent(i)];
      }
    }
    forall k | 0 < k < |s| && Parent(k) == c
      ensures s[Parent(c)].priority <= s[k].priority
    {
      assert s[k] == e[k];
    }
  }

  // ---------------------------------------------------------------------
  // The public operations

  /** `insert(item, priority)`. */
  method Insert<T>(h: Heap<T>, item: T, priority: int) returns (r: Heap<T>)
    ensures |r.elements| == |h.elements| + 1
    ensures multiset(r.elements) == multiset(h.elements) + multiset{Node(item, priority)}
    ensures HeapOrder(h.elements) ==> HeapOrder(r.elements)
    ensures IndexConsistent(h) && item !in h.index ==>
              IndexConsistent(r) && item in r.index && r.elements[r.index[item]] == Node(item, priority)
  {
    var e := h.elements + [Node(item, priority)];
    var n := |e| - 1;
    var pushed := Heap(e, h.index[item := n]);
    if HeapOrder(h.elements) {
      PushAlmostUp(h.elements, Node(item, priority));
    }
    if IndexConsistent(h) && item !in h.index {
      PushIndex(h, item, priority);
    }
    r := HeapifyUp(pushed, n);
    if IndexConsistent(h) && item !in h.index {
      FindNode(r, item, priority);
    }
  }

  /** Appending to a heap-ordered array leaves only the new leaf to sift. */
  lemma PushAlmostUp<T>(e0: seq<Node<T>>, x: Node<T>)
    requires HeapOrder(e0)
    ensures AlmostUp(e0 + [x], |e0|)
  {
    var e := e0 + [x];
    assert forall k :: 0 < k < |e0| ==> e[k] == e0[k] && e[Parent(k)] == e0[Parent(k)];
    assert forall k :: 0 < k < |e| ==> Parent(k) != |e0|;
  }

  /** Appending a new item and mapping it to the new slot keeps the map
      consistent. */
  lemma PushIndex<T>(h: Heap<T>, item: T, priority: int)
    requires IndexConsistent(h) && item !in h.index
    ensures IndexConsistent(Heap(h.elements + [Node(item, priority)], h.index[item := |h.elements|]))
  {
    var e := h.elements + [Node(item, priority)];
    var pushed := Heap(e, h.index[item := |h.elements|]);
    forall x | x in pushed.index
      ensures pushed.index[x] < |e| && e[pushed.index[x]].item == x
    {
      if x != item {
        assert e[h.index[x]] == h.elements[h.index[x]];
      }
    }
  }

  /** `extractMin()`: `None` on an empty heap; otherwise the root's item,
      which is gone from both the array and the map. */
  method ExtractMin<T>(h: Heap<T>) returns (out: Option<T>, r: Heap<T>)
    ensures h.elements == [] ==> out == None && r == h
    ensures h.elements != [] ==>
              && out == Some(h.elements[0].item)
              && |r.elements| == |h.elements| - 1
              && multiset(r.elements) + multiset{h.elements[0]} == multiset(h.elements)
    ensures h.elements != [] && HeapOrder(h.elements) ==>
              (forall k :: 0 <= k < |h.elements| ==> h.elements[0].priority <= h.elements[k].priority)
              && HeapOrder(r.elements)
    ensures h.elements != [] && IndexConsistent(h) ==> IndexConsistent(r) && h.elements[0].item !in r.index
  {
    if h.elements == [] {
      return None, h;
    }
    var e := h.elements;
    var minNode := e[0];
    var index := h.index - {minNode.item};
    var last := e[|e| - 1];
    var rest := e[..|e| - 1];
    if HeapOrder(e) {
      RootIsMinAll(e);
    }
    if rest == [] {
      r := Heap([], index);
      assert e == [minNode];
      if IndexConsistent(h) {
        ExtractLastKeepsIndex(h);
      }
    } else {
      var moved := rest[0 := last];
      var m := Heap(moved, index[last.item := 0]);
      ExtractMoveFacts(e, moved);
      if IndexConsistent(h) {
        ExtractKeepsIndex(h, m);
      }
      r := HeapifyDown(m, 0);
      if IndexConsistent(h) {
        AbsentStaysAbsent(m, r, minNode.item);
      }
    }
    out := Some(minNode.item);
  }

  /** Rearranging a consistent heap never brings back an item it lacked. */
  lemma AbsentStaysAbsent<T>(m: Heap<T>, r: Heap<T>, x: T)
    requires IndexConsistent(m) && IndexConsistent(r)
    requires x !in m.index
    requires multiset(r.elements) == multiset(m.elements)
    ensures x !in r.index
  {
    forall k | 0 <= k < |r.elements|
      ensures r.elements[k].item != x
    {
      assert r.elements[k] in multiset(m.elements);
      var j :| 0 <= j < |m.elements| && m.elements[j] == r.elements[k];
      assert m.elements[j].item in m.index;
    }
  }

  lemma RootIsMinAll<T>(e: seq<Node<T>>)
    requires HeapOrder(e) && e != []
    ensures forall k :: 0 <= k < |e| ==> e[0].priority <= e[k].priority
  {
    forall k | 0 <= k < |e| ensures e[0].priority <= e[k].priority {
      RootIsMin(e, k);
    }
  }

  lemma ExtractLastKeepsIndex<T>(h: Heap<T>)
    requires IndexConsistent(h) && |h.elements| == 1
    ensures IndexConsistent(Heap([], h.index - {h.elements[0].item}))
  {
    forall x | x in h.index ensures x == h.elements[0].item {
      assert h.elements[h.index[x]].item == x;
    }
  }

  /** Moving the last node to the root keeps the multiset of the rest and
      leaves the heap order broken only below the root. */
  lemma ExtractMoveFacts<T>(e: seq<Node<T>>, moved: seq<Node<T>>)
    requires |e| >= 2
    requires moved == e[..|e| - 1][0 := e[|e| - 1]]
    ensures multiset(moved) + multiset{e[0]} == multiset(e)
    ensures HeapOrder(e) ==> AlmostDown(moved, 0)
  {
    var n := |e| - 1;
    assert e == [e[0]] + e[1..n] + [e[n]];
    assert moved == [e[n]] + e[1..n];
    if HeapOrder(e) {
      forall k | 0 < k < |moved| && Parent(k) != 0
        ensures moved[Parent(k)].priority <= moved[k].priority
      {
        assert moved[k] == e[k] && moved[Parent(k)] == e[Parent(k)];
      }
    }
  }

  lemma ExtractKeepsIndex<T>(h: Heap<T>, m: Heap<T>)
    requires IndexConsistent(h)
    requires |h.elements| >= 2
    requires m.elements == h.elements[..|h.elements| - 1][0 := h.elements[|h.elements| - 1]]
    requires m.index == (h.index - {h.elements[0].item})[h.elements[|h.elements| - 1].item := 0]
    ensures IndexConsistent(m)
    ensures h.elements[0].item !in m.index
  {
    var e := h.elements;
    var n := |e| - 1;
    assert h.index[e[0].item] == 0 && h.index[e[n].item] == n;
    forall k | 0 <= k < |m.elements|
      ensures m.elements[k].item in m.index && m.index[m.elements[k].item] == k
    {
      if k > 0 {
        assert m.elements[k] == e[k];
        assert h.index[e[k].item] == k;
      }
    }
    forall x | x in m.index
      ensures m.index[x] < |m.elements| && m.elements[m.index[x]].item == x
    {
      if x != e[n].item {
        var k := h.index[x];
        assert k != 0 && k != n;
      }
    }
  }

  /** `peek()`: the root's item, or `None` when empty. */
  function Peek<T>(h: Heap<T>): (out: Option<T>)
    ensures h.elements == [] <==> out == None
    ensures out.Some? ==> exists k :: 0 <= k < |h.elements| && h.elements[k].item == out.value
    ensures out.Some? && HeapOrder(h.elements) ==>
              exists k :: 0 <= k < |h.elements| && h.elements[k].item == out.value &&
                forall j :: 0 <= j < |h.elements| ==> h.elements[k].priority <= h.elements[j].priority
  {
    if h.elements == [] then None
    else
      assert HeapOrder(h.elements) ==> forall j :: 0 <= j < |h.elements| ==> h.elements[0].priority <= h.elements[j].priority by {
        if HeapOrder(h.elements) {
          forall j | 0 <= j < |h.elements| ensures h.elements[0].priority <= h.elements[j].priority {
            RootIsMin(h.elements, j);
          }
        }
      }
      Some(h.elements[0].item)
  }

  /** `size()`. */
  function Size<T>(h: Heap<T>): nat {
    |h.elements|
  }

  /** The shared body of `updatePriority` once the item has been found: set
      the priority in place, then sift up if it fell or down if it rose. */
  method SetPriority<T>(h: Heap<T>, item: T, priority: int) returns (r: Heap<T>)
    requires item in h.index && h.index[item] < |h.elements|
    ensures |r.elements| == |h.elements|
    ensures var i := h.index[item];
            multiset(r.elements) == multiset(h.elements) - multiset{h.elements[i]} + multiset{Node(h.elements[i].item, priority)}
    ensures HeapOrder(h.elements) ==> HeapOrder(r.elements)
    ensures IndexConsistent(h) ==>
              IndexConsistent(r) && item in r.index && r.elements[r.index[item]] == Node(item, priority)
  {
    var i := h.index[item];
    var current := h.elements[i].priority;
    var e := h.elements[i := Node(h.elements[i].item, priority)];
    SetPriorityFacts(h, i, priority, e);
    var updated := Heap(e, h.index);
    if priority < current {
      r := HeapifyUp(updated, i);
    } else if priority > current {
      r := HeapifyDown(updated, i);
    } else {
      r := updated;
    }
    if IndexConsistent(h) {
      FindNode(r, item, priority);
    }
  }

  lemma SetPriorityFacts<T>(h: Heap<T>, i: nat, priority: int, e: seq<Node<T>>)
    requires i < |h.elements|
    requires e == h.elements[i := Node(h.elements[i].item, priority)]
    ensures multiset(e) == multiset(h.elements) - multiset{h.elements[i]} + multiset{Node(h.elements[i].item, priority)}
    ensures IndexConsistent(h) ==> IndexConsistent(Heap(e, h.index))
    ensures HeapOrder(h.elements) && priority < h.elements[i].priority ==> AlmostUp(e, i)
    ensures HeapOrder(h.elements) && priority > h.elements[i].priority ==> AlmostDown(e, i)
    ensures HeapOrder(h.elements) && priority == h.elements[i].priority ==> HeapOrder(e)
  {
    if IndexConsistent(h) {
      SetKeepsIndex(h, i, priority);
    }
    if HeapOrder(h.elements) && priority < h.elements[i].priority {
      LowerAlmostUp(h.elements, i, priority);
    }
    if HeapOrder(h.elements) && priority > h.elements[i].priority {
      RaiseAlmostDown(h.elements, i, priority);
    }
  }

  /** Rewriting a node's priority in place keeps its item in its slot. */
  lemma SetKeepsIndex<T>(h: Heap<T>, i: nat, priority: int)
    requires i < |h.elements| && IndexConsistent(h)
    ensures IndexConsistent(Heap(h.elements[i := Node(h.elements[i].item, priority)], h.index))
  {
  }

  /** A lowered priority can only break the order with its parent. */
  lemma LowerAlmostUp<T>(e0: seq<Node<T>>, i: nat, priority: int)
    requires i < |e0| && HeapOrder(e0) && priority < e0[i].priority
    ensures AlmostUp(e0[i := Node(e0[i].item, priority)], i)
  {
    var e := e0[i := Node(e0[i].item, priority)];
    if i > 0 {
      forall k | 0 < k < |e| && Parent(k) == i
        ensures e[Parent(i)].priority <= e[k].priority
      {
        assert e0[Parent(i)].priority <= e0[i].priority <= e0[k].priority;
      }
    }
  }

  /** A raised priority can only break the order with its children. */
  lemma RaiseAlmostDown<T>(e0: seq<Node<T>>, i: nat, priority: int)
    requires i < |e0| && HeapOrder(e0) && priority > e0[i].priority
    ensures AlmostDown(e0[i := Node(e0[i].item, priority)], i)
  {
    var e := e0[i := Node(e0[i].item, priority)];
    if i > 0 {
      forall k | 0 < k < |e| && Parent(k) == i
        ensures e[Parent(i)].priority <= e[k].priority
      {
        assert e0[Parent(i)].priority <= e0[i].priority <= e0[k].priority;
      }
    }
  }

  /** In a consistent heap that holds `Node(item, priority)`, the map points
      at it. */
  lemma FindNode<T>(r: Heap<T>, item: T, priority: int)
    requires IndexConsistent(r)
    requires Node(item, priority) in multiset(r.elements)
    ensures item in r.index && r.elements[r.index[item]] == Node(item, priority)
  {
    var k :| 0 <= k < |r.elements| && r.elements[k] == Node(item, priority);
    assert r.index[item] == k;
  }
}

=== FILE: int32.dfy ===
/** Two's-complement 32-bit integers, as JavaScript's ToInt32/ToUint32 and
    Python's masking idioms see them. Dafny integers are unbounded, so every
    wrap-around in the modelled code goes through this module. */
module Int32 {

  const TWO32: int := 0x1_0000_0000
  const TWO31: int := 0x8000_0000

  /** ECMAScript ToUint32 on an integral number: reduction modulo 2^32. */
  function ToUint32(x: int): (r: int)
    ensures 0 <= r < TWO32
    ensures Congruent(r, x)
  {
    CongruentMod(x);
    x % TWO32
  }

  /** ECMAScript ToInt32 on an integral number: the signed reading of the low
      32 bits. */
  function ToInt32(x: int): (r: int)
    ensures -TWO31 <= r < TWO31
    ensures Congruent(r, x)
  {
    var u := ToUint32(x);
    if u >= TWO31 then u - TWO32 else u
  }

  /** `a` and `b` agree in their low 32 bits. */
  predicate Congruent(a: int, b: int) {
    (a - b) % TWO32 == 0
  }

  /** The low 32 bits of `x` as a bit pattern. */
  function Bits(x: int): bv32 {
    ToUint32(x) as bv32
  }

  /** The signed number whose bit pattern is `b`. */
  function FromBits(b: bv32): (r: int)
    ensures -TWO31 <= r < TWO31
    ensures Bits(r) == b
    ensures Congruent(r, b as int)
  {
    var r := if b as int >= TWO31 then b as int - TWO32 else b as int;
    BitsOfPattern(b, r);
    assert r - b as int == 0 || r - b as int == TWO32 * (-1);
    r
  }

  lemma {:induction false} BitsOfPattern(b: bv32, r: int)
    requires r == b as int || r == b as int - TWO32
    ensures Bits(r) == b
  {
    var n := b as int;
    assert Congruent(r, n) by {
      assert r - n == 0 || r - n == TWO32 * (-1);
    }
    BitsCongruent(r, n);
    ToUint32Canonical(n);
  }

  lemma CongruentMod(x: int)
    ensures Congruent(x % TWO32, x)
  {
    var q := x / TWO32;
    assert x == TWO32 * q + x % TWO32;
    assert x % TWO32 - x == TWO32 * (-q);
  }

  /** Two numbers in the same window of width 2^32 that agree modulo 2^32
      are equal: the canonical representative is unique. */
  lemma {:induction false} CongruentUnique(a: int, b: int, lo: int)
    requires lo <= a < lo + TWO32 && lo <= b < lo + TWO32
    requires Congruent(a, b)
    ensures a == b
  {
    var q := (a - b) / TWO32;
    assert a - b == TWO32 * q;
  }

  lemma CongruentSymm(a: int, b: int)
    requires Congruent(a, b)
    ensures Congruent(b, a)
  {
    var q := (a - b) / TWO32;
    assert a - b == TWO32 * q;
    assert b - a == TWO32 * (-q);
  }

  lemma CongruentTrans(a: int, b: int, c: int)
    requires Congruent(a, b) && Congruent(b, c)
    ensures Congruent(a, c)
  {
    var q1 := (a - b) / TWO32;
    var q2 := (b - c) / TWO32;
    assert a - b == TWO32 * q1;
    assert b - c == TWO32 * q2;
    assert a - c == TWO32 * (q1 + q2);
  }

  lemma CongruentAdd(a: int, b: int, c: int, d: int)
    requires Congruent(a, b) && Congruent(c, d)
    ensures Congruent(a + c, b + d)
  {
    var q1 := (a - b) / TWO32;
    var q2 := (c - d) / TWO32;
    assert a - b == TWO32 * q1;
    assert c - d == TWO32 * q2;
    assert (a + c) - (b + d) == TWO32 * (q1 + q2);
  }

  lemma CongruentScale(a: int, b: int, k: int)
    requires Congruent(a, b)
    ensures Congruent(a * k, b * k)
  {
    var q := (a - b) / TWO32;
    assert a - b == TWO32 * q;
    assert a * k - b * k == (a - b) * k;
    assert a * k - b * k == TWO32 * (q * k);
  }

  /** ToInt32 is the identity on the signed range, and ToUint32 on the
      unsigned range: both pick the unique representative in their window. */
  lemma {:induction false} ToInt32Canonical(x: int)
    requires -TWO31 <= x < TWO31
    ensures ToInt32(x) == x
  {
    CongruentUnique(ToInt32(x), x, -TWO31);
  }

  lemma {:induction false} ToUint32Canonical(x: int)
    requires 0 <= x < TWO32
    ensures ToUint32(x) == x
  {
    CongruentUnique(ToUint32(x), x, 0);
  }

  /** Congruent numbers have the same 32-bit pattern. */
  lemma {:induction false} BitsCongruent(a: int, b: int)
    requires Congruent(a, b)
    ensures Bits(a) == Bits(b)
  {
    CongruentTrans(ToUint32(a), a, b);
    CongruentSymm(ToUint32(b), b);
    CongruentTrans(ToUint32(a), b, ToUint32(b));
    CongruentUnique(ToUint32(a), ToUint32(b), 0);
  }
}

=== FILE: json.dfy ===
/** The part of a JSON document model that the library parsers of
    minecraft/src/include/world_blender_parse.hpp and
    godot-cpp-template/c_example/celebi_parse.hpp rely on: objects as maps
    from keys to values, `at` and `get<T>` that throw on a missing key or a
    value of the wrong kind, and `get_untyped` that answers null instead. */
module Json {
  import opened Wrappers

  datatype Json = Null | Int(i: int) | Str(s: string) | Arr(elems: seq<Json>) | Obj(fields: map<string, Json>)

  /** The exceptions `at` and `get<T>` throw. */
  datatype JsonError = OutOfRange(key: string) | TypeError

  /** `j.at(key)`: the member `key` of an object. */
  function At(j: Json, key: string): (r: Result<Json, JsonError>)
    ensures r.Ok? <==> j.Obj? && key in j.fields
    ensures r.Ok? ==> r.value == j.fields[key] && r.value < j
  {
    if !j.Obj? then Err(TypeError)
    else if key !in j.fields then Err(OutOfRange(key))
    else Ok(j.fields[key])
  }

  /** `get_untyped(j, property)`: the member if `j` has it, null otherwise,
      never an exception. */
  function GetUntyped(j: Json, property: string): (r: Json)
    ensures At(j, property).Ok? ==> r == At(j, property).value
    ensures At(j, property).Err? ==> r == Null
  {
    if j.Obj? && property in j.fields then j.fields[property] else Null
  }

  /** The signed integer types the parsers read into. */
  datatype Width = Bits16 | Bits64

  function Modulus(w: Width): int {
    match w
    case Bits16 => 0x1_0000
    case Bits64 => 0x1_0000_0000_0000_0000
  }

  /** The smallest value of the type; its largest is `-Least(w) - 1`. */
  function Least(w: Width): int {
    match w
    case Bits16 => -0x8000
    case Bits64 => -0x8000_0000_0000_0000
  }

  predicate Fits(v: int, w: Width) {
    Least(w) <= v < -Least(w)
  }

  /** The conversion of a stored integer to the signed type `w`: the value
      in range congruent to `v` modulo `2^16` or `2^64`. */
  function Cast(v: int, w: Width): (r: int)
    ensures Fits(r, w)
    ensures (r - v) % Modulus(w) == 0
  {
    var m := Modulus(w);
    var u := v % m;
    if u >= -Least(w) then u - m else u
  }

  /** A value already in range survives the conversion unchanged. */
  lemma CastKeeps(v: int, w: Width)
    requires Fits(v, w)
    ensures Cast(v, w) == v
  {
  }

  /** `get<std::string>()`. */
  function AsString(j: Json): (r: Result<string, JsonError>)
    ensures r.Ok? <==> j.Str?
    ensures r.Ok? ==> r.value == j.s
  {
    if j.Str? then Ok(j.s) else Err(TypeError)
  }

  /** `get<intN_t>()` for an integral member: the stored integer converted
      to the type `w`. */
  function AsInt(j: Json, w: Width): (r: Result<int, JsonError>)
    ensures r.Ok? <==> j.Int?
    ensures r.Ok? ==> Fits(r.value, w) && (r.value - j.i) % Modulus(w) == 0
  {
    if j.Int? then Ok(Cast(j.i, w)) else Err(TypeError)
  }

  /** `get<std::vector<std::string>>()`: an array of strings, in order. */
  function AsStrings(j: Json): (r: Result<seq<string>, JsonError>)
    ensures r.Ok? <==> j.Arr? && forall k :: 0 <= k < |j.elems| ==> j.elems[k].Str?
    ensures r.Ok? ==> |r.value| == |j.elems| && forall k :: 0 <= k < |r.value| ==> r.value[k] == j.elems[k].s
  {
    if !j.Arr? then Err(TypeError) else StringsFrom(j.elems)
  }

  function StringsFrom(es: seq<Json>): (r: Result<seq<string>, JsonError>)
    ensures r.Ok? <==> forall k :: 0 <= k < |es| ==> es[k].Str?
    ensures r.Ok? ==> |r.value| == |es| && forall k :: 0 <= k < |r.value| ==> r.value[k] == es[k].s
  {
    if es == [] then Ok([])
    else if !es[0].Str? then Err(TypeError)
    else
      var rest := StringsFrom(es[1..]);
      if rest.Err? then rest
      else Ok([es[0].s] + rest.value)
  }

  /** The array `to_json` writes for a vector of strings. */
  function StringsToJson(ss: seq<string>): (r: Json)
    ensures r.Arr? && |r.elems| == |ss|
  {
    Arr(seq(|ss|, k requires 0 <= k < |ss| => Str(ss[k])))
  }

  /** A vector of strings comes back from its array unchanged. */
  lemma StringsRoundTrip(ss: seq<string>)
    ensures AsStrings(StringsToJson(ss)) == Ok(ss)
  {
    var r := AsStrings(StringsToJson(ss));
    assert r.Ok?;
    assert r.value == ss;
  }
}

=== FILE: library_json.dfy ===
/** The voxel library files read and written by
    minecraft/src/include/world_blender_parse.hpp (namespace
    `world_blender`) and godot-cpp-template/c_example/celebi_parse.hpp
    (namespace `Celebi`). Both define the same `LibraryItem` (an object name
    and six face hashes) and `Data` (items and voxel names); they differ in
    the integer type of the hashes and in which JSON key each hash field is
    stored under. */
module LibraryJson {
  import opened Wrappers
  import opened Json

  /** The JSON key of each hash field, named after the field. */
  datatype Layout = Layout(nx: string, px: string, ny: string, py: string, pz: string, nz: string)

  /** `world_blender`: the Y and Z keys are exchanged, `hash_PY` feeding
      `hashNz` and `hash_NY` feeding `hashPz`. */
  const WorldBlenderLayout := Layout("hash_NX", "hash_PX", "hash_NZ", "hash_PZ", "hash_NY", "hash_PY")

  /** `Celebi`: every field under the key of its own name. */
  const CelebiLayout := Layout("hash_NX", "hash_PX", "hash_NY", "hash_PY", "hash_PZ", "hash_NZ")

  /** The integer type of the hashes: `int16_t` and `int64_t`. */
  const WorldBlenderWidth := Bits16
  const CelebiWidth := Bits64

  datatype LibraryItem = LibraryItem(obj: string, hashNx: int, hashPx: int, hashNy: int, hashPy: int, hashPz: int, hashNz: int)

  datatype Data = Data(items: seq<LibraryItem>, voxels: seq<string>)

  /** The hashes of `x` are values of the type `w`. */
  predicate ItemFits(x: LibraryItem, w: Width) {
    Fits(x.hashNx, w) && Fits(x.hashPx, w) && Fits(x.hashNy, w) &&
    Fits(x.hashPy, w) && Fits(x.hashPz, w) && Fits(x.hashNz, w)
  }

  /** The seven keys of an item are pairwise distinct. */
  predicate KeysDistinct(l: Layout) {
    var keys := ["obj", l.nx, l.px, l.ny, l.py, l.pz, l.nz];
    forall a, b :: 0 <= a < b < 7 ==> keys[a] != keys[b]
  }

  /** `j` is an object holding the name as a string and the six hashes as
      integers under the keys of `l`. */
  predicate ItemShaped(l: Layout, j: Json) {
    j.Obj? && "obj" in j.fields && j.fields["obj"].Str? &&
    l.nx in j.fields && j.fields[l.nx].Int? && l.px in j.fields && j.fields[l.px].Int? &&
    l.ny in j.fields && j.fields[l.ny].Int? && l.py in j.fields && j.fields[l.py].Int? &&
    l.pz in j.fields && j.fields[l.pz].Int? && l.nz in j.fields && j.fields[l.nz].Int?
  }

  /** `j.at(key).get<intN_t>()`. */
  function ReadInt(j: Json, key: string, w: Width): (r: Result<int, JsonError>)
    ensures r.Ok? <==> j.Obj? && key in j.fields && j.fields[key].Int?
    ensures r.Ok? ==> r.value == Cast(j.fields[key].i, w)
  {
    var v := At(j, key);
    if v.Err? then Err(v.error) else AsInt(v.value, w)
  }

  /** `from_json(j, LibraryItem&)`: each `at` throws on a missing key and
      each `get` on a value of the wrong kind; otherwise every field holds
      its key's value converted to the hash type. */
  function ItemFromJson(l: Layout, w: Width, j: Json): (r: Result<LibraryItem, JsonError>)
    ensures r.Ok? <==> ItemShaped(l, j)
    ensures r.Ok? ==> r.value == LibraryItem(j.fields["obj"].s,
      Cast(j.fields[l.nx].i, w), Cast(j.fields[l.px].i, w), Cast(j.fields[l.ny].i, w),
      Cast(j.fields[l.py].i, w), Cast(j.fields[l.pz].i, w), Cast(j.fields[l.nz].i, w))
    ensures r.Ok? ==> ItemFits(r.value, w)
  {
    var o := At(j, "obj");
    if o.Err? then Err(o.error) else
    var obj := AsString(o.value);
    if obj.Err? then Err(obj.error) else
    var nx := ReadInt(j, l.nx, w);
    if nx.Err? then Err(nx.error) else
    var px := ReadInt(j, l.px, w);
    if px.Err? then Err(px.error) else
    var ny := ReadInt(j, l.ny, w);
    if ny.Err? then Err(ny.error) else
    var py := ReadInt(j, l.py, w);
    if py.Err? then Err(py.error) else
    var pz := ReadInt(j, l.pz, w);
    if pz.Err? then Err(pz.error) else
    var nz := ReadInt(j, l.nz, w);
    if nz.Err? then Err(nz.error) else
    Ok(LibraryItem(obj.value, nx.value, px.value, ny.value, py.value, pz.value, nz.value))
  }

  /** `to_json(j, const LibraryItem&)`: a fresh object, then one assignment
      per key. */
  function ItemToJson(l: Layout, x: LibraryItem): (r: Json)
    ensures r.Obj?
  {
    Obj(map[]["obj" := Str(x.obj)][l.nx := Int(x.hashNx)][l.px := Int(x.hashPx)]
      [l.ny := Int(x.hashNy)][l.py := Int(x.hashPy)][l.pz := Int(x.hashPz)][l.nz := Int(x.hashNz)])
  }

  /** With distinct keys, the object written holds exactly the seven keys,
      each with its own field's value. */
  lemma ItemToJsonKeys(l: Layout, x: LibraryItem)
    requires KeysDistinct(l)
    ensures var f := ItemToJson(l, x).fields;
      f.Keys == {"obj", l.nx, l.px, l.ny, l.py, l.pz, l.nz} &&
      f["obj"] == Str(x.obj) && f[l.nx] == Int(x.hashNx) && f[l.px] == Int(x.hashPx) &&
      f[l.ny] == Int(x.hashNy) && f[l.py] == Int(x.hashPy) && f[l.pz] == Int(x.hashPz) && f[l.nz] == Int(x.hashNz)
  {
    var keys := ["obj", l.nx, l.px, l.ny, l.py, l.pz, l.nz];
    assert keys[0] != keys[1] && keys[0] != keys[2] && keys[0] != keys[3] && keys[0] != keys[4] && keys[0] != keys[5] && keys[0] != keys[6];
    assert keys[1] != keys[2] && keys[1] != keys[3] && keys[1] != keys[4] && keys[1] != keys[5] && keys[1] != keys[6];
    assert keys[2] != keys[3] && keys[2] != keys[4] && keys[2] != keys[5] && keys[2] != keys[6];
    assert keys[3] != keys[4] && keys[3] != keys[5] && keys[3] != keys[6];
    assert keys[4] != keys[5] && keys[4] != keys[6];
    assert keys[5] != keys[6];
  }

  /** Reading back what was written gives the item, when the keys are
      distinct and the hashes fit the hash type. */
  lemma ItemRoundTrip(l: Layout, w: Width, x: LibraryItem)
    requires KeysDistinct(l) && ItemFits(x, w)
    ensures ItemFromJson(l, w, ItemToJson(l, x)) == Ok(x)
  {
    ItemToJsonKeys(l, x);
    CastKeeps(x.hashNx, w);
    CastKeeps(x.hashPx, w);
    CastKeeps(x.hashNy, w);
    CastKeeps(x.hashPy, w);
    CastKeeps(x.hashPz, w);
    CastKeeps(x.hashNz, w);
  }

  /** Both layouts name seven distinct keys. */
  lemma LayoutsDistinct()
    ensures KeysDistinct(WorldBlenderLayout) && KeysDistinct(CelebiLayout)
  {
    var n := "hash_NX";
    assert n[5] == 'N' && n[6] == 'X';
    var keys := ["obj", "hash_NX", "hash_PX", "hash_NY", "hash_PY", "hash_PZ", "hash_NZ"];
    forall a, b | 0 <= a < b < 7
      ensures keys[a] != keys[b]
    {
      if a == 0 {
        assert |keys[a]| != |keys[b]|;
      } else {
        assert keys[a][5] != keys[b][5] || keys[a][6] != keys[b][6];
      }
    }
    var wb := ["obj", "hash_NX", "hash_PX", "hash_NZ", "hash_PZ", "hash_NY", "hash_PY"];
    forall a, b | 0 <= a < b < 7
      ensures wb[a] != wb[b]
    {
      if a == 0 {
        assert |wb[a]| != |wb[b]|;
      } else {
        assert wb[a][5] != wb[b][5] || wb[a][6] != wb[b][6];
      }
    }
  }

  /** The change from Blender's Z-up axes to Godot's Y-up axes, applied to
      the face hashes: Godot's `+Y` is Blender's `+Z` and Godot's `+Z` is
      Blender's `-Y`. */
  function ToYUp(x: LibraryItem): (r: LibraryItem)
    ensures r.obj == x.obj && r.hashNx == x.hashNx && r.hashPx == x.hashPx
  {
    x.(hashNy := x.hashNz, hashPy := x.hashPz, hashNz := x.hashPy, hashPz := x.hashNy)
  }

  /** Reading with the `world_blender` keys is reading each hash under its
      own name and then changing from Z-up to Y-up axes. */
  lemma WorldBlenderIsYUp(w: Width, j: Json)
    ensures ItemFromJson(WorldBlenderLayout, w, j).Ok? <==> ItemFromJson(CelebiLayout, w, j).Ok?
    ensures ItemFromJson(WorldBlenderLayout, w, j).Ok? ==>
      ItemFromJson(WorldBlenderLayout, w, j).value == ToYUp(ItemFromJson(CelebiLayout, w, j).value)
  {
    var a := ItemFromJson(WorldBlenderLayout, w, j);
    var b := ItemFromJson(CelebiLayout, w, j);
    if a.Ok? {
      assert a.value.hashNy == b.value.hashNz && a.value.hashPy == b.value.hashPz;
      assert a.value.hashNz == b.value.hashPy && a.value.hashPz == b.value.hashNy;
    }
  }

  /** Each layout's round trip, with its own hash type. */
  lemma LayoutRoundTrips(x: LibraryItem)
    ensures ItemFits(x, WorldBlenderWidth) ==>
      ItemFromJson(WorldBlenderLayout, WorldBlenderWidth, ItemToJson(WorldBlenderLayout, x)) == Ok(x)
    ensures ItemFits(x, CelebiWidth) ==>
      ItemFromJson(CelebiLayout, CelebiWidth, ItemToJson(CelebiLayout, x)) == Ok(x)
  {
    LayoutsDistinct();
    if ItemFits(x, WorldBlenderWidth) {
      ItemRoundTrip(WorldBlenderLayout, WorldBlenderWidth, x);
    }
    if ItemFits(x, CelebiWidth) {
      ItemRoundTrip(CelebiLayout, CelebiWidth, x);
    }
  }

  // ---------------------------------------------------------------------
  // Data

  /** `get<std::vector<LibraryItem>>()` over the elements of an array:
      the first element that fails to read fails the whole vector. */
  function ItemsFrom(l: Layout, w: Width, es: seq<Json>): (r: Result<seq<LibraryItem>, JsonError>)
    ensures r.Ok? <==> forall k :: 0 <= k < |es| ==> ItemShaped(l, es[k])
    ensures r.Ok? ==> |r.value| == |es| && forall k :: 0 <= k < |es| ==> Ok(r.value[k]) == ItemFromJson(l, w, es[k])
  {
    if es == [] then Ok([])
    else
      var first := ItemFromJson(l, w, es[0]);
      if first.Err? then Err(first.error)
      else
        var rest := ItemsFrom(l, w, es[1..]);
        if rest.Err? then Err(rest.error)
        else
          assert forall k :: 1 <= k < |es| ==> es[k] == es[1..][k - 1];
          Ok([first.value] + rest.value)
  }

  /** `from_json(j, Data&)`. */
  function DataFromJson(l: Layout, w: Width, j: Json): (r: Result<Data, JsonError>)
    ensures r.Ok? <==> (j.Obj? && "items" in j.fields && "voxels" in j.fields &&
      j.fields["items"].Arr? && (forall k :: 0 <= k < |j.fields["items"].elems| ==> ItemShaped(l, j.fields["items"].elems[k])) &&
      AsStrings(j.fields["voxels"]).Ok?)
    ensures r.Ok? ==> |r.value.items| == |j.fields["items"].elems| && Ok(r.value.voxels) == AsStrings(j.fields["voxels"])
  {
    var items := At(j, "items");
    if items.Err? then Err(items.error)
    else if !items.value.Arr? then Err(TypeError)
    else
      var xs := ItemsFrom(l, w, items.value.elems);
      if xs.Err? then Err(xs.error)
      else
        var voxels := At(j, "voxels");
        if voxels.Err? then Err(voxels.error)
        else
          var vs := AsStrings(voxels.value);
          if vs.Err? then Err(vs.error)
          else Ok(Data(xs.value, vs.value))
  }

  /** `to_json(j, const Data&)`. */
  function DataToJson(l: Layout, d: Data): (r: Json)
    ensures r.Obj? && r.fields.Keys == {"items", "voxels"}
  {
    Obj(map["items" := Arr(seq(|d.items|, k requires 0 <= k < |d.items| => ItemToJson(l, d.items[k]))),
            "voxels" := StringsToJson(d.voxels)])
  }

  /** Items and voxel names come back in order. */
  lemma DataRoundTrip(l: Layout, w: Width, d: Data)
    requires KeysDistinct(l) && forall k :: 0 <= k < |d.items| ==> ItemFits(d.items[k], w)
    ensures DataFromJson(l, w, DataToJson(l, d)) == Ok(d)
  {
    var j := DataToJson(l, d);
    var es := j.fields["items"].elems;
    forall k | 0 <= k < |es|
      ensures ItemFromJson(l, w, es[k]) == Ok(d.items[k])
    {
      ItemRoundTrip(l, w, d.items[k]);
    }
    StringsRoundTrip(d.voxels);
    var r := DataFromJson(l, w, j);
    assert r.Ok?;
    assert r.value.items == d.items;
  }
}

=== FILE: maze.dfy ===
/** The hedge maze of 2d_map/src/maps/Map3.tsx: a `cols` by `rows` grid of
    base cells carved by a randomised depth-first backtracker, expanded to a
    `(2 cols + 1)` by `(2 rows + 1)` grid of wall and path tiles, and the
    four-neighbour bitmask that picks each wall tile's shape. The source
    fixes `cols = rows = 15`; the model takes them as parameters. The
    random neighbour choice is the parameter `pick`. */
module Maze {
  import opened Wrappers

  // ---------------------------------------------------------------------
  // Base cells

  /** `BaseCell`: the walls are Top, Right, Bottom, Left in this order. */
  datatype BaseCell = BaseCell(i: int, j: int, walls: seq<bool>, visited: bool)

  function NewCell(i: int, j: int): BaseCell {
    BaseCell(i, j, [true, true, true, true], false)
  }

  /** `j * cols`, the index of the first cell of row `j`, built up by
      addition so that the placement facts stay linear. */
  function RowStart(cols: nat, j: nat): nat {
    if j == 0 then 0 else RowStart(cols, j - 1) + cols
  }

  lemma {:induction false} RowStartIsProduct(cols: nat, j: nat)
    ensures RowStart(cols, j) == j * cols
  {
    if j > 0 {
      RowStartIsProduct(cols, j - 1);
    }
  }

  /** A later row starts at least one whole row further on. */
  lemma {:induction false} RowStartGap(cols: nat, j: nat, j2: nat)
    requires j < j2
    ensures RowStart(cols, j) + cols <= RowStart(cols, j2)
    decreases j2
  {
    if j + 1 < j2 {
      RowStartGap(cols, j, j2 - 1);
    }
  }

  /** Cell `k` of `logicGrid` sits at `(k % cols, k / cols)`: the grid is
      filled row by row. */
  predicate Placed(cells: seq<BaseCell>, cols: nat, rows: nat) {
    |cells| == RowStart(cols, rows) &&
    forall k :: 0 <= k < |cells| ==>
      0 <= cells[k].i < cols && 0 <= cells[k].j < rows &&
      cells[k].i + RowStart(cols, cells[k].j) == k && |cells[k].walls| == 4
  }

  lemma CellBound(cols: nat, rows: nat, i: int, j: int)
    requires 0 <= i < cols && 0 <= j < rows
    ensures 0 <= i + RowStart(cols, j) < RowStart(cols, rows)
  {
    RowStartGap(cols, j, rows);
  }

  /** Row-major positions are unique. */
  lemma PlaceUnique(cols: nat, i: int, j: nat, i2: int, j2: nat)
    requires 0 <= i < cols && 0 <= i2 < cols
    requires i + RowStart(cols, j) == i2 + RowStart(cols, j2)
    ensures i == i2 && j == j2
  {
    if j < j2 {
      RowStartGap(cols, j, j2);
    } else if j2 < j {
      RowStartGap(cols, j2, j);
    }
  }

  /** `getBaseCell(i, j)`: the cell's index `i + j * cols` (see
      `RowStartIsProduct`), or `undefined` off the grid. */
  function GetBaseCell(cols: nat, rows: nat, i: int, j: int): (r: Option<nat>)
    ensures r.Some? <==> 0 <= i < cols && 0 <= j < rows
    ensures r.Some? ==> r.value < RowStart(cols, rows)
  {
    if i < 0 || j < 0 || i > cols - 1 || j > rows - 1 then None
    else
      CellBound(cols, rows, i, j);
      Some(i + RowStart(cols, j))
  }

  /** The step towards wall `d`. */
  function DI(d: nat): int {
    if d == 1 then 1 else if d == 3 then -1 else 0
  }

  function DJ(d: nat): int {
    if d == 0 then -1 else if d == 2 then 1 else 0
  }

  function Opposite(d: nat): nat {
    (d + 2) % 4
  }

  /** The neighbour behind wall `d` of a cell. */
  function Toward(cols: nat, rows: nat, c: BaseCell, d: nat): Option<nat> {
    GetBaseCell(cols, rows, c.i + DI(d), c.j + DJ(d))
  }

  /** The neighbour behind wall `d` sits one step away, and wall
      `Opposite(d)` of that neighbour leads back. */
  lemma TowardPlace(cells: seq<BaseCell>, cols: nat, rows: nat, k: nat, d: nat)
    requires Placed(cells, cols, rows) && k < |cells| && d < 4
    requires Toward(cols, rows, cells[k], d).Some?
    ensures var n := Toward(cols, rows, cells[k], d).value;
      n < |cells| && cells[n].i == cells[k].i + DI(d) && cells[n].j == cells[k].j + DJ(d) &&
      n != k && Toward(cols, rows, cells[n], Opposite(d)) == Some(k)
  {
    var n := Toward(cols, rows, cells[k], d).value;
    PlaceUnique(cols, cells[n].i, cells[n].j, cells[k].i + DI(d), cells[k].j + DJ(d));
  }

  /** Walls `d` and `e` of a cell lead to different neighbours. */
  lemma TowardDistinct(cells: seq<BaseCell>, cols: nat, rows: nat, k: nat, d: nat, e: nat)
    requires Placed(cells, cols, rows) && k < |cells| && d < 4 && e < 4 && d != e
    requires Toward(cols, rows, cells[k], d).Some?
    ensures Toward(cols, rows, cells[k], d) != Toward(cols, rows, cells[k], e)
  {
    TowardPlace(cells, cols, rows, k, d);
    if Toward(cols, rows, cells[k], e).Some? {
      TowardPlace(cells, cols, rows, k, e);
    }
  }

  /** Wall `d` of cell `k` leads to an unvisited cell. */
  predicate Open(cells: seq<BaseCell>, cols: nat, rows: nat, k: nat, d: nat)
    requires |cells| == RowStart(cols, rows) && k < |cells|
  {
    var n := Toward(cols, rows, cells[k], d);
    n.Some? && !cells[n.value].visited
  }

  function Unvisited(cells: seq<BaseCell>, cols: nat, rows: nat, k: nat, d: nat): (r: seq<nat>)
    requires |cells| == RowStart(cols, rows) && k < |cells| && d < 4
    ensures r == [] <==> !Open(cells, cols, rows, k, d)
    ensures forall n :: n in r ==> Behind(cells, cols, rows, k, n)
  {
    if Open(cells, cols, rows, k, d) then [Toward(cols, rows, cells[k], d).value] else []
  }

  /** Cell `n` is an unvisited neighbour of cell `k`. */
  predicate Behind(cells: seq<BaseCell>, cols: nat, rows: nat, k: nat, n: nat)
    requires k < |cells|
  {
    n < |cells| && !cells[n].visited && exists d :: 0 <= d < 4 && Toward(cols, rows, cells[k], d) == Some(n)
  }

  /** `checkNeighbors`' candidate list: the unvisited neighbours in the
      order top, right, bottom, left. */
  function CheckNeighbors(cells: seq<BaseCell>, cols: nat, rows: nat, k: nat): (r: seq<nat>)
    requires |cells| == RowStart(cols, rows) && k < |cells|
    ensures forall n :: n in r ==> Behind(cells, cols, rows, k, n)
    ensures r == [] <==> forall d :: 0 <= d < 4 ==> !Open(cells, cols, rows, k, d)
  {
    var u0, u1 := Unvisited(cells, cols, rows, k, 0), Unvisited(cells, cols, rows, k, 1);
    var u2, u3 := Unvisited(cells, cols, rows, k, 2), Unvisited(cells, cols, rows, k, 3);
    assert forall n :: n in u0 + u1 + u2 + u3 ==> n in u0 || n in u1 || n in u2 || n in u3;
    u0 + u1 + u2 + u3
  }

  // ---------------------------------------------------------------------
  // removeWalls

  /** `removeWalls(a, b)`, returning both cells. */
  function RemoveWalls(a: BaseCell, b: BaseCell): (BaseCell, BaseCell)
    requires |a.walls| == 4 && |b.walls| == 4
  {
    var x := a.i - b.i;
    var (aw1, bw1) := if x == 1 then (a.walls[3 := false], b.walls[1 := false]) else (a.walls, b.walls);
    var (aw2, bw2) := if x == -1 then (aw1[1 := false], bw1[3 := false]) else (aw1, bw1);
    var y := a.j - b.j;
    var (aw3, bw3) := if y == 1 then (aw2[0 := false], bw2[2 := false]) else (aw2, bw2);
    var (aw4, bw4) := if y == -1 then (aw3[2 := false], bw3[0 := false]) else (aw3, bw3);
    (a.(walls := aw4), b.(walls := bw4))
  }

  /** For `b` one step behind wall `d` of `a`, `removeWalls` clears wall
      `d` of `a` and the opposite wall of `b`, and nothing else. */
  lemma RemoveWallsShared(a: BaseCell, b: BaseCell, d: nat)
    requires |a.walls| == 4 && |b.walls| == 4 && d < 4
    requires b.i == a.i + DI(d) && b.j == a.j + DJ(d)
    ensures RemoveWalls(a, b) == (a.(walls := a.walls[d := false]), b.(walls := b.walls[Opposite(d) := false]))
  {
  }

  // ---------------------------------------------------------------------
  // The recursive backtracker

  /** Cells on the grid's rim keep their outer walls. */
  predicate BorderWalls(cells: seq<BaseCell>, cols: nat, rows: nat)
    requires Placed(cells, cols, rows)
  {
    forall k :: 0 <= k < |cells| ==>
      (cells[k].j == 0 ==> cells[k].walls[0]) && (cells[k].i == cols - 1 ==> cells[k].walls[1]) &&
      (cells[k].j == rows - 1 ==> cells[k].walls[2]) && (cells[k].i == 0 ==> cells[k].walls[3])
  }

  function UnvisitedSet(cells: seq<BaseCell>): set<nat> {
    set k: nat | k < |cells| && !cells[k].visited
  }

  /** The loop state of `generateInvisibleMaze`. */
  datatype Walk = Walk(cells: seq<BaseCell>, current: nat, stack: seq<nat>, unvisitedCount: nat)

  /** The first cell, the current cell and every stacked cell are visited. */
  predicate Tracked(w: Walk) {
    0 < |w.cells| && w.cells[0].visited && w.current < |w.cells| && w.cells[w.current].visited &&
    forall s :: s in w.stack ==> s < |w.cells| && w.cells[s].visited
  }

  /** The depth-first search invariant: every visited cell with an
      unvisited neighbour is the current cell or on the stack. */
  predicate DepthFirst(w: Walk, cols: nat, rows: nat)
    requires Placed(w.cells, cols, rows)
  {
    forall k :: 0 <= k < |w.cells| && w.cells[k].visited && CheckNeighbors(w.cells, cols, rows, k) != [] ==>
      k == w.current || k in w.stack
  }

  /** What holds at the head of every iteration. */
  predicate Inv(w: Walk, cols: nat, rows: nat) {
    Placed(w.cells, cols, rows) && Tracked(w) && w.unvisitedCount == |UnvisitedSet(w.cells)| &&
    DepthFirst(w, cols, rows) && BorderWalls(w.cells, cols, rows)
  }

  /** The carving branch: `next` is marked visited, then `removeWalls`
      runs on the current cell and `next`. */
  function Carved(cells: seq<BaseCell>, current: nat, next: nat): seq<BaseCell>
    requires current < |cells| && next < |cells| && |cells[current].walls| == 4 && |cells[next].walls| == 4
  {
    var cells1 := cells[next := cells[next].(visited := true)];
    var (a, b) := RemoveWalls(cells1[current], cells1[next]);
    cells1[current := a][next := b]
  }

  /** `Math.floor(Math.random() * n)` for a random draw `draw`. */
  function PickIndex(draw: nat, n: nat): (r: nat)
    requires n > 0
    ensures r < n
  {
    draw % n
  }

  /** One iteration of the `while (unvisitedCount > 0)` loop; `draw` is
      `Math.floor(Math.random() * neighbors.length)` before it is reduced
      into range. With no candidate and an empty stack the source would
      spin forever; `BacktrackerNeverStuck` shows that cannot happen. */
  function Step(w: Walk, cols: nat, rows: nat, draw: nat): Walk
    requires Placed(w.cells, cols, rows) && w.current < |w.cells|
  {
    var ns := CheckNeighbors(w.cells, cols, rows, w.current);
    if ns != [] then
      var next := ns[PickIndex(draw, |ns|)];
      assert next in ns;
      assert next < |w.cells|;
      assert |w.cells[w.current].walls| == 4;
      assert |w.cells[next].walls| == 4;
      Walk(Carved(w.cells, w.current, next), next, w.stack + [w.current],
           if w.unvisitedCount > 0 then w.unvisitedCount - 1 else 0)
    else if |w.stack| > 0 then
      Walk(w.cells, w.stack[|w.stack| - 1], w.stack[..|w.stack| - 1], w.unvisitedCount)
    else w
  }

  /** The wall of a cell that leads towards the first cell: its top, or
      its left on the first row. */
  function Back(c: BaseCell): nat {
    if c.j > 0 then 0 else 3
  }

  /** Every cell but the first has a neighbour with a smaller index behind
      its `Back` wall. */
  lemma BackEarlier(cells: seq<BaseCell>, cols: nat, rows: nat, k: nat)
    requires Placed(cells, cols, rows) && 0 < k < |cells|
    ensures Toward(cols, rows, cells[k], Back(cells[k])).Some?
    ensures Toward(cols, rows, cells[k], Back(cells[k])).value < k
  {
    var c := cells[k];
    assert c.i + RowStart(cols, c.j) == k;
    if c.j > 0 {
      assert RowStart(cols, c.j) == RowStart(cols, c.j - 1) + cols;
    }
  }

  /** When no visited cell has an unvisited neighbour, the whole grid has
      been visited: every cell but the first is reachable from its top or
      its left neighbour. */
  lemma {:induction false} Reached(cells: seq<BaseCell>, cols: nat, rows: nat, k: nat)
    requires Placed(cells, cols, rows) && 0 < |cells| && cells[0].visited
    requires forall m :: 0 <= m < |cells| && cells[m].visited ==> CheckNeighbors(cells, cols, rows, m) == []
    requires k < |cells|
    ensures cells[k].visited
    decreases k
  {
    if k > 0 {
      var d := Back(cells[k]);
      BackEarlier(cells, cols, rows, k);
      TowardPlace(cells, cols, rows, k, d);
      var t := Toward(cols, rows, cells[k], d).value;
      Reached(cells, cols, rows, t);
      assert !Open(cells, cols, rows, t, Opposite(d));
    }
  }

  /** With the depth-first invariant, an iteration that finds no candidate
      and an empty stack only happens once every cell is visited. */
  lemma BacktrackerNeverStuck(w: Walk, cols: nat, rows: nat)
    requires Inv(w, cols, rows)
    requires CheckNeighbors(w.cells, cols, rows, w.current) == [] && w.stack == []
    ensures w.unvisitedCount == 0
  {
    forall k | 0 <= k < |w.cells|
      ensures w.cells[k].visited
    {
      Reached(w.cells, cols, rows, k);
    }
    assert UnvisitedSet(w.cells) == {};
  }

  /** Carving from a cell to the unvisited neighbour behind its wall `d`
      visits that neighbour and clears the two walls between them. */
  lemma CarvedCells(cells: seq<BaseCell>, cols: nat, rows: nat, current: nat, next: nat, d: nat)
    requires Placed(cells, cols, rows) && current < |cells| && d < 4
    requires Toward(cols, rows, cells[current], d) == Some(next)
    ensures next < |cells| && next != current
    ensures var c := Carved(cells, current, next);
      |c| == |cells| &&
      forall m :: 0 <= m < |cells| ==>
        c[m].i == cells[m].i && c[m].j == cells[m].j &&
        c[m].visited == (cells[m].visited || m == next) &&
        c[m].walls == if m == current then cells[m].walls[d := false]
                      else if m == next then cells[m].walls[Opposite(d) := false]
                      else cells[m].walls
  {
    TowardPlace(cells, cols, rows, current, d);
    var cells1 := cells[next := cells[next].(visited := true)];
    RemoveWallsShared(cells1[current], cells1[next], d);
  }

  /** Carving keeps the cells placed and the rim walls intact. */
  lemma CarvedBorder(cells: seq<BaseCell>, cols: nat, rows: nat, current: nat, next: nat, d: nat)
    requires Placed(cells, cols, rows) && BorderWalls(cells, cols, rows) && current < |cells| && d < 4
    requires Toward(cols, rows, cells[current], d) == Some(next)
    ensures next < |cells|
    ensures Placed(Carved(cells, current, next), cols, rows)
    ensures BorderWalls(Carved(cells, current, next), cols, rows)
  {
    TowardPlace(cells, cols, rows, current, d);
    CarvedCells(cells, cols, rows, current, next, d);
  }

  /** Carving visits exactly one more cell, and the cells the walk
      tracks stay visited. */
  lemma CarvedVisits(w: Walk, cols: nat, rows: nat, next: nat, d: nat, count: nat)
    requires Placed(w.cells, cols, rows) && Tracked(w) && d < 4
    requires Toward(cols, rows, w.cells[w.current], d) == Some(next) && !w.cells[next].visited
    ensures next < |w.cells|
    ensures UnvisitedSet(Carved(w.cells, w.current, next)) == UnvisitedSet(w.cells) - {next}
    ensures next in UnvisitedSet(w.cells)
    ensures |UnvisitedSet(Carved(w.cells, w.current, next))| == |UnvisitedSet(w.cells)| - 1
    ensures Tracked(Walk(Carved(w.cells, w.current, next), next, w.stack + [w.current], count))
  {
    CarvedCells(w.cells, cols, rows, w.current, next, d);
  }

  /** Visiting more cells never opens a wall that was not open: a cell's
      candidates can only shrink. */
  lemma OpenShrinks(cells: seq<BaseCell>, cells2: seq<BaseCell>, cols: nat, rows: nat, k: nat, d: nat)
    requires |cells| == RowStart(cols, rows) && |cells2| == |cells| && k < |cells|
    requires forall m :: 0 <= m < |cells| ==> cells2[m].i == cells[m].i && cells2[m].j == cells[m].j
    requires forall m :: 0 <= m < |cells| && cells[m].visited ==> cells2[m].visited
    requires Open(cells2, cols, rows, k, d)
    ensures Open(cells, cols, rows, k, d)
  {
  }

  /** A carving iteration keeps the invariant and visits one more cell. */
  lemma CarveKeeps(w: Walk, cols: nat, rows: nat, draw: nat)
    requires Inv(w, cols, rows) && CheckNeighbors(w.cells, cols, rows, w.current) != []
    ensures var w' := Step(w, cols, rows, draw);
      Inv(w', cols, rows) && w'.unvisitedCount < w.unvisitedCount
  {
    var cells := w.cells;
    var ns := CheckNeighbors(cells, cols, rows, w.current);
    var next := ns[PickIndex(draw, |ns|)];
    assert next in ns;
    var d :| 0 <= d < 4 && Toward(cols, rows, cells[w.current], d) == Some(next);
    CarvedCells(cells, cols, rows, w.current, next, d);
    CarvedBorder(cells, cols, rows, w.current, next, d);
    var w' := Step(w, cols, rows, draw);
    var cells2 := w'.cells;
    assert w' == Walk(Carved(cells, w.current, next), next, w.stack + [w.current], w'.unvisitedCount);
    CarvedVisits(w, cols, rows, next, d, w'.unvisitedCount);
    assert w.unvisitedCount > 0;
    assert w'.unvisitedCount == |UnvisitedSet(cells2)|;
    forall k | 0 <= k < |cells2| && cells2[k].visited && CheckNeighbors(cells2, cols, rows, k) != []
      ensures k == w'.current || k in w'.stack
    {
      if k != next {
        var e :| 0 <= e < 4 && Open(cells2, cols, rows, k, e);
        OpenShrinks(cells, cells2, cols, rows, k, e);
      }
    }
    assert DepthFirst(w', cols, rows);
  }

  /** A backtracking iteration keeps the invariant and the count, and pops
      the stack. */
  lemma PopKeeps(w: Walk, cols: nat, rows: nat, draw: nat)
    requires Inv(w, cols, rows) && CheckNeighbors(w.cells, cols, rows, w.current) == [] && w.stack != []
    ensures var w' := Step(w, cols, rows, draw);
      Inv(w', cols, rows) && w'.unvisitedCount == w.unvisitedCount && |w'.stack| < |w.stack|
  {
    var w' := Step(w, cols, rows, draw);
    assert w.stack == w'.stack + [w'.current];
    assert w'.current in w.stack;
    forall k | 0 <= k < |w.cells| && w.cells[k].visited && CheckNeighbors(w.cells, cols, rows, k) != []
      ensures k == w'.current || k in w'.stack
    {
      assert k in w.stack;
    }
  }

  /** Every iteration while cells remain unvisited keeps the invariant and
      makes progress: it visits a cell, or it leaves the count alone and
      pops the stack. */
  lemma StepProgress(w: Walk, cols: nat, rows: nat, draw: nat)
    requires Inv(w, cols, rows) && w.unvisitedCount > 0
    ensures var w' := Step(w, cols, rows, draw);
      Inv(w', cols, rows) &&
      (w'.unvisitedCount < w.unvisitedCount || (w'.unvisitedCount == w.unvisitedCount && |w'.stack| < |w.stack|))
  {
    if CheckNeighbors(w.cells, cols, rows, w.current) != [] {
      CarveKeeps(w, cols, rows, draw);
    } else if w.stack != [] {
      PopKeeps(w, cols, rows, draw);
    } else {
      BacktrackerNeverStuck(w, cols, rows);
    }
  }

  /** The nested loop that fills `logicGrid`. */
  method InitialGrid(cols: nat, rows: nat) returns (cells: seq<BaseCell>)
    ensures Placed(cells, cols, rows)
    ensures forall k :: 0 <= k < |cells| ==> cells[k] == NewCell(cells[k].i, cells[k].j)
  {
    cells := [];
    var j := 0;
    while j < rows
      invariant j <= rows && |cells| == RowStart(cols, j)
      invariant forall k :: 0 <= k < |cells| ==>
        0 <= cells[k].i < cols && 0 <= cells[k].j < j && cells[k].i + RowStart(cols, cells[k].j) == k &&
        cells[k] == NewCell(cells[k].i, cells[k].j)
    {
      var i := 0;
      while i < cols
        invariant i <= cols && |cells| == RowStart(cols, j) + i
        invariant forall k :: 0 <= k < |cells| ==>
          0 <= cells[k].i < cols && 0 <= cells[k].j <= j && cells[k].i + RowStart(cols, cells[k].j) == k &&
          cells[k] == NewCell(cells[k].i, cells[k].j)
      {
        cells := cells + [NewCell(i, j)];
        i := i + 1;
      }
      j := j + 1;
    }
  }

  lemma {:induction false} CountAllButFirst(cells: seq<BaseCell>)
    requires 0 < |cells| && cells[0].visited
    requires forall k :: 0 < k < |cells| ==> !cells[k].visited
    ensures |UnvisitedSet(cells)| == |cells| - 1
  {
    if |cells| > 1 {
      var front := cells[..|cells| - 1];
      CountAllButFirst(front);
      assert UnvisitedSet(cells) == UnvisitedSet(front) + {|cells| - 1};
    } else {
      assert UnvisitedSet(cells) == {};
    }
  }

  /** `generateInvisibleMaze`: the loop always ends, with every cell
      visited and the rim walls intact. */
  method GenerateInvisibleMaze(cols: nat, rows: nat, pick: nat -> nat) returns (cells: seq<BaseCell>)
    requires cols > 0 && rows > 0
    ensures Placed(cells, cols, rows)
    ensures forall k :: 0 <= k < |cells| ==> cells[k].visited
    ensures BorderWalls(cells, cols, rows)
  {
    var grid := InitialGrid(cols, rows);
    CellBound(cols, rows, 0, 0);
    grid := grid[0 := grid[0].(visited := true)];
    CountAllButFirst(grid);
    var w := Walk(grid, 0, [], |grid| - 1);
    var count := 0;
    while w.unvisitedCount > 0
      invariant Inv(w, cols, rows)
      decreases w.unvisitedCount, |w.stack|
    {
      StepProgress(w, cols, rows, pick(count));
      w := Step(w, cols, rows, pick(count));
      count := count + 1;
    }
    cells := w.cells;
    forall k | 0 <= k < |cells|
      ensures cells[k].visited
    {
      assert k !in UnvisitedSet(cells);
    }
  }

  // ---------------------------------------------------------------------
  // expandGrid

  /** `tileGrid[x][y]`: 1 is wall, 0 is path. */
  type Tiles = seq<seq<int>>

  predicate Shaped(tg: Tiles, cols: nat, rows: nat) {
    |tg| == 2 * cols + 1 && forall x :: 0 <= x < |tg| ==> |tg[x]| == 2 * rows + 1
  }

  /** The tile grid filled with walls. */
  function AllWalls(cols: nat, rows: nat): (tg: Tiles)
    ensures Shaped(tg, cols, rows)
  {
    seq(2 * cols + 1, _ => seq(2 * rows + 1, _ => 1))
  }

  function SetTile(tg: Tiles, x: nat, y: nat, v: int): (r: Tiles)
    requires x < |tg| && y < |tg[x]|
    ensures |r| == |tg| && forall a :: 0 <= a < |tg| ==> |r[a]| == |tg[a]|
    ensures forall a, b :: 0 <= a < |tg| && 0 <= b < |tg[a]| ==> r[a][b] == if a == x && b == y then v else tg[a][b]
  {
    tg[x := tg[x][y := v]]
  }

  /** Tile `(x, y)` is the centre of cell `c` or a corridor through one of
      its removed walls. */
  predicate Opens(c: BaseCell, x: int, y: int)
    requires |c.walls| == 4
  {
    var tx := c.i * 2 + 1;
    var ty := c.j * 2 + 1;
    (x == tx && y == ty) ||
    (!c.walls[0] && x == tx && y == ty - 1) ||
    (!c.walls[1] && x == tx + 1 && y == ty) ||
    (!c.walls[2] && x == tx && y == ty + 1) ||
    (!c.walls[3] && x == tx - 1 && y == ty)
  }

  predicate InGrid(c: BaseCell, cols: nat, rows: nat) {
    0 <= c.i < cols && 0 <= c.j < rows && |c.walls| == 4
  }

  /** `tileGrid[x][y] = 0` when `cond` holds. */
  function OpenIf(tg: Tiles, cols: nat, rows: nat, cond: bool, x: nat, y: nat): (r: Tiles)
    requires Shaped(tg, cols, rows) && x < 2 * cols + 1 && y < 2 * rows + 1
    ensures Shaped(r, cols, rows)
    ensures forall a, b :: 0 <= a < |tg| && 0 <= b < |tg[a]| ==> r[a][b] == if cond && a == x && b == y then 0 else tg[a][b]
  {
    if cond then SetTile(tg, x, y, 0) else tg
  }

  /** The body of `for (let cell of logicGrid)` in `expandGrid`. */
  function Carve(tg: Tiles, cols: nat, rows: nat, c: BaseCell): (r: Tiles)
    requires Shaped(tg, cols, rows) && InGrid(c, cols, rows)
    ensures Shaped(r, cols, rows)
    ensures forall x, y :: 0 <= x < |tg| && 0 <= y < |tg[x]| ==> r[x][y] == if Opens(c, x, y) then 0 else tg[x][y]
  {
    var tx := c.i * 2 + 1;
    var ty := c.j * 2 + 1;
    var t0 := OpenIf(tg, cols, rows, true, tx, ty);
    var t1 := OpenIf(t0, cols, rows, !c.walls[0], tx, ty - 1);
    var t2 := OpenIf(t1, cols, rows, !c.walls[1], tx + 1, ty);
    var t3 := OpenIf(t2, cols, rows, !c.walls[2], tx, ty + 1);
    OpenIf(t3, cols, rows, !c.walls[3], tx - 1, ty)
  }

  function CarveAll(tg: Tiles, cols: nat, rows: nat, cells: seq<BaseCell>): (r: Tiles)
    requires Shaped(tg, cols, rows) && forall k :: 0 <= k < |cells| ==> InGrid(cells[k], cols, rows)
    ensures Shaped(r, cols, rows)
    decreases |cells|
  {
    if cells == [] then tg
    else CarveAll(Carve(tg, cols, rows, cells[0]), cols, rows, cells[1..])
  }

  /** Some cell of `cells` opens tile `(x, y)`. */
  predicate OpenedBy(cells: seq<BaseCell>, x: nat, y: nat)
    requires forall k :: 0 <= k < |cells| ==> |cells[k].walls| == 4
  {
    exists k :: 0 <= k < |cells| && Opens(cells[k], x, y)
  }

  /** A tile ends up a path exactly when some cell opens it. */
  lemma {:induction false} CarveAllAt(tg: Tiles, cols: nat, rows: nat, cells: seq<BaseCell>, x: nat, y: nat)
    requires Shaped(tg, cols, rows) && forall k :: 0 <= k < |cells| ==> InGrid(cells[k], cols, rows)
    requires x < 2 * cols + 1 && y < 2 * rows + 1
    ensures CarveAll(tg, cols, rows, cells)[x][y] == if OpenedBy(cells, x, y) then 0 else tg[x][y]
    decreases |cells|
  {
    if cells != [] {
      var rest := cells[1..];
      CarveAllAt(Carve(tg, cols, rows, cells[0]), cols, rows, rest, x, y);
      if OpenedBy(cells, x, y) {
        var k :| 0 <= k < |cells| && Opens(cells[k], x, y);
        if k > 0 {
          assert Opens(rest[k - 1], x, y);
        }
      } else {
        forall k | 0 <= k < |rest|
          ensures !Opens(rest[k], x, y)
        {
          assert rest[k] == cells[k + 1];
        }
      }
    }
  }

  /** `expandGrid`. */
  function ExpandGrid(cells: seq<BaseCell>, cols: nat, rows: nat): (tg: Tiles)
    requires Placed(cells, cols, rows)
    ensures Shaped(tg, cols, rows)
  {
    CarveAll(AllWalls(cols, rows), cols, rows, cells)
  }

  /** A tile of the expanded grid is a path exactly when some cell opens
      it, and a wall otherwise. */
  lemma ExpandAt(cells: seq<BaseCell>, cols: nat, rows: nat, x: nat, y: nat)
    requires Placed(cells, cols, rows) && x < 2 * cols + 1 && y < 2 * rows + 1
    ensures ExpandGrid(cells, cols, rows)[x][y] == if OpenedBy(cells, x, y) then 0 else 1
  {
    CarveAllAt(AllWalls(cols, rows), cols, rows, cells, x, y);
  }

  /** Every cell centre `(2i+1, 2j+1)` becomes a path. */
  lemma ExpandCentres(cells: seq<BaseCell>, cols: nat, rows: nat, i: nat, j: nat)
    requires Placed(cells, cols, rows) && i < cols && j < rows
    ensures ExpandGrid(cells, cols, rows)[2 * i + 1][2 * j + 1] == 0
  {
    assert OpenedBy(cells, 2 * i + 1, 2 * j + 1) by {
      CellBound(cols, rows, i, j);
      var k := i + RowStart(cols, j);
      PlaceUnique(cols, cells[k].i, cells[k].j, i, j);
      assert Opens(cells[k], 2 * i + 1, 2 * j + 1);
    }
    ExpandAt(cells, cols, rows, 2 * i + 1, 2 * j + 1);
  }

  /** With the rim walls intact the border of the tile grid stays wall,
      and so does every tile with two even coordinates, the corners
      between cells. */
  lemma ExpandWalls(cells: seq<BaseCell>, cols: nat, rows: nat, x: nat, y: nat)
    requires Placed(cells, cols, rows) && BorderWalls(cells, cols, rows)
    requires x < 2 * cols + 1 && y < 2 * rows + 1
    requires x == 0 || y == 0 || x == 2 * cols || y == 2 * rows || (x % 2 == 0 && y % 2 == 0)
    ensures ExpandGrid(cells, cols, rows)[x][y] == 1
  {
    assert !OpenedBy(cells, x, y) by {
      forall k | 0 <= k < |cells|
        ensures !Opens(cells[k], x, y)
      {
        CellKeepsWall(cells[k], cols, rows, x, y);
      }
    }
    ExpandAt(cells, cols, rows, x, y);
  }

  /** A cell with its rim walls intact opens no border tile and no tile
      with two even coordinates. */
  lemma CellKeepsWall(c: BaseCell, cols: nat, rows: nat, x: nat, y: nat)
    requires InGrid(c, cols, rows)
    requires (c.j == 0 ==> c.walls[0]) && (c.i == cols - 1 ==> c.walls[1])
    requires (c.j == rows - 1 ==> c.walls[2]) && (c.i == 0 ==> c.walls[3])
    requires x == 0 || y == 0 || x == 2 * cols || y == 2 * rows || (x % 2 == 0 && y % 2 == 0)
    ensures !Opens(c, x, y)
  {
  }

  // ---------------------------------------------------------------------
  // The wall bitmask

  predicate IsWall(tg: Tiles, x: int, y: int) {
    0 <= x < |tg| && 0 <= y < |tg[x]| && tg[x][y] == 1
  }

  /** The bitmask of `drawCartoonMaze`: 1, 2, 4 and 8 for a wall to the
      north, east, south and west. */
  function Mask(tg: Tiles, cols: nat, rows: nat, x: nat, y: nat): int
    requires Shaped(tg, cols, rows) && x < 2 * cols + 1 && y < 2 * rows + 1
  {
    var n := if y > 0 && tg[x][y - 1] == 1 then 1 else 0;
    var e := if x < 2 * cols + 1 - 1 && tg[x + 1][y] == 1 then 2 else 0;
    var s := if y < 2 * rows + 1 - 1 && tg[x][y + 1] == 1 then 4 else 0;
    var w := if x > 0 && tg[x - 1][y] == 1 then 8 else 0;
    n + e + s + w
  }

  /** The mask lies in `0..15` and `mask & 1`, `& 2`, `& 4`, `& 8` recover
      the four neighbours. */
  lemma MaskBits(tg: Tiles, cols: nat, rows: nat, x: nat, y: nat)
    requires Shaped(tg, cols, rows) && x < 2 * cols + 1 && y < 2 * rows + 1
    ensures var m := Mask(tg, cols, rows, x, y);
      0 <= m < 16 &&
      ((m as bv8 & 1 != 0) <==> IsWall(tg, x, y - 1)) &&
      ((m as bv8 & 2 != 0) <==> IsWall(tg, x + 1, y)) &&
      ((m as bv8 & 4 != 0) <==> IsWall(tg, x, y + 1)) &&
      ((m as bv8 & 8 != 0) <==> IsWall(tg, x - 1, y))
  {
  }
}

=== FILE: quadtree.dfy ===
/** The point quadtree of quadtree/quadtree.h and quadtree/quadtree.hpp.
    Coordinates are doubles there and reals here. A leaf holds points; once
    it holds `maxPoints` of them the next insertion splits it into four
    quadrants and pushes its points down. The children are always entered at
    depth 0 (quadtree.hpp line 83), so `maxDepth` never stops a split below
    the root and more than `maxPoints` coincident points make the insertion
    recurse without end; the model therefore takes a fuel argument and
    reports `None` when the recursion has not finished within it. */
module QuadTree {
  import opened Wrappers

  datatype Box = Box(x: real, y: real, width: real, height: real) {
    /** `BoundingBox::contains`: inclusive on all four edges. */
    predicate Contains(px: real, py: real) {
      px >= x && px <= x + width && py >= y && py <= y + height
    }

    /** `BoundingBox::intersects`: the boxes overlap or touch. */
    predicate Intersects(o: Box) {
      !(x + width < o.x || o.x + o.width < x || y + height < o.y || o.y + o.height < y)
    }
  }

  /** Every corner belongs to the box: the edges are included. */
  lemma ContainsCorners(b: Box)
    requires b.width >= 0.0 && b.height >= 0.0
    ensures b.Contains(b.x, b.y) && b.Contains(b.x + b.width, b.y)
    ensures b.Contains(b.x, b.y + b.height) && b.Contains(b.x + b.width, b.y + b.height)
  {
  }

  /** `intersects` does not depend on the order of the boxes. */
  lemma IntersectsSymmetric(a: Box, b: Box)
    ensures a.Intersects(b) <==> b.Intersects(a)
  {
  }

  /** A point inside both boxes witnesses that they intersect. */
  lemma CommonPointIntersects(a: Box, b: Box, px: real, py: real)
    requires a.Contains(px, py) && b.Contains(px, py)
    ensures a.Intersects(b)
  {
  }

  datatype Point<T> = Point(x: real, y: real, data: T)

  /** A node: a leaf with its points, or a split node with its four
      quadrant children (bottom-left, bottom-right, top-left, top-right in
      the source's numbering 0..3). A split node never holds points: they
      are cleared when it splits, and later points go to its children. */
  datatype Node<T> =
    | Leaf(bounds: Box, points: seq<Point<T>>)
    | Inner(bounds: Box, c0: Node<T>, c1: Node<T>, c2: Node<T>, c3: Node<T>)

  /** Child `i` of a split node. */
  function Child<T>(n: Node<T>, i: nat): Node<T>
    requires n.Inner? && i < 4
  {
    if i == 0 then n.c0 else if i == 1 then n.c1 else if i == 2 then n.c2 else n.c3
  }

  /** The split node with child `i` replaced by `c`. */
  function WithChild<T>(n: Node<T>, i: nat, c: Node<T>): (r: Node<T>)
    requires n.Inner? && i < 4
    ensures r.Inner? && r.bounds == n.bounds
    ensures Child(r, i) == c
    ensures forall j :: 0 <= j < 4 && j != i ==> Child(r, j) == Child(n, j)
  {
    if i == 0 then Inner(n.bounds, c, n.c1, n.c2, n.c3)
    else if i == 1 then Inner(n.bounds, n.c0, c, n.c2, n.c3)
    else if i == 2 then Inner(n.bounds, n.c0, n.c1, c, n.c3)
    else Inner(n.bounds, n.c0, n.c1, n.c2, c)
  }

  datatype Tree<T> = Tree(root: Node<T>, maxPoints: nat, maxDepth: nat)

  /** The constructor, and a node as `QuadTreeNode` creates it: a leaf with
      no points. */
  function NewTree<T>(bounds: Box, maxPoints: nat, maxDepth: nat): (t: Tree<T>)
    ensures t.root.Leaf? && t.root.points == [] && t.root.bounds == bounds
  {
    Tree(Leaf(bounds, []), maxPoints, maxDepth)
  }

  // ---------------------------------------------------------------------
  // Contents

  /** All stored points, as a multiset. */
  function Points<T(==)>(n: Node<T>): multiset<Point<T>> {
    match n
    case Leaf(_, pts) => multiset(pts)
    case Inner(_, c0, c1, c2, c3) => Points(c0) + Points(c1) + Points(c2) + Points(c3)
  }

  /** `countPointsRecursive`. */
  function Count<T>(n: Node<T>): nat {
    match n
    case Leaf(_, pts) => |pts|
    case Inner(_, c0, c1, c2, c3) => Count(c0) + Count(c1) + Count(c2) + Count(c3)
  }

  lemma {:induction false} CountIsSize<T>(n: Node<T>)
    ensures Count(n) == |Points(n)|
  {
    match n
    case Leaf(_, _) =>
    case Inner(_, c0, c1, c2, c3) =>
      CountIsSize(c0); CountIsSize(c1); CountIsSize(c2); CountIsSize(c3);
  }

  /** `size()`: the number of stored points. */
  function Size<T(==)>(t: Tree<T>): (n: nat)
    ensures n == |Points(t.root)|
  {
    CountIsSize(t.root);
    Count(t.root)
  }

  /** `empty()`. */
  predicate IsEmpty<T(==)>(t: Tree<T>) {
    Size(t) == 0
  }

  /** `clear()`: a fresh leaf with the same bounds and parameters. */
  function Clear<T(==)>(t: Tree<T>): (r: Tree<T>)
    ensures r.root.bounds == t.root.bounds
    ensures r.maxPoints == t.maxPoints && r.maxDepth == t.maxDepth
    ensures Size(r) == 0 && IsEmpty(r)
    ensures Points(r.root) == multiset{}
  {
    Tree(Leaf(t.root.bounds, []), t.maxPoints, t.maxDepth)
  }

  /** `empty()` holds exactly when no point is stored. */
  lemma EmptyIffNoPoints<T>(t: Tree<T>)
    ensures IsEmpty(t) <==> Points(t.root) == multiset{}
  {
  }

  // ---------------------------------------------------------------------
  // Shape invariant

  /** The four quadrants `subdivide` creates. */
  function Quadrant(b: Box, i: nat): (q: Box)
    requires i < 4
    ensures q.width == b.width / 2.0 && q.height == b.height / 2.0
  {
    var hw := b.width / 2.0;
    var hh := b.height / 2.0;
    if i == 0 then Box(b.x, b.y, hw, hh)
    else if i == 1 then Box(b.x + hw, b.y, hw, hh)
    else if i == 2 then Box(b.x, b.y + hh, hw, hh)
    else Box(b.x + hw, b.y + hh, hw, hh)
  }

  /** The child `insertIntoChildren` picks by comparing with the midpoint. */
  function ChildIndex(b: Box, px: real, py: real): (i: nat)
    ensures i < 4
    ensures (i == 1 || i == 3) <==> px >= b.x + b.width / 2.0
    ensures (i == 2 || i == 3) <==> py >= b.y + b.height / 2.0
  {
    var midX := b.x + b.width / 2.0;
    var midY := b.y + b.height / 2.0;
    (if px >= midX then 1 else 0) + (if py >= midY then 2 else 0)
  }

  /** A point of a box lies in the quadrant the midpoint test picks. */
  lemma ChildIndexContains(b: Box, px: real, py: real)
    requires b.Contains(px, py)
    ensures Quadrant(b, ChildIndex(b, px, py)).Contains(px, py)
  {
  }

  /** Every point of the list lies in the box. */
  predicate InBox<T>(b: Box, pts: seq<Point<T>>) {
    forall k :: 0 <= k < |pts| ==> b.Contains(pts[k].x, pts[k].y)
  }

  /** Every point lies in the bounds of the leaf holding it, and every split
      node's children cover its four quadrants. */
  ghost predicate WellFormed<T>(n: Node<T>) {
    match n
    case Leaf(b, pts) => InBox(b, pts)
    case Inner(b, c0, c1, c2, c3) =>
      && c0.bounds == Quadrant(b, 0) && c1.bounds == Quadrant(b, 1)
      && c2.bounds == Quadrant(b, 2) && c3.bounds == Quadrant(b, 3)
      && WellFormed(c0) && WellFormed(c1) && WellFormed(c2) && WellFormed(c3)
  }

  /** Every point stored anywhere below a node lies in that node's bounds. */
  lemma {:induction false} PointsInBounds<T>(n: Node<T>, p: Point<T>)
    requires WellFormed(n)
    requires p in Points(n)
    ensures n.bounds.Contains(p.x, p.y)
  {
    match n
    case Leaf(b, pts) =>
      var k :| 0 <= k < |pts| && pts[k] == p;
    case Inner(b, c0, c1, c2, c3) =>
      var i: nat := if p in Points(c0) then 0 else if p in Points(c1) then 1 else if p in Points(c2) then 2 else 3;
      assert p in Points(Child(n, i));
      PointsInBounds(Child(n, i), p);
      QuadrantInside(b, i, p.x, p.y);
  }

  /** A quadrant lies inside its box. */
  lemma QuadrantInside(b: Box, i: nat, px: real, py: real)
    requires i < 4 && Quadrant(b, i).Contains(px, py)
    ensures b.Contains(px, py)
  {
  }

  // ---------------------------------------------------------------------
  // Insertion

  /** `insertRecursive(node, point, depth)`. Each descent into a child
      costs one unit of fuel. */
  function InsertRec<T(==)>(n: Node<T>, p: Point<T>, depth: nat, maxPoints: nat, maxDepth: nat, fuel: nat): (r: Option<Node<T>>)
    ensures r.Some? ==> r.value.bounds == n.bounds
    ensures r.Some? ==> Points(r.value) == Points(n) + multiset{p}
    ensures r.Some? && WellFormed(n) && n.bounds.Contains(p.x, p.y) ==> WellFormed(r.value)
    decreases fuel, 3
  {
    match n
    case Leaf(b, pts) =>
      if |pts| < maxPoints || depth >= maxDepth then
        Some(Leaf(b, pts + [p]))
      else if fuel == 0 then None
      else
        (match Subdivide(n, maxPoints, maxDepth, fuel - 1)
         case None => None
         case Some(split) => InsertIntoChildren(split, p, maxPoints, maxDepth, fuel - 1))
    case Inner(_, _, _, _, _) =>
      InsertIntoChildren(n, p, maxPoints, maxDepth, fuel)
  }

  /** `insertIntoChildren(node, point)`: the child is always entered at
      depth 0. */
  function InsertIntoChildren<T(==)>(n: Node<T>, p: Point<T>, maxPoints: nat, maxDepth: nat, fuel: nat): (r: Option<Node<T>>)
    requires n.Inner?
    ensures r.Some? ==> r.value.Inner? && r.value.bounds == n.bounds
    ensures r.Some? ==> forall i :: 0 <= i < 4 ==> Child(r.value, i).bounds == Child(n, i).bounds
    ensures r.Some? ==> Points(r.value) == Points(n) + multiset{p}
    ensures r.Some? && WellFormed(n) && n.bounds.Contains(p.x, p.y) ==> WellFormed(r.value)
    decreases fuel, 0
  {
    var i := ChildIndex(n.bounds, p.x, p.y);
    if fuel == 0 then None
    else
      match InsertRec(Child(n, i), p, 0, maxPoints, maxDepth, fuel - 1)
      case None => None
      case Some(c) =>
        var r := WithChild(n, i, c);
        assert Points(r) == Points(n) + multiset{p} by {
          InsertedChildPoints(n, i, c, p);
        }
        assert WellFormed(n) && n.bounds.Contains(p.x, p.y) ==> WellFormed(r) by {
          if WellFormed(n) && n.bounds.Contains(p.x, p.y) {
            ChildIndexContains(n.bounds, p.x, p.y);
            WellFormedWithChild(n, i, c);
          }
        }
        Some(r)
  }

  lemma InsertedChildPoints<T>(n: Node<T>, i: nat, c: Node<T>, p: Point<T>)
    requires n.Inner? && i < 4
    requires Points(c) == Points(Child(n, i)) + multiset{p}
    ensures Points(WithChild(n, i, c)) == Points(n) + multiset{p}
  {
    var m := WithChild(n, i, c);
    if i == 0 {
      assert Points(m) == Points(c) + Points(n.c1) + Points(n.c2) + Points(n.c3);
    } else if i == 1 {
      assert Points(m) == Points(n.c0) + Points(c) + Points(n.c2) + Points(n.c3);
    } else if i == 2 {
      assert Points(m) == Points(n.c0) + Points(n.c1) + Points(c) + Points(n.c3);
    } else {
      assert Points(m) == Points(n.c0) + Points(n.c1) + Points(n.c2) + Points(c);
    }
  }

  lemma WellFormedWithChild<T>(n: Node<T>, i: nat, c: Node<T>)
    requires n.Inner? && i < 4 && WellFormed(n)
    requires WellFormed(c) && c.bounds == Child(n, i).bounds
    ensures WellFormed(WithChild(n, i, c))
  {
  }

  /** `subdivide(node)`: four empty quadrant leaves, then every point of the
      old leaf pushed down in order. */
  function Subdivide<T(==)>(n: Node<T>, maxPoints: nat, maxDepth: nat, fuel: nat): (r: Option<Node<T>>)
    requires n.Leaf?
    ensures r.Some? ==> r.value.Inner? && r.value.bounds == n.bounds
    ensures r.Some? ==> forall i :: 0 <= i < 4 ==> Child(r.value, i).bounds == Quadrant(n.bounds, i)
    ensures r.Some? ==> Points(r.value) == Points(n)
    ensures r.Some? && WellFormed(n) ==> WellFormed(r.value)
    decreases fuel, 2
  {
    PushAll(EmptySplit(n.bounds), n.points, maxPoints, maxDepth, fuel)
  }

  /** The four empty quadrant leaves `subdivide` starts from. */
  function EmptySplit<T>(b: Box): (r: Node<T>)
    ensures r.Inner? && r.bounds == b && WellFormed(r)
    ensures forall i :: 0 <= i < 4 ==> Child(r, i).bounds == Quadrant(b, i)
    ensures forall i :: 0 <= i < 4 ==> Child(r, i).Leaf?
    ensures Points(r) == multiset{}
  {
    var r := Inner(b, Leaf(Quadrant(b, 0), []), Leaf(Quadrant(b, 1), []),
                      Leaf(Quadrant(b, 2), []), Leaf(Quadrant(b, 3), []));
    assert forall i :: 0 <= i < 4 ==> WellFormed(Child(r, i)) && Points(Child(r, i)) == multiset{};
    r
  }

  /** The redistribution loop of `subdivide`. */
  function PushAll<T(==)>(n: Node<T>, pts: seq<Point<T>>, maxPoints: nat, maxDepth: nat, fuel: nat): (r: Option<Node<T>>)
    requires n.Inner?
    ensures r.Some? ==> r.value.Inner? && r.value.bounds == n.bounds
    ensures r.Some? ==> forall i :: 0 <= i < 4 ==> Child(r.value, i).bounds == Child(n, i).bounds
    ensures r.Some? ==> Points(r.value) == Points(n) + multiset(pts)
    ensures r.Some? && WellFormed(n) && InBox(n.bounds, pts) ==> WellFormed(r.value)
    decreases fuel, 1, |pts|
  {
    if pts == [] then Some(n)
    else
      match InsertIntoChildren(n, pts[0], maxPoints, maxDepth, fuel)
      case None => None
      case Some(n') =>
        var r := PushAll(n', pts[1..], maxPoints, maxDepth, fuel);
        MultisetCons(pts);
        assert r.Some? && WellFormed(n) && InBox(n.bounds, pts) ==> WellFormed(r.value) by {
          if r.Some? && WellFormed(n) && InBox(n.bounds, pts) {
            assert n.bounds.Contains(pts[0].x, pts[0].y);
            InBoxTail(n.bounds, pts);
          }
        }
        r
  }

  lemma MultisetCons<T>(s: seq<T>)
    requires s != []
    ensures multiset(s) == multiset{s[0]} + multiset(s[1..])
  {
    assert s == [s[0]] + s[1..];
  }

  lemma InBoxTail<T>(b: Box, pts: seq<Point<T>>)
    requires pts != [] && InBox(b, pts)
    ensures InBox(b, pts[1..])
  {
    forall k | 0 <= k < |pts[1..]| ensures b.Contains(pts[1..][k].x, pts[1..][k].y) {
      assert pts[1..][k] == pts[k + 1];
    }
  }

  /** `insert(x, y, data)`: a point outside the root's bounds is ignored.
      `None` means the source would still be recursing after `fuel` levels. */
  function Insert<T(==)>(t: Tree<T>, x: real, y: real, data: T, fuel: nat): (r: Option<Tree<T>>)
    ensures !t.root.bounds.Contains(x, y) ==> r == Some(t)
    ensures r.Some? ==> r.value.root.bounds == t.root.bounds
    ensures r.Some? ==> r.value.maxPoints == t.maxPoints && r.value.maxDepth == t.maxDepth
    ensures r.Some? && t.root.bounds.Contains(x, y) ==> Points(r.value.root) == Points(t.root) + multiset{Point(x, y, data)}
    ensures r.Some? && t.root.bounds.Contains(x, y) ==> Size(r.value) == Size(t) + 1
    ensures r.Some? && WellFormed(t.root) ==> WellFormed(r.value.root)
  {
    if !t.root.bounds.Contains(x, y) then Some(t)
    else
      match InsertRec(t.root, Point(x, y, data), 0, t.maxPoints, t.maxDepth, fuel)
      case None => None
      case Some(root) => Some(Tree(root, t.maxPoints, t.maxDepth))
  }

  /** A fresh tree, and a cleared one, satisfy the shape invariant. */
  lemma NewTreeWellFormed<T>(bounds: Box, maxPoints: nat, maxDepth: nat)
    ensures WellFormed(NewTree<T>(bounds, maxPoints, maxDepth).root)
  {
  }

  /** Below capacity, insertion into a leaf root always finishes, whatever
      the fuel: the recursion only runs away once a leaf is full. */
  lemma InsertBelowCapacityFinishes<T>(t: Tree<T>, x: real, y: real, data: T)
    requires t.root.Leaf? && |t.root.points| < t.maxPoints
    ensures Insert(t, x, y, data, 0).Some?
  {
  }

  /** With `maxPoints == 0` and `maxDepth > 0` no insertion ever finishes:
      every leaf is full, and every split enters its children at depth 0
      where they are full too. */
  lemma {:induction false} ZeroCapacityNeverFinishes<T>(n: Node<T>, p: Point<T>, maxDepth: nat, fuel: nat)
    requires maxDepth > 0
    ensures InsertRec(n, p, 0, 0, maxDepth, fuel).None?
    decreases fuel, 3
  {
    match n
    case Leaf(b, pts) =>
      if fuel > 0 {
        SubdivideZeroCapacity(n, maxDepth, fuel - 1);
        var s := Subdivide(n, 0, maxDepth, fuel - 1);
        if s.Some? {
          ChildrenZeroCapacity(s.value, p, maxDepth, fuel - 1);
        }
      }
    case Inner(_, _, _, _, _) =>
      ChildrenZeroCapacity(n, p, maxDepth, fuel);
  }

  lemma {:induction false} ChildrenZeroCapacity<T>(n: Node<T>, p: Point<T>, maxDepth: nat, fuel: nat)
    requires maxDepth > 0 && n.Inner?
    ensures InsertIntoChildren(n, p, 0, maxDepth, fuel).None?
    decreases fuel, 0
  {
    if fuel > 0 {
      ZeroCapacityNeverFinishes(Child(n, ChildIndex(n.bounds, p.x, p.y)), p, maxDepth, fuel - 1);
    }
  }

  /** A split with zero capacity finishes only when there was nothing to
      push down, and then it is the four empty quadrants. */
  lemma {:induction false} SubdivideZeroCapacity<T>(n: Node<T>, maxDepth: nat, fuel: nat)
    requires maxDepth > 0 && n.Leaf?
    ensures Subdivide(n, 0, maxDepth, fuel).Some? ==> n.points == []
    decreases fuel, 2
  {
    if n.points != [] {
      var empty: Node<T> := EmptySplit(n.bounds);
      ChildrenZeroCapacity(empty, n.points[0], maxDepth, fuel);
      assert Subdivide(n, 0, maxDepth, fuel) == PushAll(empty, n.points, 0, maxDepth, fuel);
    }
  }

  /** The smallest counterexample: with `maxPoints == 1` and a positive
      `maxDepth`, a leaf holding `p` never finishes taking `p` again. Both
      copies always fall into the same quadrant, which is entered at depth
      0, holds one copy after the split, and so is full again. */
  lemma {:induction false} SecondCopyNeverFinishes<T>(b: Box, p: Point<T>, maxDepth: nat, fuel: nat)
    requires maxDepth > 0
    ensures InsertRec(Leaf(b, [p]), p, 0, 1, maxDepth, fuel).None?
    decreases fuel
  {
    if fuel > 1 {
      var i := ChildIndex(b, p.x, p.y);
      var q := Quadrant(b, i);
      SplitOfOne(b, p, maxDepth, fuel - 1);
      var split := WithChild(EmptySplit<T>(b), i, Leaf(q, [p]));
      SecondCopyNeverFinishes(q, p, maxDepth, fuel - 2);
      assert split.bounds == b && Child(split, i) == Leaf(q, [p]);
    }
  }

  /** Splitting a full leaf of capacity 1 moves its one point into the
      quadrant it falls in. */
  lemma SplitOfOne<T>(b: Box, p: Point<T>, maxDepth: nat, fuel: nat)
    requires fuel > 0
    ensures var i := ChildIndex(b, p.x, p.y);
      Subdivide(Leaf(b, [p]), 1, maxDepth, fuel) == Some(WithChild(EmptySplit<T>(b), i, Leaf(Quadrant(b, i), [p])))
  {
    var empty: Node<T> := EmptySplit(b);
    var i := ChildIndex(b, p.x, p.y);
    var q := Quadrant(b, i);
    assert Child(empty, i) == Leaf(q, []) by {
      assert i == 0 || i == 1 || i == 2 || i == 3;
    }
    assert ([] + [p]) == [p];
    assert InsertRec(Leaf(q, []), p, 0, 1, maxDepth, fuel - 1) == Some(Leaf(q, [p]));
    var split := WithChild(empty, i, Leaf(q, [p]));
    assert InsertIntoChildren(empty, p, 1, maxDepth, fuel) == Some(split);
    assert PushAll(split, [p][1..], 1, maxDepth, fuel) == Some(split);
  }

  /** Inserting the same point twice into a fresh tree with `maxPoints == 1`
      and a positive `maxDepth`: the first insertion finishes, the second
      never does. */
  lemma SameTwiceNeverFinishes<T>(b: Box, maxDepth: nat, x: real, y: real, data: T, fuel: nat)
    requires maxDepth > 0 && b.Contains(x, y)
    ensures var t := NewTree<T>(b, 1, maxDepth);
      Insert(t, x, y, data, fuel) == Some(Tree(Leaf(b, [Point(x, y, data)]), 1, maxDepth)) &&
      Insert(Tree(Leaf(b, [Point(x, y, data)]), 1, maxDepth), x, y, data, fuel).None?
  {
    var p := Point(x, y, data);
    assert ([] + [p]) == [p];
    assert InsertRec(Leaf(b, []), p, 0, 1, maxDepth, fuel) == Some(Leaf(b, [p]));
    SecondCopyNeverFinishes(b, p, maxDepth, fuel);
  }

  // ---------------------------------------------------------------------
  // Insertion with the child depth the source evidently intends

  /** How many more levels may still be split below `depth`. */
  function Budget(depth: nat, maxDepth: nat): nat {
    if depth < maxDepth then maxDepth - depth else 0
  }

  function MaxNat(a: nat, b: nat): nat {
    if a >= b then a else b
  }

  /** The number of split levels on the longest path below a node. */
  function Height<T>(n: Node<T>): nat {
    match n
    case Leaf(_, _) => 0
    case Inner(_, c0, c1, c2, c3) => 1 + MaxNat(MaxNat(Height(c0), Height(c1)), MaxNat(Height(c2), Height(c3)))
  }

  lemma ChildLower<T>(n: Node<T>, i: nat)
    requires n.Inner? && i < 4
    ensures Height(Child(n, i)) < Height(n)
  {
  }

  lemma HeightWithChild<T>(n: Node<T>, i: nat, c: Node<T>, k: nat)
    requires n.Inner? && i < 4 && Height(n) <= k && Height(c) < k
    ensures Height(WithChild(n, i, c)) <= k
  {
  }

  /** `insertRecursive` with `insertIntoChildren` passing `depth + 1`. It
      needs no fuel: every descent either uses up one of the `maxDepth`
      levels or, below them, enters a smaller node. The tree never grows
      more split levels than the levels left. */
  function InsertRecFixed<T(==)>(n: Node<T>, p: Point<T>, depth: nat, maxPoints: nat, maxDepth: nat): (r: Node<T>)
    ensures r.bounds == n.bounds
    ensures Points(r) == Points(n) + multiset{p}
    ensures WellFormed(n) && n.bounds.Contains(p.x, p.y) ==> WellFormed(r)
    ensures Height(n) <= Budget(depth, maxDepth) ==> Height(r) <= Budget(depth, maxDepth)
    decreases Budget(depth, maxDepth), Height(n), 3, 0
  {
    match n
    case Leaf(b, pts) =>
      if |pts| < maxPoints || depth >= maxDepth then
        Leaf(b, pts + [p])
      else
        InsertIntoChildrenFixed(SubdivideFixed(n, depth, maxPoints, maxDepth), p, depth, maxPoints, maxDepth)
    case Inner(_, _, _, _, _) =>
      InsertIntoChildrenFixed(n, p, depth, maxPoints, maxDepth)
  }

  function InsertIntoChildrenFixed<T(==)>(n: Node<T>, p: Point<T>, depth: nat, maxPoints: nat, maxDepth: nat): (r: Node<T>)
    requires n.Inner?
    ensures r.Inner? && r.bounds == n.bounds
    ensures forall i :: 0 <= i < 4 ==> Child(r, i).bounds == Child(n, i).bounds
    ensures Points(r) == Points(n) + multiset{p}
    ensures WellFormed(n) && n.bounds.Contains(p.x, p.y) ==> WellFormed(r)
    ensures Height(n) <= Budget(depth, maxDepth) ==> Height(r) <= Budget(depth, maxDepth)
    decreases Budget(depth, maxDepth), if depth < maxDepth then 0 else Height(n), 0, 0
  {
    var i := ChildIndex(n.bounds, p.x, p.y);
    ChildLower(n, i);
    var c := InsertRecFixed(Child(n, i), p, depth + 1, maxPoints, maxDepth);
    FixedChildStep(n, i, c, p, Budget(depth, maxDepth));
    WithChild(n, i, c)
  }

  /** Replacing the child a point falls into by that child with the point
      added: the point is added to the node, well-formedness is kept, and a
      child one level shallower than `k` keeps the node within `k`. */
  lemma FixedChildStep<T>(n: Node<T>, i: nat, c: Node<T>, p: Point<T>, k: nat)
    requires n.Inner? && i == ChildIndex(n.bounds, p.x, p.y)
    requires c.bounds == Child(n, i).bounds && Points(c) == Points(Child(n, i)) + multiset{p}
    requires WellFormed(Child(n, i)) && Child(n, i).bounds.Contains(p.x, p.y) ==> WellFormed(c)
    requires Height(Child(n, i)) < k ==> Height(c) < k
    ensures forall j :: 0 <= j < 4 ==> Child(WithChild(n, i, c), j).bounds == Child(n, j).bounds
    ensures Points(WithChild(n, i, c)) == Points(n) + multiset{p}
    ensures WellFormed(n) && n.bounds.Contains(p.x, p.y) ==> WellFormed(WithChild(n, i, c))
    ensures Height(n) <= k ==> Height(WithChild(n, i, c)) <= k
  {
    InsertedChildPoints(n, i, c, p);
    if WellFormed(n) && n.bounds.Contains(p.x, p.y) {
      ChildIndexContains(n.bounds, p.x, p.y);
      WellFormedWithChild(n, i, c);
    }
    if Height(n) <= k {
      ChildLower(n, i);
      HeightWithChild(n, i, c, k);
    }
  }

  function SubdivideFixed<T(==)>(n: Node<T>, depth: nat, maxPoints: nat, maxDepth: nat): (r: Node<T>)
    requires n.Leaf? && depth < maxDepth
    ensures r.Inner? && r.bounds == n.bounds
    ensures forall i :: 0 <= i < 4 ==> Child(r, i).bounds == Quadrant(n.bounds, i)
    ensures Points(r) == Points(n)
    ensures WellFormed(n) ==> WellFormed(r)
    ensures Height(r) <= Budget(depth, maxDepth)
    decreases Budget(depth, maxDepth), 0, 2, 0
  {
    PushAllFixed(EmptySplit(n.bounds), n.points, depth, maxPoints, maxDepth)
  }

  function PushAllFixed<T(==)>(n: Node<T>, pts: seq<Point<T>>, depth: nat, maxPoints: nat, maxDepth: nat): (r: Node<T>)
    requires n.Inner? && depth < maxDepth && Height(n) <= Budget(depth, maxDepth)
    ensures r.Inner? && r.bounds == n.bounds
    ensures forall i :: 0 <= i < 4 ==> Child(r, i).bounds == Child(n, i).bounds
    ensures Points(r) == Points(n) + multiset(pts)
    ensures WellFormed(n) && InBox(n.bounds, pts) ==> WellFormed(r)
    ensures Height(r) <= Budget(depth, maxDepth)
    decreases Budget(depth, maxDepth), 0, 1, |pts|
  {
    if pts == [] then n
    else
      var n' := InsertIntoChildrenFixed(n, pts[0], depth, maxPoints, maxDepth);
      var r := PushAllFixed(n', pts[1..], depth, maxPoints, maxDepth);
      MultisetCons(pts);
      assert WellFormed(n) && InBox(n.bounds, pts) ==> WellFormed(r) by {
        if WellFormed(n) && InBox(n.bounds, pts) {
          assert n.bounds.Contains(pts[0].x, pts[0].y);
          InBoxTail(n.bounds, pts);
        }
      }
      r
  }

  /** `insert` with the intended child depth: always finishes, adds exactly
      the point, keeps the tree well formed, and keeps it within `maxDepth`
      split levels. */
  function InsertFixed<T(==)>(t: Tree<T>, x: real, y: real, data: T): (r: Tree<T>)
    ensures !t.root.bounds.Contains(x, y) ==> r == t
    ensures r.root.bounds == t.root.bounds && r.maxPoints == t.maxPoints && r.maxDepth == t.maxDepth
    ensures t.root.bounds.Contains(x, y) ==> Points(r.root) == Points(t.root) + multiset{Point(x, y, data)}
    ensures t.root.bounds.Contains(x, y) ==> Size(r) == Size(t) + 1
    ensures WellFormed(t.root) ==> WellFormed(r.root)
    ensures Height(t.root) <= t.maxDepth ==> Height(r.root) <= t.maxDepth
  {
    if !t.root.bounds.Contains(x, y) then t
    else Tree(InsertRecFixed(t.root, Point(x, y, data), 0, t.maxPoints, t.maxDepth), t.maxPoints, t.maxDepth)
  }

  /** The counterexample input, corrected: the same point twice into a
      fresh tree with `maxPoints == 1` now gives a tree holding both
      copies, at most `maxDepth` levels deep. */
  lemma SameTwiceFixed<T>(b: Box, maxDepth: nat, x: real, y: real, data: T)
    requires b.Contains(x, y)
    ensures var t := InsertFixed(InsertFixed(NewTree<T>(b, 1, maxDepth), x, y, data), x, y, data);
      Points(t.root) == multiset{Point(x, y, data), Point(x, y, data)} &&
      WellFormed(t.root) && Height(t.root) <= maxDepth
  {
  }

  // ---------------------------------------------------------------------
  // Range query

  /** `queryRangeRecursive`: skip nodes whose bounds miss the range, keep the
      points the range contains, visit the children in order. */
  function QueryNode<T(==)>(n: Node<T>, range: Box): (r: seq<Point<T>>)
    ensures Found(r, Points(n), range)
  {
    if !n.bounds.Intersects(range) then []
    else
      match n
      case Leaf(_, pts) => Filter(pts, range)
      case Inner(_, c0, c1, c2, c3) =>
        var r0, r1, r2, r3 := QueryNode(c0, range), QueryNode(c1, range), QueryNode(c2, range), QueryNode(c3, range);
        assert Found(r0 + r1, Points(c0) + Points(c1), range) by {
          FoundAppend(r0, Points(c0), r1, Points(c1), range);
        }
        assert Found(r2 + r3, Points(c2) + Points(c3), range) by {
          FoundAppend(r2, Points(c2), r3, Points(c3), range);
        }
        FoundAppend(r0 + r1, Points(c0) + Points(c1), r2 + r3, Points(c2) + Points(c3), range);
        assert Points(n) == Points(c0) + Points(c1) + (Points(c2) + Points(c3));
        (r0 + r1) + (r2 + r3)
  }

  /** Every point of `r` is one of `s` and inside `range`. */
  predicate Found<T(==)>(r: seq<Point<T>>, s: multiset<Point<T>>, range: Box) {
    forall k :: 0 <= k < |r| ==> r[k] in s && range.Contains(r[k].x, r[k].y)
  }

  lemma FoundAppend<T>(a: seq<Point<T>>, s: multiset<Point<T>>, b: seq<Point<T>>, u: multiset<Point<T>>, range: Box)
    requires Found(a, s, range) && Found(b, u, range)
    ensures Found(a + b, s + u, range)
  {
    forall k | 0 <= k < |a + b| ensures (a + b)[k] in s + u && range.Contains((a + b)[k].x, (a + b)[k].y) {
      if k < |a| {
        assert (a + b)[k] == a[k];
      } else {
        assert (a + b)[k] == b[k - |a|];
      }
    }
  }

  /** `r` holds each copy of a point of `s` that `range` contains, once,
      and nothing else. */
  predicate Selects<T(==)>(r: seq<Point<T>>, s: multiset<Point<T>>, range: Box) {
    && (forall p :: p in multiset(r) ==> range.Contains(p.x, p.y) && multiset(r)[p] == s[p])
    && (forall p :: p in s && range.Contains(p.x, p.y) ==> multiset(r)[p] == s[p])
  }

  /** The points of one leaf that lie inside the range, in leaf order. */
  function Filter<T(==)>(pts: seq<Point<T>>, range: Box): (r: seq<Point<T>>)
    ensures forall k :: 0 <= k < |r| ==> r[k] in pts && range.Contains(r[k].x, r[k].y)
    ensures forall p :: p in pts && range.Contains(p.x, p.y) ==> p in r
    ensures Selects(r, multiset(pts), range)
  {
    if pts == [] then []
    else
      var rest := Filter(pts[1..], range);
      assert pts == [pts[0]] + pts[1..];
      SelectsHead(pts[0], rest, multiset(pts[1..]), range);
      if range.Contains(pts[0].x, pts[0].y) then [pts[0]] + rest else rest
  }

  /** One more point in front: kept when the range contains it. */
  lemma SelectsHead<T>(x: Point<T>, r: seq<Point<T>>, s: multiset<Point<T>>, range: Box)
    requires Selects(r, s, range)
    ensures range.Contains(x.x, x.y) ==> Selects([x] + r, multiset([x]) + s, range)
    ensures !range.Contains(x.x, x.y) ==> Selects(r, multiset([x]) + s, range)
  {
    assert multiset([x] + r) == multiset([x]) + multiset(r);
  }

  /** Two selections side by side select from the union. */
  lemma SelectsAppend<T>(a: seq<Point<T>>, s: multiset<Point<T>>, b: seq<Point<T>>, u: multiset<Point<T>>, range: Box)
    requires Selects(a, s, range) && Selects(b, u, range)
    ensures Selects(a + b, s + u, range)
  {
    assert multiset(a + b) == multiset(a) + multiset(b);
  }

  /** In a well-formed tree the query returns every stored copy of a point
      the range contains exactly once, and nothing else. */
  lemma {:induction false} QuerySelects<T>(n: Node<T>, range: Box)
    requires WellFormed(n)
    ensures Selects(QueryNode(n, range), Points(n), range)
  {
    if !n.bounds.Intersects(range) {
      forall p | p in Points(n) ensures !range.Contains(p.x, p.y) {
        PointsInBounds(n, p);
        if range.Contains(p.x, p.y) {
          CommonPointIntersects(n.bounds, range, p.x, p.y);
        }
      }
      assert QueryNode(n, range) == [];
    } else {
      match n
      case Leaf(_, pts) =>
      case Inner(_, c0, c1, c2, c3) =>
        QuerySelects(c0, range);
        QuerySelects(c1, range);
        QuerySelects(c2, range);
        QuerySelects(c3, range);
        var r0, r1, r2, r3 := QueryNode(c0, range), QueryNode(c1, range), QueryNode(c2, range), QueryNode(c3, range);
        SelectsAppend(r0, Points(c0), r1, Points(c1), range);
        SelectsAppend(r2, Points(c2), r3, Points(c3), range);
        SelectsAppend(r0 + r1, Points(c0) + Points(c1), r2 + r3, Points(c2) + Points(c3), range);
        assert Points(n) == Points(c0) + Points(c1) + (Points(c2) + Points(c3));
    }
  }

  /** `queryRange(range)`. */
  function QueryRange<T(==)>(t: Tree<T>, range: Box): (r: seq<Point<T>>)
    ensures forall k :: 0 <= k < |r| ==> r[k] in Points(t.root) && range.Contains(r[k].x, r[k].y)
  {
    QueryNode(t.root, range)
  }

  /** In a well-formed tree the query misses nothing: every stored point the
      range contains is returned. */
  lemma {:induction false} QueryComplete<T>(n: Node<T>, range: Box, p: Point<T>)
    requires WellFormed(n)
    requires p in Points(n) && range.Contains(p.x, p.y)
    ensures p in QueryNode(n, range)
  {
    PointsInBounds(n, p);
    CommonPointIntersects(n.bounds, range, p.x, p.y);
    match n
    case Leaf(_, pts) =>
      assert p in pts;
    case Inner(_, c0, c1, c2, c3) =>
      if p in Points(c0) { QueryComplete(c0, range, p); }
      else if p in Points(c1) { QueryComplete(c1, range, p); }
      else if p in Points(c2) { QueryComplete(c2, range, p); }
      else { QueryComplete(c3, range, p); }
  }

  // ---------------------------------------------------------------------
  // Nearest neighbour

  /** Squared distances stand in for the source's `sqrt` distances: `sqrt`
      is monotone, so every comparison the search makes has the same
      outcome. */
  function Dist2(x1: real, y1: real, x2: real, y2: real): (d: real)
    ensures d >= 0.0
  {
    (x2 - x1) * (x2 - x1) + (y2 - y1) * (y2 - y1)
  }

  function Max(a: real, b: real): real {
    if a >= b then a else b
  }

  /** `distanceToBounds`, squared. */
  function DistToBounds2(x: real, y: real, b: Box): (d: real)
    ensures d >= 0.0
  {
    var dx := Max(0.0, Max(b.x - x, x - (b.x + b.width)));
    var dy := Max(0.0, Max(b.y - y, y - (b.y + b.height)));
    dx * dx + dy * dy
  }

  /** The best point so far and its squared distance; `None` stands for the
      initial `numeric_limits<double>::max()`. */
  type Best<T> = Option<(Point<T>, real)>

  predicate Closer<T>(d: real, best: Best<T>) {
    best.None? || d < best.value.1
  }

  /** The loop over a node's own points. */
  function ScanPoints<T>(pts: seq<Point<T>>, x: real, y: real, best: Best<T>): (r: (bool, Best<T>))
    ensures r.0 ==> r.1.Some? && r.1.value.0 in pts
    ensures !r.0 ==> r.1 == best
    ensures best.None? && pts != [] ==> r.0
  {
    if pts == [] then (false, best)
    else
      var d := Dist2(x, y, pts[0].x, pts[0].y);
      var best' := if Closer(d, best) then Some((pts[0], d)) else best;
      var (f, b) := ScanPoints(pts[1..], x, y, best');
      assert f ==> b.value.0 in pts;
      (f || Closer(d, best), b)
  }

  /** `findNearestRecursive`: the query point's own quadrant first, then the
      other children whose bounds are closer than the best distance. */
  function FindNearestRec<T(==)>(n: Node<T>, x: real, y: real, best: Best<T>): (r: (bool, Best<T>))
    ensures r.0 ==> r.1.Some? && r.1.value.0 in Points(n)
    ensures !r.0 ==> r.1 == best
    decreases n, 1
  {
    match n
    case Leaf(_, pts) =>
      ScanPoints(pts, x, y, best)
    case Inner(b, c0, c1, c2, c3) =>
      var first := ChildIndex(b, x, y);
      var (f0, b0) := FindNearestRec(Child(n, first), x, y, best);
      var (f1, b1) := VisitOthers(n, first, 0, x, y, b0);
      assert f0 ==> b0.value.0 in Points(n);
      (f0 || f1, b1)
  }

  /** The loop over the other three children, from child `i` on. */
  function VisitOthers<T(==)>(n: Node<T>, skip: nat, i: nat, x: real, y: real, best: Best<T>): (r: (bool, Best<T>))
    requires n.Inner? && skip < 4 && i <= 4
    ensures r.0 ==> r.1.Some? && r.1.value.0 in Points(n)
    ensures !r.0 ==> r.1 == best
    decreases n, 0, 4 - i
  {
    if i == 4 then (false, best)
    else if i != skip && Closer(DistToBounds2(x, y, Child(n, i).bounds), best) then
      var (f, b) := FindNearestRec(Child(n, i), x, y, best);
      var (g, c) := VisitOthers(n, skip, i + 1, x, y, b);
      assert f ==> b.value.0 in Points(n);
      (f || g, c)
    else VisitOthers(n, skip, i + 1, x, y, best)
  }

  /** Starting with no best point, a node that stores some point is always
      reported as found: if its own quadrant is empty, the first other
      non-empty child passes the bound test against an infinite best. */
  lemma {:induction false} NonEmptyFound<T>(n: Node<T>, x: real, y: real)
    requires Points(n) != multiset{}
    ensures FindNearestRec(n, x, y, None).0
    decreases n, 1
  {
    match n
    case Leaf(_, pts) =>
    case Inner(b, c0, c1, c2, c3) =>
      var first := ChildIndex(b, x, y);
      if Points(Child(n, first)) != multiset{} {
        NonEmptyFound(Child(n, first), x, y);
      } else {
        var j: nat :=
          if first != 0 && Points(c0) != multiset{} then 0
          else if first != 1 && Points(c1) != multiset{} then 1
          else if first != 2 && Points(c2) != multiset{} then 2
          else 3;
        VisitFindsNonEmpty(n, first, 0, j, x, y);
      }
  }

  lemma {:induction false} VisitFindsNonEmpty<T>(n: Node<T>, skip: nat, i: nat, j: nat, x: real, y: real)
    requires n.Inner? && skip < 4 && i <= j < 4 && j != skip
    requires Points(Child(n, j)) != multiset{}
    ensures VisitOthers(n, skip, i, x, y, None).0
    decreases n, 0, j - i
  {
    if i == j {
      NonEmptyFound(Child(n, j), x, y);
    } else if i != skip {
      if !FindNearestRec(Child(n, i), x, y, None).0 {
        VisitFindsNonEmpty(n, skip, i + 1, j, x, y);
      }
    } else {
      VisitFindsNonEmpty(n, skip, i + 1, j, x, y);
    }
  }

  /** `findNearest(x, y, nearest)`: `false` exactly on an empty tree;
      otherwise a stored point. */
  function FindNearest<T(==)>(t: Tree<T>, x: real, y: real): (r: Option<Point<T>>)
    ensures r.Some? ==> r.value in Points(t.root)
  {
    var (found, best) := FindNearestRec(t.root, x, y, None);
    if found then Some(best.value.0) else None
  }

  lemma FindNearestEmptyIff<T>(t: Tree<T>, x: real, y: real)
    ensures FindNearest(t, x, y).None? <==> Points(t.root) == multiset{}
  {
    if Points(t.root) != multiset{} {
      NonEmptyFound(t.root, x, y);
    }
  }

  // ---------------------------------------------------------------------
  // The nearest point really is nearest

  /** The best entry records its own point's squared distance. */
  predicate Consistent<T>(x: real, y: real, best: Best<T>) {
    best.Some? ==> best.value.1 == Dist2(x, y, best.value.0.x, best.value.0.y)
  }

  /** The best so far is at least as close as point `p`. */
  predicate Beats<T>(best: Best<T>, x: real, y: real, p: Point<T>) {
    best.Some? && best.value.1 <= Dist2(x, y, p.x, p.y)
  }

  /** `r` is no worse than `best`: the search only ever lowers `minDist`. */
  predicate NoWorse<T>(best: Best<T>, r: Best<T>) {
    best.Some? ==> r.Some? && r.value.1 <= best.value.1
  }

  predicate BeatsAll<T(==)>(best: Best<T>, x: real, y: real, ps: multiset<Point<T>>) {
    forall p :: p in ps ==> Beats(best, x, y, p)
  }

  lemma SquareMono(a: real, b: real)
    requires 0.0 <= a <= b
    ensures a * a <= b * b
  {
    assert a * a <= a * b <= b * b;
  }

  /** Along one axis: the gap from `v` to the interval `[lo, hi]` never
      exceeds the distance from `v` to a coordinate inside it. */
  lemma GapBelow(v: real, lo: real, hi: real, pv: real)
    requires lo <= pv <= hi
    ensures var g := Max(0.0, Max(lo - v, v - hi)); g * g <= (pv - v) * (pv - v)
  {
    var g := Max(0.0, Max(lo - v, v - hi));
    var a := if pv >= v then pv - v else v - pv;
    SquareMono(g, a);
    assert a * a == (pv - v) * (pv - v);
  }

  /** The distance to a box never exceeds the distance to a point inside
      it, so a child whose bounds are no closer than the best distance
      holds no closer point. */
  lemma BoundsBelowPoint(b: Box, x: real, y: real, px: real, py: real)
    requires b.Contains(px, py)
    ensures DistToBounds2(x, y, b) <= Dist2(x, y, px, py)
  {
    GapBelow(x, b.x, b.x + b.width, px);
    GapBelow(y, b.y, b.y + b.height, py);
  }

  lemma ChildWellFormed<T>(n: Node<T>, i: nat)
    requires n.Inner? && i < 4 && WellFormed(n)
    ensures WellFormed(Child(n, i)) && Child(n, i).bounds == Quadrant(n.bounds, i)
  {
  }

  /** A point of a split node lies in one of its children. */
  lemma InSomeChild<T>(n: Node<T>, p: Point<T>) returns (i: nat)
    requires n.Inner? && p in Points(n)
    ensures i < 4 && p in Points(Child(n, i))
  {
    i := if p in Points(n.c0) then 0 else if p in Points(n.c1) then 1 else if p in Points(n.c2) then 2 else 3;
  }

  /** The scan over a leaf's points never makes the best worse, and ends at
      least as close as every point scanned. */
  lemma {:induction false} ScanNearest<T>(pts: seq<Point<T>>, x: real, y: real, best: Best<T>)
    ensures var r := ScanPoints(pts, x, y, best).1;
      NoWorse(best, r) && BeatsAll(r, x, y, multiset(pts))
  {
    if pts != [] {
      var d := Dist2(x, y, pts[0].x, pts[0].y);
      var best' := if Closer(d, best) then Some((pts[0], d)) else best;
      ScanNearest(pts[1..], x, y, best');
      var r := ScanPoints(pts, x, y, best).1;
      assert r == ScanPoints(pts[1..], x, y, best').1;
      assert pts == [pts[0]] + pts[1..];
      forall p | p in multiset(pts) ensures Beats(r, x, y, p) {
        if p != pts[0] {
          assert p in multiset(pts[1..]);
        }
      }
    }
  }

  /** `findNearestRecursive` on a well-formed node never makes the best
      worse, and ends at least as close as every point stored below the
      node: pruning a child by its bounds loses nothing. */
  lemma {:induction false} NearestRecBeatsAll<T>(n: Node<T>, x: real, y: real, best: Best<T>)
    requires WellFormed(n)
    ensures var r := FindNearestRec(n, x, y, best).1;
      NoWorse(best, r) && BeatsAll(r, x, y, Points(n))
    decreases n, 1
  {
    match n
    case Leaf(_, pts) =>
      ScanNearest(pts, x, y, best);
    case Inner(b, c0, c1, c2, c3) =>
      var first := ChildIndex(b, x, y);
      ChildWellFormed(n, first);
      NearestRecBeatsAll(Child(n, first), x, y, best);
      var b0 := FindNearestRec(Child(n, first), x, y, best).1;
      VisitBeatsAll(n, first, 0, x, y, b0);
      var r := FindNearestRec(n, x, y, best).1;
      assert r == VisitOthers(n, first, 0, x, y, b0).1;
      forall p | p in Points(n) ensures Beats(r, x, y, p) {
        var i := InSomeChild(n, p);
        if i == first {
          assert Beats(b0, x, y, p);
        } else {
          assert BeatsAll(r, x, y, Points(Child(n, i)));
        }
      }
  }

  /** The search only ever records a point together with its own squared
      distance. */
  lemma {:induction false} ConsistentScan<T>(pts: seq<Point<T>>, x: real, y: real, best: Best<T>)
    requires Consistent(x, y, best)
    ensures Consistent(x, y, ScanPoints(pts, x, y, best).1)
  {
    if pts != [] {
      var d := Dist2(x, y, pts[0].x, pts[0].y);
      ConsistentScan(pts[1..], x, y, if Closer(d, best) then Some((pts[0], d)) else best);
    }
  }

  lemma {:induction false} ConsistentRec<T>(n: Node<T>, x: real, y: real, best: Best<T>)
    requires Consistent(x, y, best)
    ensures Consistent(x, y, FindNearestRec(n, x, y, best).1)
    decreases n, 1
  {
    match n
    case Leaf(_, pts) =>
      ConsistentScan(pts, x, y, best);
    case Inner(b, _, _, _, _) =>
      var first := ChildIndex(b, x, y);
      ConsistentRec(Child(n, first), x, y, best);
      ConsistentVisit(n, first, 0, x, y, FindNearestRec(Child(n, first), x, y, best).1);
  }

  lemma {:induction false} ConsistentVisit<T>(n: Node<T>, skip: nat, i: nat, x: real, y: real, best: Best<T>)
    requires n.Inner? && skip < 4 && i <= 4 && Consistent(x, y, best)
    ensures Consistent(x, y, VisitOthers(n, skip, i, x, y, best).1)
    decreases n, 0, 4 - i
  {
    if i < 4 {
      if i != skip && Closer(DistToBounds2(x, y, Child(n, i).bounds), best) {
        var b := FindNearestRec(Child(n, i), x, y, best).1;
        assert Consistent(x, y, b) by {
          ConsistentRec(Child(n, i), x, y, best);
        }
        ConsistentVisit(n, skip, i + 1, x, y, b);
      } else {
        ConsistentVisit(n, skip, i + 1, x, y, best);
      }
    }
  }

  /** Lowering the best distance keeps every point beaten. */
  lemma BeatsAllNoWorse<T>(best: Best<T>, r: Best<T>, x: real, y: real, ps: multiset<Point<T>>)
    requires BeatsAll(best, x, y, ps) && NoWorse(best, r)
    ensures BeatsAll(r, x, y, ps)
  {
    forall p | p in ps ensures Beats(r, x, y, p) {
      assert Beats(best, x, y, p);
    }
  }

  /** A child skipped because its bounds are no closer than the best
      distance holds no closer point. */
  lemma PrunedChild<T>(n: Node<T>, i: nat, x: real, y: real, best: Best<T>)
    requires n.Inner? && WellFormed(n) && i < 4
    requires !Closer(DistToBounds2(x, y, Child(n, i).bounds), best)
    ensures BeatsAll(best, x, y, Points(Child(n, i)))
  {
    ChildWellFormed(n, i);
    forall p | p in Points(Child(n, i)) ensures Beats(best, x, y, p) {
      PointsInBounds(Child(n, i), p);
      BoundsBelowPoint(Child(n, i).bounds, x, y, p.x, p.y);
    }
  }

  /** Every child from `i` on, other than `skip`, is beaten by `r`. */
  predicate OthersBeaten<T(==)>(n: Node<T>, skip: nat, i: nat, r: Best<T>, x: real, y: real)
    requires n.Inner?
  {
    forall j :: i <= j < 4 && j != skip ==> BeatsAll(r, x, y, Points(Child(n, j)))
  }

  lemma OthersBeatenStep<T>(n: Node<T>, skip: nat, i: nat, r: Best<T>, x: real, y: real)
    requires n.Inner? && i < 4 && OthersBeaten(n, skip, i + 1, r, x, y)
    requires i != skip ==> BeatsAll(r, x, y, Points(Child(n, i)))
    ensures OthersBeaten(n, skip, i, r, x, y)
  {
  }

  lemma {:induction false} VisitBeatsAll<T>(n: Node<T>, skip: nat, i: nat, x: real, y: real, best: Best<T>)
    requires n.Inner? && WellFormed(n) && skip < 4 && i <= 4
    ensures var r := VisitOthers(n, skip, i, x, y, best).1;
      NoWorse(best, r) && OthersBeaten(n, skip, i, r, x, y)
    decreases n, 0, 4 - i, 2
  {
    if i < 4 {
      if i != skip && Closer(DistToBounds2(x, y, Child(n, i).bounds), best) {
        VisitTaken(n, skip, i, x, y, best);
        TakenUnfold(n, skip, i, x, y, best);
      } else {
        if i != skip {
          PrunedChild(n, i, x, y, best);
        }
        SkippedUnfold(n, skip, i, x, y, best);
        VisitSkipped(n, skip, i, x, y, best);
      }
    }
  }

  /** A child whose bounds are closer than the best distance is searched,
      and the search goes on from the next child with its result. */
  lemma {:induction false} VisitTaken<T>(n: Node<T>, skip: nat, i: nat, x: real, y: real, best: Best<T>)
    requires n.Inner? && WellFormed(n) && skip < 4 && i < 4 && i != skip
    ensures var r := VisitOthers(n, skip, i + 1, x, y, FindNearestRec(Child(n, i), x, y, best).1).1;
      NoWorse(best, r) && OthersBeaten(n, skip, i, r, x, y)
    decreases n, 0, 4 - i, 1
  {
    SearchedChild(n, i, x, y, best);
    TakenRest(n, skip, i, x, y, best, FindNearestRec(Child(n, i), x, y, best).1);
  }

  /** Whatever the searched child left as best, the rest of the loop keeps
      that child beaten. */
  lemma {:induction false} TakenRest<T>(n: Node<T>, skip: nat, i: nat, x: real, y: real, best: Best<T>, b: Best<T>)
    requires n.Inner? && WellFormed(n) && skip < 4 && i < 4
    requires NoWorse(best, b) && BeatsAll(b, x, y, Points(Child(n, i)))
    ensures var r := VisitOthers(n, skip, i + 1, x, y, b).1;
      NoWorse(best, r) && OthersBeaten(n, skip, i, r, x, y)
    decreases n, 0, 4 - i, 0
  {
    VisitBeatsAll(n, skip, i + 1, x, y, b);
    TakenCombine(n, skip, i, x, y, best, b, VisitOthers(n, skip, i + 1, x, y, b).1);
  }

  /** The searched child ends beaten by its own search's result. */
  lemma SearchedChild<T>(n: Node<T>, i: nat, x: real, y: real, best: Best<T>)
    requires n.Inner? && WellFormed(n) && i < 4
    ensures var b := FindNearestRec(Child(n, i), x, y, best).1;
      NoWorse(best, b) && BeatsAll(b, x, y, Points(Child(n, i)))
    decreases n, 0, 0, 0
  {
    ChildWellFormed(n, i);
    NearestRecBeatsAll(Child(n, i), x, y, best);
  }

  lemma TakenUnfold<T>(n: Node<T>, skip: nat, i: nat, x: real, y: real, best: Best<T>)
    requires n.Inner? && skip < 4 && i < 4
    requires i != skip && Closer(DistToBounds2(x, y, Child(n, i).bounds), best)
    ensures VisitOthers(n, skip, i, x, y, best).1 == VisitOthers(n, skip, i + 1, x, y, FindNearestRec(Child(n, i), x, y, best).1).1
  {
  }

  /** The searched child is beaten by its own result, and so by anything
      no worse. */
  lemma TakenCombine<T>(n: Node<T>, skip: nat, i: nat, x: real, y: real, best: Best<T>, b: Best<T>, r: Best<T>)
    requires n.Inner? && i < 4
    requires NoWorse(best, b) && BeatsAll(b, x, y, Points(Child(n, i)))
    requires NoWorse(b, r) && OthersBeaten(n, skip, i + 1, r, x, y)
    ensures NoWorse(best, r) && OthersBeaten(n, skip, i, r, x, y)
  {
    BeatsAllNoWorse(b, r, x, y, Points(Child(n, i)));
    OthersBeatenStep(n, skip, i, r, x, y);
  }

  lemma SkippedUnfold<T>(n: Node<T>, skip: nat, i: nat, x: real, y: real, best: Best<T>)
    requires n.Inner? && skip < 4 && i < 4
    requires !(i != skip && Closer(DistToBounds2(x, y, Child(n, i).bounds), best))
    ensures VisitOthers(n, skip, i, x, y, best).1 == VisitOthers(n, skip, i + 1, x, y, best).1
  {
  }

  /** The query's own child, or a child already beaten (one pruned by its
      bounds), is passed over and stays beaten. */
  lemma {:induction false} VisitSkipped<T>(n: Node<T>, skip: nat, i: nat, x: real, y: real, best: Best<T>)
    requires n.Inner? && WellFormed(n) && skip < 4 && i < 4
    requires i != skip ==> BeatsAll(best, x, y, Points(Child(n, i)))
    ensures var r := VisitOthers(n, skip, i + 1, x, y, best).1;
      NoWorse(best, r) && OthersBeaten(n, skip, i, r, x, y)
    decreases n, 0, 4 - i, 1
  {
    VisitBeatsAll(n, skip, i + 1, x, y, best);
    var r := VisitOthers(n, skip, i + 1, x, y, best).1;
    if i != skip {
      BeatsAllNoWorse(best, r, x, y, Points(Child(n, i)));
    }
    OthersBeatenStep(n, skip, i, r, x, y);
  }

  /** On a well-formed tree, the point `findNearest` reports is at least as
      close to the query as every stored point. */
  lemma FindNearestIsNearest<T>(t: Tree<T>, x: real, y: real, p: Point<T>)
    requires WellFormed(t.root) && p in Points(t.root)
    ensures FindNearest(t, x, y).Some?
    ensures var q := FindNearest(t, x, y).value;
      Dist2(x, y, q.x, q.y) <= Dist2(x, y, p.x, p.y)
  {
    NonEmptyFound(t.root, x, y);
    ConsistentRec(t.root, x, y, None);
    NearestRecBeatsAll(t.root, x, y, None);
  }
}

=== FILE: road_tile.dfy ===
/** The random road tile of 2d_map/src/maps/Map5.tsx
    (`generateRandomRoadTile`): `n` connection points on each side of a
    square tile, shuffled by a seeded linear congruential generator with
    Fisher-Yates, paired consecutively, and joined by Bezier roads whose
    control points sit inside the tile. Drawing is left out; what is
    modelled is the geometry handed to the canvas. */
module RoadTile {

  datatype Side = Top | Bottom | Left | Right

  /** An edge point `{x, y, side}`. */
  datatype Node = Node(x: real, y: real, side: Side)

  // ---------------------------------------------------------------------
  // Edge points

  /** The centre of segment `i` when a side of length `tileSize` is cut
      into `n` equal segments: `i * segment + offset`. */
  function Along(n: nat, tileSize: real, i: nat): real
    requires n > 0
  {
    var segment := tileSize / n as real;
    var offset := segment / 2.0;
    i as real * segment + offset
  }

  lemma AlongInside(n: nat, tileSize: real, i: nat)
    requires n > 0 && tileSize > 0.0 && i < n
    ensures 0.0 < Along(n, tileSize, i) < tileSize
  {
    var segment := tileSize / n as real;
    assert segment > 0.0;
    assert segment * n as real == tileSize;
    assert i as real * segment + segment / 2.0 < (i + 1) as real * segment;
    assert (i + 1) as real * segment <= n as real * segment;
  }

  /** The point for segment `i` of a side. */
  function EdgeNode(n: nat, tileSize: real, side: Side, i: nat): Node
    requires n > 0
  {
    match side
    case Top => Node(Along(n, tileSize, i), 0.0, Top)
    case Bottom => Node(Along(n, tileSize, i), tileSize, Bottom)
    case Left => Node(0.0, Along(n, tileSize, i), Left)
    case Right => Node(tileSize, Along(n, tileSize, i), Right)
  }

  /** One of the four `for (let i = 0; i < n; i++) nodes.push(...)`
      loops, from `i` on. */
  function SideNodes(n: nat, tileSize: real, side: Side, i: nat): (r: seq<Node>)
    requires n > 0 && i <= n
    ensures |r| == n - i
    ensures forall k :: 0 <= k < |r| ==> r[k] == EdgeNode(n, tileSize, side, i + k)
    decreases n - i
  {
    if i == n then [] else [EdgeNode(n, tileSize, side, i)] + SideNodes(n, tileSize, side, i + 1)
  }

  /** The node list: top, bottom, left, right. */
  function EdgeNodes(n: nat, tileSize: real): seq<Node>
    requires n > 0
  {
    SideNodes(n, tileSize, Top, 0) + SideNodes(n, tileSize, Bottom, 0) +
    SideNodes(n, tileSize, Left, 0) + SideNodes(n, tileSize, Right, 0)
  }

  /** A point lies strictly inside the side it names. */
  predicate OnEdge(node: Node, tileSize: real) {
    match node.side
    case Top => node.y == 0.0 && 0.0 < node.x < tileSize
    case Bottom => node.y == tileSize && 0.0 < node.x < tileSize
    case Left => node.x == 0.0 && 0.0 < node.y < tileSize
    case Right => node.x == tileSize && 0.0 < node.y < tileSize
  }

  function SideOf(k: nat, n: nat): Side
    requires n > 0
  {
    if k < n then Top else if k < 2 * n then Bottom else if k < 3 * n then Left else Right
  }

  /** Exactly `4n` points, `n` per side in the order top, bottom, left,
      right, each lying on the side it names. */
  lemma EdgeNodesOnEdges(n: nat, tileSize: real)
    requires n > 0 && tileSize > 0.0
    ensures |EdgeNodes(n, tileSize)| == 4 * n
    ensures forall k :: 0 <= k < 4 * n ==>
      EdgeNodes(n, tileSize)[k].side == SideOf(k, n) && OnEdge(EdgeNodes(n, tileSize)[k], tileSize)
  {
    var nodes := EdgeNodes(n, tileSize);
    forall k | 0 <= k < 4 * n
      ensures nodes[k].side == SideOf(k, n) && OnEdge(nodes[k], tileSize)
    {
      var i := k % n;
      assert k == (k / n) * n + i;
      AlongInside(n, tileSize, i);
      if k < n {
        assert nodes[k] == EdgeNode(n, tileSize, Top, k);
        AlongInside(n, tileSize, k);
      } else if k < 2 * n {
        assert nodes[k] == EdgeNode(n, tileSize, Bottom, k - n);
        AlongInside(n, tileSize, k - n);
      } else if k < 3 * n {
        assert nodes[k] == EdgeNode(n, tileSize, Left, k - 2 * n);
        AlongInside(n, tileSize, k - 2 * n);
      } else {
        assert nodes[k] == EdgeNode(n, tileSize, Right, k - 3 * n);
        AlongInside(n, tileSize, k - 3 * n);
      }
    }
  }

  // ---------------------------------------------------------------------
  // The seeded generator

  const Modulus: nat := 4294967296
  const Multiplier: nat := 1664525
  const Increment: nat := 1013904223

  /** `currentSeed = (currentSeed * 1664525 + 1013904223) % 4294967296`.
      The source computes this in doubles; for a seed below the modulus
      the product stays below `2^53` (see `NextSeedExact`), so every step
      is exact and integer arithmetic models it. */
  function NextSeed(seed: nat): (r: nat)
    ensures r < Modulus
  {
    (seed * Multiplier + Increment) % Modulus
  }

  lemma NextSeedExact(seed: nat)
    requires seed < Modulus
    ensures seed * Multiplier + Increment < 0x20_0000_0000_0000
  {
  }

  /** `random()`: the new seed over `2^32`, a value in `[0, 1)`. */
  function Random(seed: nat): (r: real)
  {
    NextSeed(seed) as real / Modulus as real
  }

  lemma RandomInUnit(seed: nat)
    ensures 0.0 <= Random(seed) < 1.0
  {
  }

  /** `Math.floor(random() * (i + 1))` with `s` the seed `random()` has
      just produced. The double `s / 2^32 * (i + 1)` is exact (it needs at
      most 32 plus the bits of `i + 1`), so the floor is the integer
      quotient. */
  function SwapIndex(s: nat, i: nat): (j: nat)
    requires s < Modulus
    ensures j <= i
  {
    assert s * (i + 1) < Modulus * (i + 1);
    s * (i + 1) / Modulus
  }

  lemma SwapIndexIsFloor(s: nat, i: nat)
    requires s < Modulus
    ensures SwapIndex(s, i) as real <= s as real / Modulus as real * (i + 1) as real
    ensures s as real / Modulus as real * (i + 1) as real < (SwapIndex(s, i) + 1) as real
  {
    var p := s * (i + 1);
    var j := p / Modulus;
    assert j * Modulus <= p < (j + 1) * Modulus;
    assert s as real / Modulus as real * (i + 1) as real == p as real / Modulus as real;
  }

  // ---------------------------------------------------------------------
  // Fisher-Yates

  function Swap<T>(s: seq<T>, i: nat, j: nat): (r: seq<T>)
    requires i < |s| && j < |s|
    ensures |r| == |s|
  {
    s[i := s[j]][j := s[i]]
  }

  /** Swapping two places keeps every element. */
  lemma SwapPermutes<T>(s: seq<T>, i: nat, j: nat)
    requires i < |s| && j < |s|
    ensures multiset(Swap(s, i, j)) == multiset(s)
  {
  }

  /** The shuffle as a function: the steps from index `i` down to 1,
      starting from `seed`. */
  function Shuffled<T>(nodes: seq<T>, seed: nat, i: nat): (r: seq<T>)
    requires seed < Modulus && i < |nodes|
    ensures |r| == |nodes|
    decreases i
  {
    if i == 0 then nodes
    else
      var s := NextSeed(seed);
      Shuffled(Swap(nodes, i, SwapIndex(s, i)), s, i - 1)
  }

  /** The shuffle is a permutation. */
  lemma {:induction false} ShuffledPermutes<T>(nodes: seq<T>, seed: nat, i: nat)
    requires seed < Modulus && i < |nodes|
    ensures multiset(Shuffled(nodes, seed, i)) == multiset(nodes)
    decreases i
  {
    if i > 0 {
      var s := NextSeed(seed);
      SwapPermutes(nodes, i, SwapIndex(s, i));
      ShuffledPermutes(Swap(nodes, i, SwapIndex(s, i)), s, i - 1);
    }
  }

  lemma ShuffledStep<T>(nodes: seq<T>, seed: nat, i: nat)
    requires seed < Modulus && 0 < i < |nodes|
    ensures Shuffled(nodes, seed, i) ==
      Shuffled(Swap(nodes, i, SwapIndex(NextSeed(seed), i)), NextSeed(seed), i - 1)
  {
  }

  /** The shuffle loop `for (let i = nodes.length - 1; i > 0; i--)`, with
      the seed threaded through: a permutation of the nodes, the one
      `Shuffled` describes. Any seed below `2^32` is accepted; the source
      starts from `1234567` or `Math.floor(Math.random() * 1e7)`. */
  method Shuffle<T>(nodes: seq<T>, seed: nat) returns (r: seq<T>)
    requires seed < Modulus
    ensures |r| == |nodes| && multiset(r) == multiset(nodes)
    ensures |nodes| > 0 ==> r == Shuffled(nodes, seed, |nodes| - 1)
  {
    r := nodes;
    if |r| == 0 {
      return;
    }
    var current: nat := seed;
    var i: nat := |r| - 1;
    while i > 0
      invariant i < |r| && |r| == |nodes| && current < Modulus
      invariant Shuffled(r, current, i) == Shuffled(nodes, seed, |nodes| - 1)
    {
      var next := NextSeed(current);
      var j := SwapIndex(next, i);
      var swapped := Swap(r, i, j);
      ShuffledStep(r, current, i);
      r, current, i := swapped, next, i - 1;
    }
    ShuffledPermutes(nodes, seed, |nodes| - 1);
  }

  /** Positions above `i` are final: the steps below `i` never touch
      them. */
  lemma {:induction false} ShuffledKeepsTail<T>(nodes: seq<T>, seed: nat, i: nat, k: nat)
    requires seed < Modulus && i < k < |nodes|
    ensures Shuffled(nodes, seed, i)[k] == nodes[k]
    decreases i
  {
    if i > 0 {
      var s := NextSeed(seed);
      ShuffledKeepsTail(Swap(nodes, i, SwapIndex(s, i)), s, i - 1, k);
    }
  }

  // ---------------------------------------------------------------------
  // Control points and pairing

  /** `getControlPoint`: `0.4 * tileSize` straight inward from the edge;
      any side other than top, bottom and left is treated as right. */
  function ControlPoint(node: Node, tileSize: real): (real, real) {
    var cpDist := tileSize * 0.4;
    match node.side
    case Top => (node.x, node.y + cpDist)
    case Bottom => (node.x, node.y - cpDist)
    case Left => (node.x + cpDist, node.y)
    case Right => (node.x - cpDist, node.y)
  }

  /** The distance of a point from the line of a side. */
  function DistanceFrom(side: Side, p: (real, real), tileSize: real): real {
    match side
    case Top => p.1
    case Bottom => tileSize - p.1
    case Left => p.0
    case Right => tileSize - p.0
  }

  /** For a point on its edge the control point keeps the position along
      the edge, lies inside the tile, and is `0.4 * tileSize` from that
      edge. */
  lemma ControlPointInward(node: Node, tileSize: real)
    requires tileSize > 0.0 && OnEdge(node, tileSize)
    ensures var cp := ControlPoint(node, tileSize);
      0.0 < cp.0 < tileSize && 0.0 < cp.1 < tileSize &&
      DistanceFrom(node.side, cp, tileSize) == 0.4 * tileSize &&
      (node.side in {Top, Bottom} ==> cp.0 == node.x) &&
      (node.side in {Left, Right} ==> cp.1 == node.y)
  {
  }

  /** `for (let i = 0; i < nodes.length; i += 2) drawRoad(nodes[i],
      nodes[i + 1])`: the roads, as pairs of end points. With an odd count
      the last `nodes[i + 1]` would be `undefined`; the count here is
      `4n`, always even. */
  function Pairs<T>(nodes: seq<T>): (r: seq<(T, T)>)
    requires |nodes| % 2 == 0
    ensures |r| == |nodes| / 2
  {
    if nodes == [] then [] else [(nodes[0], nodes[1])] + Pairs(nodes[2..])
  }

  function Flatten<T>(pairs: seq<(T, T)>): (r: seq<T>)
    ensures |r| == 2 * |pairs|
  {
    if pairs == [] then [] else [pairs[0].0, pairs[0].1] + Flatten(pairs[1..])
  }

  /** Every node ends up in exactly one road, in order: flattening the
      pairs gives the nodes back. */
  lemma {:induction false} PairsFlatten<T>(nodes: seq<T>)
    requires |nodes| % 2 == 0
    ensures Flatten(Pairs(nodes)) == nodes
    decreases |nodes|
  {
    if nodes != [] {
      PairsFlatten(nodes[2..]);
      assert Pairs(nodes)[1..] == Pairs(nodes[2..]);
    }
  }

  lemma EdgeNodeCount(n: nat, tileSize: real)
    requires n > 0
    ensures |EdgeNodes(n, tileSize)| == 4 * n && (4 * n) % 2 == 0
  {
    assert 4 * n == 2 * (2 * n);
  }

  /** The roads of a tile: the shuffled edge points, paired. */
  function Roads(n: nat, tileSize: real, seed: nat): seq<(Node, Node)>
    requires n > 0 && seed < Modulus
  {
    var nodes := EdgeNodes(n, tileSize);
    EdgeNodeCount(n, tileSize);
    Pairs(Shuffled(nodes, seed, 4 * n - 1))
  }

  /** Shuffling and pairing any even, non-empty list uses every element
      once. */
  lemma ShuffledPairs<T>(nodes: seq<T>, seed: nat)
    requires seed < Modulus && 0 < |nodes| && |nodes| % 2 == 0
    ensures multiset(Flatten(Pairs(Shuffled(nodes, seed, |nodes| - 1)))) == multiset(nodes)
  {
    PairsFlatten(Shuffled(nodes, seed, |nodes| - 1));
    ShuffledPermutes(nodes, seed, |nodes| - 1);
  }

  /** The whole tile: `2n` roads whose `4n` end points are the edge
      points, each used once. */
  lemma RoadsUseEveryNode(n: nat, tileSize: real, seed: nat)
    requires n > 0 && seed < Modulus
    ensures |Roads(n, tileSize, seed)| == 2 * n
    ensures multiset(Flatten(Roads(n, tileSize, seed))) == multiset(EdgeNodes(n, tileSize))
  {
    var nodes := EdgeNodes(n, tileSize);
    EdgeNodeCount(n, tileSize);
    assert Roads(n, tileSize, seed) == Pairs(Shuffled(nodes, seed, |nodes| - 1));
    ShuffledPairs(nodes, seed);
  }
}

=== FILE: stable_sort.dfy ===
/** Python's `sorted(xs, key=...)` for the two-component keys the face
    hashes use: a stable sort under lexicographic order on pairs. Modelled as
    insertion sort that puts each later element after every element with an
    equal key, which is what makes it stable. */
module StableSort {

  /** A Python tuple `(first, second)` of numbers, compared lexicographically. */
  datatype Key2 = Key2(first: real, second: real)

  predicate KeyLe(a: Key2, b: Key2) {
    a.first < b.first || (a.first == b.first && a.second <= b.second)
  }

  predicate Sorted<T>(s: seq<T>, key: T -> Key2) {
    forall i, j :: 0 <= i < j < |s| ==> KeyLe(key(s[i]), key(s[j]))
  }

  /** Every key of `s` is at least `lo`. */
  predicate AllAbove<T>(lo: Key2, s: seq<T>, key: T -> Key2) {
    forall k :: 0 <= k < |s| ==> KeyLe(lo, key(s[k]))
  }

  /** Insert `x` after every element whose key is not greater than its own. */
  function Insert<T(==)>(x: T, s: seq<T>, key: T -> Key2): (r: seq<T>)
    ensures |r| == |s| + 1
    ensures multiset(r) == multiset(s) + multiset{x}
  {
    if s == [] then [x]
    else if !KeyLe(key(s[0]), key(x)) then
      [x] + s
    else
      assert s == [s[0]] + s[1..];
      [s[0]] + Insert(x, s[1..], key)
  }

  /** Insertion keeps a lower bound that `x` also respects. */
  lemma {:induction false} InsertAbove<T>(x: T, s: seq<T>, key: T -> Key2, lo: Key2)
    requires AllAbove(lo, s, key) && KeyLe(lo, key(x))
    ensures AllAbove(lo, Insert(x, s, key), key)
    decreases |s|
  {
    if s != [] && KeyLe(key(s[0]), key(x)) {
      assert AllAbove(lo, s[1..], key) by {
        forall k | 0 <= k < |s[1..]|
          ensures KeyLe(lo, key(s[1..][k]))
        {
          assert s[1..][k] == s[k + 1];
        }
      }
      InsertAbove(x, s[1..], key, lo);
    }
  }

  /** Insertion into a sorted list keeps it sorted. */
  lemma {:induction false} InsertSorted<T>(x: T, s: seq<T>, key: T -> Key2)
    requires Sorted(s, key)
    ensures Sorted(Insert(x, s, key), key)
    decreases |s|
  {
    if s != [] && KeyLe(key(s[0]), key(x)) {
      var rest := Insert(x, s[1..], key);
      assert Sorted(s[1..], key) && AllAbove(key(s[0]), s[1..], key) by {
        forall k | 0 <= k < |s[1..]|
          ensures s[1..][k] == s[k + 1]
        {
        }
      }
      InsertSorted(x, s[1..], key);
      InsertAbove(x, s[1..], key, key(s[0]));
      ConsSorted(s[0], rest, key);
    }
  }

  lemma ConsSorted<T>(y: T, s: seq<T>, key: T -> Key2)
    requires Sorted(s, key) && AllAbove(key(y), s, key)
    ensures Sorted([y] + s, key)
  {
    forall i, j | 0 <= i < j < |[y] + s|
      ensures KeyLe(key(([y] + s)[i]), key(([y] + s)[j]))
    {
      if i > 0 {
        assert ([y] + s)[i] == s[i - 1];
      }
      assert ([y] + s)[j] == s[j - 1];
    }
  }

  function Sort<T(==)>(s: seq<T>, key: T -> Key2): (r: seq<T>)
    ensures |r| == |s|
    ensures multiset(r) == multiset(s)
    ensures Sorted(r, key)
  {
    if s == [] then []
    else
      var init := s[..|s| - 1];
      assert s == init + [s[|s| - 1]];
      InsertSorted(s[|s| - 1], Sort(init, key), key);
      Insert(s[|s| - 1], Sort(init, key), key)
  }
}

=== FILE: text.dfy ===
/** The string primitives the container front-ends and the cider server
    rely on, as JavaScript's `String.prototype` and Go's `strings` package
    define them on sequences of characters: prefix and suffix tests,
    substring search, splitting and joining, whitespace trimming and
    ASCII lower-casing. */
module Text {

  predicate StartsWith(s: string, p: string) {
    |p| <= |s| && s[..|p|] == p
  }

  predicate EndsWith(s: string, p: string) {
    |p| <= |s| && s[|s| - |p|..] == p
  }

  /** Text put in front keeps a prefix and a suffix. */
  lemma StartsWithFront(a: string, s: string, p: string)
    requires StartsWith(s, p)
    ensures StartsWith(a + s, a + p)
  {
    assert (a + s)[..|a + p|] == a + s[..|p|];
  }

  lemma EndsWithFront(a: string, s: string, q: string)
    requires EndsWith(s, q)
    ensures EndsWith(a + s, q)
  {
    assert (a + s)[|a + s| - |q|..] == s[|s| - |q|..];
  }

  /** `p` occurs in `s` starting at index `i`. */
  predicate OccursAt(s: string, p: string, i: int) {
    0 <= i && i + |p| <= |s| && s[i..i + |p|] == p
  }

  /** `s.includes(p)` / `strings.Contains(s, p)`. */
  predicate Contains(s: string, p: string)
    decreases |s|
  {
    StartsWith(s, p) || (|s| > 0 && Contains(s[1..], p))
  }

  /** The search finds `p` exactly when it occurs at some index. */
  lemma {:induction false} ContainsAt(s: string, p: string)
    ensures Contains(s, p) <==> exists i :: OccursAt(s, p, i)
    decreases |s|
  {
    if StartsWith(s, p) {
      assert OccursAt(s, p, 0);
    }
    if |s| > 0 {
      ContainsAt(s[1..], p);
      if exists i :: OccursAt(s[1..], p, i) {
        var i :| OccursAt(s[1..], p, i);
        assert s[1..][i..i + |p|] == s[i + 1..i + 1 + |p|];
        assert OccursAt(s, p, i + 1);
      }
      if exists i :: OccursAt(s, p, i) {
        var i :| OccursAt(s, p, i);
        if i > 0 {
          assert s[1..][i - 1..i - 1 + |p|] == s[i..i + |p|];
          assert OccursAt(s[1..], p, i - 1);
        }
      }
    }
  }

  /** A string containing `p` at a known index contains it. */
  lemma ContainsWitness(s: string, p: string, i: int)
    requires OccursAt(s, p, i)
    ensures Contains(s, p)
  {
    ContainsAt(s, p);
  }

  /** `s.indexOf(c)`: the first index holding `c`, or -1. */
  function IndexOf(s: string, c: char): (r: int)
    ensures -1 <= r < |s|
    ensures r >= 0 ==> s[r] == c && c !in s[..r]
    ensures r == -1 <==> c !in s
  {
    if |s| == 0 then -1
    else if s[0] == c then 0
    else
      var k := IndexOf(s[1..], c);
      assert s[1..][..k + 1] == s[1..k + 2] by { if k >= 0 { } }
      if k < 0 then -1 else k + 1
  }

  /** `s.lastIndexOf(c)`: the last index holding `c`, or -1. */
  function LastIndexOf(s: string, c: char): (r: int)
    ensures -1 <= r < |s|
    ensures r >= 0 ==> s[r] == c && c !in s[r + 1..]
    ensures r == -1 <==> c !in s
  {
    if |s| == 0 then -1
    else if s[|s| - 1] == c then |s| - 1
    else
      var init := s[..|s| - 1];
      var k := LastIndexOf(init, c);
      assert s == init + [s[|s| - 1]];
      assert k >= 0 ==> s[k + 1..] == init[k + 1..] + [s[|s| - 1]];
      k
  }

  /** The first occurrence of `c` is the one after a prefix free of it. */
  lemma IndexOfAfter(a: string, c: char, b: string)
    requires c !in a
    ensures IndexOf(a + [c] + b, c) == |a|
  {
    var s := a + [c] + b;
    assert s[|a|] == c;
    assert s[..|a|] == a;
  }

  /** The last occurrence of `c` is the one before a suffix free of it. */
  lemma LastIndexOfBefore(a: string, c: char, b: string)
    requires c !in b
    ensures LastIndexOf(a + [c] + b, c) == |a|
  {
    var s := a + [c] + b;
    assert s[|a|] == c;
    assert s[|a| + 1..] == b;
  }

  /** `ps.join(sep)` / `strings.Join(ps, sep)`. */
  function Join(ps: seq<string>, sep: string): string {
    if |ps| == 0 then ""
    else if |ps| == 1 then ps[0]
    else ps[0] + sep + Join(ps[1..], sep)
  }

  /** `s` is the text before index `i`, the character there and the text
      after it. */
  lemma CutAt(s: string, i: nat)
    requires i < |s|
    ensures s == s[..i] + [s[i]] + s[i + 1..]
  {
  }

  /** Joining a piece in front of a non-empty list puts one separator
      between it and the rest. */
  lemma JoinCons(p: string, ps: seq<string>, sep: string)
    requires |ps| >= 1
    ensures Join([p] + ps, sep) == p + sep + Join(ps, sep)
  {
    assert ([p] + ps)[1..] == ps;
  }

  /** An occurrence stays an occurrence when text is added around it. */
  lemma OccursShift(a: string, s: string, b: string, p: string, i: int)
    requires OccursAt(s, p, i)
    ensures OccursAt(a + s + b, p, |a| + i)
  {
    assert (a + s + b)[|a| + i..|a| + i + |p|] == s[i..i + |p|];
  }

  /** Every piece of a join occurs in it. */
  lemma {:induction false} JoinOccurs(ps: seq<string>, sep: string, k: int) returns (i: int)
    requires 0 <= k < |ps|
    ensures OccursAt(Join(ps, sep), ps[k], i)
  {
    if |ps| == 1 {
      i := 0;
      assert Join(ps, sep)[0..|ps[0]|] == ps[0];
    } else if k == 0 {
      i := 0;
      OccursShift([], ps[0], sep + Join(ps[1..], sep), ps[0], 0);
      assert [] + ps[0] + (sep + Join(ps[1..], sep)) == Join(ps, sep);
    } else {
      var j := JoinOccurs(ps[1..], sep, k - 1);
      OccursShift(ps[0] + sep, Join(ps[1..], sep), [], ps[k], j);
      assert ps[0] + sep + Join(ps[1..], sep) + [] == Join(ps, sep);
      i := |ps[0] + sep| + j;
    }
  }

  /** `s.split(d)` / `strings.Split(s, string(d))` for a one-character
      separator: the maximal pieces between separators, at least one. */
  function Split(s: string, d: char): (r: seq<string>)
    ensures |r| >= 1
    ensures forall k :: 0 <= k < |r| ==> d !in r[k]
    decreases |s|
  {
    var i := IndexOf(s, d);
    if i < 0 then [s]
    else [s[..i]] + Split(s[i + 1..], d)
  }

  /** Splitting loses nothing: joining the pieces with the separator gives
      the string back. */
  lemma {:induction false} JoinSplit(s: string, d: char)
    ensures Join(Split(s, d), [d]) == s
    decreases |s|
  {
    var i := IndexOf(s, d);
    if i >= 0 {
      var rest := Split(s[i + 1..], d);
      JoinSplit(s[i + 1..], d);
      JoinCons(s[..i], rest, [d]);
      CutAt(s, i);
    }
  }

  /** Joining pieces free of the separator and splitting again gives the
      pieces back. */
  lemma {:induction false} SplitJoin(ps: seq<string>, d: char)
    requires |ps| >= 1
    requires forall k :: 0 <= k < |ps| ==> d !in ps[k]
    ensures Split(Join(ps, [d]), d) == ps
  {
    if |ps| > 1 {
      var rest := Join(ps[1..], [d]);
      var s := ps[0] + [d] + rest;
      assert Join(ps, [d]) == s;
      var n := |ps[0]|;
      IndexOfAfter(ps[0], d, rest);
      assert s[..n] == ps[0];
      assert s[n + 1..] == rest;
      assert Split(s, d) == [ps[0]] + Split(rest, d);
      SplitJoin(ps[1..], d);
      assert ps == [ps[0]] + ps[1..];
    }
  }

  /** The characters JavaScript's `trim` strips and its `\s` matches:
      the white space and line terminators of section 12.2 and 12.3 of
      ECMA-262 (the space separators of Unicode category Zs included). */
  predicate IsSpace(c: char) {
    c == ' ' || c == '\t' || c == '\n' || c == '\r' || c == '\U{000B}' || c == '\U{000C}'
    || c == '\U{00A0}' || c == '\U{1680}'
    || c == '\U{2000}' || c == '\U{2001}' || c == '\U{2002}' || c == '\U{2003}'
    || c == '\U{2004}' || c == '\U{2005}' || c == '\U{2006}' || c == '\U{2007}'
    || c == '\U{2008}' || c == '\U{2009}' || c == '\U{200A}'
    || c == '\U{2028}' || c == '\U{2029}' || c == '\U{202F}' || c == '\U{205F}'
    || c == '\U{3000}' || c == '\U{FEFF}'
  }

  predicate AllSpace(s: string) {
    forall k :: 0 <= k < |s| ==> IsSpace(s[k])
  }

  predicate NoSpace(s: string) {
    forall k :: 0 <= k < |s| ==> !IsSpace(s[k])
  }

  /** Non-empty words free of white space. */
  predicate Words(ws: seq<string>) {
    ws == [] || (ws[0] != [] && NoSpace(ws[0]) && Words(ws[1..]))
  }

  /** Neither end of `s` is white space. */
  predicate Trimmed(s: string) {
    s == [] || (!IsSpace(s[0]) && !IsSpace(s[|s| - 1]))
  }

  /** The start of the run of white space that ends at `j`. */
  function SpaceRunStart(s: string, j: nat): (i: nat)
    requires j <= |s|
    ensures i <= j
    ensures forall k :: i <= k < j ==> IsSpace(s[k])
    ensures i == 0 || !IsSpace(s[i - 1])
  {
    if j > 0 && IsSpace(s[j - 1]) then SpaceRunStart(s, j - 1) else j
  }

  /** `s.trim()`: `s` with the white space at both ends removed, and
      nothing else. */
  function Trim(s: string): (r: string)
    ensures Trimmed(r)
    ensures exists i :: 0 <= i && i + |r| <= |s| && s[i..i + |r|] == r && AllSpace(s[..i]) && AllSpace(s[i + |r|..])
    ensures r == "" <==> AllSpace(s)
  {
    var n := SpaceRunEnd(s, 0);
    var m := SpaceRunStart(s, |s|);
    assert n < |s| ==> n < m;
    if m <= n then
      assert AllSpace(s[..n]) && AllSpace(s[n..]);
      ""
    else
      assert AllSpace(s[..n]) && AllSpace(s[m..]);
      assert s[n..m][0] == s[n] && s[n..m][m - n - 1] == s[m - 1];
      s[n..m]
  }

  /** Trimming twice changes nothing more. */
  lemma TrimIdempotent(s: string)
    ensures Trim(Trim(s)) == Trim(s)
  {
  }

  /** The first white-space index of `s`, or -1. */
  function FirstSpace(s: string): (r: int)
    ensures -1 <= r < |s|
    ensures r >= 0 ==> IsSpace(s[r]) && NoSpace(s[..r])
    ensures r == -1 <==> NoSpace(s)
  {
    if |s| == 0 then -1
    else if IsSpace(s[0]) then 0
    else
      var k := FirstSpace(s[1..]);
      assert k >= 0 ==> s[..k + 1] == [s[0]] + s[1..][..k];
      assert k < 0 ==> s == [s[0]] + s[1..];
      if k < 0 then -1 else k + 1
  }

  /** The end of the run of white space that starts at `i`. */
  function SpaceRunEnd(s: string, i: nat): (j: nat)
    requires i <= |s|
    ensures i <= j <= |s|
    ensures forall k :: i <= k < j ==> IsSpace(s[k])
    ensures j == |s| || !IsSpace(s[j])
    decreases |s| - i
  {
    if i < |s| && IsSpace(s[i]) then SpaceRunEnd(s, i + 1) else i
  }

  /** `s.split(/\s+/)`: the pieces between maximal runs of white space; an
      empty piece stands before leading and after trailing white space. */
  function Fields(s: string): (r: seq<string>)
    ensures |r| >= 1
    ensures forall k :: 0 <= k < |r| ==> NoSpace(r[k])
    decreases |s|
  {
    var i := FirstSpace(s);
    if i < 0 then [s]
    else [s[..i]] + Fields(s[SpaceRunEnd(s, i)..])
  }

  /** The text left after the first `n` fields and the white space that
      follows each. */
  function SkipFields(s: string, n: nat): (r: string)
    ensures |r| <= |s|
    decreases n
  {
    if n == 0 then s
    else
      var i := FirstSpace(s);
      if i < 0 then "" else SkipFields(s[SpaceRunEnd(s, i)..], n - 1)
  }

  /** In a word, a run of white space and text starting with a non-space,
      the first white space ends the word and its run ends at the text. */
  lemma GapAfterWord(s: string, w: string, gap: string, tail: string)
    requires s == w + gap + tail
    requires NoSpace(w) && gap != [] && AllSpace(gap)
    requires tail != [] && !IsSpace(tail[0])
    ensures FirstSpace(s) == |w| && SpaceRunEnd(s, |w|) == |w| + |gap|
    ensures s[..|w|] == w && s[|w| + |gap|..] == tail
  {
    FirstSpaceOfGap(s, w, gap, tail);
    ThreeParts(s, w, gap, tail);
    SpaceRunOfGap(s, w, gap, tail);
  }

  lemma FirstSpaceOfGap(s: string, w: string, gap: string, tail: string)
    requires s == w + gap + tail
    requires NoSpace(w) && gap != [] && IsSpace(gap[0])
    ensures FirstSpace(s) == |w|
  {
    assert s == w + [gap[0]] + (gap[1..] + tail);
    FirstSpaceAfter(w, gap[0], gap[1..] + tail);
  }

  lemma SpaceRunOfGap(s: string, w: string, gap: string, tail: string)
    requires s == w + gap + tail
    requires AllSpace(gap)
    requires tail != [] && !IsSpace(tail[0])
    ensures SpaceRunEnd(s, |w|) == |w| + |gap|
  {
    ThreeParts(s, w, gap, tail);
    assert s[|w| + |gap|] == tail[0];
    SpaceRunTo(s, |w|, |w| + |gap|);
  }

  /** Where the parts of a three-part concatenation sit. */
  lemma ThreeParts(s: string, a: string, b: string, c: string)
    requires s == a + b + c
    ensures s[..|a|] == a && s[|a| + |b|..] == c
    ensures forall k :: |a| <= k < |a| + |b| ==> s[k] == b[k - |a|]
  {
  }

  /** A run of white space from `i` that stops at a non-space at `m` ends
      at `m`. */
  lemma {:induction false} SpaceRunTo(s: string, i: nat, m: nat)
    requires i <= m < |s|
    requires forall k :: i <= k < m ==> IsSpace(s[k])
    requires !IsSpace(s[m])
    ensures SpaceRunEnd(s, i) == m
    decreases m - i
  {
    if i < m {
      SpaceRunTo(s, i + 1, m);
    }
  }

  /** A word, a run of white space and text starting with a non-space
      split into the word and the fields of that text. */
  lemma FieldsCons(s: string, w: string, gap: string, tail: string)
    requires s == w + gap + tail
    requires NoSpace(w) && gap != [] && AllSpace(gap)
    requires tail != [] && !IsSpace(tail[0])
    ensures Fields(s) == [w] + Fields(tail)
  {
    GapAfterWord(s, w, gap, tail);
  }

  /** Skipping one more field past a word and its white space is skipping
      in the text after them. */
  lemma SkipCons(s: string, w: string, gap: string, tail: string, n: nat)
    requires s == w + gap + tail
    requires NoSpace(w) && gap != [] && AllSpace(gap)
    requires tail != [] && !IsSpace(tail[0])
    ensures SkipFields(s, n + 1) == SkipFields(tail, n)
  {
    GapAfterWord(s, w, gap, tail);
  }

  /** Non-empty words free of white space, joined by single spaces, split
      back into the same words. */
  lemma {:induction false} FieldsJoin(ws: seq<string>)
    requires |ws| >= 1
    requires Words(ws)
    ensures Fields(Join(ws, " ")) == ws
  {
    if |ws| > 1 {
      var rest := Join(ws[1..], " ");
      assert Join(ws, " ") == ws[0] + " " + rest;
      FieldsJoinHead(ws[1..]);
      FieldsCons(Join(ws, " "), ws[0], " ", rest);
      FieldsJoin(ws[1..]);
      assert ws == [ws[0]] + ws[1..];
    }
  }

  /** The first white space is the one after a prefix free of it. */
  lemma FirstSpaceAfter(a: string, c: char, b: string)
    requires NoSpace(a) && IsSpace(c)
    ensures FirstSpace(a + [c] + b) == |a|
  {
    var s := a + [c] + b;
    assert s[|a|] == c;
    assert s[..|a|] == a;
  }

  /** A join of such words begins with the first word's first character. */
  lemma FieldsJoinHead(ws: seq<string>)
    requires |ws| >= 1 && ws[0] != []
    ensures Join(ws, " ") != [] && Join(ws, " ")[0] == ws[0][0]
  {
  }

  /** JavaScript's `toLowerCase` on ASCII letters. */
  function LowerChar(c: char): char {
    if 'A' <= c <= 'Z' then (c as int + 32) as char else c
  }

  function Lower(s: string): (r: string)
    ensures |r| == |s|
    ensures forall k :: 0 <= k < |s| ==> r[k] == LowerChar(s[k])
  {
    seq(|s|, k requires 0 <= k < |s| => LowerChar(s[k]))
  }

  /** Lower-casing a lower-cased string changes nothing. */
  lemma LowerIdempotent(s: string)
    ensures Lower(Lower(s)) == Lower(s)
  {
  }

  /** `s.replace(p, q)` with a string pattern: the first occurrence of `p`
      replaced by `q`; `s` itself when `p` does not occur. */
  function ReplaceFirst(s: string, p: string, q: string): (r: string)
    decreases |s|
  {
    if StartsWith(s, p) then q + s[|p|..]
    else if |s| == 0 then s
    else [s[0]] + ReplaceFirst(s[1..], p, q)
  }

  /** `if (s.startsWith(p)) s = s.replace(p, "")`: the prefix removed when
      present, the string unchanged otherwise. */
  function StripPrefix(s: string, p: string): (r: string)
    ensures StartsWith(s, p) ==> p + r == s
    ensures !StartsWith(s, p) ==> r == s
  {
    if StartsWith(s, p) then ReplaceFirst(s, p, "") else s
  }

  function TrimCharStart(s: string, c: char): (r: string)
    ensures |r| <= |s| && r == s[|s| - |r|..]
    ensures r == [] || r[0] != c
  {
    if |s| > 0 && s[0] == c then TrimCharStart(s[1..], c) else s
  }

  function TrimCharEnd(s: string, c: char): (r: string)
    ensures |r| <= |s| && r == s[..|r|]
    ensures r == [] || r[|r| - 1] != c
  {
    if |s| > 0 && s[|s| - 1] == c then TrimCharEnd(s[..|s| - 1], c) else s
  }

  /** `strings.Trim(s, string(c))`: every leading and trailing `c` removed. */
  function TrimChar(s: string, c: char): (r: string)
    ensures r == [] || (r[0] != c && r[|r| - 1] != c)
    ensures exists i :: OccursAt(s, r, i)
  {
    var t := TrimCharStart(s, c);
    var r := TrimCharEnd(t, c);
    assert OccursAt(s, r, |s| - |t|);
    r
  }

  /** The non-empty strings of `ls`, in order. */
  function NonEmpty(ls: seq<string>): (r: seq<string>)
    ensures forall k :: 0 <= k < |r| ==> r[k] != "" && r[k] in ls
    ensures |r| <= |ls|
  {
    if ls == [] then []
    else (if ls[0] != "" then [ls[0]] else []) + NonEmpty(ls[1..])
  }

  /** Filtering a list without empty strings keeps it whole. */
  lemma {:induction false} NonEmptyKeeps(ls: seq<string>)
    requires forall k :: 0 <= k < |ls| ==> ls[k] != ""
    ensures NonEmpty(ls) == ls
  {
    if ls != [] {
      NonEmptyKeeps(ls[1..]);
    }
  }

  /** Nothing survives the filter in a list of empty strings. */
  lemma {:induction false} NonEmptyOfBlanks(ls: seq<string>)
    requires forall k :: 0 <= k < |ls| ==> ls[k] == ""
    ensures NonEmpty(ls) == []
  {
    if ls != [] {
      NonEmptyOfBlanks(ls[1..]);
    }
  }

  /** The decimal numeral of a natural number. */
  function Decimal(n: nat): (r: string)
    ensures r != ""
  {
    var d := ['0', '1', '2', '3', '4', '5', '6', '7', '8', '9'][n % 10];
    if n < 10 then [d] else Decimal(n / 10) + [d]
  }
}

=== FILE: voxel_mesh.dfy ===
/** The block-face meshes of minecraft/src/minecraft/chunk_terrain.cpp
    (`build_chunk_mesh`) and minecraft/src/minecraft/voxel_terrain.cpp
    (`generate_voxel_part_mesh`). Both files carry the same face table,
    `direction_to_face_index` and `add_face`; both walk a square of columns,
    give each column a top face and, towards every lower (or missing)
    neighbour, one side face per exposed block. They differ only in where a
    column's height is read from, which here is a row-major buffer and its
    row stride. */
module VoxelMesh {

  datatype V3 = V3(x: int, y: int, z: int)

  function Plus(a: V3, b: V3): V3 {
    V3(a.x + b.x, a.y + b.y, a.z + b.z)
  }

  function Minus(a: V3, b: V3): V3 {
    V3(a.x - b.x, a.y - b.y, a.z - b.z)
  }

  function Abs(n: int): nat {
    if n < 0 then -n else n
  }

  /** A unit vector along one of the three axes. */
  predicate IsAxis(d: V3) {
    Abs(d.x) + Abs(d.y) + Abs(d.z) == 1
  }

  datatype UV = UV(u: real, v: real)

  datatype FaceData = FaceData(vertices: seq<V3>, uvs: seq<UV>)

  /** The outward normal of each entry of the face table, in the order of
      the `FaceDirection` enumeration: top, bottom, right, left, front,
      back. */
  const FaceNormals: seq<V3> := [V3(0, 1, 0), V3(0, -1, 0), V3(1, 0, 0), V3(-1, 0, 0), V3(0, 0, 1), V3(0, 0, -1)]

  /** The entries of `face_lookup_arr`: the corners of each face of the
      unit cube, and its cell of the texture atlas. */
  const TopFace := FaceData([V3(0, 1, 0), V3(1, 1, 0), V3(1, 1, 1), V3(0, 1, 1)],
    [UV(0.0, 0.0), UV(0.125, 0.0), UV(0.125, 0.125), UV(0.0, 0.125)])
  const BottomFace := FaceData([V3(0, 0, 0), V3(0, 0, 1), V3(1, 0, 1), V3(1, 0, 0)],
    [UV(0.125, 0.0), UV(0.125, 0.125), UV(0.25, 0.125), UV(0.25, 0.0)])
  const RightFace := FaceData([V3(1, 1, 1), V3(1, 1, 0), V3(1, 0, 0), V3(1, 0, 1)],
    [UV(0.25, 0.0), UV(0.375, 0.0), UV(0.375, 0.125), UV(0.25, 0.125)])
  const LeftFace := FaceData([V3(0, 1, 0), V3(0, 1, 1), V3(0, 0, 1), V3(0, 0, 0)],
    [UV(0.375, 0.0), UV(0.5, 0.0), UV(0.5, 0.125), UV(0.375, 0.125)])
  const FrontFace := FaceData([V3(0, 1, 1), V3(1, 1, 1), V3(1, 0, 1), V3(0, 0, 1)],
    [UV(0.5, 0.0), UV(0.625, 0.0), UV(0.625, 0.125), UV(0.5, 0.125)])
  const BackFace := FaceData([V3(1, 1, 0), V3(0, 1, 0), V3(0, 0, 0), V3(1, 0, 0)],
    [UV(0.625, 0.0), UV(0.75, 0.0), UV(0.75, 0.125), UV(0.625, 0.125)])

  /** `face_lookup_arr`, indexed by `FaceDirection`. */
  const FaceTable: seq<FaceData> := [TopFace, BottomFace, RightFace, LeftFace, FrontFace, BackFace]

  /** `direction_to_face_index`: the table entry facing `dir`, or -1. */
  function DirectionToFaceIndex(dir: V3): (r: int)
    ensures -1 <= r < 6
  {
    if dir == V3(0, 1, 0) then 0
    else if dir == V3(0, -1, 0) then 1
    else if dir == V3(1, 0, 0) then 2
    else if dir == V3(-1, 0, 0) then 3
    else if dir == V3(0, 0, 1) then 4
    else if dir == V3(0, 0, -1) then 5
    else -1
  }

  /** Exactly the six axis directions have a face, and the face found is
      the one whose normal is `dir`: the lookup inverts `FaceNormals`. */
  lemma FaceIndexInverts(dir: V3)
    ensures DirectionToFaceIndex(dir) != -1 <==> IsAxis(dir)
    ensures DirectionToFaceIndex(dir) != -1 ==> FaceNormals[DirectionToFaceIndex(dir)] == dir
    ensures forall i :: 0 <= i < 6 ==> DirectionToFaceIndex(FaceNormals[i]) == i
  {
  }

  /** `off` is a corner of the unit cube on its side facing `n`. */
  predicate CornerOnSide(off: V3, n: V3) {
    0 <= off.x <= 1 && 0 <= off.y <= 1 && 0 <= off.z <= 1 &&
    (n.x == 1 ==> off.x == 1) && (n.x == -1 ==> off.x == 0) &&
    (n.y == 1 ==> off.y == 1) && (n.y == -1 ==> off.y == 0) &&
    (n.z == 1 ==> off.z == 1) && (n.z == -1 ==> off.z == 0)
  }

  /** Four distinct cube corners on the side facing `n`. */
  predicate SquareOnSide(vs: seq<V3>, n: V3) {
    |vs| == 4 &&
    CornerOnSide(vs[0], n) && CornerOnSide(vs[1], n) && CornerOnSide(vs[2], n) && CornerOnSide(vs[3], n) &&
    vs[0] != vs[1] && vs[0] != vs[2] && vs[0] != vs[3] && vs[1] != vs[2] && vs[1] != vs[3] && vs[2] != vs[3]
  }

  function Differs(a: int, b: int): nat {
    if a == b then 0 else 1
  }

  /** Corners that differ in exactly one coordinate: for corners of the
      unit cube, the two ends of one of its edges. */
  predicate Adjacent(a: V3, b: V3) {
    Differs(a.x, b.x) + Differs(a.y, b.y) + Differs(a.z, b.z) == 1
  }

  /** The corners go round the square, so that the triangles `(0, 1, 2)`
      and `(2, 3, 0)` split it along the diagonal from corner 0 to 2. */
  predicate GoesRound(vs: seq<V3>)
    requires |vs| == 4
  {
    Adjacent(vs[0], vs[1]) && Adjacent(vs[1], vs[2]) && Adjacent(vs[2], vs[3]) && Adjacent(vs[3], vs[0])
  }

  predicate InAtlasCell(uv: UV, i: nat) {
    i as real <= 8.0 * uv.u <= (i + 1) as real && 0.0 <= 8.0 * uv.v <= 1.0
  }

  /** A face that is a square of four distinct cube corners on the side
      `n` points to, listed in order round the square, textured inside atlas
      cell `i` of the first row of eighths. */
  predicate FaceOk(f: FaceData, n: V3, i: nat) {
    SquareOnSide(f.vertices, n) && GoesRound(f.vertices) && |f.uvs| == 4 &&
    InAtlasCell(f.uvs[0], i) && InAtlasCell(f.uvs[1], i) && InAtlasCell(f.uvs[2], i) && InAtlasCell(f.uvs[3], i)
  }

  /** Four distinct corners on the side `n`, each sharing an edge with
      the next, textured inside atlas cell `i`, make a face of the cube. */
  lemma CubeFace(f: FaceData, a: V3, b: V3, c: V3, d: V3, p: UV, q: UV, r: UV, s: UV, n: V3, i: nat)
    requires f.vertices == [a, b, c, d] && f.uvs == [p, q, r, s]
    requires CornerOnSide(a, n) && CornerOnSide(b, n) && CornerOnSide(c, n) && CornerOnSide(d, n)
    requires a != b && a != c && a != d && b != c && b != d && c != d
    requires Adjacent(a, b) && Adjacent(b, c) && Adjacent(c, d) && Adjacent(d, a)
    requires InAtlasCell(p, i) && InAtlasCell(q, i) && InAtlasCell(r, i) && InAtlasCell(s, i)
    ensures FaceOk(f, n, i)
  {
    SquareSide(a, b, c, d, n);
    SquareRound(a, b, c, d);
    AtlasOk(f, p, q, r, s, i);
  }

  lemma SquareSide(a: V3, b: V3, c: V3, d: V3, n: V3)
    requires CornerOnSide(a, n) && CornerOnSide(b, n) && CornerOnSide(c, n) && CornerOnSide(d, n)
    requires a != b && a != c && a != d && b != c && b != d && c != d
    ensures SquareOnSide([a, b, c, d], n)
  {
  }

  lemma SquareRound(a: V3, b: V3, c: V3, d: V3)
    requires Adjacent(a, b) && Adjacent(b, c) && Adjacent(c, d) && Adjacent(d, a)
    ensures GoesRound([a, b, c, d])
  {
  }

  lemma AtlasOk(f: FaceData, p: UV, q: UV, r: UV, s: UV, i: nat)
    requires f.uvs == [p, q, r, s]
    requires InAtlasCell(p, i) && InAtlasCell(q, i) && InAtlasCell(r, i) && InAtlasCell(s, i)
    ensures |f.uvs| == 4 && InAtlasCell(f.uvs[0], i) && InAtlasCell(f.uvs[1], i) && InAtlasCell(f.uvs[2], i) && InAtlasCell(f.uvs[3], i)
  {
  }

  /** Every entry of the face table is the face of the unit cube its
      normal points to, and uses its own cell of the atlas. */
  lemma FaceTableGeometry(i: nat)
    requires i < 6
    ensures FaceOk(FaceTable[i], FaceNormals[i], i)
  {
    if i == 0 {
      assert FaceTable[i] == TopFace && FaceNormals[i] == V3(0, 1, 0);
      CubeFace(TopFace, V3(0, 1, 0), V3(1, 1, 0), V3(1, 1, 1), V3(0, 1, 1),
        UV(0.0, 0.0), UV(0.125, 0.0), UV(0.125, 0.125), UV(0.0, 0.125), V3(0, 1, 0), 0);
    } else if i == 1 {
      assert FaceTable[i] == BottomFace && FaceNormals[i] == V3(0, -1, 0);
      CubeFace(BottomFace, V3(0, 0, 0), V3(0, 0, 1), V3(1, 0, 1), V3(1, 0, 0),
        UV(0.125, 0.0), UV(0.125, 0.125), UV(0.25, 0.125), UV(0.25, 0.0), V3(0, -1, 0), 1);
    } else if i == 2 {
      assert FaceTable[i] == RightFace && FaceNormals[i] == V3(1, 0, 0);
      CubeFace(RightFace, V3(1, 1, 1), V3(1, 1, 0), V3(1, 0, 0), V3(1, 0, 1),
        UV(0.25, 0.0), UV(0.375, 0.0), UV(0.375, 0.125), UV(0.25, 0.125), V3(1, 0, 0), 2);
    } else if i == 3 {
      assert FaceTable[i] == LeftFace && FaceNormals[i] == V3(-1, 0, 0);
      CubeFace(LeftFace, V3(0, 1, 0), V3(0, 1, 1), V3(0, 0, 1), V3(0, 0, 0),
        UV(0.375, 0.0), UV(0.5, 0.0), UV(0.5, 0.125), UV(0.375, 0.125), V3(-1, 0, 0), 3);
    } else if i == 4 {
      assert FaceTable[i] == FrontFace && FaceNormals[i] == V3(0, 0, 1);
      CubeFace(FrontFace, V3(0, 1, 1), V3(1, 1, 1), V3(1, 0, 1), V3(0, 0, 1),
        UV(0.5, 0.0), UV(0.625, 0.0), UV(0.625, 0.125), UV(0.5, 0.125), V3(0, 0, 1), 4);
    } else {
      assert FaceTable[i] == BackFace && FaceNormals[i] == V3(0, 0, -1);
      CubeFace(BackFace, V3(1, 1, 0), V3(0, 1, 0), V3(0, 0, 0), V3(1, 0, 0),
        UV(0.625, 0.0), UV(0.75, 0.0), UV(0.75, 0.125), UV(0.625, 0.125), V3(0, 0, -1), 5);
    }
  }

  // ---------------------------------------------------------------------
  // Appending faces

  /** The four arrays `add_face` appends to, and `index_offset`. */
  datatype Mesh = Mesh(vertices: seq<V3>, normals: seq<V3>, uvs: seq<UV>, indices: seq<int>, indexOffset: int)

  const Empty := Mesh([], [], [], [], 0)

  /** A mesh whose `index_offset` counts its vertices, with one normal and
      one texture coordinate per vertex, six indices per four vertices,
      every index naming an existing vertex and every normal an axis. */
  predicate WellFormed(m: Mesh) {
    m.indexOffset == |m.vertices| && |m.normals| == |m.vertices| && |m.uvs| == |m.vertices| &&
    2 * |m.indices| == 3 * |m.vertices| &&
    (forall k :: 0 <= k < |m.indices| ==> 0 <= m.indices[k] < |m.vertices|) &&
    (forall k :: 0 <= k < |m.normals| ==> IsAxis(m.normals[k]))
  }

  /** The body of `add_face` once the face is found: its corners moved to
      `pos`, the normal `dir` four times, its texture coordinates, and the
      two triangles `(0, 1, 2)` and `(2, 3, 0)` over the new vertices. */
  function PutFace(m: Mesh, pos: V3, dir: V3, face: FaceData): (r: Mesh)
    requires |face.vertices| == 4 && |face.uvs| == 4
    ensures |r.vertices| == |m.vertices| + 4 && |r.normals| == |m.normals| + 4 &&
      |r.uvs| == |m.uvs| + 4 && |r.indices| == |m.indices| + 6 &&
      r.indexOffset == m.indexOffset + 4
  {
    var o := m.indexOffset;
    Mesh(m.vertices + [Plus(pos, face.vertices[0]), Plus(pos, face.vertices[1]), Plus(pos, face.vertices[2]), Plus(pos, face.vertices[3])],
         m.normals + [dir, dir, dir, dir],
         m.uvs + face.uvs,
         m.indices + [o + 0, o + 1, o + 2, o + 2, o + 3, o + 0],
         o + 4)
  }

  /** `add_face`: the face of the block at `pos` facing `dir`; nothing
      when `dir` is not an axis direction. */
  function AddFace(m: Mesh, pos: V3, dir: V3): (r: Mesh)
    ensures DirectionToFaceIndex(dir) == -1 ==> r == m
    ensures DirectionToFaceIndex(dir) != -1 ==>
      |r.vertices| == |m.vertices| + 4 && |r.normals| == |m.normals| + 4 &&
      |r.uvs| == |m.uvs| + 4 && |r.indices| == |m.indices| + 6 &&
      r.indexOffset == m.indexOffset + 4
  {
    var f := DirectionToFaceIndex(dir);
    if f == -1 then m
    else
      FaceSizes(f);
      PutFace(m, pos, dir, FaceTable[f])
  }

  lemma FaceSizes(i: nat)
    requires i < 6
    ensures |FaceTable[i].vertices| == 4 && |FaceTable[i].uvs| == 4
  {
  }

  /** The four vertices from position `k` on, relative to `pos`. */
  function Offsets(vs: seq<V3>, k: nat, pos: V3): (r: seq<V3>)
    requires k + 4 <= |vs|
    ensures |r| == 4
  {
    [Minus(vs[k], pos), Minus(vs[k + 1], pos), Minus(vs[k + 2], pos), Minus(vs[k + 3], pos)]
  }

  /** Putting a face keeps what the mesh held and adds the face's corners,
      relative to `pos`, with normal `dir` and indices naming only the new
      vertices. */
  lemma PutFaceAppends(m: Mesh, pos: V3, dir: V3, face: FaceData)
    requires |face.vertices| == 4 && |face.uvs| == 4
    ensures var r := PutFace(m, pos, dir, face);
      r.vertices[..|m.vertices|] == m.vertices && r.normals[..|m.normals|] == m.normals &&
      r.uvs[..|m.uvs|] == m.uvs && r.indices[..|m.indices|] == m.indices &&
      Offsets(r.vertices, |m.vertices|, pos) == face.vertices &&
      (forall k :: |m.normals| <= k < |r.normals| ==> r.normals[k] == dir) &&
      (forall k :: |m.indices| <= k < |r.indices| ==> m.indexOffset <= r.indices[k] < m.indexOffset + 4)
  {
    var r := PutFace(m, pos, dir, face);
    var n := |m.vertices|;
    assert r.vertices[n] == Plus(pos, face.vertices[0]);
    assert r.vertices[n + 1] == Plus(pos, face.vertices[1]);
    assert r.vertices[n + 2] == Plus(pos, face.vertices[2]);
    assert r.vertices[n + 3] == Plus(pos, face.vertices[3]);
  }

  /** A face is appended: everything already in the mesh stays, the four
      new vertices are the corners of table face `DirectionToFaceIndex(dir)`
      moved to `pos` (by `FaceTableGeometry`, the side of the block facing
      `dir`), all four carry the normal `dir`, and the six new indices name
      only the four new vertices. */
  lemma AddFaceAppends(m: Mesh, pos: V3, dir: V3)
    requires DirectionToFaceIndex(dir) != -1
    ensures var r := AddFace(m, pos, dir);
      r.vertices[..|m.vertices|] == m.vertices && r.normals[..|m.normals|] == m.normals &&
      r.uvs[..|m.uvs|] == m.uvs && r.indices[..|m.indices|] == m.indices &&
      Offsets(r.vertices, |m.vertices|, pos) == FaceTable[DirectionToFaceIndex(dir)].vertices &&
      (forall k :: |m.normals| <= k < |r.normals| ==> r.normals[k] == dir) &&
      (forall k :: |m.indices| <= k < |r.indices| ==> m.indexOffset <= r.indices[k] < m.indexOffset + 4)
  {
    var f := DirectionToFaceIndex(dir);
    FaceTableGeometry(f);
    PutFaceAppends(m, pos, dir, FaceTable[f]);
  }

  /** The face `add_face` appends lies on the side of the block at `pos`
      facing `dir`, its corners in order round it. */
  lemma AddFaceOnSide(m: Mesh, pos: V3, dir: V3)
    requires DirectionToFaceIndex(dir) != -1
    ensures var r := AddFace(m, pos, dir);
      |r.vertices| == |m.vertices| + 4 &&
      SquareOnSide(Offsets(r.vertices, |m.vertices|, pos), dir) && GoesRound(Offsets(r.vertices, |m.vertices|, pos))
  {
    var f := DirectionToFaceIndex(dir);
    AddFaceAppends(m, pos, dir);
    assert FaceNormals[f] == dir;
    FaceTableGeometry(f);
  }

  /** Adding a face keeps a mesh well formed. */
  lemma AddFaceKeeps(m: Mesh, pos: V3, dir: V3)
    requires WellFormed(m)
    ensures WellFormed(AddFace(m, pos, dir))
  {
    var r := AddFace(m, pos, dir);
    if DirectionToFaceIndex(dir) != -1 {
      FaceIndexInverts(dir);
      AddFaceAppends(m, pos, dir);
      forall k | 0 <= k < |r.indices|
        ensures 0 <= r.indices[k] < |r.vertices|
      {
        if k < |m.indices| {
          assert r.indices[k] == r.indices[..|m.indices|][k];
        }
      }
      forall k | 0 <= k < |r.normals|
        ensures IsAxis(r.normals[k])
      {
        if k < |m.normals| {
          assert r.normals[k] == r.normals[..|m.normals|][k];
        }
      }
    }
  }

  // ---------------------------------------------------------------------
  // Columns

  /** The flat index of column `(x, z)` in a buffer with rows `stride`
      long. */
  function Cell(stride: nat, x: nat, z: nat): nat {
    x + z * stride
  }

  /** The heights of a `size` square of columns can be read. */
  predicate Readable(size: nat, stride: nat, heights: seq<int>) {
    size == 0 || Cell(stride, size - 1, size - 1) < |heights|
  }

  lemma CellInside(size: nat, stride: nat, heights: seq<int>, x: nat, z: nat)
    requires Readable(size, stride, heights) && x < size && z < size
    ensures Cell(stride, x, z) < |heights|
  {
    assert z * stride <= (size - 1) * stride by {
      var k := size - 1 - z;
      assert (size - 1) * stride == z * stride + k * stride;
    }
  }

  function Height(size: nat, stride: nat, heights: seq<int>, x: nat, z: nat): int
    requires Readable(size, stride, heights) && x < size && z < size
  {
    CellInside(size, stride, heights, x, z);
    heights[Cell(stride, x, z)]
  }

  /** `dirs`: the four side directions, in the order visited. `dx` and `dz`
      are their `x` and `z` components. */
  const Sides: seq<V3> := [V3(-1, 0, 0), V3(1, 0, 0), V3(0, 0, -1), V3(0, 0, 1)]

  /** `neighbor_h`: the height of the column beside `(x, z)` towards side
      `d`, or 0 when that column is outside the square. */
  function NeighbourHeight(size: nat, stride: nat, heights: seq<int>, x: nat, z: nat, d: nat): int
    requires Readable(size, stride, heights) && x < size && z < size && d < 4
  {
    var nx := x + Sides[d].x;
    var nz := z + Sides[d].z;
    if 0 <= nx < size && 0 <= nz < size then Height(size, stride, heights, nx, nz) else 0
  }

  /** The number of side faces towards a neighbour of height `nh`: one per
      block from `nh + 1` up to `h`. */
  function Exposed(h: int, nh: int): nat {
    if h > nh then h - nh else 0
  }

  /** Side faces of column `(x, z)` towards its first `d` sides. */
  function SideFaces(size: nat, stride: nat, heights: seq<int>, x: nat, z: nat, d: nat): nat
    requires Readable(size, stride, heights) && x < size && z < size && d <= 4
  {
    if d == 0 then 0
    else
      SideFaces(size, stride, heights, x, z, d - 1) +
      Exposed(Height(size, stride, heights, x, z), NeighbourHeight(size, stride, heights, x, z, d - 1))
  }

  /** Faces of column `(x, z)`: its top and all its side faces. */
  function ColumnFaces(size: nat, stride: nat, heights: seq<int>, x: nat, z: nat): nat
    requires Readable(size, stride, heights) && x < size && z < size
  {
    1 + SideFaces(size, stride, heights, x, z, |Sides|)
  }

  /** Faces of the first `z` columns of row `x`. */
  function RowFaces(size: nat, stride: nat, heights: seq<int>, x: nat, z: nat): nat
    requires Readable(size, stride, heights) && x < size && z <= size
  {
    if z == 0 then 0 else RowFaces(size, stride, heights, x, z - 1) + ColumnFaces(size, stride, heights, x, z - 1)
  }

  /** Faces of the first `x` rows. */
  function GridFaces(size: nat, stride: nat, heights: seq<int>, x: nat): nat
    requires Readable(size, stride, heights) && x <= size
  {
    if x == 0 then 0 else GridFaces(size, stride, heights, x - 1) + RowFaces(size, stride, heights, x - 1, size)
  }

  // ---------------------------------------------------------------------
  // The faces the column loops ask for, in order

  /** One `add_face(pos, dir)` call. */
  datatype Face = Face(pos: V3, dir: V3)

  /** `add_face` for each of `fs`, in order. */
  function AddFaces(m: Mesh, fs: seq<Face>): Mesh
    decreases |fs|
  {
    if fs == [] then m else AddFace(AddFaces(m, fs[..|fs| - 1]), fs[|fs| - 1].pos, fs[|fs| - 1].dir)
  }

  /** Adding one more face is one more `add_face` call. */
  lemma AddFacesSnoc(m: Mesh, fs: seq<Face>, f: Face)
    ensures AddFaces(m, fs + [f]) == AddFace(AddFaces(m, fs), f.pos, f.dir)
  {
    assert (fs + [f])[..|fs|] == fs;
  }

  /** Adding two runs of faces is adding their concatenation. */
  lemma {:induction false} AddFacesAppend(m: Mesh, a: seq<Face>, b: seq<Face>)
    ensures AddFaces(AddFaces(m, a), b) == AddFaces(m, a + b)
    decreases |b|
  {
    if b == [] {
      assert a + b == a;
    } else {
      var b' := b[..|b| - 1];
      AddFacesAppend(m, a, b');
      assert a + b == (a + b') + [b[|b| - 1]];
      AddFacesSnoc(m, a + b', b[|b| - 1]);
      assert b == b' + [b[|b| - 1]];
      AddFacesSnoc(AddFaces(m, a), b', b[|b| - 1]);
    }
  }

  /** Adding faces keeps a mesh well formed. */
  lemma {:induction false} AddFacesWellFormed(m: Mesh, fs: seq<Face>)
    requires WellFormed(m)
    ensures WellFormed(AddFaces(m, fs))
    decreases |fs|
  {
    if fs != [] {
      var last := fs[|fs| - 1];
      AddFacesWellFormed(m, fs[..|fs| - 1]);
      AddFaceKeeps(AddFaces(m, fs[..|fs| - 1]), last.pos, last.dir);
    }
  }

  /** The side faces towards `dir` of the blocks from height `lo` up to
      `hi`, lowest first. */
  function Climb(x: int, z: int, dir: V3, lo: int, hi: int): (fs: seq<Face>)
    ensures |fs| == Exposed(hi, lo - 1)
    decreases if hi < lo then 0 else hi - lo + 1
  {
    if hi < lo then [] else Climb(x, z, dir, lo, hi - 1) + [Face(V3(x, hi, z), dir)]
  }

  /** `Climb` lists the blocks from `lo` up, one per height. */
  lemma {:induction false} ClimbOrder(x: int, z: int, dir: V3, lo: int, hi: int)
    ensures forall k :: 0 <= k < |Climb(x, z, dir, lo, hi)| ==> Climb(x, z, dir, lo, hi)[k] == Face(V3(x, lo + k, z), dir)
    decreases if hi < lo then 0 else hi - lo + 1
  {
    if hi >= lo {
      ClimbOrder(x, z, dir, lo, hi - 1);
    }
  }

  /** `f` is a side face of column `(x, z)`: towards one of the four sides,
      at a block above that side's neighbour and no higher than the
      column. */
  predicate SideFace(size: nat, stride: nat, heights: seq<int>, x: nat, z: nat, f: Face)
    requires Readable(size, stride, heights) && x < size && z < size
  {
    && f.pos.x == x && f.pos.z == z
    && exists d :: 0 <= d < 4 && f.dir == Sides[d] &&
         NeighbourHeight(size, stride, heights, x, z, d) < f.pos.y <= Height(size, stride, heights, x, z)
  }

  /** The side faces of column `(x, z)` towards its first `d` sides. */
  function SideSteps(size: nat, stride: nat, heights: seq<int>, x: nat, z: nat, d: nat): (fs: seq<Face>)
    requires Readable(size, stride, heights) && x < size && z < size && d <= 4
    ensures |fs| == SideFaces(size, stride, heights, x, z, d)
  {
    if d == 0 then []
    else
      SideSteps(size, stride, heights, x, z, d - 1) +
      Climb(x, z, Sides[d - 1], NeighbourHeight(size, stride, heights, x, z, d - 1) + 1, Height(size, stride, heights, x, z))
  }

  /** Every face `SideSteps` lists is a side face of an exposed block. */
  lemma {:induction false} SideStepsExposed(size: nat, stride: nat, heights: seq<int>, x: nat, z: nat, d: nat)
    requires Readable(size, stride, heights) && x < size && z < size && d <= 4
    ensures forall k :: 0 <= k < |SideSteps(size, stride, heights, x, z, d)| ==>
      SideFace(size, stride, heights, x, z, SideSteps(size, stride, heights, x, z, d)[k])
  {
    if d > 0 {
      SideStepsExposed(size, stride, heights, x, z, d - 1);
      var a := SideSteps(size, stride, heights, x, z, d - 1);
      var c := Climb(x, z, Sides[d - 1], NeighbourHeight(size, stride, heights, x, z, d - 1) + 1, Height(size, stride, heights, x, z));
      ClimbOrder(x, z, Sides[d - 1], NeighbourHeight(size, stride, heights, x, z, d - 1) + 1, Height(size, stride, heights, x, z));
      forall k | 0 <= k < |a + c| ensures SideFace(size, stride, heights, x, z, (a + c)[k]) {
        if k >= |a| {
          assert (a + c)[k] == c[k - |a|];
        }
      }
    }
  }

  /** The faces column `(x, z)` asks for: its top, then its side faces. */
  function ColumnSteps(size: nat, stride: nat, heights: seq<int>, x: nat, z: nat): (fs: seq<Face>)
    requires Readable(size, stride, heights) && x < size && z < size
    ensures |fs| == ColumnFaces(size, stride, heights, x, z)
  {
    [Face(V3(x, Height(size, stride, heights, x, z), z), V3(0, 1, 0))] + SideSteps(size, stride, heights, x, z, |Sides|)
  }

  /** Every face of `fs` points along an axis, so `add_face` appends it. */
  predicate Axes(fs: seq<Face>)
    decreases |fs|
  {
    fs == [] || (Axes(fs[..|fs| - 1]) && DirectionToFaceIndex(fs[|fs| - 1].dir) != -1)
  }

  /** Adding `fs`, all along axes, adds four vertices per face. */
  lemma {:induction false} AddFacesCount(m: Mesh, fs: seq<Face>)
    ensures Axes(fs) ==> |AddFaces(m, fs).vertices| == |m.vertices| + 4 * |fs|
    decreases |fs|
  {
    if fs != [] {
      AddFacesCount(m, fs[..|fs| - 1]);
    }
  }

  /** Two runs of faces along axes join into one. */
  lemma {:induction false} AxesAppend(a: seq<Face>, b: seq<Face>)
    ensures Axes(a) && Axes(b) ==> Axes(a + b)
    decreases |b|
  {
    if b == [] {
      assert a + b == a;
    } else {
      AxesAppend(a, b[..|b| - 1]);
      assert (a + b)[..|a + b| - 1] == a + b[..|b| - 1];
    }
  }

  /** A climb towards a side of the column points along that side. */
  lemma {:induction false} ClimbAxes(x: int, z: int, d: nat, lo: int, hi: int)
    requires d < 4
    ensures Axes(Climb(x, z, Sides[d], lo, hi))
    decreases if hi < lo then 0 else hi - lo + 1
  {
    if hi >= lo {
      ClimbAxes(x, z, d, lo, hi - 1);
      var c := Climb(x, z, Sides[d], lo, hi);
      assert c[..|c| - 1] == Climb(x, z, Sides[d], lo, hi - 1);
    }
  }

  /** The side faces of a column point along the four sides. */
  lemma {:induction false} SideAxes(size: nat, stride: nat, heights: seq<int>, x: nat, z: nat, d: nat)
    requires Readable(size, stride, heights) && x < size && z < size && d <= 4
    ensures Axes(SideSteps(size, stride, heights, x, z, d))
  {
    if d > 0 {
      SideAxes(size, stride, heights, x, z, d - 1);
      ClimbAxes(x, z, d - 1, NeighbourHeight(size, stride, heights, x, z, d - 1) + 1, Height(size, stride, heights, x, z));
      AxesAppend(SideSteps(size, stride, heights, x, z, d - 1),
        Climb(x, z, Sides[d - 1], NeighbourHeight(size, stride, heights, x, z, d - 1) + 1, Height(size, stride, heights, x, z)));
    }
  }

  /** The faces of a column all point along an axis: up, or one of the
      four sides. */
  lemma ColumnAxes(size: nat, stride: nat, heights: seq<int>, x: nat, z: nat)
    requires Readable(size, stride, heights) && x < size && z < size
    ensures Axes(ColumnSteps(size, stride, heights, x, z))
  {
    var top := [Face(V3(x, Height(size, stride, heights, x, z), z), V3(0, 1, 0))];
    assert top[..0] == [];
    assert Axes(top);
    SideAxes(size, stride, heights, x, z, |Sides|);
    AxesAppend(top, SideSteps(size, stride, heights, x, z, |Sides|));
  }

  /** Adding the faces of a column adds four vertices for each. */
  lemma ColumnCount(m0: Mesh, size: nat, stride: nat, heights: seq<int>, x: nat, z: nat)
    requires Readable(size, stride, heights) && x < size && z < size
    ensures |AddFaces(m0, ColumnSteps(size, stride, heights, x, z)).vertices| == |m0.vertices| + 4 * ColumnFaces(size, stride, heights, x, z)
  {
    ColumnAxes(size, stride, heights, x, z);
    AddFacesCount(m0, ColumnSteps(size, stride, heights, x, z));
  }

  /** The block at height `hi` continues a climb. */
  lemma ClimbStep(m0: Mesh, m: Mesh, x: int, z: int, dir: V3, lo: int, hi: int)
    requires lo <= hi && m == AddFaces(m0, Climb(x, z, dir, lo, hi - 1))
    ensures AddFace(m, V3(x, hi, z), dir) == AddFaces(m0, Climb(x, z, dir, lo, hi))
  {
    AddFacesSnoc(m0, Climb(x, z, dir, lo, hi - 1), Face(V3(x, hi, z), dir));
  }

  /** The innermost loop, behind the test `h > neighbor_h`: for `y` from
      `lo` up to `hi`, the side face towards `dir` of the block at height
      `y`. */
  method AddClimb(m0: Mesh, x: int, z: int, dir: V3, lo: int, hi: int) returns (m: Mesh)
    ensures m == AddFaces(m0, Climb(x, z, dir, lo, hi))
  {
    m := m0;
    if hi < lo {
      return;
    }
    var y := lo;
    while y <= hi
      invariant lo <= y <= hi + 1
      invariant m == AddFaces(m0, Climb(x, z, dir, lo, y - 1))
    {
      ClimbStep(m0, m, x, z, dir, lo, y);
      m := AddFace(m, V3(x, y, z), dir);
      y := y + 1;
    }
  }

  /** Side `d` of column `(x, z)` continues the column's run of side
      faces. */
  lemma ColumnStep(m0: Mesh, m: Mesh, size: nat, stride: nat, heights: seq<int>, x: nat, z: nat, d: nat)
    requires Readable(size, stride, heights) && x < size && z < size && d < 4
    requires m == AddFaces(m0, SideSteps(size, stride, heights, x, z, d))
    ensures AddFaces(m, Climb(x, z, Sides[d], NeighbourHeight(size, stride, heights, x, z, d) + 1, Height(size, stride, heights, x, z))) ==
      AddFaces(m0, SideSteps(size, stride, heights, x, z, d + 1))
  {
    AddFacesAppend(m0, SideSteps(size, stride, heights, x, z, d),
      Climb(x, z, Sides[d], NeighbourHeight(size, stride, heights, x, z, d) + 1, Height(size, stride, heights, x, z)));
  }

  /** The top face, then the side faces, are the column's faces. */
  lemma ColumnSplit(m0: Mesh, size: nat, stride: nat, heights: seq<int>, x: nat, z: nat)
    requires Readable(size, stride, heights) && x < size && z < size
    ensures AddFaces(AddFace(m0, V3(x, Height(size, stride, heights, x, z), z), V3(0, 1, 0)), SideSteps(size, stride, heights, x, z, |Sides|)) ==
      AddFaces(m0, ColumnSteps(size, stride, heights, x, z))
  {
    var top := Face(V3(x, Height(size, stride, heights, x, z), z), V3(0, 1, 0));
    AddFacesSnoc(m0, [], top);
    assert [] + [top] == [top];
    AddFacesAppend(m0, [top], SideSteps(size, stride, heights, x, z, |Sides|));
  }

  /** One pass of the column loop body: the top face of column `(x, z)` at
      its height `h`, then, for each side whose neighbour is lower, one
      face per block from `neighbor_h + 1` up to `h`. */
  method AddColumn(m0: Mesh, size: nat, stride: nat, heights: seq<int>, x: nat, z: nat) returns (m: Mesh)
    requires Readable(size, stride, heights) && x < size && z < size
    ensures WellFormed(m0) ==> WellFormed(m)
    ensures |m.vertices| == |m0.vertices| + 4 * ColumnFaces(size, stride, heights, x, z)
    ensures m == AddFaces(m0, ColumnSteps(size, stride, heights, x, z))
  {
    var h := Height(size, stride, heights, x, z);
    m := AddFace(m0, V3(x, h, z), V3(0, 1, 0));
    ghost var withTop := m;
    var d: nat := 0;
    while d < 4
      invariant d <= 4
      invariant m == AddFaces(withTop, SideSteps(size, stride, heights, x, z, d))
    {
      var nh := NeighbourHeight(size, stride, heights, x, z, d);
      ColumnStep(withTop, m, size, stride, heights, x, z, d);
      m := AddClimb(m, x, z, Sides[d], nh + 1, h);
      d := d + 1;
    }
    ColumnSplit(m0, size, stride, heights, x, z);
    if WellFormed(m0) {
      AddFacesWellFormed(m0, ColumnSteps(size, stride, heights, x, z));
    }
    ColumnCount(m0, size, stride, heights, x, z);
  }

  /** The faces of the first `z` columns of row `x`. */
  function RowSteps(size: nat, stride: nat, heights: seq<int>, x: nat, z: nat): (fs: seq<Face>)
    requires Readable(size, stride, heights) && x < size && z <= size
    ensures |fs| == RowFaces(size, stride, heights, x, z)
  {
    if z == 0 then [] else RowSteps(size, stride, heights, x, z - 1) + ColumnSteps(size, stride, heights, x, z - 1)
  }

  /** Column `z` continues row `x`'s run of faces. */
  lemma RowStep(m0: Mesh, m: Mesh, size: nat, stride: nat, heights: seq<int>, x: nat, z: nat)
    requires Readable(size, stride, heights) && x < size && z < size
    requires m == AddFaces(m0, RowSteps(size, stride, heights, x, z))
    ensures AddFaces(m, ColumnSteps(size, stride, heights, x, z)) == AddFaces(m0, RowSteps(size, stride, heights, x, z + 1))
  {
    AddFacesAppend(m0, RowSteps(size, stride, heights, x, z), ColumnSteps(size, stride, heights, x, z));
  }

  /** The faces of the first `z` columns of row `x` all point along an axis. */
  lemma {:induction false} RowAxes(size: nat, stride: nat, heights: seq<int>, x: nat, z: nat)
    requires Readable(size, stride, heights) && x < size && z <= size
    ensures Axes(RowSteps(size, stride, heights, x, z))
  {
    if z > 0 {
      RowAxes(size, stride, heights, x, z - 1);
      ColumnAxes(size, stride, heights, x, z - 1);
      AxesAppend(RowSteps(size, stride, heights, x, z - 1), ColumnSteps(size, stride, heights, x, z - 1));
    }
  }

  /** Adding the faces of a row keeps a mesh well formed and adds four
      vertices for each. */
  lemma RowMesh(m0: Mesh, size: nat, stride: nat, heights: seq<int>, x: nat)
    requires Readable(size, stride, heights) && x < size
    ensures WellFormed(m0) ==> WellFormed(AddFaces(m0, RowSteps(size, stride, heights, x, size)))
    ensures |AddFaces(m0, RowSteps(size, stride, heights, x, size)).vertices| == |m0.vertices| + 4 * RowFaces(size, stride, heights, x, size)
  {
    if WellFormed(m0) {
      AddFacesWellFormed(m0, RowSteps(size, stride, heights, x, size));
    }
    RowAxes(size, stride, heights, x, size);
    AddFacesCount(m0, RowSteps(size, stride, heights, x, size));
  }

  /** The inner loop: every column of row `x` in turn. */
  method AddRow(m0: Mesh, size: nat, stride: nat, heights: seq<int>, x: nat) returns (m: Mesh)
    requires Readable(size, stride, heights) && x < size
    ensures WellFormed(m0) ==> WellFormed(m)
    ensures |m.vertices| == |m0.vertices| + 4 * RowFaces(size, stride, heights, x, size)
    ensures m == AddFaces(m0, RowSteps(size, stride, heights, x, size))
  {
    m := m0;
    var z: nat := 0;
    while z < size
      invariant z <= size
      invariant m == AddFaces(m0, RowSteps(size, stride, heights, x, z))
    {
      RowStep(m0, m, size, stride, heights, x, z);
      m := AddColumn(m, size, stride, heights, x, z);
      z := z + 1;
    }
    assert z == size;
    RowMesh(m0, size, stride, heights, x);
  }

  /** The faces of the first `x` rows. */
  function GridSteps(size: nat, stride: nat, heights: seq<int>, x: nat): (fs: seq<Face>)
    requires Readable(size, stride, heights) && x <= size
    ensures |fs| == GridFaces(size, stride, heights, x)
  {
    if x == 0 then [] else GridSteps(size, stride, heights, x - 1) + RowSteps(size, stride, heights, x - 1, size)
  }

  /** Row `x` continues the run of faces of the rows before it. */
  lemma GridStep(m0: Mesh, m: Mesh, size: nat, stride: nat, heights: seq<int>, x: nat)
    requires Readable(size, stride, heights) && x < size
    requires m == AddFaces(m0, GridSteps(size, stride, heights, x))
    ensures AddFaces(m, RowSteps(size, stride, heights, x, size)) == AddFaces(m0, GridSteps(size, stride, heights, x + 1))
  {
    AddFacesAppend(m0, GridSteps(size, stride, heights, x), RowSteps(size, stride, heights, x, size));
  }

  /** The outer loop: every row in turn. */
  method AddRows(m0: Mesh, size: nat, stride: nat, heights: seq<int>) returns (m: Mesh)
    requires Readable(size, stride, heights)
    ensures |m.vertices| == |m0.vertices| + 4 * GridFaces(size, stride, heights, size)
    ensures m == AddFaces(m0, GridSteps(size, stride, heights, size))
  {
    m := m0;
    var x: nat := 0;
    while x < size
      invariant x <= size
      invariant |m.vertices| == |m0.vertices| + 4 * GridFaces(size, stride, heights, x)
      invariant m == AddFaces(m0, GridSteps(size, stride, heights, x))
    {
      GridStep(m0, m, size, stride, heights, x);
      m := AddRow(m, size, stride, heights, x);
      x := x + 1;
    }
    assert x == size;
  }

  /** The column loops shared by `build_chunk_mesh` and
      `generate_voxel_part_mesh`: a `size` square of columns whose heights
      are read at `x + z * stride`. The result is the empty mesh with the
      columns' faces added in the loops' order; it is well formed and holds
      four vertices for each face the columns expose. */
  method BuildColumns(size: nat, stride: nat, heights: seq<int>) returns (m: Mesh)
    requires Readable(size, stride, heights)
    ensures WellFormed(m)
    ensures |m.vertices| == 4 * GridFaces(size, stride, heights, size)
    ensures m == AddFaces(Empty, GridSteps(size, stride, heights, size))
  {
    m := AddRows(Empty, size, stride, heights);
    AddFacesWellFormed(Empty, GridSteps(size, stride, heights, size));
  }

  /** `build_chunk_mesh(size)`: `get_height(x, z)` reads the terrain buffer
      at `x + z * terrain_len_x`. */
  method BuildChunkMesh(size: nat, lenX: nat, heights: seq<int>) returns (m: Mesh)
    requires Readable(size, lenX, heights)
    ensures WellFormed(m)
    ensures |m.vertices| == 4 * GridFaces(size, lenX, heights, size)
    ensures m == AddFaces(Empty, GridSteps(size, lenX, heights, size))
  {
    m := BuildColumns(size, lenX, heights);
  }

  /** `generate_voxel_part_mesh`: the height buffer is requested
      `part_size + 2` columns wide and read, as written, with row stride
      `part_size`. */
  method VoxelPartMesh(partSize: nat, heights: seq<int>) returns (m: Mesh)
    requires |heights| == (partSize + 2) * (partSize + 2)
    ensures Readable(partSize, partSize, heights)
    ensures WellFormed(m)
    ensures |m.vertices| == 4 * GridFaces(partSize, partSize, heights, partSize)
    ensures m == AddFaces(Empty, GridSteps(partSize, partSize, heights, partSize))
  {
    assert Readable(partSize, partSize, heights) by {
      if partSize > 0 {
        assert (partSize + 2) * (partSize + 2) == partSize * partSize + 4 * partSize + 4;
        assert Cell(partSize, partSize - 1, partSize - 1) == partSize * partSize - 1;
      }
    }
    m := BuildColumns(partSize, partSize, heights);
  }

  // ---------------------------------------------------------------------
  // A flat square

  /** All heights of the square equal `c`. */
  predicate Flat(size: nat, stride: nat, heights: seq<int>, c: int)
    requires Readable(size, stride, heights)
  {
    forall x: nat, z: nat :: x < size && z < size ==> Height(size, stride, heights, x, z) == c
  }

  function B(b: bool): nat {
    if b then 1 else 0
  }

  /** The number of sides of column `(x, z)` that leave the square. */
  function OuterSides(size: nat, x: nat, z: nat): nat {
    B(x == 0) + B(x == size - 1) + B(z == 0) + B(z == size - 1)
  }

  /** Whether side `d` of column `(x, z)` leaves the square. */
  function OuterSide(size: nat, x: nat, z: nat, d: nat): bool {
    if d == 0 then x == 0
    else if d == 1 then x == size - 1
    else if d == 2 then z == 0
    else z == size - 1
  }

  /** On a flat square a side exposes `c` faces exactly when it leaves the
      square. */
  lemma FlatSide(size: nat, stride: nat, heights: seq<int>, c: nat, x: nat, z: nat, d: nat)
    requires Readable(size, stride, heights) && x < size && z < size && d < 4 && Flat(size, stride, heights, c)
    ensures Exposed(Height(size, stride, heights, x, z), NeighbourHeight(size, stride, heights, x, z, d))
      == c * B(OuterSide(size, x, z, d))
  {
    var nx := x + Sides[d].x;
    var nz := z + Sides[d].z;
    assert Height(size, stride, heights, x, z) == c;
    if 0 <= nx < size && 0 <= nz < size {
      assert Height(size, stride, heights, nx, nz) == c;
    }
  }

  lemma Distribute4(c: nat, a: nat, b: nat, d: nat, e: nat)
    ensures c * a + c * b + c * d + c * e == c * (a + b + d + e)
  {
  }

  lemma FlatColumn(size: nat, stride: nat, heights: seq<int>, c: nat, x: nat, z: nat)
    requires Readable(size, stride, heights) && x < size && z < size && Flat(size, stride, heights, c)
    ensures ColumnFaces(size, stride, heights, x, z) == 1 + c * OuterSides(size, x, z)
  {
    var b0, b1, b2, b3 := B(OuterSide(size, x, z, 0)), B(OuterSide(size, x, z, 1)), B(OuterSide(size, x, z, 2)), B(OuterSide(size, x, z, 3));
    assert SideFaces(size, stride, heights, x, z, 1) == c * b0 by {
      FlatSide(size, stride, heights, c, x, z, 0);
    }
    assert SideFaces(size, stride, heights, x, z, 2) == c * b0 + c * b1 by {
      FlatSide(size, stride, heights, c, x, z, 1);
    }
    assert SideFaces(size, stride, heights, x, z, 3) == c * b0 + c * b1 + c * b2 by {
      FlatSide(size, stride, heights, c, x, z, 2);
    }
    assert SideFaces(size, stride, heights, x, z, 4) == c * b0 + c * b1 + c * b2 + c * b3 by {
      FlatSide(size, stride, heights, c, x, z, 3);
    }
    Distribute4(c, b0, b1, b2, b3);
  }

  /** The count of border edges met by the first `z` columns of row `x`. */
  function RowOuter(size: nat, x: nat, z: nat): nat {
    z * (B(x == 0) + B(x == size - 1)) + B(z > 0) + B(z == size)
  }

  lemma RowOuterStep(size: nat, x: nat, m: nat)
    requires m < size
    ensures RowOuter(size, x, m) + OuterSides(size, x, m) == RowOuter(size, x, m + 1)
  {
    var e := B(x == 0) + B(x == size - 1);
    assert (m + 1) * e == m * e + e;
  }

  lemma Distribute(c: nat, a: nat, b: nat)
    ensures c * a + c * b == c * (a + b)
  {
  }

  lemma {:induction false} FlatRow(size: nat, stride: nat, heights: seq<int>, c: nat, x: nat, z: nat)
    requires Readable(size, stride, heights) && x < size && z <= size && Flat(size, stride, heights, c)
    ensures RowFaces(size, stride, heights, x, z) == z + c * RowOuter(size, x, z)
  {
    if z > 0 {
      var m: nat := z - 1;
      var before, here := RowOuter(size, x, m), OuterSides(size, x, m);
      assert RowFaces(size, stride, heights, x, m) == m + c * before by {
        FlatRow(size, stride, heights, c, x, m);
      }
      assert ColumnFaces(size, stride, heights, x, m) == 1 + c * here by {
        FlatColumn(size, stride, heights, c, x, m);
      }
      assert RowOuter(size, x, z) == before + here by {
        RowOuterStep(size, x, m);
      }
      assert c * before + c * here == c * (before + here) by {
        Distribute(c, before, here);
      }
    }
  }

  /** The count of border edges met by the first `x` rows. */
  function RowsOuter(size: nat, x: nat): nat {
    size * (B(x > 0) + B(x == size)) + 2 * x
  }

  lemma RowsOuterStep(size: nat, m: nat)
    requires m < size
    ensures RowsOuter(size, m) + RowOuter(size, m, size) == RowsOuter(size, m + 1)
  {
  }

  lemma {:induction false} FlatGrid(size: nat, stride: nat, heights: seq<int>, c: nat, x: nat)
    requires Readable(size, stride, heights) && x <= size && Flat(size, stride, heights, c)
    ensures GridFaces(size, stride, heights, x) == x * size + c * RowsOuter(size, x)
  {
    if x > 0 {
      var m: nat := x - 1;
      assert GridFaces(size, stride, heights, m) == m * size + c * RowsOuter(size, m) by {
        FlatGrid(size, stride, heights, c, m);
      }
      assert RowFaces(size, stride, heights, m, size) == size + c * RowOuter(size, m, size) by {
        FlatRow(size, stride, heights, c, m, size);
      }
      assert x * size == m * size + size;
      RowsOuterStep(size, m);
      Distribute(c, RowsOuter(size, m), RowOuter(size, m, size));
    }
  }

  /** A flat square of height `c >= 0` exposes one top per column and
      `c` side faces along each of the `4 size` border edges. */
  lemma FlatSquareFaces(size: nat, stride: nat, heights: seq<int>, c: nat)
    requires Readable(size, stride, heights) && Flat(size, stride, heights, c)
    ensures GridFaces(size, stride, heights, size) == size * size + 4 * size * c
  {
    FlatGrid(size, stride, heights, c, size);
    if size > 0 {
      assert RowsOuter(size, size) == 4 * size;
    }
  }
}

=== FILE: wfc2d.dfy ===
/** The two-dimensional wave function collapse of
    2dwavefunction/src/main.ts: picking a tile weighted by its occurrence
    count (`Tile.getMosLikelyTile`) and collapsing one grid cell, which
    narrows the candidate sets of its four neighbours (`WFC.collapseTile`).
    `Math.random()` is the parameter `u`, and the entropy `calculateEntropy`
    derives from a candidate set is the parameter `entropy`. */
module Wfc2d {
  import opened Wrappers

  /** The parts of a sample `Tile` the collapse reads. */
  datatype TileInfo = TileInfo(
    hash: int,
    occurrence: nat,
    leftNeighbours: set<int>,
    rightNeighbours: set<int>,
    upNeighbours: set<int>,
    downNeighbours: set<int>)

  // ---------------------------------------------------------------------
  // getMosLikelyTile

  /** The occurrences of the first `n` tiles added up. */
  function Prefix(ts: seq<TileInfo>, n: nat): nat
    requires n <= |ts|
  {
    if n == 0 then 0 else Prefix(ts, n - 1) + ts[n - 1].occurrence
  }

  lemma {:induction false} PrefixMonotone(ts: seq<TileInfo>, m: nat, n: nat)
    requires m <= n <= |ts|
    ensures Prefix(ts, m) <= Prefix(ts, n)
    decreases n - m
  {
    if m < n {
      PrefixMonotone(ts, m, n - 1);
    }
  }

  /** The loop of `getMosLikelyTile` from tile `i` on, with `cumulative`
      the occurrences of the tiles before `i`: the index of the first tile
      whose running sum exceeds `target`. */
  function Scan(ts: seq<TileInfo>, target: real, i: nat, cumulative: nat): (r: Option<nat>)
    requires i <= |ts| && cumulative == Prefix(ts, i)
    ensures r.Some? ==> i <= r.value < |ts| && target < Prefix(ts, r.value + 1) as real
    ensures r.Some? ==> forall j :: i < j <= r.value ==> Prefix(ts, j) as real <= target
    ensures r.None? <==> Prefix(ts, |ts|) as real <= target || i == |ts|
    decreases |ts| - i
  {
    if i == |ts| then None
    else
      var sum := cumulative + ts[i].occurrence;
      PrefixMonotone(ts, i + 1, |ts|);
      if target < sum as real then Some(i)
      else Scan(ts, target, i + 1, sum)
  }

  /** `Math.random() * totalOccurrences`. */
  function Scale(u: real, total: nat): (r: real)
    requires 0.0 <= u < 1.0
    ensures 0.0 <= r && (total > 0 ==> r < total as real) && (total == 0 ==> r == 0.0)
  {
    ScaledBelow(u, total as real);
    u * total as real
  }

  lemma ScaledBelow(u: real, total: real)
    requires 0.0 <= u < 1.0 && total >= 0.0
    ensures 0.0 <= u * total && (total > 0.0 ==> u * total < total)
  {
    assert total - u * total == (1.0 - u) * total;
  }

  /** `Tile.getMosLikelyTile` with `Math.random()` returning `u`: tile `i`
      is chosen when `u * total` falls into `[Prefix(i), Prefix(i+1))`. */
  function MostLikelyIndex(ts: seq<TileInfo>, u: real): Option<nat>
    requires 0.0 <= u < 1.0
  {
    Scan(ts, Scale(u, Prefix(ts, |ts|)), 0, 0)
  }

  function GetMostLikelyTile(ts: seq<TileInfo>, u: real): Option<TileInfo>
    requires 0.0 <= u < 1.0
  {
    match MostLikelyIndex(ts, u)
    case None => None
    case Some(i) => Some(ts[i])
  }

  /** `getMosLikelyTile` returns `null` exactly when no tile has occurred,
      in particular for an empty list. */
  lemma MostLikelyNone(ts: seq<TileInfo>, u: real)
    requires 0.0 <= u < 1.0
    ensures GetMostLikelyTile(ts, u).None? <==> Prefix(ts, |ts|) == 0
    ensures ts == [] ==> GetMostLikelyTile(ts, u).None?
  {
  }

  lemma {:induction false} ScanBracket(ts: seq<TileInfo>, target: real)
    requires 0.0 <= target && Scan(ts, target, 0, 0).Some?
    ensures var i := Scan(ts, target, 0, 0).value;
      i < |ts| && ts[i].occurrence > 0 && Prefix(ts, i) as real <= target < Prefix(ts, i + 1) as real
  {
    var i := Scan(ts, target, 0, 0).value;
    assert Prefix(ts, i) as real <= target;
    assert Prefix(ts, i + 1) == Prefix(ts, i) + ts[i].occurrence;
  }

  /** Otherwise it returns the member of the list whose slice of the
      cumulative occurrences holds `u * total`; that tile has occurred at
      least once. */
  lemma MostLikelyBracket(ts: seq<TileInfo>, u: real)
    requires 0.0 <= u < 1.0
    requires MostLikelyIndex(ts, u).Some?
    ensures var i := MostLikelyIndex(ts, u).value;
      i < |ts| && GetMostLikelyTile(ts, u) == Some(ts[i]) && ts[i].occurrence > 0 &&
      Prefix(ts, i) as real <= Scale(u, Prefix(ts, |ts|)) < Prefix(ts, i + 1) as real
  {
    ScanBracket(ts, Scale(u, Prefix(ts, |ts|)));
  }

  // ---------------------------------------------------------------------
  // Cells and the board

  /** `WFCTile`: the collapsed tile's hash (`currentTile`), the entropy and
      the remaining candidate hashes. */
  datatype Cell = Cell(currentTile: Option<int>, entropy: real, tiles: set<int>)

  /** `!cell.currentTile` in JavaScript: `null` and the hash `0` are both
      falsy. */
  predicate Falsy(current: Option<int>) {
    current.None? || current.value == 0
  }

  /** `wfcTiles[r][c]`, `rows` by `cols`. */
  type Board = seq<seq<Cell>>

  predicate Shaped(b: Board, rows: nat, cols: nat) {
    |b| == rows && forall r :: 0 <= r < rows ==> |b[r]| == cols
  }

  function SetCell(b: Board, r: nat, c: nat, cell: Cell): (b': Board)
    requires r < |b| && c < |b[r]|
    ensures |b'| == |b| && forall i :: 0 <= i < |b| ==> |b'[i]| == |b[i]|
    ensures forall i, j :: 0 <= i < |b| && 0 <= j < |b[i]| ==> b'[i][j] == if i == r && j == c then cell else b[i][j]
  {
    b[r := b[r][c := cell]]
  }

  datatype Dir = Right | Left | Up | Down

  /** The neighbour in direction `d`, with the source's bound checks. */
  function Neighbour(rows: nat, cols: nat, r: nat, c: nat, d: Dir): (n: Option<(nat, nat)>)
    ensures n.Some? && r < rows && c < cols ==> n.value.0 < rows && n.value.1 < cols
  {
    match d
    case Right => if c + 1 < cols then Some((r, c + 1)) else None
    case Left => if c >= 1 then Some((r, c - 1)) else None
    case Up => if r >= 1 then Some((r - 1, c)) else None
    case Down => if r + 1 < rows then Some((r + 1, c)) else None
  }

  function Allowed(t: TileInfo, d: Dir): set<int> {
    match d
    case Right => t.rightNeighbours
    case Left => t.leftNeighbours
    case Up => t.upNeighbours
    case Down => t.downNeighbours
  }

  /** One neighbour block of `collapseTile`: an uncollapsed neighbour takes
      the allowed set if it had no candidates, otherwise the allowed
      candidates it already had, and its entropy is recomputed. */
  function Narrow(cell: Cell, allowed: set<int>, entropy: set<int> -> real): (r: Cell)
    ensures !Falsy(cell.currentTile) ==> r == cell
    ensures Falsy(cell.currentTile) ==> r.currentTile == cell.currentTile && r.entropy == entropy(r.tiles)
    ensures Falsy(cell.currentTile) && cell.tiles == {} ==> r.tiles == allowed
    ensures Falsy(cell.currentTile) && cell.tiles != {} ==> forall h :: h in r.tiles <==> h in allowed && h in cell.tiles
  {
    if Falsy(cell.currentTile) then
      var tiles := if |cell.tiles| == 0 then allowed else set h | h in allowed && h in cell.tiles;
      Cell(cell.currentTile, entropy(tiles), tiles)
    else cell
  }

  function NarrowAt(b: Board, rows: nat, cols: nat, r: nat, c: nat, d: Dir, t: TileInfo, entropy: set<int> -> real): (b': Board)
    requires Shaped(b, rows, cols) && r < rows && c < cols
    ensures Shaped(b', rows, cols)
  {
    match Neighbour(rows, cols, r, c, d)
    case None => b
    case Some((i, j)) => SetCell(b, i, j, Narrow(b[i][j], Allowed(t, d), entropy))
  }

  // ---------------------------------------------------------------------
  // collapseTile

  /** `getTileSetFromHashes`: the sample tiles, in map order, whose hash
      is a candidate. */
  function Candidates(tiles: seq<TileInfo>, hashes: set<int>): (r: seq<TileInfo>)
    ensures forall t :: t in r <==> t in tiles && t.hash in hashes
  {
    if tiles == [] then []
    else (if tiles[0].hash in hashes then [tiles[0]] else []) + Candidates(tiles[1..], hashes)
  }

  /** `WFC.collapseTile(r, c, rows, cols, random)`: the verdict and the board
      afterwards. */
  function CollapseTile(b: Board, rows: nat, cols: nat, r: nat, c: nat, random: bool,
                        tiles: seq<TileInfo>, u: real, entropy: set<int> -> real): (res: (bool, Board))
    requires Shaped(b, rows, cols) && r < rows && c < cols && 0.0 <= u < 1.0
    ensures Shaped(res.1, rows, cols)
  {
    var cell := b[r][c];
    var possible := Candidates(tiles, cell.tiles);
    if possible == [] && !random then (false, b)
    else
      var choice := GetMostLikelyTile(if possible != [] then possible else tiles, u);
      if cell.currentTile.None? && choice.Some? then
        var t := choice.value;
        var b1 := NarrowAt(b, rows, cols, r, c, Right, t, entropy);
        var b2 := NarrowAt(b1, rows, cols, r, c, Left, t, entropy);
        var b3 := NarrowAt(b2, rows, cols, r, c, Up, t, entropy);
        var b4 := NarrowAt(b3, rows, cols, r, c, Down, t, entropy);
        (true, SetCell(b4, r, c, Cell(Some(t.hash), -1.0, {})))
      else (false, b)
  }

  /** The tile `collapseTile` settles on, if it gets that far. */
  function Chosen(b: Board, rows: nat, cols: nat, r: nat, c: nat, random: bool, tiles: seq<TileInfo>, u: real): Option<TileInfo>
    requires Shaped(b, rows, cols) && r < rows && c < cols && 0.0 <= u < 1.0
  {
    var possible := Candidates(tiles, b[r][c].tiles);
    if possible == [] && !random then None
    else GetMostLikelyTile(if possible != [] then possible else tiles, u)
  }

  /** The direction in which `(i, j)` neighbours `(r, c)`, if it does. */
  function DirOf(rows: nat, cols: nat, r: nat, c: nat, i: nat, j: nat): Option<Dir> {
    if Neighbour(rows, cols, r, c, Right) == Some((i, j)) then Some(Right)
    else if Neighbour(rows, cols, r, c, Left) == Some((i, j)) then Some(Left)
    else if Neighbour(rows, cols, r, c, Up) == Some((i, j)) then Some(Up)
    else if Neighbour(rows, cols, r, c, Down) == Some((i, j)) then Some(Down)
    else None
  }

  /** Cell `(i, j)` after collapsing `(r, c)` to `t`. */
  function AfterCollapse(b: Board, rows: nat, cols: nat, r: nat, c: nat, t: TileInfo,
                         entropy: set<int> -> real, i: nat, j: nat): Cell
    requires Shaped(b, rows, cols) && i < rows && j < cols
  {
    if i == r && j == c then Cell(Some(t.hash), -1.0, {})
    else match DirOf(rows, cols, r, c, i, j)
      case Some(d) => Narrow(b[i][j], Allowed(t, d), entropy)
      case None => b[i][j]
  }

  lemma NarrowAtCell(b: Board, rows: nat, cols: nat, r: nat, c: nat, d: Dir, t: TileInfo,
                     entropy: set<int> -> real, i: nat, j: nat)
    requires Shaped(b, rows, cols) && r < rows && c < cols && i < rows && j < cols
    ensures NarrowAt(b, rows, cols, r, c, d, t, entropy)[i][j] ==
      if Neighbour(rows, cols, r, c, d) == Some((i, j)) then Narrow(b[i][j], Allowed(t, d), entropy) else b[i][j]
  {
  }

  /** The four neighbours of a cell are different cells, none of them the
      cell itself. */
  lemma NeighboursDistinct(rows: nat, cols: nat, r: nat, c: nat, d: Dir, e: Dir)
    requires Neighbour(rows, cols, r, c, d).Some? && Neighbour(rows, cols, r, c, d) == Neighbour(rows, cols, r, c, e)
    ensures d == e && Neighbour(rows, cols, r, c, d) != Some((r, c))
  {
  }

  /** A successful collapse fixes the cell to the chosen tile with entropy
      `-1` and no candidates, narrows each uncollapsed neighbour to the
      tiles the chosen one allows on that side, and changes no other cell.
      The collapse succeeds exactly when the cell was not collapsed and a
      tile could be chosen. */
  lemma CollapseEffect(b: Board, rows: nat, cols: nat, r: nat, c: nat, random: bool,
                       tiles: seq<TileInfo>, u: real, entropy: set<int> -> real, i: nat, j: nat)
    requires Shaped(b, rows, cols) && r < rows && c < cols && 0.0 <= u < 1.0 && i < rows && j < cols
    ensures var res := CollapseTile(b, rows, cols, r, c, random, tiles, u, entropy);
      var choice := Chosen(b, rows, cols, r, c, random, tiles, u);
      (res.0 <==> b[r][c].currentTile.None? && choice.Some?) &&
      (!res.0 ==> res.1 == b) &&
      (res.0 ==> res.1[i][j] == AfterCollapse(b, rows, cols, r, c, choice.value, entropy, i, j))
  {
    var res := CollapseTile(b, rows, cols, r, c, random, tiles, u, entropy);
    var choice := Chosen(b, rows, cols, r, c, random, tiles, u);
    if res.0 {
      var t := choice.value;
      var b1 := NarrowAt(b, rows, cols, r, c, Right, t, entropy);
      var b2 := NarrowAt(b1, rows, cols, r, c, Left, t, entropy);
      var b3 := NarrowAt(b2, rows, cols, r, c, Up, t, entropy);
      NarrowAtCell(b, rows, cols, r, c, Right, t, entropy, i, j);
      NarrowAtCell(b1, rows, cols, r, c, Left, t, entropy, i, j);
      NarrowAtCell(b2, rows, cols, r, c, Up, t, entropy, i, j);
      NarrowAtCell(b3, rows, cols, r, c, Down, t, entropy, i, j);
    }
  }

  /** With no candidates and `random` off, `collapseTile` reports failure
      and changes nothing. */
  lemma NoCandidates(b: Board, rows: nat, cols: nat, r: nat, c: nat, tiles: seq<TileInfo>, u: real, entropy: set<int> -> real)
    requires Shaped(b, rows, cols) && r < rows && c < cols && 0.0 <= u < 1.0
    requires forall t :: t in tiles ==> t.hash !in b[r][c].tiles
    ensures CollapseTile(b, rows, cols, r, c, false, tiles, u, entropy) == (false, b)
  {
  }

  /** A collapse never widens a neighbour that still had candidates: its
      new set lies inside the old one and inside what the chosen tile
      allows. */
  lemma NarrowShrinks(cell: Cell, allowed: set<int>, entropy: set<int> -> real)
    requires Falsy(cell.currentTile) && cell.tiles != {}
    ensures Narrow(cell, allowed, entropy).tiles <= cell.tiles
    ensures Narrow(cell, allowed, entropy).tiles <= allowed
  {
  }
}

=== FILE: wfc3d.dfy ===
/** The wave-function-collapse generator of minecraft/src/minecraft/wfc.h:
    grid indexing, the face-compatibility table, constraint propagation and
    the IDLE/GENERATING/DONE/FAILED state machine. Meshes, labels and
    logging are left out; the two random draws are parameters. */
module Wfc3d {

  // ---------------------------------------------------------------------
  // Integer helpers

  /** C++ `/` on `int`: truncation toward zero. */
  function Quot(a: int, b: int): int
    requires b > 0
  {
    if a >= 0 then a / b else -((-a) / b)
  }

  /** C++ `%` on `int`: the remainder that goes with `Quot`. */
  function Rem(a: int, b: int): (r: int)
    requires b > 0
    ensures a == Quot(a, b) * b + r
  {
    a - Quot(a, b) * b
  }

  /** A multiple of `b` strictly between `-b` and `b` is zero. */
  lemma MulSmall(k: int, b: int)
    requires b > 0 && -b < k * b < b
    ensures k == 0
  {
  }

  lemma {:induction false} DivModUnique(a: int, b: int, q: int, r: int)
    requires b > 0 && 0 <= r < b && a == q * b + r
    ensures a / b == q && a % b == r
  {
    var q0, r0 := a / b, a % b;
    assert (q - q0) * b == r0 - r;
    MulSmall(q - q0, b);
  }

  // ---------------------------------------------------------------------
  // Grid geometry

  datatype Vec = Vec(x: int, y: int, z: int) {
    function Plus(o: Vec): Vec {
      Vec(x + o.x, y + o.y, z + o.z)
    }
  }

  /** `grid_size`. A component of zero gives a grid without cells; a grid
      with cells has every component positive. */
  datatype Dims = Dims(x: int, y: int, z: int) {
    predicate Sized() {
      x >= 0 && y >= 0 && z >= 0
    }

    predicate Positive() {
      x > 0 && y > 0 && z > 0
    }

    function Total(): int {
      x * y * z
    }
  }

  /** `get_cell_index`: x varies fastest, then y, then z. */
  function CellIndex(d: Dims, p: Vec): int {
    p.x + p.y * d.x + p.z * d.x * d.y
  }

  /** `get_cell_pos`, with C++ integer division. */
  function CellPos(d: Dims, i: int): Vec
    requires d.x > 0 && d.y > 0
  {
    Vec(Rem(i, d.x), Rem(Quot(i, d.x), d.y), Quot(i, d.x * d.y))
  }

  /** `is_in_bounds`. */
  predicate InBounds(d: Dims, p: Vec) {
    0 <= p.x < d.x && 0 <= p.y < d.y && 0 <= p.z < d.z
  }

  lemma MulLe(a: int, b: int, c: int)
    requires a <= b && c >= 0
    ensures a * c <= b * c
  {
  }

  /** The part of a cell index below the z layer: `x + y * size.x`. */
  lemma {:induction false} LayerBound(d: Dims, x: int, y: int)
    requires 0 <= x < d.x && 0 <= y < d.y
    ensures 0 <= x + y * d.x < d.x * d.y
  {
    MulLe(0, y, d.x);
    MulLe(y, d.y - 1, d.x);
    assert (d.y - 1) * d.x == d.x * d.y - d.x;
  }

  lemma {:induction false} IndexSplit(d: Dims, p: Vec)
    ensures CellIndex(d, p) == (p.x + p.y * d.x) + p.z * (d.x * d.y)
    ensures CellIndex(d, p) == p.x + (p.y + p.z * d.y) * d.x
    ensures d.Total() == d.z * (d.x * d.y)
  {
    assert p.z * d.x * d.y == p.z * (d.x * d.y);
    assert (p.y + p.z * d.y) * d.x == p.y * d.x + p.z * (d.x * d.y);
  }

  lemma {:induction false} IndexInRange(d: Dims, p: Vec)
    requires InBounds(d, p)
    ensures 0 <= CellIndex(d, p) < d.Total()
  {
    var xy := d.x * d.y;
    IndexSplit(d, p);
    LayerBound(d, p.x, p.y);
    MulLe(0, p.z, xy);
    MulLe(p.z, d.z - 1, xy);
    assert (d.z - 1) * xy == d.z * xy - xy;
  }

  /** Position -> index -> position is the identity inside the grid. */
  lemma {:induction false} PosOfIndex(d: Dims, p: Vec)
    requires InBounds(d, p)
    ensures 0 <= CellIndex(d, p) < d.Total()
    ensures CellPos(d, CellIndex(d, p)) == p
  {
    IndexInRange(d, p);
    IndexSplit(d, p);
    var i := CellIndex(d, p);
    var q := p.y + p.z * d.y;
    DivModUnique(i, d.x, q, p.x);
    DivModUnique(q, d.y, p.z, p.y);
    LayerBound(d, p.x, p.y);
    DivModUnique(i, d.x * d.y, p.z, p.x + p.y * d.x);
  }

  lemma Expand(px: int, py: int, pz: int, dx: int, dy: int)
    ensures px + (py + pz * dy) * dx == (px + py * dx) + pz * (dx * dy)
  {
  }

  /** A grid with some cell has every size component positive. */
  lemma TotalPositive(d: Dims)
    requires d.Sized() && d.Total() > 0
    ensures d.Positive()
  {
  }

  /** Index -> position -> index is the identity on `[0, total)`. */
  lemma {:induction false} IndexOfPos(d: Dims, i: int)
    requires d.Sized() && 0 <= i < d.Total()
    ensures d.Positive()
    ensures InBounds(d, CellPos(d, i))
    ensures CellIndex(d, CellPos(d, i)) == i
  {
    TotalPositive(d);
    var xy := d.x * d.y;
    var a, px := i / d.x, i % d.x;
    var pz, py := a / d.y, a % d.y;
    assert i == px + a * d.x;
    assert a == py + pz * d.y;
    Expand(px, py, pz, d.x, d.y);
    LayerBound(d, px, py);
    var low := px + py * d.x;
    assert i == low + pz * xy;
    DivModUnique(i, xy, pz, low);
    var p := Vec(px, py, pz);
    assert CellPos(d, i) == p;
    IndexSplit(d, p);
    assert 0 <= pz < d.z by {
      if pz < 0 {
        MulLe(pz, -1, xy);
      } else if pz >= d.z {
        MulLe(d.z, pz, xy);
      }
    }
  }

  // ---------------------------------------------------------------------
  // Directions

  /** `DIRECTIONS`: +X, -X, +Y, -Y, +Z, -Z. */
  const Directions: seq<Vec> :=
    [Vec(1, 0, 0), Vec(-1, 0, 0), Vec(0, 1, 0), Vec(0, -1, 0), Vec(0, 0, 1), Vec(0, 0, -1)]

  /** `OPPOSITE_DIR_IDX`. */
  const OppositeTable: seq<nat> := [1, 0, 3, 2, 5, 4]

  function Opposite(i: nat): (j: nat)
    requires i < 6
    ensures j < 6 && j != i
    ensures Directions[j] == Vec(-Directions[i].x, -Directions[i].y, -Directions[i].z)
  {
    OppositeTable[i]
  }

  lemma OppositeInvolution(i: nat)
    requires i < 6
    ensures Opposite(Opposite(i)) == i
  {
  }

  // ---------------------------------------------------------------------
  // Tiles and the compatibility key

  const TWO16: int := 0x1_0000

  /** The conversion of an `int64_t` library hash into the `int16_t`
      `WFCTile::hashes` slot: wrap-around modulo 2^16. */
  function ToInt16(v: int): (r: int)
    ensures -0x8000 <= r < 0x8000
    ensures (r - v) % TWO16 == 0
  {
    (v + 0x8000) % TWO16 - 0x8000
  }

  /** A tile prototype's six face hashes, indexed like `Directions`. */
  datatype Tile = Tile(hashes: seq<int>) {
    predicate Valid() {
      |hashes| == 6 && forall k :: 0 <= k < 6 ==> -0x8000 <= hashes[k] < 0x8000
    }
  }

  /** The tile `parse_tile_data` builds from a library item's hashes. */
  function TileOf(px: int, nx: int, py: int, ny: int, pz: int, nz: int): (t: Tile)
    ensures t.Valid()
    ensures (t.hashes[0] - px) % TWO16 == 0 && (t.hashes[1] - nx) % TWO16 == 0
    ensures (t.hashes[2] - py) % TWO16 == 0 && (t.hashes[3] - ny) % TWO16 == 0
    ensures (t.hashes[4] - pz) % TWO16 == 0 && (t.hashes[5] - nz) % TWO16 == 0
  {
    Tile([ToInt16(px), ToInt16(nx), ToInt16(py), ToInt16(ny), ToInt16(pz), ToInt16(nz)])
  }

  predicate AllValid(tiles: seq<Tile>) {
    forall i :: 0 <= i < |tiles| ==> tiles[i].Valid()
  }

  /** `(int64_t(hash) << 3) + dir`; for a 16-bit hash the shift cannot
      overflow, so it is a multiplication by 8. */
  function Key(hash: int, dir: int): int {
    hash * 8 + dir
  }

  /** `key >> 3`: an arithmetic shift, which rounds toward minus infinity. */
  function KeyHash(key: int): int {
    key / 8
  }

  /** `key & 0x7` on a two's-complement value. */
  function KeyDir(key: int): int {
    key % 8
  }

  lemma KeyRoundTrip(hash: int, dir: int)
    requires 0 <= dir < 8
    ensures KeyHash(Key(hash, dir)) == hash && KeyDir(Key(hash, dir)) == dir
  {
    DivModUnique(Key(hash, dir), 8, hash, dir);
  }

  lemma KeyDecomposes(key: int)
    ensures Key(KeyHash(key), KeyDir(key)) == key && 0 <= KeyDir(key) < 8
  {
  }


  /** Tile `t` shows hash `KeyHash(key)` on face `KeyDir(key)`. */
  predicate HasFace(t: Tile, key: int) {
    t.Valid() && KeyDir(key) < 6 && t.hashes[KeyDir(key)] == KeyHash(key)
  }

  /** The key a tile files under for face `dir` is the only key with that
      direction it shows. */
  lemma HasFaceOfKey(t: Tile, dir: nat, k: int)
    requires t.Valid() && dir < 6
    ensures HasFace(t, Key(t.hashes[dir], dir))
    ensures HasFace(t, k) && KeyDir(k) == dir ==> k == Key(t.hashes[dir], dir)
  {
    KeyRoundTrip(t.hashes[dir], dir);
    KeyDecomposes(k);
  }

  /** The indices below `n` of the tiles with face `key`, in increasing
      order: the array `parse_tile_data` files under `key`. */
  function Matches(tiles: seq<Tile>, key: int, n: nat): (r: seq<nat>)
    requires n <= |tiles|
    ensures forall j: nat :: j in r <==> j < n && HasFace(tiles[j], key)
    ensures forall a, b :: 0 <= a < b < |r| ==> r[a] < r[b]
  {
    if n == 0 then []
    else
      var prev := Matches(tiles, key, n - 1);
      assert forall a :: 0 <= a < |prev| ==> prev[a] in prev;
      if HasFace(tiles[n - 1], key) then prev + [n - 1] else prev
  }

  /** The compatibility map: exactly the keys some tile shows, each with the
      ordered list of the tiles that show it. */
  ghost predicate CompatTable(tiles: seq<Tile>, m: map<int, seq<nat>>) {
    forall k :: (k in m <==> Matches(tiles, k, |tiles|) != []) && (k in m ==> m[k] == Matches(tiles, k, |tiles|))
  }

  /** The list filed under `k` once tile `i` has filed its faces below
      direction `dir`. */
  function Entry(tiles: seq<Tile>, k: int, i: nat, dir: nat): seq<nat>
    requires i <= |tiles|
  {
    Matches(tiles, k, i) + (if i < |tiles| && KeyDir(k) < dir && HasFace(tiles[i], k) then [i] else [])
  }

  /** The map as the loops of `parse_tile_data` leave it at `(i, dir)`. */
  ghost predicate TableAt(tiles: seq<Tile>, m: map<int, seq<nat>>, i: nat, dir: nat)
    requires i <= |tiles|
  {
    forall k :: (k in m <==> Entry(tiles, k, i, dir) != []) && (k in m ==> m[k] == Entry(tiles, k, i, dir))
  }

  /** `Array arr = compatibility_map[key]; arr.push_back(i);` (Godot arrays
      are shared, so the push lands in the map). */
  function FileUnder(m: map<int, seq<nat>>, key: int, i: nat): map<int, seq<nat>> {
    m[key := (if key in m then m[key] else []) + [i]]
  }

  lemma {:induction false} TableStep(tiles: seq<Tile>, m: map<int, seq<nat>>, i: nat, dir: nat)
    requires i < |tiles| && dir < 6 && tiles[i].Valid()
    requires TableAt(tiles, m, i, dir)
    ensures TableAt(tiles, FileUnder(m, Key(tiles[i].hashes[dir], dir), i), i, dir + 1)
  {
    var key := Key(tiles[i].hashes[dir], dir);
    var m' := FileUnder(m, key, i);
    KeyRoundTrip(tiles[i].hashes[dir], dir);
    forall k
      ensures (k in m' <==> Entry(tiles, k, i, dir + 1) != []) && (k in m' ==> m'[k] == Entry(tiles, k, i, dir + 1))
    {
      HasFaceOfKey(tiles[i], dir, k);
      if k == key {
        assert HasFace(tiles[i], k);
        assert Entry(tiles, k, i, dir) == Matches(tiles, k, i);
      } else {
        assert Entry(tiles, k, i, dir + 1) == Entry(tiles, k, i, dir);
      }
    }
  }

  lemma TableNextTile(tiles: seq<Tile>, m: map<int, seq<nat>>, i: nat)
    requires i < |tiles| && TableAt(tiles, m, i, 6)
    ensures TableAt(tiles, m, i + 1, 0)
  {
    forall k
      ensures Entry(tiles, k, i + 1, 0) == Entry(tiles, k, i, 6)
    {
    }
  }

  lemma TableDone(tiles: seq<Tile>, m: map<int, seq<nat>>)
    requires TableAt(tiles, m, |tiles|, 0)
    ensures CompatTable(tiles, m)
  {
    forall k
      ensures Entry(tiles, k, |tiles|, 0) == Matches(tiles, k, |tiles|)
    {
    }
  }

  /** The inner loop of `parse_tile_data`: tile `i` files itself under the
      key of each of its six faces. */
  method FileTile(tiles: seq<Tile>, m0: map<int, seq<nat>>, i: nat) returns (m: map<int, seq<nat>>)
    requires AllValid(tiles) && i < |tiles| && TableAt(tiles, m0, i, 0)
    ensures TableAt(tiles, m, i + 1, 0)
  {
    m := m0;
    for dir := 0 to 6
      invariant TableAt(tiles, m, i, dir)
    {
      var key := Key(tiles[i].hashes[dir], dir);
      TableStep(tiles, m, i, dir);
      m := FileUnder(m, key, i);
    }
    TableNextTile(tiles, m, i);
  }

  /** The compatibility-map loop of `parse_tile_data`. */
  method BuildCompat(tiles: seq<Tile>) returns (m: map<int, seq<nat>>)
    requires AllValid(tiles)
    ensures CompatTable(tiles, m)
  {
    m := map[];
    for i := 0 to |tiles|
      invariant TableAt(tiles, m, i, 0)
    {
      m := FileTile(tiles, m, i);
    }
    TableDone(tiles, m);
  }

  // ---------------------------------------------------------------------
  // Cells

  /** `WFCCell`. */
  datatype Cell = Cell(collapsed: bool, possible: seq<nat>)

  /** `WFCCell::initialize`. */
  function Initialize(n: nat): (c: Cell)
    ensures !c.collapsed && |c.possible| == n
    ensures forall t: nat :: t in c.possible <==> t < n
    ensures forall k :: 0 <= k < n ==> c.possible[k] == k
  {
    var ids: seq<nat> := seq(n, k => k);
    assert forall t: nat :: t in ids <==> t < n by {
      forall t: nat
        ensures t in ids <==> t < n
      {
        if t < n {
          assert ids[t] == t;
        }
      }
    }
    Cell(false, ids)
  }

  /** Every possible tile id names a prototype. */
  predicate IdsBelow(cells: seq<Cell>, n: nat) {
    forall c, t :: 0 <= c < |cells| && t in cells[c].possible ==> t < n
  }

  /** The number of possibilities left, summed over the grid. */
  function Weight(cells: seq<Cell>): nat {
    if cells == [] then 0 else |cells[0].possible| + Weight(cells[1..])
  }

  lemma {:induction false} WeightUpdate(cells: seq<Cell>, i: nat, c: Cell)
    requires i < |cells|
    ensures Weight(cells[i := c]) + |cells[i].possible| == Weight(cells) + |c.possible|
  {
    if i > 0 {
      WeightUpdate(cells[1..], i - 1, c);
      assert cells[i := c][1..] == cells[1..][i - 1 := c];
    }
  }

  /** `after` only removed possibilities from uncollapsed cells of `before`. */
  ghost predicate Shrinks(before: seq<Cell>, after: seq<Cell>) {
    |after| == |before|
    && (forall c :: 0 <= c < |before| ==> after[c].collapsed == before[c].collapsed)
    && (forall c :: 0 <= c < |before| && before[c].collapsed ==> after[c] == before[c])
    && (forall c, t :: 0 <= c < |before| && t in after[c].possible ==> t in before[c].possible)
  }

  /** Cell `c` had possibilities in `before` and has none in `after`. */
  ghost predicate Emptied(before: seq<Cell>, after: seq<Cell>, c: int) {
    0 <= c < |before| == |after| && before[c].possible != [] && after[c].possible == []
  }

  /** No cell that had possibilities lost all of them. */
  ghost predicate NoneEmptied(before: seq<Cell>, after: seq<Cell>) {
    |before| == |after| && forall c :: 0 <= c < |before| && before[c].possible != [] ==> after[c].possible != []
  }

  lemma ShrinksTrans(a: seq<Cell>, b: seq<Cell>, c: seq<Cell>)
    requires Shrinks(a, b) && Shrinks(b, c)
    ensures Shrinks(a, c)
  {
  }

  lemma EmptiedEarlier(a: seq<Cell>, b: seq<Cell>, c: seq<Cell>, x: int)
    requires Shrinks(a, b) && Emptied(b, c, x)
    ensures Emptied(a, c, x)
  {
    assert b[x].possible[0] in a[x].possible;
  }

  lemma ShrinksIds(a: seq<Cell>, b: seq<Cell>, n: nat)
    requires Shrinks(a, b) && IdsBelow(a, n)
    ensures IdsBelow(b, n)
  {
  }

  // ---------------------------------------------------------------------
  // Propagation

  /** `valid_neighbor_ids`: the tiles that the compatibility map lists
      under the face the current cell's candidates show in direction `dir`. */
  function Allowed(tiles: seq<Tile>, compat: map<int, seq<nat>>, current: seq<nat>, dir: nat): set<nat>
    requires dir < 6 && AllValid(tiles)
    requires forall k :: 0 <= k < |current| ==> current[k] < |tiles|
  {
    if current == [] then {}
    else
      var key := Key(tiles[current[0]].hashes[dir], Opposite(dir));
      var here := if key in compat then set j | j in compat[key] else {};
      here + Allowed(tiles, compat, current[1..], dir)
  }

  /** Tile `j` may sit in direction `dir` of a cell that can hold `t`. */
  predicate Supports(tiles: seq<Tile>, t: nat, j: nat, dir: nat)
    requires dir < 6 && AllValid(tiles) && t < |tiles| && j < |tiles|
  {
    tiles[j].hashes[Opposite(dir)] == tiles[t].hashes[dir]
  }

  /** A neighbour in direction `dir` may keep tile `j` exactly when some
      candidate of the current cell shows, on that side, the hash `j` shows
      on the opposite side. */
  /** Some tile of `current` supports `j` towards `dir`. */
  predicate SupportedBy(tiles: seq<Tile>, current: seq<nat>, j: nat, dir: nat)
    requires dir < 6 && AllValid(tiles) && j < |tiles|
    requires forall k :: 0 <= k < |current| ==> current[k] < |tiles|
  {
    exists k :: 0 <= k < |current| && Supports(tiles, current[k], j, dir)
  }

  lemma SupportedByCons(tiles: seq<Tile>, current: seq<nat>, j: nat, dir: nat)
    requires dir < 6 && AllValid(tiles) && j < |tiles| && current != []
    requires forall k :: 0 <= k < |current| ==> current[k] < |tiles|
    ensures SupportedBy(tiles, current, j, dir) <==>
      Supports(tiles, current[0], j, dir) || SupportedBy(tiles, current[1..], j, dir)
  {
    if SupportedBy(tiles, current, j, dir) {
      var k :| 0 <= k < |current| && Supports(tiles, current[k], j, dir);
      if k > 0 {
        assert current[1..][k - 1] == current[k];
      }
    }
    if SupportedBy(tiles, current[1..], j, dir) {
      var k :| 0 <= k < |current[1..]| && Supports(tiles, current[1..][k], j, dir);
      assert current[k + 1] == current[1..][k];
    }
  }

  /** The tiles filed under the key that faces tile `t` are the ones it
      supports. */
  lemma FacingEntry(tiles: seq<Tile>, compat: map<int, seq<nat>>, t: nat, dir: nat, j: nat)
    requires dir < 6 && AllValid(tiles) && CompatTable(tiles, compat) && t < |tiles|
    ensures var key := Key(tiles[t].hashes[dir], Opposite(dir));
      j in (if key in compat then set x | x in compat[key] else {}) <==> j < |tiles| && Supports(tiles, t, j, dir)
  {
    var key := Key(tiles[t].hashes[dir], Opposite(dir));
    KeyRoundTrip(tiles[t].hashes[dir], Opposite(dir));
    assert j < |tiles| && Supports(tiles, t, j, dir) <==> j in Matches(tiles, key, |tiles|);
  }

  lemma {:induction false} AllowedMeansSupported(tiles: seq<Tile>, compat: map<int, seq<nat>>, current: seq<nat>, dir: nat, j: nat)
    requires dir < 6 && AllValid(tiles) && CompatTable(tiles, compat)
    requires forall k :: 0 <= k < |current| ==> current[k] < |tiles|
    ensures j in Allowed(tiles, compat, current, dir) <==> j < |tiles| && SupportedBy(tiles, current, j, dir)
  {
    if current != [] {
      AllowedMeansSupported(tiles, compat, current[1..], dir, j);
      FacingEntry(tiles, compat, current[0], dir, j);
      if j < |tiles| {
        SupportedByCons(tiles, current, j, dir);
      }
    }
  }

  /** The loop that removes the neighbour tiles missing from `allowed`.
      It walks from the back, so the survivors keep their order. */
  function Keep(possible: seq<nat>, allowed: set<nat>): (r: seq<nat>)
    ensures |r| <= |possible|
    ensures forall t :: t in r <==> t in possible && t in allowed
    ensures |r| == |possible| <==> forall t :: t in possible ==> t in allowed
    ensures |r| == |possible| ==> r == possible
  {
    if possible == [] then []
    else
      var last := possible[|possible| - 1];
      var init := possible[..|possible| - 1];
      var rest := Keep(init, allowed);
      assert possible == init + [last];
      if last in allowed then rest + [last] else rest
  }

  /** What one pass over the six neighbours produced: whether it met a
      contradiction, the updated grid, and the positions it pushed. */
  datatype Pass = Pass(ok: bool, cells: seq<Cell>, pushed: seq<Vec>)

  ghost predicate PropagationInput(d: Dims, tiles: seq<Tile>, cells: seq<Cell>) {
    d.Sized() && |cells| == d.Total() && AllValid(tiles) && IdsBelow(cells, |tiles|)
  }

  /** What a pass promises: possibilities only shrink, pushed positions are
      in the grid, every push paid for with a removed possibility, and a
      failed pass emptied a cell while a successful one emptied none. */
  ghost predicate PassSound(d: Dims, cells: seq<Cell>, pushed: seq<Vec>, r: Pass) {
    Shrinks(cells, r.cells)
    && (forall p :: p in r.pushed ==> p in pushed || InBounds(d, p))
    && Weight(r.cells) + |r.pushed| <= Weight(cells) + |pushed|
    && (!r.ok ==> exists c :: Emptied(cells, r.cells, c))
    && (r.ok ==> NoneEmptied(cells, r.cells))
  }

  /** One neighbour update followed by a sound pass is a sound pass. */
  lemma {:induction false} PassSoundTrans(d: Dims, cells: seq<Cell>, pushed: seq<Vec>, next: seq<Cell>, pushed': seq<Vec>, r: Pass)
    requires Shrinks(cells, next) && NoneEmptied(cells, next)
    requires forall p :: p in pushed' ==> p in pushed || InBounds(d, p)
    requires Weight(next) + |pushed'| <= Weight(cells) + |pushed|
    requires PassSound(d, next, pushed', r)
    ensures PassSound(d, cells, pushed, r)
  {
    ShrinksTrans(cells, next, r.cells);
    if !r.ok {
      var c :| Emptied(next, r.cells, c);
      EmptiedEarlier(cells, next, r.cells, c);
    }
  }

  /** Narrowing an uncollapsed cell to a sub-list of its possibilities. */
  lemma NarrowShrinks(cells: seq<Cell>, ni: nat, kept: seq<nat>)
    requires ni < |cells| && !cells[ni].collapsed
    requires forall t :: t in kept ==> t in cells[ni].possible
    requires cells[ni].possible != [] ==> kept != []
    ensures Shrinks(cells, cells[ni := Cell(false, kept)])
    ensures NoneEmptied(cells, cells[ni := Cell(false, kept)])
  {
  }

  /** The `for (int i = 0; i < 6; ++i)` body of `propagate`, from
      direction `i` on. */
  function Neighbours(d: Dims, tiles: seq<Tile>, compat: map<int, seq<nat>>, cells: seq<Cell>, cur: Vec, i: nat, pushed: seq<Vec>): (r: Pass)
    requires PropagationInput(d, tiles, cells) && InBounds(d, cur) && i <= 6
    ensures PropagationInput(d, tiles, r.cells)
    ensures PassSound(d, cells, pushed, r)
    decreases 6 - i
  {
    if i == 6 then Pass(true, cells, pushed)
    else
      var np := cur.Plus(Directions[i]);
      if !InBounds(d, np) then Neighbours(d, tiles, compat, cells, cur, i + 1, pushed)
      else
        IndexInRange(d, np);
        IndexInRange(d, cur);
        var ni := CellIndex(d, np);
        if cells[ni].collapsed then Neighbours(d, tiles, compat, cells, cur, i + 1, pushed)
        else
          var current := cells[CellIndex(d, cur)].possible;
          assert forall k :: 0 <= k < |current| ==> current[k] < |tiles| by {
            assert forall k :: 0 <= k < |current| ==> current[k] in current;
          }
          var allowed := Allowed(tiles, compat, current, i);
          var kept := Keep(cells[ni].possible, allowed);
          var changed := |kept| < |cells[ni].possible|;
          var next := cells[ni := Cell(false, kept)];
          WeightUpdate(cells, ni, Cell(false, kept));
          if changed && kept == [] then
            assert Emptied(cells, next, ni);
            Pass(false, next, pushed)
          else
            NarrowShrinks(cells, ni, kept);
            ShrinksIds(cells, next, |tiles|);
            var pushed' := if changed then pushed + [np] else pushed;
            var r := Neighbours(d, tiles, compat, next, cur, i + 1, pushed');
            PassSoundTrans(d, cells, pushed, next, pushed', r);
            r
  }

  /** `propagate`, with the explicit stack as a sequence whose last element
      is the top. It terminates because every push removes at least one
      possibility from the grid. */
  function Propagate(d: Dims, tiles: seq<Tile>, compat: map<int, seq<nat>>, cells: seq<Cell>, stack: seq<Vec>): (r: (bool, seq<Cell>))
    requires PropagationInput(d, tiles, cells)
    requires forall p :: p in stack ==> InBounds(d, p)
    ensures PropagationInput(d, tiles, r.1) && Shrinks(cells, r.1)
    ensures !r.0 ==> exists c :: Emptied(cells, r.1, c)
    ensures r.0 ==> NoneEmptied(cells, r.1)
    decreases Weight(cells), |stack|
  {
    if stack == [] then (true, cells)
    else
      var cur := stack[|stack| - 1];
      var pass := Neighbours(d, tiles, compat, cells, cur, 0, []);
      if !pass.ok then (false, pass.cells)
      else
        var rest := stack[..|stack| - 1];
        assert forall p :: p in rest ==> p in stack;
        var r := Propagate(d, tiles, compat, pass.cells, rest + pass.pushed);
        ShrinksTrans(cells, pass.cells, r.1);
        assert !r.0 ==> exists c :: Emptied(cells, r.1, c) by {
          if !r.0 {
            var c :| Emptied(pass.cells, r.1, c);
            EmptiedEarlier(cells, pass.cells, r.1, c);
          }
        }
        r
  }

  // ---------------------------------------------------------------------
  // Observation

  /** Cell `j` may be chosen: uncollapsed, with some but not too many
      possibilities. */
  predicate Candidate(cells: seq<Cell>, n: nat, j: int) {
    0 <= j < |cells| && !cells[j].collapsed && 0 < |cells[j].possible| <= n + 1
  }

  /** The entropy scan of `find_lowest_entropy_cell` over `cells[..i]`:
      the current minimum (starting at `n + 1`) and the cells that have it. */
  function LowestScan(cells: seq<Cell>, n: nat, i: nat): (r: (nat, seq<nat>))
    requires i <= |cells|
    ensures 0 < r.0 <= n + 1
    ensures forall j :: 0 <= j < i && !cells[j].collapsed && |cells[j].possible| > 0 ==> r.0 <= |cells[j].possible|
    ensures r.0 == n + 1 || exists j :: 0 <= j < i && !cells[j].collapsed && |cells[j].possible| == r.0
    ensures forall j: nat :: j in r.1 <==> j < i && !cells[j].collapsed && |cells[j].possible| == r.0
  {
    if i == 0 then (n + 1, [])
    else
      var prev := LowestScan(cells, n, i - 1);
      var c := cells[i - 1];
      var entropy := |c.possible|;
      if c.collapsed then prev
      else if entropy > 0 && entropy < prev.0 then (entropy, [i - 1])
      else if entropy == prev.0 then (prev.0, prev.1 + [i - 1])
      else prev
  }

  /** The scan finds some cell exactly when there is a candidate. */
  lemma ScanFinds(cells: seq<Cell>, n: nat)
    ensures |LowestScan(cells, n, |cells|).1| > 0 <==> exists j :: Candidate(cells, n, j)
  {
    var scan := LowestScan(cells, n, |cells|);
    if |scan.1| > 0 {
      assert Candidate(cells, n, scan.1[0]) by {
        assert scan.1[0] in scan.1;
      }
    }
    if exists j :: Candidate(cells, n, j) {
      var j :| Candidate(cells, n, j);
      if scan.0 == n + 1 {
        assert j in scan.1;
      } else {
        var w :| 0 <= w < |cells| && !cells[w].collapsed && |cells[w].possible| == scan.0;
        assert w in scan.1;
      }
    }
  }

  /** `find_lowest_entropy_cell`; `choice` stands for the uniform draw
      among the cells of minimal entropy. */
  function FindLowestEntropyCell(cells: seq<Cell>, n: nat, choice: nat): (r: int)
    ensures r == -1 <==> forall j :: !Candidate(cells, n, j)
    ensures r != -1 ==> Candidate(cells, n, r)
    ensures r != -1 ==> forall j :: 0 <= j < |cells| && !cells[j].collapsed && |cells[j].possible| > 0 ==> |cells[r].possible| <= |cells[j].possible|
  {
    var scan := LowestScan(cells, n, |cells|);
    ScanFinds(cells, n);
    if |scan.1| == 0 then -1
    else
      var r := scan.1[choice % |scan.1|];
      assert r in scan.1;
      r
  }

  // ---------------------------------------------------------------------
  // The generator

  /** `GenerationState`. */
  datatype State = Idle | Generating | Done | Failed

  /** The generator's model state: grid, prototypes, compatibility map,
      `collapsed_count` and `generation_state`. */
  datatype Gen = Gen(dims: Dims, tiles: seq<Tile>, compat: map<int, seq<nat>>, cells: seq<Cell>, collapsedCount: int, state: State) {
    ghost predicate Valid() {
      PropagationInput(dims, tiles, cells)
    }
  }

  /** The number of collapsed cells. */
  function CountCollapsed(cells: seq<Cell>): nat {
    if cells == [] then 0 else (if cells[0].collapsed then 1 else 0) + CountCollapsed(cells[1..])
  }

  lemma {:induction false} CountCollapsedOne(cells: seq<Cell>, i: nat, c: Cell)
    requires i < |cells| && !cells[i].collapsed && c.collapsed
    ensures CountCollapsed(cells[i := c]) == CountCollapsed(cells) + 1
  {
    if i > 0 {
      CountCollapsedOne(cells[1..], i - 1, c);
      assert cells[i := c][1..] == cells[1..][i - 1 := c];
    }
  }

  lemma {:induction false} CountCollapsedShrinks(before: seq<Cell>, after: seq<Cell>)
    requires Shrinks(before, after)
    ensures CountCollapsed(after) == CountCollapsed(before)
  {
    if before != [] {
      assert before[0].collapsed == after[0].collapsed;
      assert Shrinks(before[1..], after[1..]);
      CountCollapsedShrinks(before[1..], after[1..]);
    }
  }

  lemma {:induction false} NoneCollapsed(cells: seq<Cell>)
    requires forall c :: 0 <= c < |cells| ==> !cells[c].collapsed
    ensures CountCollapsed(cells) == 0
  {
    if cells != [] {
      NoneCollapsed(cells[1..]);
    }
  }

  /** `reset`: a fresh grid of uncollapsed cells that allow every tile. With
      no prototypes nothing changes. */
  function Reset(g: Gen): (r: Gen)
    requires g.dims.Sized() && AllValid(g.tiles)
    ensures |g.tiles| > 0 ==> r.Valid() && r.state == Idle && r.collapsedCount == 0
    ensures |g.tiles| > 0 ==> forall c :: 0 <= c < |r.cells| ==> !r.cells[c].collapsed && |r.cells[c].possible| == |g.tiles|
    ensures |g.tiles| == 0 ==> r == g
    ensures r.dims == g.dims && r.tiles == g.tiles && r.compat == g.compat
  {
    if |g.tiles| == 0 then g
    else
      var cells := seq(g.dims.Total(), _ => Initialize(|g.tiles|));
      g.(cells := cells, collapsedCount := 0, state := Idle)
  }

  /** `generate` in step-by-step mode: reset, then fail without prototypes
      or start generating. */
  function Generate(g: Gen): (r: Gen)
    requires g.dims.Sized() && AllValid(g.tiles)
    ensures |g.tiles| == 0 <==> r.state == Failed
    ensures |g.tiles| > 0 ==> r.Valid() && r.state == Generating && r.collapsedCount == 0 && CountCollapsed(r.cells) == 0
  {
    var s := Reset(g);
    if |g.tiles| == 0 then s.(state := Failed)
    else
      NoneCollapsed(s.cells);
      s.(state := Generating)
  }

  /** A grid size with a zero component has no cells: generation starts
      and the first step finds every cell counted and finishes. */
  lemma EmptyGridDone(g: Gen, cellChoice: nat, tileChoice: nat)
    requires g.dims.Sized() && AllValid(g.tiles) && |g.tiles| > 0
    requires g.dims.x == 0 || g.dims.y == 0 || g.dims.z == 0
    ensures Generate(g).state == Generating && |Generate(g).cells| == 0
    ensures Step(Generate(g), cellChoice, tileChoice).state == Done
  {
    assert g.dims.Total() == 0 by {
      if g.dims.x == 0 {
        assert g.dims.Total() == 0 * g.dims.y * g.dims.z;
      } else if g.dims.y == 0 {
        assert g.dims.Total() == g.dims.x * 0 * g.dims.z;
      }
    }
  }

  /** Cell `i` was uncollapsed in `g` and is collapsed to one of its
      possibilities in `r`. */
  ghost predicate CollapsedAt(g: Gen, r: Gen, i: int) {
    0 <= i < |g.cells| == |r.cells| && !g.cells[i].collapsed && r.cells[i].collapsed
    && |r.cells[i].possible| == 1 && r.cells[i].possible[0] in g.cells[i].possible
  }

  /** Steps 2 and 3 of `step`: collapse cell `idx` to one of its tiles,
      count it, and propagate from it. */
  function CollapseAt(g: Gen, idx: nat, tileChoice: nat): (r: Gen)
    requires g.Valid() && g.state == Generating && Candidate(g.cells, |g.tiles|, idx)
    ensures r.Valid() && r.dims == g.dims && r.tiles == g.tiles && r.compat == g.compat
    ensures r.collapsedCount == g.collapsedCount + 1
    ensures r.state == Generating || r.state == Failed
    ensures r.state == Failed <==> exists c :: Emptied(g.cells, r.cells, c)
    ensures CollapsedAt(g, r, idx)
    ensures CountCollapsed(g.cells) == g.collapsedCount ==> CountCollapsed(r.cells) == r.collapsedCount
  {
    var cell := g.cells[idx];
    var chosen := cell.possible[tileChoice % |cell.possible|];
    var one := Cell(true, [chosen]);
    var collapsed := g.cells[idx := one];
    CountCollapsedOne(g.cells, idx, one);
    assert IdsBelow(collapsed, |g.tiles|) by {
      assert chosen in cell.possible;
    }
    IndexOfPos(g.dims, idx);
    var p := Propagate(g.dims, g.tiles, g.compat, collapsed, [CellPos(g.dims, idx)]);
    CountCollapsedShrinks(collapsed, p.1);
    assert p.1[idx] == one;
    CollapseEmptied(g.cells, idx, collapsed, p.1, p.0);
    g.(cells := p.1, collapsedCount := g.collapsedCount + 1, state := if p.0 then Generating else Failed)
  }

  /** Propagating from a freshly collapsed cell empties a cell of the grid
      before the collapse exactly when it reports a contradiction. */
  lemma CollapseEmptied(cells: seq<Cell>, idx: nat, collapsed: seq<Cell>, after: seq<Cell>, ok: bool)
    requires idx < |cells| && cells[idx].possible != []
    requires |collapsed| == |cells| && collapsed == cells[idx := collapsed[idx]] && collapsed[idx].possible != []
    requires |after| == |cells| && after[idx] == collapsed[idx]
    requires !ok ==> exists c :: Emptied(collapsed, after, c)
    requires ok ==> NoneEmptied(collapsed, after)
    ensures !ok <==> exists c :: Emptied(cells, after, c)
  {
    if !ok {
      var c :| Emptied(collapsed, after, c);
      assert c != idx;
      assert Emptied(cells, after, c);
    } else {
      forall c | 0 <= c < |cells| ensures !Emptied(cells, after, c) {
        if c != idx {
          assert collapsed[c] == cells[c];
        }
      }
    }
  }

  /** `step`; `cellChoice` and `tileChoice` stand for its two random draws. */
  function Step(g: Gen, cellChoice: nat, tileChoice: nat): (r: Gen)
    requires g.Valid()
    ensures r.Valid() && r.dims == g.dims && r.tiles == g.tiles && r.compat == g.compat
    ensures g.state != Generating ==> r == g
    ensures g.state == Generating && g.collapsedCount >= g.dims.Total() ==> r == g.(state := Done)
    ensures g.state == Generating && g.collapsedCount < g.dims.Total() && (forall j :: !Candidate(g.cells, |g.tiles|, j)) ==> r == g.(state := Failed)
    ensures r.state == Generating ==> g.state == Generating && r.collapsedCount == g.collapsedCount + 1 <= g.dims.Total()
    ensures r.state == Generating ==> exists i :: CollapsedAt(g, r, i)
    ensures g.state == Generating && g.collapsedCount < g.dims.Total() && (exists j :: Candidate(g.cells, |g.tiles|, j)) ==>
      (exists i :: CollapsedAt(g, r, i)) && (r.state == Failed <==> exists c :: Emptied(g.cells, r.cells, c))
    ensures CountCollapsed(g.cells) == g.collapsedCount ==> CountCollapsed(r.cells) == r.collapsedCount
  {
    if g.state != Generating then g
    else if g.collapsedCount >= g.dims.Total() then g.(state := Done)
    else
      var idx := FindLowestEntropyCell(g.cells, |g.tiles|, cellChoice);
      if idx == -1 then g.(state := Failed)
      else CollapseAt(g, idx, tileChoice)
  }

  /** The `while (generation_state == GENERATING) step();` loop, one pair
      of random draws per iteration. */
  function Run(g: Gen, choices: seq<(nat, nat)>): (r: Gen)
    requires g.Valid()
    ensures r.Valid()
    decreases |choices|
  {
    if choices == [] then g else Run(Step(g, choices[0].0, choices[0].1), choices[1..])
  }

  lemma {:induction false} RunStopped(g: Gen, choices: seq<(nat, nat)>)
    requires g.Valid() && g.state != Generating
    ensures Run(g, choices) == g
    decreases |choices|
  {
    if choices != [] {
      RunStopped(Step(g, choices[0].0, choices[0].1), choices[1..]);
    }
  }

  /** Generation ends, in DONE or FAILED, within `total - collapsed_count + 1`
      steps: each step that keeps generating collapses one more cell. */
  lemma {:induction false} RunTerminates(g: Gen, choices: seq<(nat, nat)>)
    requires g.Valid() && g.state == Generating
    requires |choices| > 0 && |choices| > g.dims.Total() - g.collapsedCount
    ensures Run(g, choices).state == Done || Run(g, choices).state == Failed
    decreases |choices|
  {
    var s := Step(g, choices[0].0, choices[0].1);
    if s.state == Generating {
      RunTerminates(s, choices[1..]);
    } else {
      RunStopped(s, choices[1..]);
    }
  }
}

=== FILE: world_blender_hash.dfy ===
/** The plane hash of world_blender/voxel_hash.py: the vertices of a voxel
    mesh that lie on one face of the voxel cube are scaled and rounded,
    sorted by their two in-plane coordinates, combined with their material
    colour into a rolling 64-bit hash, folded to 32 bits, and finally replaced
    by a small "compact" id from a process-wide table. Blender's mesh is given
    as plain data; the material colour of a slot is given as the integer
    `(r*255 << 16) + (g*255 << 8) + b*255` it is turned into. */
module WorldBlenderHash {
  import opened Wrappers
  import Int32
  import FaceHash
  import StableSort

  // ---------------------------------------------------------------------
  // The compact-id table (`_hash_to_id`, `_next_id`)

  /** The module-level state `get_compact_hash` reads and writes. */
  datatype CompactTable = CompactTable(ids: map<int, nat>, next: nat)

  /** The table as the module starts: empty, next id 1. */
  const InitialTable: CompactTable := CompactTable(map[], 1)

  /** Ids are positive, below `next`, never given to 0, and never shared. */
  ghost predicate ValidTable(t: CompactTable) {
    && t.next >= 1
    && 0 !in t.ids
    && (forall h :: h in t.ids ==> 1 <= t.ids[h] < t.next)
    && (forall h1, h2 :: h1 in t.ids && h2 in t.ids && h1 != h2 ==> t.ids[h1] != t.ids[h2])
  }

  lemma InitialTableValid()
    ensures ValidTable(InitialTable)
  {
  }

  /** `get_compact_hash(h)`: 0 stays 0; a known hash gets its id back; a new
      hash gets the next id, which is then used up. */
  function GetCompactHash(t: CompactTable, h: int): (res: (nat, CompactTable))
    ensures h == 0 ==> res.0 == 0 && res.1 == t
    ensures h != 0 && h in t.ids ==> res.0 == t.ids[h] && res.1 == t
    ensures h != 0 && h !in t.ids ==> res.0 == t.next && res.1.next == t.next + 1
    ensures h != 0 ==> h in res.1.ids && res.1.ids[h] == res.0
    ensures forall k :: k in t.ids ==> k in res.1.ids && res.1.ids[k] == t.ids[k]
    ensures ValidTable(t) ==> ValidTable(res.1)
    ensures ValidTable(t) && h != 0 ==> res.0 >= 1
  {
    if h == 0 then (0, t)
    else if h in t.ids then (t.ids[h], t)
    else (t.next, CompactTable(t.ids[h := t.next], t.next + 1))
  }

  /** Two different non-zero hashes looked up one after the other never
      share an id, and looking a hash up again returns the same id. */
  lemma {:induction false} CompactHashInjective(t: CompactTable, h1: int, h2: int)
    requires ValidTable(t)
    requires h1 != 0 && h2 != 0
    ensures var (id1, t1) := GetCompactHash(t, h1);
            var (id2, t2) := GetCompactHash(t1, h2);
            (h1 != h2 <==> id1 != id2) && GetCompactHash(t2, h1).0 == id1
  {
    var (id1, t1) := GetCompactHash(t, h1);
    var (id2, t2) := GetCompactHash(t1, h2);
    assert h1 in t2.ids && t2.ids[h1] == id1;
    assert h2 in t2.ids && t2.ids[h2] == id2;
    assert ValidTable(t2);
  }

  // ---------------------------------------------------------------------
  // Geometry and sorting

  datatype Axis = X | Y | Z

  datatype Vec3 = Vec3(x: real, y: real, z: real)

  function Coord(v: Vec3, a: Axis): real {
    match a
    case X => v.x
    case Y => v.y
    case Z => v.z
  }

  /** A boundary vertex: its index in the mesh and its scaled, rounded
      coordinates. */
  datatype Scaled = Scaled(index: nat, x: int, y: int, z: int)

  /** `face_vertex_sort_key(v, normal_axis, sign, direction)`: the two
      in-plane coordinates. `sign` and `direction` are ignored. */
  function SortKey(v: Scaled, axis: Axis): (k: StableSort.Key2)
    ensures axis == X ==> k == StableSort.Key2(v.y as real, v.z as real)
    ensures axis == Y ==> k == StableSort.Key2(v.x as real, v.z as real)
    ensures axis == Z ==> k == StableSort.Key2(v.x as real, v.y as real)
  {
    match axis
    case X => StableSort.Key2(v.y as real, v.z as real)
    case Y => StableSort.Key2(v.x as real, v.z as real)
    case Z => StableSort.Key2(v.x as real, v.y as real)
  }

  /** The key never looks at the coordinate along the face normal. */
  lemma SortKeyIgnoresNormal(v: Scaled, w: Scaled, axis: Axis)
    requires axis != X ==> v.x == w.x
    requires axis != Y ==> v.y == w.y
    requires axis != Z ==> v.z == w.z
    ensures SortKey(v, axis) == SortKey(w, axis)
  {
  }

  /** `abs(v.co[axis] - sign * (size / 2)) < 1e-4`. */
  predicate OnBoundary(v: Vec3, axis: Axis, sign: int, size: real) {
    var d := Coord(v, axis) - (sign as real) * (size / 2.0);
    -0.0001 < d < 0.0001
  }

  /** Vertex `i` at `v`, its coordinates scaled and rounded half to even. */
  function ScaledAt(i: nat, v: Vec3, scale: real): Scaled {
    Scaled(i, FaceHash.RoundHalfEven(v.x * scale), FaceHash.RoundHalfEven(v.y * scale), FaceHash.RoundHalfEven(v.z * scale))
  }

  /** The list comprehension collecting boundary vertices: exactly the
      vertices on the plane, in mesh order, each with its scaled and
      rounded coordinates. */
  function BoundaryVerts(verts: seq<Vec3>, axis: Axis, sign: int, size: real, scale: real): (r: seq<Scaled>)
    ensures |r| <= |verts|
    ensures forall k :: 0 <= k < |r| ==>
      r[k].index < |verts| && OnBoundary(verts[r[k].index], axis, sign, size)
      && r[k] == ScaledAt(r[k].index, verts[r[k].index], scale)
    ensures forall j, k :: 0 <= j < k < |r| ==> r[j].index < r[k].index
    ensures forall i :: 0 <= i < |verts| && OnBoundary(verts[i], axis, sign, size) ==>
      exists k :: 0 <= k < |r| && r[k].index == i
    ensures (exists i :: 0 <= i < |verts| && OnBoundary(verts[i], axis, sign, size)) <==> r != []
  {
    var r := BoundaryFrom(verts, axis, sign, size, scale, 0);
    BoundaryFromOnPlane(verts, axis, sign, size, scale, 0);
    BoundaryFromIncreasing(verts, axis, sign, size, scale, 0);
    BoundaryFromComplete(verts, axis, sign, size, scale, 0);
    assert r != [] ==> OnBoundary(verts[r[0].index], axis, sign, size);
    r
  }

  /** The boundary vertices from index `i` on. */
  function BoundaryFrom(verts: seq<Vec3>, axis: Axis, sign: int, size: real, scale: real, i: nat): (r: seq<Scaled>)
    requires i <= |verts|
    ensures |r| <= |verts| - i
    decreases |verts| - i
  {
    if i == |verts| then []
    else if OnBoundary(verts[i], axis, sign, size) then
      [ScaledAt(i, verts[i], scale)] + BoundaryFrom(verts, axis, sign, size, scale, i + 1)
    else
      BoundaryFrom(verts, axis, sign, size, scale, i + 1)
  }

  /** Every vertex of `r` is vertex `i` or a later one, on the plane, with
      its scaled coordinates. */
  predicate OnPlaneFrom(verts: seq<Vec3>, axis: Axis, sign: int, size: real, scale: real, i: nat, r: seq<Scaled>) {
    forall k :: 0 <= k < |r| ==>
      i <= r[k].index < |verts| && OnBoundary(verts[r[k].index], axis, sign, size)
      && r[k] == ScaledAt(r[k].index, verts[r[k].index], scale)
  }

  /** The vertices of `r` come in increasing index order. */
  predicate Increasing(r: seq<Scaled>) {
    forall j, k :: 0 <= j < k < |r| ==> r[j].index < r[k].index
  }

  /** Every vertex from index `i` on that lies on the plane is in `r`. */
  predicate CompleteFrom(verts: seq<Vec3>, axis: Axis, sign: int, size: real, i: nat, r: seq<Scaled>) {
    forall j :: i <= j < |verts| && OnBoundary(verts[j], axis, sign, size) ==>
      exists k :: 0 <= k < |r| && r[k].index == j
  }

  /** From index `i` on, only vertices on the plane are collected, with
      their scaled coordinates. */
  lemma {:induction false} BoundaryFromOnPlane(verts: seq<Vec3>, axis: Axis, sign: int, size: real, scale: real, i: nat)
    requires i <= |verts|
    ensures OnPlaneFrom(verts, axis, sign, size, scale, i, BoundaryFrom(verts, axis, sign, size, scale, i))
    decreases |verts| - i
  {
    if i < |verts| {
      var rest := BoundaryFrom(verts, axis, sign, size, scale, i + 1);
      BoundaryFromOnPlane(verts, axis, sign, size, scale, i + 1);
      if OnBoundary(verts[i], axis, sign, size) {
        var r := [ScaledAt(i, verts[i], scale)] + rest;
        assert BoundaryFrom(verts, axis, sign, size, scale, i) == r;
        forall k | 0 <= k < |r|
          ensures i <= r[k].index < |verts| && OnBoundary(verts[r[k].index], axis, sign, size)
          ensures r[k] == ScaledAt(r[k].index, verts[r[k].index], scale)
        {
          if k > 0 {
            assert r[k] == rest[k - 1];
          }
        }
      }
    }
  }

  /** The collection comes in increasing index order. */
  lemma {:induction false} BoundaryFromIncreasing(verts: seq<Vec3>, axis: Axis, sign: int, size: real, scale: real, i: nat)
    requires i <= |verts|
    ensures Increasing(BoundaryFrom(verts, axis, sign, size, scale, i))
    decreases |verts| - i
  {
    if i < |verts| {
      var rest := BoundaryFrom(verts, axis, sign, size, scale, i + 1);
      BoundaryFromIncreasing(verts, axis, sign, size, scale, i + 1);
      if OnBoundary(verts[i], axis, sign, size) {
        BoundaryFromOnPlane(verts, axis, sign, size, scale, i + 1);
        var r := [ScaledAt(i, verts[i], scale)] + rest;
        assert BoundaryFrom(verts, axis, sign, size, scale, i) == r;
        forall j, k | 0 <= j < k < |r|
          ensures r[j].index < r[k].index
        {
          assert r[k] == rest[k - 1];
          if j > 0 {
            assert r[j] == rest[j - 1];
          }
        }
      }
    }
  }

  /** No vertex on the plane from index `i` on is missed. */
  lemma {:induction false} BoundaryFromComplete(verts: seq<Vec3>, axis: Axis, sign: int, size: real, scale: real, i: nat)
    requires i <= |verts|
    ensures CompleteFrom(verts, axis, sign, size, i, BoundaryFrom(verts, axis, sign, size, scale, i))
    decreases |verts| - i
  {
    if i < |verts| {
      var rest := BoundaryFrom(verts, axis, sign, size, scale, i + 1);
      BoundaryFromComplete(verts, axis, sign, size, scale, i + 1);
      if OnBoundary(verts[i], axis, sign, size) {
        var r := [ScaledAt(i, verts[i], scale)] + rest;
        assert BoundaryFrom(verts, axis, sign, size, scale, i) == r;
        forall j | i <= j < |verts| && OnBoundary(verts[j], axis, sign, size)
          ensures exists k :: 0 <= k < |r| && r[k].index == j
        {
          if j == i {
            assert r[0].index == j;
          } else {
            var k :| 0 <= k < |rest| && rest[k].index == j;
            assert r[k + 1].index == j;
          }
        }
      } else {
        assert BoundaryFrom(verts, axis, sign, size, scale, i) == rest;
        forall j | i <= j < |verts| && OnBoundary(verts[j], axis, sign, size)
          ensures exists k :: 0 <= k < |rest| && rest[k].index == j
        {
          assert j != i;
        }
      }
    }
  }

  // ---------------------------------------------------------------------
  // Materials

  /** A polygon: its vertex indices and its material slot. */
  datatype Polygon = Polygon(vertices: seq<nat>, material: nat)

  /** `_build_vert_to_mat_map`: every vertex of every polygon maps to the
      material of the last polygon that uses it. */
  function VertToMat(polys: seq<Polygon>): (m: map<nat, nat>)
    ensures forall p, k :: 0 <= p < |polys| && 0 <= k < |polys[p].vertices| ==> polys[p].vertices[k] in m
    ensures forall v :: v in m ==> exists p :: LastHolder(polys, v, p) && m[v] == polys[p].material
  {
    if polys == [] then map[]
    else
      var n := |polys| - 1;
      var m0 := VertToMat(polys[..n]);
      var m := AddPolygon(m0, polys[n]);
      LastOfMore(polys, m0, m);
      m
  }

  /** The last holder among all polygons is the new one when it holds the
      vertex, and otherwise the last holder among the earlier ones. */
  lemma LastOfMore(polys: seq<Polygon>, m0: map<nat, nat>, m: map<nat, nat>)
    requires |polys| >= 1
    requires forall v :: v in m0 ==> exists p :: LastHolder(polys[..|polys| - 1], v, p) && m0[v] == polys[p].material
    requires m == AddPolygon(m0, polys[|polys| - 1])
    ensures forall v :: v in m ==> exists p :: LastHolder(polys, v, p) && m[v] == polys[p].material
  {
    var n := |polys| - 1;
    forall v | v in m
      ensures exists p :: LastHolder(polys, v, p) && m[v] == polys[p].material
    {
      if v in polys[n].vertices {
        assert LastHolder(polys, v, n);
      } else {
        var p :| LastHolder(polys[..n], v, p) && m0[v] == polys[p].material;
        assert polys[..n][p] == polys[p];
        assert forall q :: p < q < n ==> polys[..n][q] == polys[q];
        assert LastHolder(polys, v, p);
      }
    }
  }

  /** Polygon `p` holds vertex `v` and no later polygon does. */
  predicate LastHolder(polys: seq<Polygon>, v: nat, p: int) {
    0 <= p < |polys| && v in polys[p].vertices && forall q :: p < q < |polys| ==> v !in polys[q].vertices
  }

  function AddPolygon(m: map<nat, nat>, poly: Polygon): (r: map<nat, nat>)
    ensures forall v :: v in m ==> v in r
    ensures forall v :: v in poly.vertices ==> v in r && r[v] == poly.material
    ensures forall v :: v in r && v !in poly.vertices ==> v in m && r[v] == m[v]
    ensures forall v :: v in r ==> v in m || v in poly.vertices
  {
    var keys := m.Keys + (set k | k in poly.vertices);
    map v | v in keys :: if v in poly.vertices then poly.material else m[v]
  }

  /** The colour a boundary vertex contributes: its material slot's colour,
      or 0 when the vertex has no polygon, the slot is out of range or holds
      no material. */
  function VertexColor(vertToMat: map<nat, nat>, slots: seq<Option<int>>, index: nat): (c: int)
    ensures index !in vertToMat ==> c == 0
    ensures index in vertToMat && (vertToMat[index] >= |slots| || slots[vertToMat[index]].None?) ==> c == 0
    ensures index in vertToMat && vertToMat[index] < |slots| && slots[vertToMat[index]].Some? ==>
              c == slots[vertToMat[index]].value
  {
    var matIndex: int := if index in vertToMat then vertToMat[index] else -1;
    if |slots| > 0 && matIndex != -1 && matIndex < |slots| && slots[matIndex].Some? then slots[matIndex].value
    else 0
  }

  /** The signature of one boundary vertex: its two in-plane coordinates and
      its colour xor-ed together, kept to the 64 bits the mask preserves. */
  function Signature(v: Scaled, axis: Axis, color: int): bv64 {
    match axis
    case X => FaceHash.Low64(v.y) ^ FaceHash.Low64(v.z) ^ FaceHash.Low64(color)
    case Y => FaceHash.Low64(v.x) ^ FaceHash.Low64(v.z) ^ FaceHash.Low64(color)
    case Z => FaceHash.Low64(v.x) ^ FaceHash.Low64(v.y) ^ FaceHash.Low64(color)
  }

  function Signatures(vs: seq<Scaled>, axis: Axis, vertToMat: map<nat, nat>, slots: seq<Option<int>>): (r: seq<bv64>)
    ensures |r| == |vs|
    ensures forall k :: 0 <= k < |vs| ==> r[k] == Signature(vs[k], axis, VertexColor(vertToMat, slots, vs[k].index))
  {
    if vs == [] then []
    else [Signature(vs[0], axis, VertexColor(vertToMat, slots, vs[0].index))] + Signatures(vs[1..], axis, vertToMat, slots)
  }

  // ---------------------------------------------------------------------
  // plane_hash

  /** `plane_hash(obj, normal_axis, sign, size, direction, scale)`: returns
      the compact id and the updated id table. */
  function PlaneHash(verts: seq<Vec3>, polys: seq<Polygon>, slots: seq<Option<int>>,
                     axis: Axis, sign: int, size: real, scale: real, table: CompactTable): (res: (nat, CompactTable))
    ensures (forall i :: 0 <= i < |verts| ==> !OnBoundary(verts[i], axis, sign, size)) ==> res == (0, table)
    ensures ValidTable(table) ==> ValidTable(res.1)
  {
    var boundary := BoundaryVerts(verts, axis, sign, size, scale);
    if boundary == [] then (0, table)
    else
      var sorted := StableSort.Sort(boundary, (v: Scaled) => SortKey(v, axis));
      var h := FaceHash.Roll(Signatures(sorted, axis, VertToMat(polys), slots));
      GetCompactHash(table, FaceHash.Fold(h))
  }

  /** Hashing the same face again, against the table the first call left,
      returns the same id and leaves the table as it is. */
  lemma PlaneHashStable(verts: seq<Vec3>, polys: seq<Polygon>, slots: seq<Option<int>>,
                        axis: Axis, sign: int, size: real, scale: real, table: CompactTable)
    ensures var (id, t) := PlaneHash(verts, polys, slots, axis, sign, size, scale, table);
            PlaneHash(verts, polys, slots, axis, sign, size, scale, t) == (id, t)
  {
    var boundary := BoundaryVerts(verts, axis, sign, size, scale);
    if boundary != [] {
      var sorted := StableSort.Sort(boundary, (v: Scaled) => SortKey(v, axis));
      var f := FaceHash.Fold(FaceHash.Roll(Signatures(sorted, axis, VertToMat(polys), slots)));
      var (id, t) := GetCompactHash(table, f);
      assert GetCompactHash(t, f) == (id, t);
    }
  }
}

=== FILE: wrappers.dfy ===
/** Failure-carrying result types shared by every component of the model. */
module Wrappers {

  /** A value that may be absent: a C++ `std::optional`, a TypeScript
      `null`/`undefined`, a Python `None`. */
  datatype Option<+T> = None | Some(value: T) {
    function GetOr(default: T): (r: T)
      ensures Some? ==> r == value
      ensures None? ==> r == default
    {
      match this
      case Some(v) => v
      case None => default
    }
  }

  /** An operation that either succeeds with a value or fails with an error
      (a thrown exception, an HTTP error response, a `valid = false` flag). */
  datatype Result<+T, +E> = Ok(value: T) | Err(error: E)
}
